=== FILE: README.md ===
# Shift Project — a Dafny model of the game's logic core

Shift Project is a pygame platformer with a map editor. This project models
the parts of it that are plain logic once the pygame calls are stripped, as
immutable Dafny datatypes and pure functions (plus five methods, four of them with loops).
It then proves what those parts promise. The parts are:

- the bit-packed keyboard state sent over UDP (`KeyPack`);
- the per-action PRESSED / HELD / RELEASED input machine, the
  keyboard/gamepad merge (`Input`), and the event manager's named timers
  (`Timers`);
- the tilemap queries: hitboxes, neighbour masks, rectangle collision and
  touch tests, and tile animation (`Tilemap`);
- the autotile corner-bitmask arithmetic and the renderer's visible tile
  range (`Autotile`);
- the dialog tree combinators (`DialogTree`), the XML-like dialog file
  parser (`DialogParser`), and the dialog queue manager (`DialogQueue`);
- the AI page logic (`AILogic`), the AI command parser and literal casting
  (`AIScript`), and the argument substitution of decoded AI scripts
  (`AIDecode`);
- the ECS entity/component store (`ECSEngine`) and the state flag sets and
  collision helpers (`ECSFlags`);
- the transition clock (`Transition`) and the scene manager's state machine
  (`SceneManager`), which starts and advances that clock;
- the map editor's flood fill, brush, erase, rectangle paint and grid
  formatting (`EditorGrid`), and its layer list (`Layers`);
- the UI toolkit's text entry (`TextEntry`) and the list view, toggle list,
  tabbed frame and wheel scrolling state (`Widgets`);
- the options manager's setters, key bindings and load (`Options`).

Python semantics are written out where they matter:
- floor division, and negative sequence indices;
- the shallow `dict.update`;
- `int()` and `float()` of script literals;
- `in` on strings and lists;
- `True == 1`.

Floating-point values are modelled as real numbers. Text shared by the
parsers (`strip`, `split`, `lower`) lives once in module `Text`, and
`Option`/`Result` with the Python exception kinds live in `Wrappers`.

Where the code has a defect (see "## Findings"), the operation takes a
`Reading`, `AsWritten` or `Corrected`. `AIDecode.DecodePage`,
`DecodePages`, `DecodePagesFrom` and `DecodeScript` follow
`decode_ai_script_dict` under `AsWritten` for argument values that are
None, text, integers, floats or booleans. `Widgets.Scroll` does
the same for the frame's wheel handler. Lemmas relate the two readings.

## Model

| member | source | states |
|---|---|---|
| KeyPack.Decode | game_libs/py_udp.py:56-64 | each byte yields exactly eight flags, and flag 8j+k is bit k of byte j |
| KeyPack.Encode | game_libs/py_udp.py:40-54 | the packet has (n+7)/8 bytes; bit k of byte j is set iff key 8j+k is down; decoding gives the keys back followed only by false padding; an all-released keyboard packs to zero bytes |
| Input.ActionOf | game_libs/managers/event.py:134-135 | only the seven action names are attributes a mapping can set |
| Input.FirstDown | game_libs/managers/event.py:106-115 | the scan stops at the first bound code that is down, and only codes before it were up |
| Input.KeyboardSerialize | game_libs/managers/event.py:74-122 | all seven actions are reported; an action is RELEASED iff none of its codes is down; otherwise it is HELD iff its first down code was down last frame and PRESSED if not; the remembered codes are exactly the first down code of each action |
| Input.NextDown | game_libs/managers/event.py:95-120 | the codes remembered for the next frame are exactly the first down code of each action |
| Input.PressedThenHeld | game_libs/managers/event.py:108-115 | with the keyboard unchanged, an action that was pressed or held is HELD on the next frame |
| Input.FromDict | game_libs/managers/event.py:125-146 | a KeyError iff some known action lists a negative code; known actions take the given codes, unknown names are ignored, other actions keep their defaults, and nothing counts as down last frame |
| Input.GamepadSerialize | game_libs/managers/event.py:276-298 | each action is HELD iff down now and last frame, PRESSED iff down now only, RELEASED iff up; the stored state becomes the current one |
| Input.Transitions | game_libs/managers/event.py:289-295 | an action is HELD iff it is down now and was down last frame, PRESSED iff it is down only now, and RELEASED iff it is up |
| Input.MergeState | game_libs/managers/event.py:451-460 | the merged state is the higher-ranked of the two, with PRESSED > HELD > RELEASED |
| Input.Merge | game_libs/managers/event.py:448-460 | every keyboard action is merged with the gamepad's state, a missing gamepad action counting as RELEASED |
| Input.MergeSymmetric | game_libs/managers/event.py:451-460 | the merge does not depend on which device reports which state, and RELEASED is neutral |
| Timers.AddTimer | game_libs/managers/event.py:360-370 | the name gets a fresh running timer with the full duration, replacing any old one; other timers are untouched |
| Timers.KillTimer | game_libs/managers/event.py:373-384 | the name is removed, every other timer is kept, and an unknown name changes nothing |
| Timers.SetPaused | game_libs/managers/event.py:416-440 | only the paused flag of that timer changes; an unknown name changes nothing |
| Timers.PauseTimer | game_libs/managers/event.py:416-425 | an existing timer becomes paused |
| Timers.ResumeTimer | game_libs/managers/event.py:429-440 | an existing timer runs again |
| Timers.PauseResume | game_libs/managers/event.py:416-440 | pausing a running timer and resuming it restores the table |
| Timers.PausedTimerHolds | game_libs/managers/event.py:466-478 | a paused timer with time left keeps that time through an update and does not trigger |
| Timers.PauseAll | game_libs/managers/event.py:400-405 | the global pause is set and no timer changes |
| Timers.ResumeAll | game_libs/managers/event.py:408-413 | the global pause is cleared and no timer changes |
| Timers.Update | game_libs/managers/event.py:463-484 | exactly the timers at or below zero after the tick trigger; one-shots that trigger are removed; repeating ones restart from their duration; every other timer loses dt unless paused, keeps its flags, and has time left |
| Timers.Remaining | game_libs/managers/event.py:510-522 | the time left of an existing timer, and None for an unknown name |
| Timers.Reset | game_libs/managers/event.py:526-533 | afterwards there is no timer, nothing is triggered, and nothing is paused |
| Timers.Countdown | game_libs/managers/event.py:466-481 | a timer added with duration d and left running is still pending after k frames while d exceeds their total, and has exactly the difference left |
| Timers.StepDown | game_libs/managers/event.py:466-481 | a running timer with more time left than the frame loses exactly the frame time and does not trigger |
| Timers.PausedTableFrozen | game_libs/managers/event.py:466-481 | while everything is paused, an update changes no timer that has time left and triggers nothing |
| Tilemap.HitboxAt | game_libs/level/tilemap.py:105-112 | a cell has a hitbox iff it is inside the map and holds a solid tile; never for tile -1 |
| Tilemap.Neighbors | game_libs/level/tilemap.py:114-133 | eight flags in the fixed offset order; each is true off the map, and otherwise true iff the neighbour holds the same tile id |
| Tilemap.UniformNeighbors | game_libs/level/tilemap.py:123-133 | in a map of one tile everywhere, every neighbour flag is true |
| Tilemap.CollideRectExact | game_libs/level/tilemap.py:135-149 | the rectangle collides iff some in-map solid tile's square overlaps it, although only the covered window is scanned |
| Tilemap.TouchExact | game_libs/level/tilemap.py:151-168 | each side tests the column or row of tiles just outside the rectangle, over the pixels the rectangle spans |
| Tilemap.ColumnPixels | game_libs/level/tilemap.py:158-162 | scanning the column's cells from top//size to (bottom-1)//size is the same as asking whether some pixel of the span lies in a solid cell |
| Tilemap.RowPixels | game_libs/level/tilemap.py:163-166 | the same for a row of cells across the span |
| Tilemap.StepTile | game_libs/level/tilemap.py:57-66 | time left drops by dt; when it goes negative the delay is added back and the frame advances and wraps to 0; a tile without frames is a ZeroDivisionError |
| Tilemap.UpdateAnimation | game_libs/level/tilemap.py:57-66 | every tile steps; the update fails iff some tile's step fails |
| Tilemap.AnimationKeepsFrames | game_libs/level/tilemap.py:62-66 | tiles whose frame is in range stay in range after any update |
| Autotile.CornerGeometry | game_libs/rendering/tilemap_renderer.py:62-67 | each corner reads its two edge neighbours and its diagonal neighbour |
| Autotile.Bitmask | game_libs/rendering/tilemap_renderer.py:102 | the corner mask is below 8 and its three bits are the three neighbour flags |
| Autotile.CornerIndex | game_libs/rendering/tilemap_renderer.py:68-77 | every 3-bit mask maps to an index in 0..4 |
| Autotile.CornerIndexMeaning | game_libs/rendering/tilemap_renderer.py:68-77 | the index is 4 when all three neighbours connect, and otherwise counts the top and left edge connections, ignoring the diagonal |
| Autotile.CornerExtremes | game_libs/rendering/tilemap_renderer.py:68-77 | a fully surrounded tile uses index 4 in every corner, and an isolated one uses index 0 |
| Autotile.Variants | game_libs/rendering/tilemap_renderer.py:29-54 | every layout lists five variants per corner, so the index chosen is always valid |
| Autotile.Render | game_libs/rendering/tilemap_renderer.py:88-110 | four half-size quarters at the four corners, each cut from the variant that its corner's neighbourhood selects |
| Wrappers.PyIndex | game_libs/rendering/tilemap_renderer.py:236-238 | reading a row (or the pressed-key table) with Python indexing succeeds iff -len ≤ i < len, and a negative index counts from the end |
| Wrappers.NegativeIndex | game_libs/rendering/tilemap_renderer.py:232-238 | a row index `i - len`, as the unclamped visible range can produce, reads the same cell as `i` |
| Autotile.VisibleRangeAsWrittenFails | game_libs/rendering/tilemap_renderer.py:232-233 | as written, a camera 240 px left of a 5-cell row gives the first index -8, which is an IndexError |
| Autotile.VisibleRangeAsWrittenWraps | game_libs/rendering/tilemap_renderer.py:232-233 | as written, a camera 10 px left of the map gives the first index -1, which draws the last cell |
| Autotile.VisibleRange | game_libs/rendering/tilemap_renderer.py:232-233 | the corrected range lies within the map and contains every cell on screen |
| DialogTree.Plus | game_libs/dialog/component.py:40-45 | `t1 + t2` is a tree without a node whose children are t1 and t2 |
| DialogTree.Attach | game_libs/dialog/component.py:47-63 | `t \| node` gives the tree that node and keeps the children; `\|` with a tree is a TypeError |
| DialogTree.Then | game_libs/dialog/component.py:65-76 | `>>` keeps the node and the children and appends the other tree, or a leaf for a node, as the last child |
| DialogTree.Branch | game_libs/dialog/component.py:123-133 | `//` builds a choice whose children are the branches iff there are as many branches as options; otherwise a ValueError |
| DialogTree.ParagraphOf | game_libs/dialog/component.py:147-163 | a paragraph's lines, or a choice's prompt; None for a goto or an empty node |
| DialogTree.OptionNames | game_libs/dialog/component.py:165-175 | the option names exactly when the node is a choice |
| DialogTree.End | game_libs/dialog/component.py:177-183 | a dialog ends iff its node is empty |
| DialogTree.AppendToLeaves | game_libs/dialog/component.py:195-218 | chaining fails with ValueError iff some paragraph on the way has more than one child; chaining well-formed trees gives a well-formed tree |
| DialogTree.AppendFrom | game_libs/dialog/component.py:201-210 | the children are chained one by one, and fail iff one of them does |
| DialogTree.Walk | game_libs/dialog/component.py:147-183 | following a dialog never gains choices: it shows each node's text, takes the chosen branch at an option node and the only child of a paragraph |
| DialogTree.WalkConsumes | game_libs/dialog/component.py:147-183 | a walk uses its choices from the front, at most one per node it shows, and shows nothing exactly when the dialog starts at an end or a goto |
| DialogTree.ChainWalk | game_libs/dialog/component.py:195-218 | walking `d` chained onto `next` is walking `d` and then, where `d` ended, walking `next` |
| DialogParser.QuotedName | game_libs/dialog/parser.py:20-28 | a match is a non-empty name without quotes, between two quotes at the front of the text |
| DialogParser.QuotedNameRender | game_libs/dialog/parser.py:20-28 | a quoted name at the front of the text is read back as that name |
| DialogParser.Closes | game_libs/dialog/parser.py:20-28 | the closing bracket follows, after whitespace where the pattern allows it |
| DialogParser.ClosesRender | game_libs/dialog/parser.py:20-28 | whitespace that the pattern allows, followed by the closing bracket, is accepted |
| DialogParser.Match | game_libs/dialog/parser.py:20-28 | a matched tag line is the tag, spacing, the quoted name, and the closing bracket |
| DialogParser.MatchFound | game_libs/dialog/parser.py:20-28 | a line the pattern accepts starts with the tag, whitespace, the quoted name, the allowed gap and the closing bracket |
| DialogParser.MatchShape | game_libs/dialog/parser.py:20-28 | a line laid out as tag, spacing, quoted name and closing bracket has that shape as a prefix |
| DialogParser.MatchRender | game_libs/dialog/parser.py:20-28 | every well-formed tag line matches with its own name |
| DialogParser.ParagraphUpToClose | game_libs/dialog/parser.py:119-131 | the paragraph is the stripped lines, blank ones included, up to the first `</paragraph>` and ending just after it; it fails, with the missing-tag error, exactly when no such line follows |
| DialogParser.ParseBlocks | game_libs/dialog/parser.py:90-116 | a block list that parses ends just after a line holding its end tag |
| DialogParser.BlocksNeedEnd | game_libs/dialog/parser.py:94-116 | with no end-tag line ahead, block parsing fails |
| DialogParser.ParseBlocksFirst | game_libs/dialog/parser.py:94-116 | the first non-blank line decides how a block list begins: none left is the missing end tag, the end tag closes an empty list, and a line that is no paragraph, choice or goto is the ValueError for an unexpected line |
| DialogParser.BlocksParse | game_libs/dialog/parser.py:90-116 | written blocks followed by their end tag read back as exactly those blocks, ending just after the tag |
| DialogParser.BlockParses | game_libs/dialog/parser.py:99-113 | one written block is read as that block, then parsing goes on after it |
| DialogParser.ParagraphBlockParses | game_libs/dialog/parser.py:101-104 | a written paragraph is read as a paragraph block of its lines |
| DialogParser.GotoBlockParses | game_libs/dialog/parser.py:109-113 | a goto line is read as a goto block with its target |
| DialogParser.ChoiceBlockParses | game_libs/dialog/parser.py:105-108 | a written choice is read as that choice block |
| DialogParser.ParagraphParses | game_libs/dialog/parser.py:119-131 | a written paragraph body reads back as its lines |
| DialogParser.ParseChoice | game_libs/dialog/parser.py:134-159 | a choice that parses is a choice block ending just after a `</choice>` line |
| DialogParser.ChoiceNeedsEnd | game_libs/dialog/parser.py:139-159 | with no `</choice>` line ahead, choice parsing fails |
| DialogParser.ChoiceKeepsGathered | game_libs/dialog/parser.py:134-159 | a finished choice begins with the options read before, in order, and keeps a prompt already read |
| DialogParser.ParseChoiceFirst | game_libs/dialog/parser.py:139-159 | the first non-blank line decides how a choice goes on: none left is the missing `</choice>`, `</choice>` closes it with what was gathered, and a line that is no paragraph or option is the ValueError for an unexpected line in a choice |
| DialogParser.ChoiceParses | game_libs/dialog/parser.py:134-159 | a written choice body, prompt and options, reads back as that choice |
| DialogParser.OptionsParse | game_libs/dialog/parser.py:151-156 | written options read back in order after the ones already gathered, up to `</choice>` |
| DialogParser.OptionParses | game_libs/dialog/parser.py:151-156 | one written option is added, as written, to the options gathered |
| DialogParser.TopInOrder | game_libs/dialog/parser.py:73-85 | the top-level dialogs come in file order: the i-th is opened by a line after the one opening the dialog before it, and carries that line's name |
| DialogParser.TopOpened | game_libs/dialog/parser.py:73-85 | every top-level dialog is named by a `<dialog>` line, and a run of blank lines holds none |
| DialogParser.ParseTopFirst | game_libs/dialog/parser.py:73-85 | the first non-blank line decides: a line that does not open a dialog is the ValueError for a line outside a dialog, and an opening line heads the list with its name and blocks |
| DialogParser.ParseTopAt | game_libs/dialog/parser.py:78-85 | on a non-blank line, a line outside any dialog is that ValueError, and a dialog opening heads the list with its own name and blocks |
| DialogParser.FirstNonBlank | game_libs/dialog/parser.py:74-77 | the loop skips exactly the blank lines before the first non-blank one |
| DialogParser.Overlay | game_libs/dialog/parser.py:83 | a name is in the table iff some dialog has it; a later dialog of the same name replaces the earlier one, and unnamed entries keep their value |
| DialogParser.OverlayStep | game_libs/dialog/parser.py:83 | writing one more dialog into the table keeps the last-wins reading |
| DialogParser.OverlayStepKeys | game_libs/dialog/parser.py:83 | after one more assignment the table holds exactly the earlier keys and every dialog name written so far |
| DialogParser.OverlayStepLast | game_libs/dialog/parser.py:83 | after one more assignment each name maps to the blocks of its last dialog |
| DialogParser.OverlayStepKeeps | game_libs/dialog/parser.py:83 | a key no written dialog names keeps its earlier blocks |
| DialogParser.BuildBlock | game_libs/dialog/parser.py:196-213 | every block builds a well-formed tree |
| DialogParser.BuildBranches | game_libs/dialog/parser.py:199-209 | one branch per option; an empty option is an empty dialog, any other is its chained sequence |
| DialogParser.BuildSequence | game_libs/dialog/parser.py:183-193 | a block sequence chains into one well-formed tree, the empty one when there are no blocks |
| DialogParser.BuildDialogs | game_libs/dialog/parser.py:162-180 | the result has exactly the parsed dialog names, each built from its own blocks |
| DialogParser.ParseDialogs | game_libs/dialog/parser.py:65-87 | fails exactly when the top-level loop does, with its error, including the ValueError for a non-blank first line outside a dialog; otherwise the keys are exactly the top-level dialog names, each with the dialog built from its last occurrence, well formed |
| DialogParser.DialogsFound | game_libs/dialog/parser.py:78-87 | every dialog built from a file's top-level list is named by one of its `<dialog>` lines |
| DialogParser.BuiltFromLast | game_libs/dialog/parser.py:83-87 | the built table holds every top-level name, with the dialog of its last occurrence |
| DialogParser.TopNames | game_libs/dialog/parser.py:78-83 | every top-level dialog is named by one of the file's lines |
| DialogParser.WalkParagraphs | game_libs/dialog/parser.py:183-193 | a dialog made only of paragraphs is read as those paragraphs, in order |
| DialogParser.BlankFile | game_libs/dialog/parser.py:73-87 | a file of blank lines holds no dialog |
| DialogParser.ChoiceShape | game_libs/dialog/parser.py:199-209 | a choice builds a choice node with its prompt and option names, and one branch per option |
| DialogParser.TwoPromptsRefused | game_libs/dialog/parser.py:146-148 | a second paragraph inside a choice that already has a prompt is an error |
| DialogQueue.Enqueue | game_libs/managers/dialog.py:22-32 | an empty name returns false and does nothing; a queued or active name is a no-op that returns true; otherwise the name goes to the front if forced, to the back if not; the queue stays free of duplicates |
| DialogQueue.EnqueueIdempotent | game_libs/managers/dialog.py:24-32 | enqueuing the same name twice is enqueuing it once |
| DialogQueue.RequestNext | game_libs/managers/dialog.py:35-42 | None while a dialog is active or the queue is empty; otherwise the front is popped and becomes active |
| DialogQueue.FirstInFirstOut | game_libs/managers/dialog.py:28-42 | in any queue with no active dialog, new unforced names are served after everything already waiting, in the order they were enqueued |
| DialogQueue.EnqueueAllAppends | game_libs/managers/dialog.py:28-32 | enqueuing new, distinct names unforced appends them in order and changes nothing else |
| DialogQueue.ServedInOrder | game_libs/managers/dialog.py:35-51 | with no dialog active, requesting and finishing in turn serves the waiting names front to back |
| DialogQueue.ForcedFirst | game_libs/managers/dialog.py:28-42 | a forced name is served next |
| DialogQueue.MarkDone | game_libs/managers/dialog.py:45-51 | the name is recorded as done, and the active dialog is cleared only if it is that name |
| DialogQueue.IsDone | game_libs/managers/dialog.py:54-59 | true iff the name was done; the flag is consumed |
| DialogQueue.IsDoneConsumes | game_libs/managers/dialog.py:54-59 | an immediate second query is false |
| DialogQueue.FinishActive | game_libs/managers/dialog.py:45-59 | finishing the active dialog frees the queue and reports it done exactly once |
| DialogQueue.Clear | game_libs/managers/dialog.py:62-66 | nothing queued, active or done |
| DialogQueue.Without | game_libs/managers/dialog.py:69-72 | every occurrence of the name is gone and every other name stays |
| DialogQueue.WithoutKeepsOrder | game_libs/managers/dialog.py:69-72 | the remaining names keep their relative order |
| DialogQueue.Remove | game_libs/managers/dialog.py:69-72 | the name leaves the queue, and the active and done state are untouched |
| AILogic.FirstTrue | game_libs/ecs_core/ai/components.py:99-102 | the active page is the first whose condition holds, or -1 when none does |
| AILogic.Step | game_libs/ecs_core/ai/components.py:98-118 | the page is re-chosen each frame; a page change restarts at command 0; on the same page the command at the index runs, or none once the index is past the last one; the index advances only on result 1, and is reset to 0 when the page is past its last command or when no page applies after one did |
| AILogic.StepValid | game_libs/ecs_core/ai/components.py:104-118 | a frame keeps the command index at most the length of the active page, and 0 when no page is active |
| AILogic.TraceInOrder | game_libs/ecs_core/ai/components.py:112-118 | with the page fixed and every command finishing at once, the frames run commands j, j+1, ... in turn |
| AILogic.TraceWraps | game_libs/ecs_core/ai/components.py:112-118 | once the last such command has run, one frame runs nothing and the next runs command 0 again |
| AILogic.RunsInOrder | game_libs/ecs_core/ai/components.py:112-118 | with the page fixed and every command finishing at once, the commands run in order and the index wraps back to 0 |
| AILogic.RunSplit | game_libs/ecs_core/ai/components.py:98-118 | running two stretches of frames one after the other is running them together |
| AIScript.TryCastNumber | game_libs/ecs_core/ai/components.py:148-155 | text with a dot becomes a float when it parses as one, other text an int when it parses as one, and anything else stays text |
| AIScript.TryCastLiteral | game_libs/ecs_core/ai/components.py:158-164 | "true" and "false" in any case are booleans, and everything else is cast as a number |
| AIScript.IntLiteralRoundTrip | game_libs/ecs_core/ai/components.py:148-164 | the decimal text of an integer, with or without a minus sign, is cast back to that integer |
| AIScript.DecimalParses | game_libs/ecs_core/ai/components.py:153 | `int()` reads the decimal text of a natural number back to it, and with a leading minus to its negation |
| AIScript.TrimmedParses | game_libs/ecs_core/ai/components.py:153 | text without whitespace at either end is read by `int()` as its sign and digit group |
| AIScript.PositiveLiteral | game_libs/ecs_core/ai/components.py:148-164 | the decimal text of a natural number is cast back to it |
| AIScript.NegativeLiteral | game_libs/ecs_core/ai/components.py:148-164 | a minus followed by the decimal text of a natural number is cast back to its negation |
| AIScript.NegativeText | game_libs/ecs_core/ai/components.py:148-155 | a minus followed by decimal digits has no dot and is read by `int()` as the negation |
| AIScript.IntTextCasts | game_libs/ecs_core/ai/components.py:148-164 | text `int()` accepts that has no dot and starts with a digit or a minus is cast to that integer, not to a boolean |
| AIScript.SeparatorNotNumberSpace | game_libs/ecs_core/ai/components.py:153 | `strip` removes U+001C but `int()` refuses it, while a no-break space is whitespace to both |
| AIScript.DollarStaysText | game_libs/ecs_core/ai/components.py:236-237 | a `$` argument is never cast |
| AIScript.Extras | game_libs/ecs_core/ai/components.py:240-243 | surplus words are cast one by one, in order |
| AIScript.Gather | game_libs/ecs_core/ai/components.py:241 | `setdefault('args', []).append` adds to the list, and fails when 'args' already holds a single value |
| AIScript.BindArgsFails | game_libs/ecs_core/ai/components.py:232-241 | binding fails iff there are more arguments than names and a later parameter is itself called 'args' |
| AIScript.BindArgsKeeps | game_libs/ecs_core/ai/components.py:232-241 | a key that no remaining argument names keeps its value |
| AIScript.BindArgsNamed | game_libs/ecs_core/ai/components.py:234-239 | the j-th argument is bound to the j-th parameter name, `$` text kept and anything else cast |
| AIScript.BindArgsSurplus | game_libs/ecs_core/ai/components.py:240-241 | arguments past the names are gathered, in order, under 'args' |
| AIScript.BindArgsKeys | game_libs/ecs_core/ai/components.py:232-241 | only parameter names and 'args' are bound |
| AIScript.BindErrAfterArgs | game_libs/ecs_core/ai/components.py:234-241 | once 'args' holds a single value, a surplus argument is an error |
| AIScript.BindAll | game_libs/ecs_core/ai/components.py:232-241 | over all the arguments of a line, binding fails iff a surplus meets a parameter called 'args'; otherwise names are bound in order, the surplus is gathered under 'args', and nothing else is bound |
| AIScript.ParseCommand | game_libs/ecs_core/ai/components.py:224-244 | a blank line is None; the first word is the command; without a signature, every other word is cast into 'args' |
| AIScript.ParseRegistered | game_libs/ecs_core/ai/components.py:224-244 | a registered command with arguments fails with the binding's error, or succeeds with the bound arguments |
| AIScript.RegisteredCommand | game_libs/ecs_core/ai/components.py:224-244 | with a signature, arguments bind to parameter names in order and the surplus goes to 'args'; the parse fails iff a surplus meets a parameter called 'args' |
| AIScript.ParseBlock | game_libs/ecs_core/ai/components.py:247-279 | a block stops at a significant line indented less than the block, or at the end of the lines |
| AIScript.ParseIf | game_libs/ecs_core/ai/components.py:260-275 | the `if` rule consumes its line and at least its first branch, and stops as a block does |
| AIScript.ElseBranch | game_libs/ecs_core/ai/components.py:265-267 | the `else:` branch, when taken, starts at or after the line that ended the first branch |
| AIScript.IfRest | game_libs/ecs_core/ai/components.py:265-275 | after the first branch, parsing never moves back and stops as a block does |
| AIScript.ParseCommandsBlock | game_libs/ecs_core/ai/components.py:247-279 | the line a block stops at is neither blank nor a comment, and is indented less than the block |
| AIScript.FlatBlock | game_libs/ecs_core/ai/components.py:251-278 | a run of plain commands parses to those commands in order, skipping blank lines and comments |
| AIScript.ParseBlockCall | game_libs/ecs_core/ai/components.py:276-278 | a plain command line at the block's indentation is kept, and parsing goes on after it |
| AIScript.FlatIf | game_libs/ecs_core/ai/components.py:260-275 | an `if` whose branches are runs of plain commands parses to an `if` command holding the condition and exactly those commands, the second branch only when the line ending the first starts with `else:` |
| AIScript.DanglingElseTaken | game_libs/ecs_core/ai/components.py:256-267 | an `else:` line indented less than the block is still taken as the `if`'s else branch, so a block can run past a line that is indented less |
| AIDecode.Cast | game_libs/ecs_core/ai/components.py:333-341 | `int` and `float` of text give the parsed number and fail with ValueError iff the text does not parse; of an int, a float or a bool they give its number, `int` of a float rounding toward zero; bool of an int is `== 1`; other types are `str()` of the value |
| AIDecode.Truncate | game_libs/ecs_core/ai/components.py:335 | `int()` of a float keeps the integer part: never further from zero than the float, and less than one away |
| AIDecode.IntCastTruncates | game_libs/ecs_core/ai/components.py:335 | `int(2.7) == 2` and `int(-2.7) == -2` |
| AIDecode.IntCastOfText | game_libs/ecs_core/ai/components.py:333-341 | `int(str(i)) == i`: an integer handed in as its decimal text casts back to itself |
| AIDecode.BoolCast | game_libs/ecs_core/ai/components.py:333-336 | a bool given stays itself, and an int counts as true only when it is 1 |
| AIDecode.Resolve | game_libs/ecs_core/ai/components.py:327-343 | a provided value, None included, takes precedence over the default; without one a default that is not None is used; a None value stays None and is not cast |
| AIDecode.ValuesOf | game_libs/ecs_core/ai/components.py:327-343 | every declared argument gets its resolved value, and the decode fails iff one cast fails |
| AIDecode.Subst | game_libs/ecs_core/ai/components.py:345-349 | a `$name` text becomes the argument's value; an unknown name and anything else stay as they are |
| AIDecode.SubstMap | game_libs/ecs_core/ai/components.py:351-357 | substitution keeps the keys of a command's arguments |
| AIDecode.SubstCmd | game_libs/ecs_core/ai/components.py:351-357 | substitution keeps the shape of the command tree |
| AIDecode.PassShifts | game_libs/ecs_core/ai/components.py:363-375 | substituting a subtree before decoding it is one more nesting level of substitution |
| AIDecode.PassShiftsAll | game_libs/ecs_core/ai/components.py:369-373 | the same for every command of a branch |
| AIDecode.IterShift | game_libs/ecs_core/ai/components.py:345-349 | substituting once more on the inside is substituting once more on the outside |
| AIDecode.IterMapShift | game_libs/ecs_core/ai/components.py:351-357 | the same for the arguments of a command |
| AIDecode.DecodeAllAt | game_libs/ecs_core/ai/components.py:369-373 | decoding a branch, as written, keeps its length |
| AIDecode.DecodeAllAtEach | game_libs/ecs_core/ai/components.py:369-373 | as written, a branch decodes command by command at its depth, and fails iff one command does |
| AIDecode.RepeatedSubstitution | game_libs/ecs_core/ai/components.py:363-375 | as written, a command nested in an `if` is substituted twice: with a = "$b" and b = 5, `wait $a` becomes `wait $b` at top level but `wait 5` inside the `if` |
| AIDecode.Decode | game_libs/ecs_core/ai/components.py:363-375 | the corrected decode substitutes every command exactly once and keeps commands as commands |
| AIDecode.DecodeAll | game_libs/ecs_core/ai/components.py:369-373 | a branch decodes command by command, and fails iff one command does |
| AIDecode.NestingInvariant | game_libs/ecs_core/ai/components.py:363-375 | corrected, wrapping a command in an `if` does not change how it decodes |
| AIDecode.IterClosed | game_libs/ecs_core/ai/components.py:345-349 | when no declared value is itself `$` text, substituting repeatedly is substituting once |
| AIDecode.IterPlain | game_libs/ecs_core/ai/components.py:345-349 | a value that is not `$` text is never changed |
| AIDecode.IterMapClosed | game_libs/ecs_core/ai/components.py:351-357 | the same for the arguments of a command |
| AIDecode.AgreeWhenClosed | game_libs/ecs_core/ai/components.py:363-375 | the code and the corrected decode agree unless a declared value is itself `$` text |
| AIDecode.AgreeAll | game_libs/ecs_core/ai/components.py:369-373 | the same for a whole branch |
| AIDecode.DecodeCommands | game_libs/ecs_core/ai/components.py:377-381 | under either reading, a page's commands decode one by one and fail iff one does |
| AIDecode.DecodePage | game_libs/ecs_core/ai/components.py:377-382 | under either reading, a page decodes iff it has a condition and all its commands decode; the condition's parameters are substituted once |
| AIDecode.DecodePages | game_libs/ecs_core/ai/components.py:377-382 | under either reading, pages decode one by one, and fail iff one of them does |
| AIDecode.DecodePagesFrom | game_libs/ecs_core/ai/components.py:377-382 | the pages from a position on decode one by one, and fail iff one of them does |
| AIDecode.DecodeScript | game_libs/ecs_core/ai/components.py:323-382 | an argument that cannot be cast fails the whole script with ValueError; otherwise its pages are decoded with the resolved values, as written or corrected |
| AIDecode.PagesAgreeWhenClosed | game_libs/ecs_core/ai/components.py:363-382 | when no declared value is itself `$` text, the pages decode the same as written and corrected, failures included |
| AIDecode.ScriptsAgreeWhenClosed | game_libs/ecs_core/ai/components.py:323-382 | the same for a whole script |
| AIDecode.PageDivergence | game_libs/ecs_core/ai/components.py:363-382 | with a = "$b" and b = 5, a page whose `if` holds `wait $a` waits for 5 as written and for "$b" corrected |
| ECSEngine.Reset | game_libs/ecs_core/engine.py:52-57 | no entities, and the counter restarts at 0 |
| ECSEngine.NewEntity | game_libs/ecs_core/engine.py:60-67 | the id is fresh, the new entity has no components, and the counter moves past it |
| ECSEngine.NewEntities | game_libs/ecs_core/engine.py:60-67 | n creations give n ids and keep the store consistent |
| ECSEngine.IdsIncrease | game_libs/ecs_core/engine.py:60-67 | successive ids count up from the counter and are all fresh |
| ECSEngine.FreshLevel | game_libs/ecs_core/engine.py:52-67 | after a reset the ids are 0, 1, 2, … |
| ECSEngine.CounterAdvances | game_libs/ecs_core/engine.py:60-67 | n creations advance the counter by n |
| ECSEngine.RemoveEntity | game_libs/ecs_core/engine.py:69-73 | the entity is gone, and every other entity and the counter are untouched |
| ECSEngine.RemoveIdempotent | game_libs/ecs_core/engine.py:69-73 | removing twice is removing once |
| ECSEngine.AddComponent | game_libs/ecs_core/engine.py:76-85 | a ValueError iff the type is unknown or the entity does not exist; otherwise only that entity's one type is set |
| ECSEngine.GetComponent | game_libs/ecs_core/engine.py:87-92 | the component if present, None if absent, KeyError for an unknown entity |
| ECSEngine.HasComponent | game_libs/ecs_core/engine.py:100-104 | true iff the component is present; KeyError for an unknown entity |
| ECSEngine.RemoveComponent | game_libs/ecs_core/engine.py:94-98 | only that entity's one type is removed; KeyError for an unknown entity |
| ECSEngine.AddThenGet | game_libs/ecs_core/engine.py:76-98 | a component added reads back, and is absent again after its removal |
| ECSEngine.AddKeepsOthers | game_libs/ecs_core/engine.py:76-92 | adding a component changes no other entity's or type's component |
| ECSEngine.EntitiesWith | game_libs/ecs_core/engine.py:106-112 | exactly the entities holding every requested type, in increasing id order |
| ECSFlags.Union | game_libs/ecs_core/components.py:80-84 | a combined mask holds exactly the bits of its parts |
| ECSFlags.AddFlags | game_libs/ecs_core/components.py:274-279 | every bit of every mask is set, and the others are kept |
| ECSFlags.RemoveFlags | game_libs/ecs_core/components.py:281-286 | every bit of every mask is cleared, and the others are kept |
| ECSFlags.AddThenRemove | game_libs/ecs_core/components.py:274-286 | adding and then removing the same masks leaves none of their bits set, and the other flags as they were |
| ECSFlags.HasAll | game_libs/ecs_core/components.py:294-298 | true iff every mask shares a bit with the flags |
| ECSFlags.HasAny | game_libs/ecs_core/components.py:300-304 | true iff some mask shares a bit with the flags |
| ECSFlags.HasFlag | game_libs/ecs_core/components.py:288-292 | an unknown state name is an AttributeError; otherwise true iff every named state shares a bit with the flags |
| ECSFlags.HasFlagAgrees | game_libs/ecs_core/components.py:288-298 | testing states by name is testing all of their masks |
| ECSFlags.AddedIsPresent | game_libs/ecs_core/components.py:274-304 | a flag just added is present, and one just removed is absent |
| ECSFlags.MaskIsAny | game_libs/ecs_core/components.py:80-84 | testing a combined mask means any of its parts is set |
| ECSFlags.CombinedMasks | game_libs/ecs_core/components.py:80-84 | IGNORE_GRAVITY, CAN_JUMP, CAN_MOVE, MOVING and NO_DRAG each test as set exactly when one of their listed base states is |
| ECSFlags.CombinedParts | game_libs/ecs_core/components.py:80-84 | each of the five combined states holds exactly the bits of the base states listed for it |
| ECSFlags.Colliding | game_libs/ecs_core/components.py:508-513 | colliding iff some side is touched |
| ECSFlags.CornersImplyColliding | game_libs/ecs_core/components.py:480-513 | any touched corner means a collision, while a single touched side collides without making a corner |
| ECSFlags.ResetSides | game_libs/ecs_core/components.py:515-522 | no side, corner or collision remains |
| ECSFlags.ResetEntityCollision | game_libs/ecs_core/components.py:459-467 | the sides are cleared and the collided entities are emptied |
| Transition.New | game_libs/scenes/transitions/base.py:30-45 | a new transition is idle at zero and reports back the milliseconds it was given |
| Transition.Progress | game_libs/scenes/transitions/base.py:48-57 | 1 without a duration; otherwise the elapsed fraction, capped at 1, and 1 exactly when the time is up |
| Transition.Play | game_libs/scenes/transitions/base.py:69-78 | playing from zero, not complete |
| Transition.Reset | game_libs/scenes/transitions/base.py:106-110 | idle at zero, not complete |
| Transition.Update | game_libs/scenes/transitions/base.py:80-95 | nothing happens unless playing and incomplete; otherwise time advances, never past the duration, and reaching it completes the transition and stops it |
| Transition.ProgressMonotone | game_libs/scenes/transitions/base.py:48-95 | progress never goes back as time moves forward |
| Transition.Completes | game_libs/scenes/transitions/base.py:80-95 | a playing transition completes, with progress 1, once the frames add up to the time left |
| Transition.StaysComplete | game_libs/scenes/transitions/base.py:87-88 | once complete, frames change nothing |
| SceneManager.AfterSwap | game_libs/managers/scene.py:118-123 | with an incoming transition it starts and the state is TRANSITION_IN; otherwise NORMAL |
| SceneManager.ChangeScene | game_libs/managers/scene.py:185-221 | an unknown name changes nothing; with an outgoing transition it starts, the state is TRANSITION_OUT, the current and previous scenes stay and the incoming transition is stored unstarted; otherwise the old scene exits, the new one enters and becomes current, the previous one is remembered and no outgoing transition is kept |
| SceneManager.Update | game_libs/managers/scene.py:93-131 | no current scene means no change; otherwise the current scene is updated last, after any transition step |
| SceneManager.HandleEvents | game_libs/managers/scene.py:83-91 | only in the NORMAL state with a current scene are events passed on |
| SceneManager.NoEventsDuringTransition | game_libs/managers/scene.py:88-89 | no events reach a scene during a transition |
| SceneManager.SwapOnComplete | game_libs/managers/scene.py:104-123 | when the outgoing transition completes, the old scene exits, the next enters and is updated, and the incoming transition starts |
| SceneManager.OutgoingHolds | game_libs/managers/scene.py:104-106 | until the outgoing transition completes, the current scene and the state stay |
| SceneManager.IncomingEnds | game_libs/managers/scene.py:125-128 | TRANSITION_IN becomes NORMAL exactly when the incoming transition completes |
| SceneManager.StuckWithoutCurrent | game_libs/managers/scene.py:100-101 | a scene change with an outgoing transition before any scene is current never completes, since updates return early |
| SceneManager.ChangeThenSwap | game_libs/managers/scene.py:185-221 | the incoming transition given with an outgoing one is the one that starts once the outgoing one completes, and the new scene is then current |
| SceneManager.StaysRunning | game_libs/managers/scene.py:93-128 | after a scene change and after every frame, each transition the state refers to is playing and not complete, so the unguarded and the guarded `update` of the two transition classes agree on every transition the manager advances |
| SceneManager.ChangeSceneStartless | game_libs/managers/scene.py:207-218 | with an incoming transition that has no `start`, the old scene has already exited and the new one entered when AttributeError is raised, and the state is not updated |
| SceneManager.StartlessFails | game_libs/scenes/title.py:137-151 | the title screen's CrossFade request exits the title and enters the new scene, then fails; with a transition that can start, it fades in |
| Transition.Advance | game_libs/transitions/base.py:84-98 | the older clock advances without a guard: time moves and stops at the duration, where the transition completes |
| Transition.AdvanceAgrees | game_libs/transitions/base.py:84-98 | on a running clock the guarded and the unguarded `update` agree; on a stopped clock with time left, a non-zero step tells them apart |
| SceneManager.UpdatesIdle | game_libs/managers/scene.py:100-101 | without a current scene, updates change nothing |
| EditorGrid.Set | Editor.py:253 | one cell takes the value and every other cell is kept |
| EditorGrid.StartConnected | Editor.py:241-245 | the clicked cell belongs to its own region |
| EditorGrid.NeighboursConnected | Editor.py:252-262 | the in-bounds neighbours of a region cell are either in the region or hold another tile |
| EditorGrid.PathFilled | Editor.py:245-262 | a set closed under same-tile neighbours contains every same-tile path from its cells |
| EditorGrid.Neighbours | Editor.py:255-262 | the four in-bounds orthogonal neighbours, and only those |
| EditorGrid.FilledIsRegion | Editor.py:245-262 | the filled set is exactly the 4-connected region of the clicked tile |
| EditorGrid.FillRegion | Editor.py:245-262 | the stack-driven fill paints every filled cell and keeps every other cell; every filled cell is connected to the start, and the filled set is closed |
| EditorGrid.Fill | Editor.py:233-262 | no change when the click is outside the map, the tile is already the one selected, or nothing is selected; otherwise exactly the 4-connected region of the clicked tile takes the selected tile, every other cell is unchanged, and the number of cells painted is the region's size |
| EditorGrid.Brush | Editor.py:308-315 | the cursor cell takes the selected tile unless nothing is selected; every other cell is unchanged |
| EditorGrid.Erase | Editor.py:318-325 | the cursor cell becomes -1 and every other cell is unchanged |
| EditorGrid.EraseUndoesBrush | Editor.py:308-325 | erasing after painting is erasing, and painting twice is painting once |
| EditorGrid.PaintRect | Editor.py:285-303 | every cell of the box between the two corners takes the selected tile and every other cell is kept; a release outside the map, or no selection, changes nothing |
| EditorGrid.PadLeft | Editor.py:74 | the cell text is right-aligned to the width: padded on the left with spaces |
| EditorGrid.RowWidth | Editor.py:69 | the widest cell of a row |
| EditorGrid.GridWidth | Editor.py:69 | no cell is wider than the computed width |
| EditorGrid.CellsAligned | Editor.py:69-74 | every padded cell has the same width and strips back to the number |
| EditorGrid.Lines | Editor.py:72-75 | one text line per grid row |
| EditorGrid.Terminated | Editor.py:75 | every line ends with a comma |
| EditorGrid.FormatGridAsWritten | Editor.py:65-78 | as written, an empty grid is a ValueError (max of nothing) |
| EditorGrid.FormatGrid | Editor.py:65-78 | corrected, an empty grid is still a ValueError |
| EditorGrid.CutLastComma | Editor.py:72-76 | dropping the final comma of the comma-terminated lines joins them with `,\n` |
| EditorGrid.AsWrittenAtIndentOne | Editor.py:65-78 | at the one indent the editor uses, the code and the corrected version give the same text |
| EditorGrid.LastLine | Editor.py:77 | the last line contains no newline |
| EditorGrid.LastLineAfter | Editor.py:77 | the last line of text ending in a newline and t is t |
| EditorGrid.ClosingLine | Editor.py:77 | corrected, the closing bracket is indented as deep as the list |
| EditorGrid.ClosingAsWritten | Editor.py:77 | as written, for indent ≥ 1, the closing bracket sits one tab in; from indent 2 on, that differs from the corrected text |
| Layers.SelectedLayer | Editor.py:475-483 | entry 0 is the main tilemap; entry i is parallax layer i-1 |
| Layers.Refresh | Editor.py:480-483 | the selection is kept, clamped to the last entry |
| Layers.RemoveLayer | Editor.py:581-587 | the main tilemap cannot be removed; otherwise exactly the selected parallax layer is deleted |
| Layers.RemoveSelectsNext | Editor.py:581-587 | after a removal, the layer that followed the removed one is selected, or the last entry when the last layer went |
| Layers.SwapNext | Editor.py:594 | two neighbouring layers trade places and every other layer stays |
| Layers.SwapPermutes | Editor.py:594 | a swap only reorders the layers |
| Layers.MoveUp | Editor.py:589-596 | the main tilemap and the first layer do not move; otherwise the selected layer swaps with the one before it and the selection follows |
| Layers.MoveDown | Editor.py:598-605 | the main tilemap and the last layer do not move; otherwise the selected layer swaps with the one after it and the selection follows |
| Layers.MovesKeepLayers | Editor.py:589-605 | moving keeps the same layers, and the same layer selected |
| Layers.MoveUpKeepsLayer | Editor.py:589-596 | moving up keeps the same layers and the same layer selected |
| Layers.MoveDownKeepsLayer | Editor.py:598-605 | moving down keeps the same layers and the same layer selected |
| Layers.MoveRoundTrip | Editor.py:589-605 | moving up and back down, or down and back up, restores the list and the selection |
| TextEntry.New | pygame_ui.py:353-361 | a new field holds its default text with the cursor at the end, unfocused |
| TextEntry.HandleKey | pygame_ui.py:363-394 | ignored without focus or while hidden; the cursor stays within the text; Return drops the focus; Backspace removes the character before the cursor and Delete the one after it, doing nothing at the ends; printable text is inserted at the cursor exactly when the text is under the limit, and refused at it |
| TextEntry.EraseRemovesOne | pygame_ui.py:371-380 | Backspace and Delete each remove one character, keeping the rest in order, and leave the cursor in front of the same text |
| TextEntry.HandleKeys | pygame_ui.py:363-394 | the cursor stays within the text over any run of keys |
| TextEntry.TypeThenErase | pygame_ui.py:371-393 | typing a character and pressing Backspace, or stepping back and pressing Delete, restores the field |
| TextEntry.StaysWithinLimit | pygame_ui.py:388-393 | typing single characters never takes the text past its limit |
| TextEntry.ArrowsKeepText | pygame_ui.py:381-386 | the arrows move the cursor by one and never change the text |
| Widgets.NewListView | pygame_ui.py:735-759 | a new list view selects its first item, if it has one |
| Widgets.SelectedText | pygame_ui.py:762-768 | the selected item, or None when the index is out of range |
| Widgets.Click | pygame_ui.py:782-787 | a click on a row selects it; a click past the rows changes nothing |
| Widgets.Toggle | pygame_ui.py:857-864 | the index flips in or out and no other index changes |
| Widgets.ToggleInvolution | pygame_ui.py:857-864 | toggling twice restores the set |
| Widgets.ToggleClick | pygame_ui.py:876-881 | clicks only toggle existing rows, so the enabled indices always name rows |
| Widgets.Get | pygame_ui.py:851-855 | the items at the enabled indices, one per index, in the set's order, read as Python indexes a list (negative from the end); an IndexError exactly when an index falls outside the list |
| Widgets.GetFromEnd | pygame_ui.py:851-855 | index -1 reads the last item, and the length of the list is an IndexError |
| Widgets.DistinctSize | pygame_ui.py:851-855 | walking a set without repeats lists exactly its elements |
| Widgets.Ascending | pygame_ui.py:851-855 | the enabled indices in increasing order |
| Widgets.GetInListOrder | pygame_ui.py:851-855 | walked top to bottom, `get` lists the enabled items in the order the list shows them |
| Widgets.UpdateFrame | pygame_ui.py:1076-1093 | a frame is displayed exactly when its name is the selection, so at most one is, and none without a selection |
| Widgets.ShowsSelectedRow | pygame_ui.py:1076-1093 | with a list view as the selector, the page shown is the one its selected row names |
| Widgets.WheelAsWritten | pygame_ui.py:575-584 | as written, the offset never exceeds size - view, and is not negative only when the content fills the frame |
| Widgets.WheelAsWrittenGoesNegative | pygame_ui.py:575-584 | as written, content smaller than its frame scrolls to a negative offset |
| Widgets.Wheel | pygame_ui.py:575-584 | corrected, the offset is never negative, and stays within the overhang |
| Widgets.WheelClamps | pygame_ui.py:575-584 | corrected, the offset is the requested one whenever that is in range, and agrees with the code whenever the content fills the frame |
| Widgets.Scroll | pygame_ui.py:575-584 | shift and the wheel scroll sideways, the wheel alone vertically, the other offset and the sizes stay; as written the offset never exceeds size - view and goes negative for content smaller than the frame; corrected it is never negative |
| Widgets.ScrollKeepsInView | pygame_ui.py:575-584 | corrected, no series of wheel events scrolls outside the content; as written this holds for content that fills the frame |
| Options.KeyList | game_libs/managers/options.py:70-88 | a binding is the list of its key codes, in order |
| Options.Defaults | game_libs/managers/options.py:70-88 | full volumes, windowed, vsync on, no frame cap, and the configured keys for each of the seven actions |
| Options.Clamp01 | game_libs/managers/options.py:153 | `max(0.0, min(1.0, v))` is v inside [0, 1], and the nearer bound outside it |
| Options.SetVolume | game_libs/managers/options.py:150-179 | the volume is stored clamped into [0, 1] and nothing else changes |
| Options.VolumeLastWins | game_libs/managers/options.py:150-179 | setting a volume twice keeps only the second value |
| Options.SetFpsCap | game_libs/managers/options.py:196-201 | a negative cap is stored as 0, meaning no cap; nothing else changes |
| Options.SetVsync | game_libs/managers/options.py:190-194 | the flag is stored as given and nothing else changes |
| Options.SetFullscreen | game_libs/managers/options.py:182-188 | the option ends equal to the request (a Python-equal value such as 1 for True is kept), and the display ends in the requested state |
| Options.FullscreenIdempotent | game_libs/managers/options.py:182-188 | asking again for the same state changes nothing |
| Options.ActionKeys | game_libs/managers/options.py:139-142 | the action's keys, None for an unknown action, and an AttributeError when the bindings are not an object |
| Options.SetActionKeys | game_libs/managers/options.py:204-212 | an unknown action changes nothing; a known one gets the new keys, with every other binding and option kept; missing bindings are a KeyError; a string or list of bindings that contains the action is a TypeError |
| Options.RebindReadsBack | game_libs/managers/options.py:138-212 | a rebound action reads back its new keys, and the options stay well formed |
| Options.Load | game_libs/managers/options.py:235-248 | the saved object's entries replace those of the same name, and every other option keeps its value; without a readable object, nothing changes |
| Options.LoadKeepsWellFormed | game_libs/managers/options.py:235-248 | well-formed saved entries keep the options well formed; defaults fill in whatever the file lacks |
| Options.LoadReplacesBindings | game_libs/managers/options.py:243 | the overlay is shallow: saved bindings replace the whole table, so an action the file omits loses its keys and cannot be rebound |
| Options.LoadSkipsClamp | game_libs/managers/options.py:243 | a saved volume outside [0, 1] is taken as it is |

## Left out

- Drawing of every kind is left out: surfaces, blits, fonts, renderer caches and the scenes' `render` methods. The autotile model stops at the source rectangles of the four quarters.
- The audio and display managers are left out. The option setters would notify them; only the fullscreen toggle's effect on the display is kept.
- Logging is left out.
- The transitions other than the base clock, and the easing functions, are left out.
- The scene manager starts and updates transitions of game_libs/transitions/base.py (`start`, and an `update` with no guard), while the clock is modelled on game_libs/scenes/transitions/base.py (`play`, with a guard). `start` has the body of `Transition.Play`, and `SceneManager.StaysRunning` shows that the manager only advances running transitions, where the two `update`s agree. The older class's `progress` divides by a zero duration instead of returning 1; the manager never reads it.
- The ECS physics systems and the AI runtime are left out.
- The networking client, the threads, and all file I/O are left out, including the editor's save and open.
- `parse_ai_script` and `str.splitlines` are left out. The AI parser starts from a list of lines.
- `parse_condition` and `parse_args_block` are regex-driven, so they are left abstract: the condition parser is a parameter of `AIScript.ParseBlock`, and argument declarations arrive parsed.
- The dialog parser's regexes are modelled as fixed patterns over stripped lines, not as a regex engine. `Text.IsSpace` is Python's whitespace, information separators included, and `int()`/`float()` refuse the separators in their margins. `str.lower` is modelled on ASCII and Latin-1 letters only, and `str.isprintable` on ASCII and Latin-1.
- `int()` and `float()` also accept non-ASCII decimal digits. The model reads ASCII digits only.
- Floats are modelled as real numbers, so `inf`, `nan`, rounding and the `repr` of a float are left out. `AIScript.TryCastNumber` reads float text exactly.
- The editor's pixel-to-cell conversion and camera are left out. Clicks arrive as cells.
- `LayerPicker.add_layer` and the layer names are left out. Adding a layer opens a file dialog.
- DualListToggle keeps its enabled indices in a Python `set`, whose iteration order is not specified. `Widgets.Get` takes the order as a parameter.
- `KeyMapping.from_dict` stores `set(keys)`, whose scan order in `serialize` is not specified. `Input.KeyboardSerialize` scans each action's codes in a given order.
- `Input.FromDict` checks names with `hasattr`, so a name of another attribute of the mapping (a method name, say) would be overwritten. Only the seven action names are modelled.
- A code that is not an integer is also a KeyError in `from_dict`. The model's codes are integers.
- `Options.Load`: `dict.update` with a list of pairs, and a partial update that raises halfway, are left out. Anything but a JSON object leaves the options unchanged.
- TextEntry inserts `event.unicode` but advances the cursor by one. This is modelled as written. `TextEntry.StaysWithinLimit` therefore assumes single-character key text.
- `Tilemap.TouchExact` is stated only for a rectangle of non-zero extent. For an empty span the source's window still scans one row or column.
- `ECSFlags.HasFlag` raises on the first unknown name that `all()` reaches, but `all()` stops at the first false test, so a later unknown name can go unnoticed. The model fails on any unknown name, and `HasFlagAgrees` states the agreement for known names.
- Flags are modelled as sets of bit positions, not as integers.
- The components' `from_dict` loaders are left out.
- A tile animation whose update raises ZeroDivisionError may have advanced earlier tiles before it fails. The model reports only the error.
- Editor tile values are integers, and -1 means empty.
- AIDecode.Resolve: argument values other than None, text, integers, floats and booleans (lists, dicts, other objects) are not modelled. A float's `str()` text is carried with it, not computed from the float.
- DialogParser.TopInOrder: each top-level dialog is tied to the line that opens it and to that line's name, in file order. That the i-th dialog holds the blocks `_parse_blocks` reads after that line is stated only for the first one, by `DialogParser.ParseTopFirst`.
- DialogTree.Then: `t >> None` appends `None` itself as a child in Python, because None is not a Node. A tree's children here are trees, so the model appends an empty leaf instead.

## Findings

| source | as written | input that shows it | evidently intended | confidence | as-written member | corrected member |
|---|---|---|---|---|---|---|
| game_libs/rendering/tilemap_renderer.py:232-233 | the visible range starts at `cam_rect.left // tile_size`, with no lower clamp | a camera 240 px left of a 5-cell row with 32 px tiles gives first index -8, an IndexError; at 10 px left it gives -1, which draws the row's last cell at the left edge | start at `max(0, left // tile_size)`, like the upper bound's `min(…, width)` | not executed | Autotile.VisibleRangeAsWrittenFails | Autotile.VisibleRange |
| game_libs/ecs_core/ai/components.py:363-375 | `decode_command` substitutes the whole `if` subtree and then decodes the branches, which substitute again | arguments a = "$b" and b = 5: `wait $a` decodes to `wait $b` at top level but to `wait 5` inside an `if` | every command is substituted once, whatever its nesting | not executed | AIDecode.RepeatedSubstitution | AIDecode.NestingInvariant |
| pygame_ui.py:575-584 | the scroll offset is `min(size - view, max(0, s))` | a map canvas whose tilemap is 320 px wide in a 400 px frame scrolls to -80 | `max(0, min(size - view, s))`, so the offset never goes negative | not executed | Widgets.WheelAsWrittenGoesNegative | Widgets.WheelClamps |
| Editor.py:77 | the closing line is `"\n\t" * indent_nb + "]"` | at indent 2 the text ends with a blank line followed by `\t]`, one tab in, instead of `\t\t]` | the closing bracket is indented `indent_nb` tabs, like the rows | not executed; the editor only calls it with indent 1, where both agree | EditorGrid.ClosingAsWritten | EditorGrid.ClosingLine |
| game_libs/managers/scene.py:216-218 | the title screens (game_libs/scenes/title.py:66-69 and 137-151) pass a `CrossFade` from game_libs/scenes/transitions as `transition_in`, and `change_scene` calls `transition_in.start()` | choosing "Start Game" on the title screen: the title exits and the game scene enters, then `CrossFade` has no `start` (it offers `play`) and AttributeError is raised | the fade-in starts, as it does for the transitions of game_libs/transitions | not executed | SceneManager.StartlessFails | SceneManager.ChangeScene |

=== FILE: ai_decode.dfy ===
/** Turning a parsed AI script into pages: the declared script arguments
    get their values, and `$name` arguments of the commands and conditions
    are replaced by them (`decode_ai_script_dict` in
    game_libs/ecs_core/ai/components.py). */
module AIDecode {
  import opened Wrappers
  import opened Text
  import opened AIScript

  // -------------------------------------------------------- argument values

  /** A value handed in by the caller or written as a default: None, text,
      an integer, a float with the text `str()` gives for it, or a bool. */
  datatype Given = GNone | GStr(s: string) | GInt(i: int) | GFloat(x: real, repr: string) | GBool(b: bool)

  /** A declared script argument: its type name (`str` when absent) and
      its default (None when absent, as `meta.get('default')` reads it). */
  datatype ArgDecl = ArgDecl(typ: Option<string>, default: Given)

  function TypeName(d: ArgDecl): string
  {
    if d.typ.Some? then d.typ.value else "str"
  }

  /** `str(v)`. */
  function TextOf(g: Given): string
  {
    match g
    case GNone => "None"
    case GStr(s) => s
    case GInt(i) => IntText(i)
    case GFloat(_, repr) => repr
    case GBool(b) => if b then "True" else "False"
  }

  /** `int(x)` on a float: the integer part, rounding toward zero. */
  function Truncate(x: real): (r: int)
    ensures x >= 0.0 ==> 0 <= r && r as real <= x < r as real + 1.0
    ensures x < 0.0 ==> r <= 0 && r as real - 1.0 < x <= r as real
  {
    if x >= 0.0 then x.Floor else -((-x).Floor)
  }

  /** The cast a declared type applies to a value that is not None:
      `int(v)`, `float(v)`, a truth test of `str(v)` against "1", "true"
      and "yes", or `str(v)`. */
  function Cast(typ: string, g: Given): (r: Result<Value>)
    requires !g.GNone?
    ensures r.Err? ==> r.error == ValueError && g.GStr? && (typ == "int" || typ == "float")
    ensures typ == "int" && g.GStr? ==> (r.Ok? <==> ParseInt(g.s).Some?) && (r.Ok? ==> r.value == Int(ParseInt(g.s).value))
    ensures typ == "int" && g.GInt? ==> r == Ok(Int(g.i))
    ensures typ == "int" && g.GFloat? ==> r == Ok(Int(Truncate(g.x)))
    ensures typ == "int" && g.GBool? ==> r == Ok(Int(if g.b then 1 else 0))
    ensures typ == "float" && g.GStr? ==> (r.Ok? <==> ParseFloat(g.s).Some?) && (r.Ok? ==> r.value == Float(ParseFloat(g.s).value))
    ensures typ == "float" && g.GInt? ==> r == Ok(Float(g.i as real))
    ensures typ == "float" && g.GFloat? ==> r == Ok(Float(g.x))
    ensures typ == "float" && g.GBool? ==> r == Ok(Float(if g.b then 1.0 else 0.0))
    ensures typ == "bool" ==> r.Ok? && r.value.Bool?
    ensures typ !in {"int", "float", "bool"} ==> r == Ok(Str(TextOf(g)))
  {
    if typ == "int" then
      match g
      case GStr(s) => (match ParseInt(s) case Some(i) => Ok(Int(i)) case None => Err(ValueError))
      case GInt(i) => Ok(Int(i))
      case GFloat(x, _) => Ok(Int(Truncate(x)))
      case GBool(b) => Ok(Int(if b then 1 else 0))
    else if typ == "float" then
      match g
      case GStr(s) => (match ParseFloat(s) case Some(x) => Ok(Float(x)) case None => Err(ValueError))
      case GInt(i) => Ok(Float(i as real))
      case GFloat(x, _) => Ok(Float(x))
      case GBool(b) => Ok(Float(if b then 1.0 else 0.0))
    else if typ == "bool" then Ok(Bool(Lower(TextOf(g)) in {"1", "true", "yes"}))
    else Ok(Str(TextOf(g)))
  }

  /** `int(2.7) == 2` and `int(-2.7) == -2`: a float argument of an `int`
      parameter loses its fraction toward zero. */
  lemma IntCastTruncates()
    ensures Cast("int", GFloat(2.7, "2.7")) == Ok(Int(2))
    ensures Cast("int", GFloat(-2.7, "-2.7")) == Ok(Int(-2))
  {
    assert Truncate(2.7) == 2;
    assert Truncate(-2.7) == -2;
  }

  /** `int(str(i)) == i`: an integer handed in as its decimal text casts
      back to itself. */
  lemma IntCastOfText(i: int)
    ensures Cast("str", GInt(i)) == Ok(Str(IntText(i)))
    ensures Cast("int", GStr(IntText(i))) == Ok(Int(i))
  {
    assert "str"[0] != "int"[0] && "str"[0] != "float"[0] && "str"[0] != "bool"[0];
    ParsesBack(i);
  }

  lemma ParsesBack(i: int)
    ensures ParseInt(IntText(i)) == Some(i)
  {
    if i < 0 {
      DecimalParses(-i);
      assert IntText(i) == "-" + DecimalText(-i);
    } else {
      DecimalParses(i);
      assert IntText(i) == DecimalText(i);
    }
  }

  /** A boolean argument keeps its truth value, and an integer reads as
      true exactly when it is 1. */
  lemma BoolCast(b: bool, i: int)
    ensures Cast("bool", GBool(b)) == Ok(Bool(b))
    ensures Cast("bool", GInt(i)) == Ok(Bool(i == 1))
  {
    assert Lower("True") == "true";
    assert Lower("False") == "false";
    var t := IntText(i);
    if i == 1 {
      assert DecimalText(1) == "1";
      assert Lower("1") == "1";
    } else {
      assert Lower(t)[0] == t[0];
      if i >= 0 {
        assert |t| > 0 && IsDigit(t[0]);
        if |t| == 1 {
          assert t == ['0' + (i % 10) as char];
        }
      }
    }
  }

  /** The value of one declared argument: the caller's value when given,
      None included, else the default, else None; a value that is not None
      is cast to the declared type. */
  function Resolve(d: ArgDecl, provided: Option<Given>): (r: Result<Value>)
    ensures provided.Some? && !provided.value.GNone? ==> r == Cast(TypeName(d), provided.value)
    ensures provided == Some(GNone) ==> r == Ok(Null)
    ensures provided.None? && !d.default.GNone? ==> r == Cast(TypeName(d), d.default)
    ensures provided.None? && d.default.GNone? ==> r == Ok(Null)
  {
    var v := if provided.Some? then provided.value else d.default;
    if v.GNone? then Ok(Null) else Cast(TypeName(d), v)
  }

  function Lookup(m: map<string, Given>, k: string): Option<Given>
  {
    if k in m then Some(m[k]) else None
  }

  /** The values of all declared arguments; a value that does not cast
      fails the whole script with ValueError. Values given for names the
      script does not declare are ignored. */
  function ValuesOf(decls: map<string, ArgDecl>, provided: map<string, Given>): (r: Result<map<string, Value>>)
    ensures r.Err? <==> exists k :: k in decls && Resolve(decls[k], Lookup(provided, k)).Err?
    ensures r.Err? ==> r.error == ValueError
    ensures r.Ok? ==> r.value.Keys == decls.Keys
    ensures r.Ok? ==> forall k :: k in decls ==> Resolve(decls[k], Lookup(provided, k)) == Ok(r.value[k])
  {
    if exists k :: k in decls && Resolve(decls[k], Lookup(provided, k)).Err? then Err(ValueError)
    else Ok(map k | k in decls :: Resolve(decls[k], Lookup(provided, k)).value)
  }

  // ----------------------------------------------------------- substitution

  /** `substitute`: a text `$name` naming a declared argument becomes its
      value; anything else is kept. */
  function Subst(values: map<string, Value>, v: Value): (r: Value)
    ensures !(v.Str? && Prefix("$", v.s)) ==> r == v
    ensures v.Str? && Prefix("$", v.s) && v.s[1..] !in values ==> r == v
    ensures v.Str? && Prefix("$", v.s) && v.s[1..] in values ==> r == values[v.s[1..]]
  {
    if v.Str? && Prefix("$", v.s) && v.s[1..] in values then values[v.s[1..]] else v
  }

  function SubstArg(values: map<string, Value>, a: Arg): Arg
  {
    match a
    case One(v) => One(Subst(values, v))
    case Many(vs) => Many(seq(|vs|, i requires 0 <= i < |vs| => Subst(values, vs[i])))
  }

  /** `substitute_dict` on a map of arguments. */
  function SubstMap(values: map<string, Value>, m: map<string, Arg>): (r: map<string, Arg>)
    ensures r.Keys == m.Keys
  {
    map k | k in m :: SubstArg(values, m[k])
  }

  /** `substitute_dict` on a command: the name, the arguments, and for an
      `if` its condition (kind and parameters) and every nested command. */
  function SubstCmd(values: map<string, Value>, c: Cmd): (r: Cmd)
    ensures r.Call? == c.Call?
    ensures r.IfCmd? ==> |r.onTrue| == |c.onTrue| && |r.onFalse| == |c.onFalse|
  {
    match c
    case Call(name, kargs) => Call(Subst(values, name), SubstMap(values, kargs))
    case IfCmd(cond, t, o) =>
      IfCmd(Cond(Subst(values, cond.kind), SubstMap(values, cond.params)),
            seq(|t|, i requires 0 <= i < |t| => SubstCmd(values, t[i])),
            seq(|o|, i requires 0 <= i < |o| => SubstCmd(values, o[i])))
  }

  /** `n` substitution passes over one value. */
  function Iter(values: map<string, Value>, v: Value, n: nat): Value
  {
    if n == 0 then v else Subst(values, Iter(values, v, n - 1))
  }

  function IterArg(values: map<string, Value>, a: Arg, n: nat): Arg
  {
    match a
    case One(v) => One(Iter(values, v, n))
    case Many(vs) => Many(seq(|vs|, i requires 0 <= i < |vs| => Iter(values, vs[i], n)))
  }

  function IterMap(values: map<string, Value>, m: map<string, Arg>, n: nat): (r: map<string, Arg>)
    ensures r.Keys == m.Keys
  {
    map k | k in m :: IterArg(values, m[k], n)
  }

  // ----------------------------------------------------- decoding, as written

  /** The error of decoding a plain call named `if`: its arguments hold no
      condition (KeyError), or one that is not a mapping (AttributeError). */
  function IfCallError(kargs: map<string, Arg>): Failure
  {
    if "condition" in kargs then AttributeError else KeyError
  }

  /** `decode_command` as written, on a command that enclosing `if`s have
      already passed through `substitute_dict` `n` times: each `if`
      substitutes its whole subtree once more before decoding the nested
      commands, so a command at depth `n` has its arguments substituted
      `n + 1` times and its name `n` times. */
  function DecodeAt(values: map<string, Value>, c: Cmd, n: nat): (r: Result<Cmd>)
    decreases c, 0
  {
    match c
    case Call(name, kargs) =>
      var name' := Iter(values, name, n);
      var kargs' := IterMap(values, kargs, n + 1);
      if name' == Str("if") then Err(IfCallError(kargs')) else Ok(Call(name', kargs'))
    case IfCmd(cond, t, o) =>
      var cond' := Cond(Iter(values, cond.kind, n + 1), IterMap(values, cond.params, n + 2));
      match DecodeAllAt(values, t, 0, n + 1)
      case Err(e) => Err(e)
      case Ok(t') =>
        match DecodeAllAt(values, o, 0, n + 1)
        case Err(e) => Err(e)
        case Ok(o') => Ok(IfCmd(cond', t', o'))
  }

  /** The commands of `cs` from position `i`, decoded in order; the first
      failure stops the list. */
  function DecodeAllAt(values: map<string, Value>, cs: seq<Cmd>, i: nat, n: nat): (r: Result<seq<Cmd>>)
    requires i <= |cs|
    ensures r.Ok? ==> |r.value| == |cs| - i
    decreases cs, |cs| - i
  {
    if i == |cs| then Ok([])
    else
      match DecodeAt(values, cs[i], n)
      case Err(e) => Err(e)
      case Ok(c) =>
        match DecodeAllAt(values, cs, i + 1, n)
        case Err(e) => Err(e)
        case Ok(rest) => Ok([c] + rest)
  }

  /** As written, a branch decodes command by command at its depth, and
      fails iff one command does. */
  lemma {:induction false} DecodeAllAtEach(values: map<string, Value>, cs: seq<Cmd>, i: nat, n: nat)
    requires i <= |cs|
    ensures var r := DecodeAllAt(values, cs, i, n);
      && (r.Ok? ==> forall j :: i <= j < |cs| ==> DecodeAt(values, cs[j], n) == Ok(r.value[j - i]))
      && (r.Err? ==> exists j :: i <= j < |cs| && DecodeAt(values, cs[j], n).Err?)
    decreases |cs| - i
  {
    if i < |cs| && DecodeAt(values, cs[i], n).Ok? {
      DecodeAllAtEach(values, cs, i + 1, n);
    }
  }

  lemma {:induction false} IterShift(values: map<string, Value>, v: Value, n: nat)
    ensures Iter(values, Subst(values, v), n) == Iter(values, v, n + 1)
    decreases n
  {
    if n > 0 {
      IterShift(values, v, n - 1);
    }
  }

  lemma IterMapShift(values: map<string, Value>, m: map<string, Arg>, n: nat)
    ensures IterMap(values, SubstMap(values, m), n) == IterMap(values, m, n + 1)
  {
    forall k | k in m
      ensures IterArg(values, SubstArg(values, m[k]), n) == IterArg(values, m[k], n + 1)
    {
      match m[k]
      case One(v) => IterShift(values, v, n);
      case Many(vs) =>
        forall i | 0 <= i < |vs| {
          IterShift(values, vs[i], n);
        }
    }
  }

  /** The closed form above is the code's recursion: decoding a nested
      command after one more `substitute_dict` pass over it is decoding it
      one level deeper. */
  lemma {:induction false} PassShifts(values: map<string, Value>, c: Cmd, n: nat)
    ensures DecodeAt(values, SubstCmd(values, c), n) == DecodeAt(values, c, n + 1)
    decreases c, 0
  {
    match c
    case Call(name, kargs) =>
      CallShifts(values, name, kargs, n);
    case IfCmd(cond, t, o) =>
      var s := SubstCmd(values, c);
      PassShiftsAll(values, t, s.onTrue, 0, n + 1);
      PassShiftsAll(values, o, s.onFalse, 0, n + 1);
      IfShifts(values, c, n);
  }

  /** `PassShifts` on a plain call. */
  lemma CallShifts(values: map<string, Value>, name: Value, kargs: map<string, Arg>, n: nat)
    ensures DecodeAt(values, SubstCmd(values, Call(name, kargs)), n) == DecodeAt(values, Call(name, kargs), n + 1)
  {
    IterShift(values, name, n);
    IterMapShift(values, kargs, n + 1);
  }

  /** `PassShifts` on an `if`, given that it holds for both branches. */
  lemma IfShifts(values: map<string, Value>, c: Cmd, n: nat)
    requires c.IfCmd?
    requires var s := SubstCmd(values, c);
      && DecodeAllAt(values, s.onTrue, 0, n + 1) == DecodeAllAt(values, c.onTrue, 0, n + 2)
      && DecodeAllAt(values, s.onFalse, 0, n + 1) == DecodeAllAt(values, c.onFalse, 0, n + 2)
    ensures DecodeAt(values, SubstCmd(values, c), n) == DecodeAt(values, c, n + 1)
  {
    IterShift(values, c.cond.kind, n + 1);
    IterMapShift(values, c.cond.params, n + 2);
  }

  lemma {:induction false} PassShiftsAll(values: map<string, Value>, cs: seq<Cmd>, ss: seq<Cmd>, i: nat, n: nat)
    requires i <= |cs| == |ss| && forall j :: 0 <= j < |cs| ==> ss[j] == SubstCmd(values, cs[j])
    ensures DecodeAllAt(values, ss, i, n) == DecodeAllAt(values, cs, i, n + 1)
    decreases cs, |cs| - i
  {
    if i < |cs| {
      PassShifts(values, cs[i], n);
      PassShiftsAll(values, cs, ss, i + 1, n);
    }
  }

  // ------------------------------------------------------ decoding, intended

  /** `decode_command` as intended: every argument and condition parameter
      substituted exactly once, whatever the depth, names and condition
      kinds kept. */
  function Decode(values: map<string, Value>, c: Cmd): (r: Result<Cmd>)
    ensures r.Ok? ==> r.value.Call? == c.Call?
    decreases c, 0
  {
    match c
    case Call(name, kargs) =>
      if name == Str("if") then Err(IfCallError(kargs)) else Ok(Call(name, SubstMap(values, kargs)))
    case IfCmd(cond, t, o) =>
      match DecodeAll(values, t, 0)
      case Err(e) => Err(e)
      case Ok(t') =>
        match DecodeAll(values, o, 0)
        case Err(e) => Err(e)
        case Ok(o') => Ok(IfCmd(Cond(cond.kind, SubstMap(values, cond.params)), t', o'))
  }

  function DecodeAll(values: map<string, Value>, cs: seq<Cmd>, i: nat): (r: Result<seq<Cmd>>)
    requires i <= |cs|
    ensures r.Ok? ==> |r.value| == |cs| - i
    ensures r.Ok? ==> forall j :: i <= j < |cs| ==> Decode(values, cs[j]) == Ok(r.value[j - i])
    ensures r.Err? ==> exists j :: i <= j < |cs| && Decode(values, cs[j]).Err?
    decreases cs, |cs| - i
  {
    if i == |cs| then Ok([])
    else
      match Decode(values, cs[i])
      case Err(e) => Err(e)
      case Ok(c) =>
        match DecodeAll(values, cs, i + 1)
        case Err(e) => Err(e)
        case Ok(rest) => Ok([c] + rest)
  }

  /** Decoding does not depend on depth: a command nested in an `if`
      decodes exactly as it would at the top of a page. */
  lemma NestingInvariant(values: map<string, Value>, cond: Cond, c: Cmd)
    ensures var r := Decode(values, IfCmd(cond, [c], []));
      (r.Ok? <==> Decode(values, c).Ok?) && (r.Ok? ==> r.value.onTrue == [Decode(values, c).value])
  {
    var r := DecodeAll(values, [c], 0);
    if r.Ok? {
      assert Decode(values, [c][0]) == Ok(r.value[0]);
    }
  }

  /** The code as written breaks that: with `a` declared as the text "$b"
      and `b` as 5, `$a` decodes to "$b" at the top of a page but to 5
      inside an `if`. */
  lemma RepeatedSubstitution()
    ensures var values := map["a" := Str("$b"), "b" := Int(5)];
      var c := Call(Str("wait"), map["time" := One(Str("$a"))]);
      var cond := Cond(Str("True"), map[]);
      && DecodeCommand(values, c, AsWritten) == Ok(Call(Str("wait"), map["time" := One(Str("$b"))]))
      && DecodeCommand(values, IfCmd(cond, [c], []), AsWritten).Ok?
      && DecodeCommand(values, IfCmd(cond, [c], []), AsWritten).value.onTrue
           == [Call(Str("wait"), map["time" := One(Int(5))])]
  {
    var values := map["a" := Str("$b"), "b" := Int(5)];
    var c := Call(Str("wait"), map["time" := One(Str("$a"))]);
    assert Prefix("$", "$a") && "$a"[1..] == "a";
    assert Prefix("$", "$b") && "$b"[1..] == "b";
    assert "wait"[..1] == "w";
    assert Iter(values, Str("$a"), 1) == Str("$b");
    assert Iter(values, Str("$a"), 2) == Int(5);
    assert IterMap(values, map["time" := One(Str("$a"))], 1) == map["time" := One(Str("$b"))];
    assert IterMap(values, map["time" := One(Str("$a"))], 2) == map["time" := One(Int(5))];
    assert Iter(values, Str("wait"), 1) == Str("wait");
    assert DecodeAllAt(values, [c], 1, 1) == Ok([]);
    assert DecodeAt(values, c, 1) == Ok(Call(Str("wait"), map["time" := One(Int(5))]));
  }

  /** A value substitution leaves alone: anything but a `$` text. */
  predicate Plain(v: Value)
  {
    !(v.Str? && Prefix("$", v.s))
  }

  /** No declared value is itself a `$` text. */
  predicate Closed(values: map<string, Value>)
  {
    forall k :: k in values ==> Plain(values[k])
  }

  /** No command name or condition kind in `c` is a `$` text. */
  ghost predicate PlainNames(c: Cmd)
    decreases c
  {
    match c
    case Call(name, _) => Plain(name)
    case IfCmd(cond, t, o) =>
      Plain(cond.kind) && (forall x | x in t :: PlainNames(x)) && (forall x | x in o :: PlainNames(x))
  }

  lemma {:induction false} IterClosed(values: map<string, Value>, v: Value, n: nat)
    requires Closed(values) && n >= 1
    ensures Iter(values, v, n) == Subst(values, v)
    decreases n
  {
    if n > 1 {
      IterClosed(values, v, n - 1);
    }
  }

  lemma {:induction false} IterPlain(values: map<string, Value>, v: Value, n: nat)
    requires Plain(v)
    ensures Iter(values, v, n) == v
    decreases n
  {
    if n > 0 {
      IterPlain(values, v, n - 1);
    }
  }

  lemma IterMapClosed(values: map<string, Value>, m: map<string, Arg>, n: nat)
    requires Closed(values) && n >= 1
    ensures IterMap(values, m, n) == SubstMap(values, m)
  {
    forall k | k in m
      ensures IterArg(values, m[k], n) == SubstArg(values, m[k])
    {
      match m[k]
      case One(v) => IterClosed(values, v, n);
      case Many(vs) =>
        forall i | 0 <= i < |vs| {
          IterClosed(values, vs[i], n);
        }
    }
  }

  /** When no declared value is a `$` text and no name or condition kind
      is one, repeated substitution is harmless: the code as written and
      the intended decoding agree at every depth. */
  lemma {:induction false} AgreeWhenClosed(values: map<string, Value>, c: Cmd, n: nat)
    requires Closed(values) && PlainNames(c)
    ensures DecodeAt(values, c, n) == Decode(values, c)
    decreases c, 0
  {
    match c
    case Call(name, kargs) =>
      IterPlain(values, name, n);
      IterMapClosed(values, kargs, n + 1);
    case IfCmd(cond, t, o) =>
      AgreeAll(values, t, 0, n + 1);
      AgreeAll(values, o, 0, n + 1);
      AgreeIf(values, c, n);
  }

  /** `AgreeWhenClosed` on an `if`, given that it holds for both branches. */
  lemma AgreeIf(values: map<string, Value>, c: Cmd, n: nat)
    requires Closed(values) && PlainNames(c) && c.IfCmd?
    requires DecodeAllAt(values, c.onTrue, 0, n + 1) == DecodeAll(values, c.onTrue, 0)
    requires DecodeAllAt(values, c.onFalse, 0, n + 1) == DecodeAll(values, c.onFalse, 0)
    ensures DecodeAt(values, c, n) == Decode(values, c)
  {
    IterPlain(values, c.cond.kind, n + 1);
    IterMapClosed(values, c.cond.params, n + 2);
  }

  lemma {:induction false} AgreeAll(values: map<string, Value>, cs: seq<Cmd>, i: nat, n: nat)
    requires i <= |cs| && Closed(values) && forall x | x in cs :: PlainNames(x)
    ensures DecodeAllAt(values, cs, i, n) == DecodeAll(values, cs, i)
    decreases cs, |cs| - i
  {
    if i < |cs| {
      assert cs[i] in cs;
      AgreeWhenClosed(values, cs[i], n);
      AgreeAll(values, cs, i + 1, n);
    }
  }

  // ------------------------------------------------------------------ pages

  /** A page as parsed: its condition line is optional. */
  datatype Page = Page(condition: Option<Cond>, commands: seq<Cmd>)

  /** A decoded page. */
  datatype AIPage = AIPage(condition: Cond, commands: seq<Cmd>)

  /** One command at the top of a page: `decode_command` as the code
      stands, or the corrected single substitution. */
  function DecodeCommand(values: map<string, Value>, c: Cmd, how: Reading): Result<Cmd>
  {
    if how == AsWritten then DecodeAt(values, c, 0) else Decode(values, c)
  }

  /** The commands of a page, decoded in order under either reading. */
  function DecodeCommands(values: map<string, Value>, cs: seq<Cmd>, how: Reading): (r: Result<seq<Cmd>>)
    ensures r.Ok? <==> forall j :: 0 <= j < |cs| ==> DecodeCommand(values, cs[j], how).Ok?
    ensures r.Ok? ==> |r.value| == |cs| && forall j :: 0 <= j < |cs| ==> DecodeCommand(values, cs[j], how) == Ok(r.value[j])
  {
    if how == AsWritten then
      DecodeAllAtEach(values, cs, 0, 0);
      DecodeAllAt(values, cs, 0, 0)
    else DecodeAll(values, cs, 0)
  }

  /** One page: a page without a condition fails with KeyError; the
      condition's parameters are substituted once and the commands are
      decoded under the chosen reading. */
  function DecodePage(values: map<string, Value>, p: Page, how: Reading): (r: Result<AIPage>)
    ensures r.Ok? <==> p.condition.Some? && forall j :: 0 <= j < |p.commands| ==> DecodeCommand(values, p.commands[j], how).Ok?
    ensures p.condition.None? ==> r == Err(KeyError)
    ensures r.Ok? ==> && r.value.condition == Cond(p.condition.value.kind, SubstMap(values, p.condition.value.params))
                      && |r.value.commands| == |p.commands|
                      && forall j :: 0 <= j < |p.commands| ==> DecodeCommand(values, p.commands[j], how) == Ok(r.value.commands[j])
  {
    if p.condition.None? then Err(KeyError)
    else
      var cond := p.condition.value;
      match DecodeCommands(values, p.commands, how)
      case Err(e) => Err(e)
      case Ok(cmds) => Ok(AIPage(Cond(cond.kind, SubstMap(values, cond.params)), cmds))
  }

  /** All pages in order; the first failing page fails the script. */
  function DecodePages(values: map<string, Value>, pages: seq<Page>, how: Reading): (r: Result<seq<AIPage>>)
    ensures r.Ok? <==> forall j :: 0 <= j < |pages| ==> DecodePage(values, pages[j], how).Ok?
    ensures r.Ok? ==> |r.value| == |pages| && forall j :: 0 <= j < |pages| ==> DecodePage(values, pages[j], how) == Ok(r.value[j])
  {
    DecodePagesFrom(values, pages, 0, how)
  }

  /** The pages from position `i` on. */
  function DecodePagesFrom(values: map<string, Value>, pages: seq<Page>, i: nat, how: Reading): (r: Result<seq<AIPage>>)
    requires i <= |pages|
    ensures r.Ok? <==> forall j :: i <= j < |pages| ==> DecodePage(values, pages[j], how).Ok?
    ensures r.Ok? ==> |r.value| == |pages| - i && forall j :: i <= j < |pages| ==> DecodePage(values, pages[j], how) == Ok(r.value[j - i])
    decreases |pages| - i
  {
    if i == |pages| then Ok([])
    else
      match DecodePage(values, pages[i], how)
      case Err(e) => Err(e)
      case Ok(p) =>
        match DecodePagesFrom(values, pages, i + 1, how)
        case Err(e) => Err(e)
        case Ok(rest) => Ok([p] + rest)
  }

  /** `decode_ai_script_dict`: the argument values first, then the pages. */
  function DecodeScript(decls: map<string, ArgDecl>, provided: map<string, Given>, pages: seq<Page>, how: Reading)
    : (r: Result<seq<AIPage>>)
    ensures ValuesOf(decls, provided).Err? ==> r == Err(ValueError)
    ensures ValuesOf(decls, provided).Ok? ==> r == DecodePages(ValuesOf(decls, provided).value, pages, how)
  {
    match ValuesOf(decls, provided)
    case Err(e) => Err(e)
    case Ok(values) => DecodePages(values, pages, how)
  }

  /** No command of any page names a `$` text as its command or condition
      kind. */
  ghost predicate PlainPages(pages: seq<Page>)
  {
    forall j, x :: 0 <= j < |pages| && x in pages[j].commands ==> PlainNames(x)
  }

  /** When no declared value is itself `$` text, the code as written and
      the corrected decode give the same pages, failures included. */
  lemma {:induction false} PagesAgreeWhenClosed(values: map<string, Value>, pages: seq<Page>, i: nat)
    requires i <= |pages| && Closed(values) && PlainPages(pages)
    ensures DecodePagesFrom(values, pages, i, AsWritten) == DecodePagesFrom(values, pages, i, Corrected)
    decreases |pages| - i
  {
    if i < |pages| {
      AgreeAll(values, pages[i].commands, 0, 0);
      assert DecodeCommands(values, pages[i].commands, AsWritten) == DecodeCommands(values, pages[i].commands, Corrected);
      PagesAgreeWhenClosed(values, pages, i + 1);
    }
  }

  /** The same for a whole script, whose argument values come from its
      declarations and the caller. */
  lemma ScriptsAgreeWhenClosed(decls: map<string, ArgDecl>, provided: map<string, Given>, pages: seq<Page>)
    requires ValuesOf(decls, provided).Ok? ==> Closed(ValuesOf(decls, provided).value)
    requires PlainPages(pages)
    ensures DecodeScript(decls, provided, pages, AsWritten) == DecodeScript(decls, provided, pages, Corrected)
  {
    if ValuesOf(decls, provided).Ok? {
      PagesAgreeWhenClosed(ValuesOf(decls, provided).value, pages, 0);
    }
  }

  /** Across a whole page the two readings part: with a = "$b" and b = 5,
      a page whose `if` holds `wait $a` waits for "$b" when corrected and
      for 5 as written. */
  lemma PageDivergence()
    ensures var values := map["a" := Str("$b"), "b" := Int(5)];
      var cond := Cond(Str("True"), map[]);
      var wait := Call(Str("wait"), map["time" := One(Str("$a"))]);
      var p := Page(Some(cond), [IfCmd(cond, [wait], [])]);
      && DecodePage(values, p, AsWritten).Ok? && DecodePage(values, p, Corrected).Ok?
      && DecodePage(values, p, AsWritten).value.commands[0].onTrue == [Call(Str("wait"), map["time" := One(Int(5))])]
      && DecodePage(values, p, Corrected).value.commands[0].onTrue == [Call(Str("wait"), map["time" := One(Str("$b"))])]
  {
    var values := map["a" := Str("$b"), "b" := Int(5)];
    var cond := Cond(Str("True"), map[]);
    var wait := Call(Str("wait"), map["time" := One(Str("$a"))]);
    RepeatedSubstitution();
    assert Prefix("$", "$a") && "$a"[1..] == "a";
    assert "True"[..1] == "T";
    assert "wait"[..1] == "w";
    assert SubstMap(values, map["time" := One(Str("$a"))]) == map["time" := One(Str("$b"))];
    assert "wait"[0] != "if"[0];
    assert Decode(values, wait) == Ok(Call(Str("wait"), map["time" := One(Str("$b"))]));
    assert DecodeAll(values, [wait], 1) == Ok([]);
    assert [wait][0] == wait;
    assert [Call(Str("wait"), map["time" := One(Str("$b"))])] + [] == [Call(Str("wait"), map["time" := One(Str("$b"))])];
    assert DecodeAll(values, [wait], 0) == Ok([Call(Str("wait"), map["time" := One(Str("$b"))])]);
  }
}

=== FILE: ai_logic.dfy ===
/** The page state machine of `AIPageLogic.__call__`
    (game_libs/ecs_core/ai/components.py). Each page has a condition and a
    list of commands; every frame the first page whose condition holds
    becomes active, and the active page runs one command. Condition
    outcomes and the command's return value come from the runtime, so they
    are inputs here. */
module AILogic {
  import opened Wrappers

  /** `current_page` (-1 when no page applies) and `command_index`. */
  datatype Logic = Logic(page: int, index: nat)

  const Initial := Logic(0, 0)

  /** `next((i for ... if condition), -1)`. */
  function FirstTrue(conds: seq<bool>): (r: int)
    ensures -1 <= r < |conds|
    ensures r == -1 <==> forall j :: 0 <= j < |conds| ==> !conds[j]
    ensures r >= 0 ==> conds[r] && forall j :: 0 <= j < r ==> !conds[j]
  {
    if |conds| == 0 then -1
    else if conds[0] then 0
    else
      var r := FirstTrue(conds[1..]);
      assert forall j :: 1 <= j < |conds| ==> conds[j] == conds[1..][j - 1];
      if r == -1 then -1 else r + 1
  }

  /** One frame: the new state and the index of the command run, if any.
      `commands[p]` is the number of commands on page `p`, `conds[p]` its
      condition this frame, `result` what the command run returns. */
  datatype Frame = Frame(logic: Logic, ran: Option<nat>)

  function Step(l: Logic, commands: seq<nat>, conds: seq<bool>, result: int): (r: Frame)
    requires |conds| == |commands|
    ensures r.logic.page == FirstTrue(conds)
    ensures r.logic.page != l.page ==> r.ran == (if r.logic.page >= 0 && commands[r.logic.page] > 0 then Some(0) else None)
    ensures r.logic.page == -1 ==> r.ran.None? && r.logic.index == (if l.page == -1 then l.index else 0)
    ensures r.ran.Some? ==> 0 <= r.logic.page && r.ran.value < commands[r.logic.page]
    ensures r.ran.Some? ==> r.logic.index == if result == 1 then r.ran.value + 1 else r.ran.value
    ensures r.logic.page >= 0 && r.ran.None? ==> r.logic.index == 0
    ensures r.logic.page == l.page >= 0 ==>
      r.ran == (if l.index < commands[l.page] then Some(l.index) else None)
  {
    var active := FirstTrue(conds);
    var index := if active != l.page then 0 else l.index;
    if active == -1 then Frame(Logic(active, index), None)
    else if index < commands[active] then
      Frame(Logic(active, if result == 1 then index + 1 else index), Some(index))
    else Frame(Logic(active, 0), None)
  }

  /** The command index is at most the length of the active page (equal
      to it one frame after the last command finished), and 0 when no page
      is active. */
  ghost predicate Valid(l: Logic, commands: seq<nat>)
  {
    (l.page == -1 && l.index == 0) || (0 <= l.page < |commands| && l.index <= commands[l.page]) || l == Initial
  }

  lemma StepValid(l: Logic, commands: seq<nat>, conds: seq<bool>, result: int)
    requires |conds| == |commands| && Valid(l, commands)
    ensures Valid(Step(l, commands, conds, result).logic, commands)
  {
  }

  /** Frames with the same conditions and command results. */
  function Run(l: Logic, commands: seq<nat>, conds: seq<bool>, results: seq<int>): (r: Logic)
    requires |conds| == |commands|
    decreases |results|
  {
    if |results| == 0 then l
    else Run(Step(l, commands, conds, results[0]).logic, commands, conds, results[1..])
  }

  /** On a page that stays active and whose commands all finish at once,
      the commands run in order and the index wraps to 0 one frame after
      the last. */
  lemma {:induction false} RunsInOrder(commands: seq<nat>, conds: seq<bool>, k: nat, n: nat)
    requires |conds| == |commands|
    requires var p := FirstTrue(conds); p >= 0 && commands[p] == n && k <= n
    ensures var p := FirstTrue(conds);
      Run(Logic(p, 0), commands, conds, seq(k, _ => 1)) == Logic(p, k)
    ensures var p := FirstTrue(conds);
      k == n ==> Run(Logic(p, 0), commands, conds, seq(n + 1, _ => 1)) == Logic(p, 0)
    decreases k
  {
    var p := FirstTrue(conds);
    if k > 0 {
      RunsInOrder(commands, conds, k - 1, n);
      RunSplit(Logic(p, 0), commands, conds, seq(k - 1, _ => 1), [1]);
      assert seq(k - 1, _ => 1) + [1] == seq(k, _ => 1);
    }
    if k == n {
      RunSplit(Logic(p, 0), commands, conds, seq(n, _ => 1), [1]);
      assert seq(n, _ => 1) + [1] == seq(n + 1, _ => 1);
    }
  }

  /** The commands run over a stretch of frames, one entry per frame. */
  function Trace(l: Logic, commands: seq<nat>, conds: seq<bool>, results: seq<int>): (r: seq<Option<nat>>)
    requires |conds| == |commands|
    ensures |r| == |results|
    decreases |results|
  {
    if |results| == 0 then []
    else
      var f := Step(l, commands, conds, results[0]);
      [f.ran] + Trace(f.logic, commands, conds, results[1..])
  }

  /** On a page that stays active and whose commands all finish at once,
      the frames run commands j, j+1, ... in turn. */
  lemma {:induction false} TraceInOrder(commands: seq<nat>, conds: seq<bool>, j: nat, k: nat)
    requires |conds| == |commands|
    requires var p := FirstTrue(conds); p >= 0 && j + k <= commands[p]
    ensures var p := FirstTrue(conds);
      Trace(Logic(p, j), commands, conds, seq(k, _ => 1)) == seq(k, i => Some(j + i))
    decreases k
  {
    if k > 0 {
      TraceInOrder(commands, conds, j + 1, k - 1);
      assert seq(k, _ => 1)[1..] == seq(k - 1, _ => 1);
      assert seq(k, i => Some(j + i)) == [Some(j)] + seq(k - 1, i => Some(j + 1 + i));
    }
  }

  /** Once the last command of such a page has run, one frame runs nothing
      and the page starts again from command 0. */
  lemma {:induction false} TraceWraps(commands: seq<nat>, conds: seq<bool>, j: nat, k: nat)
    requires |conds| == |commands|
    requires var p := FirstTrue(conds); p >= 0 && j + k == commands[p]
    ensures var p := FirstTrue(conds);
      Trace(Logic(p, j), commands, conds, seq(k + 2, _ => 1)) == seq(k, i => Some(j + i)) + [None, if k + j > 0 then Some(0) else None]
    decreases k
  {
    var p := FirstTrue(conds);
    if k > 0 {
      TraceWraps(commands, conds, j + 1, k - 1);
      assert seq(k + 2, _ => 1)[1..] == seq(k + 1, _ => 1);
      var tail := [None, if k + j > 0 then Some(0) else None];
      assert seq(k, i => Some(j + i)) + tail == [Some(j)] + (seq(k - 1, i => Some(j + 1 + i)) + tail);
    } else {
      var ones := seq(2, _ => 1);
      assert ones[1..] == [1] && ones[1..][1..] == [];
      assert Step(Logic(p, j), commands, conds, 1) == Frame(Logic(p, 0), None);
      assert Trace(Logic(p, j), commands, conds, ones) == [None] + Trace(Logic(p, 0), commands, conds, [1]);
    }
  }

  lemma {:induction false} RunSplit(l: Logic, commands: seq<nat>, conds: seq<bool>, a: seq<int>, b: seq<int>)
    requires |conds| == |commands|
    ensures Run(l, commands, conds, a + b) == Run(Run(l, commands, conds, a), commands, conds, b)
    decreases |a|
  {
    if |a| == 0 {
      assert a + b == b;
    } else {
      assert (a + b)[0] == a[0] && (a + b)[1..] == a[1..] + b;
      RunSplit(Step(l, commands, conds, a[0]).logic, commands, conds, a[1..], b);
    }
  }
}

=== FILE: ai_script.dfy ===
/** The AI script command parser (game_libs/ecs_core/ai/components.py):
    literal casting of arguments, one command line, and an indented block
    of commands with nested `if` / `else:` blocks. Conditions are parsed
    by `parse_condition`, which stays abstract: the block parser takes it
    as a parameter. */
module AIScript {
  import opened Wrappers
  import opened Text

  /** The Python values an argument can take (`None` included, since a
      declared argument without value substitutes to `None`). */
  datatype Value = Null | Bool(b: bool) | Int(i: int) | Float(x: real) | Str(s: string)

  /** A keyword argument: a scalar, or the list gathered under `args`. */
  datatype Arg = One(v: Value) | Many(vs: seq<Value>)

  // ---------------------------------------------------------------- numbers

  function DigitValue(c: char): nat
    requires IsDigit(c)
  {
    c as int - '0' as int
  }

  predicate DigitsOrUnderscores(s: string)
  {
    forall k :: 0 <= k < |s| ==> IsDigit(s[k]) || s[k] == '_'
  }

  /** Digits with single underscores between them, the digit groups that
      `int()` and `float()` accept. */
  predicate DigitGroup(s: string)
  {
    && |s| > 0 && IsDigit(s[0]) && IsDigit(s[|s| - 1]) && DigitsOrUnderscores(s)
    && (forall k :: 0 <= k < |s| - 1 && s[k] == '_' ==> IsDigit(s[k + 1]))
  }

  /** The number the digits spell, underscores ignored. */
  function GroupValue(s: string): nat
    requires DigitsOrUnderscores(s)
    decreases |s|
  {
    if |s| == 0 then 0
    else if s[|s| - 1] == '_' then GroupValue(s[..|s| - 1])
    else 10 * GroupValue(s[..|s| - 1]) + DigitValue(s[|s| - 1])
  }

  /** How many digits the group holds. */
  function DigitCount(s: string): nat
    requires DigitsOrUnderscores(s)
    decreases |s|
  {
    if |s| == 0 then 0
    else (if s[|s| - 1] == '_' then 0 else 1) + DigitCount(s[..|s| - 1])
  }

  /** A leading `+` or `-`. */
  function Sign(t: string): (r: (int, string))
    ensures r.0 == 1 || r.0 == -1
    ensures |r.1| <= |t|
  {
    if |t| > 0 && t[0] == '-' then (-1, t[1..])
    else if |t| > 0 && t[0] == '+' then (1, t[1..])
    else (1, t)
  }

  /** `int(s)` on a string: surrounding whitespace without information
      separators, an optional sign and a digit group. */
  function ParseInt(s: string): Option<int>
  {
    var (sign, digits) := Sign(Strip(s));
    if NumberMargins(s) && DigitGroup(digits) then Some(sign * GroupValue(digits)) else None
  }

  function Pow10(n: nat): (r: real)
    ensures r >= 1.0
  {
    if n == 0 then 1.0 else 10.0 * Pow10(n - 1)
  }

  /** Index of the first character from `cs`, or `|s|`. */
  function Find(s: string, cs: set<char>): (r: nat)
    ensures r <= |s| && (r < |s| ==> s[r] in cs) && forall k :: 0 <= k < r ==> s[k] !in cs
  {
    if |s| == 0 || s[0] in cs then 0 else 1 + Find(s[1..], cs)
  }

  /** A decimal mantissa: digits, digits with a fraction, or a bare fraction. */
  function Mantissa(m: string): Option<real>
  {
    var dot := Find(m, {'.'});
    if dot == |m| then
      if DigitGroup(m) then Some(GroupValue(m) as real) else None
    else
      var ip, fp := m[..dot], m[dot + 1..];
      if (ip == "" || DigitGroup(ip)) && (fp == "" || DigitGroup(fp)) && !(ip == "" && fp == "") then
        var i := if ip == "" then 0 else GroupValue(ip);
        var f := if fp == "" then 0 else GroupValue(fp);
        var n := if fp == "" then 0 else DigitCount(fp);
        Some(i as real + f as real / Pow10(n))
      else None
  }

  /** `float(s)` on a string: the margins `int()` accepts, a sign, a
      mantissa and an optional exponent. */
  function ParseFloat(s: string): Option<real>
  {
    if !NumberMargins(s) then None else
    var (sign, body) := Sign(Strip(s));
    var e := Find(body, {'e', 'E'});
    match Mantissa(body[..e])
    case None => None
    case Some(m) =>
      if e == |body| then Some(sign as real * m)
      else
        var (esign, digits) := Sign(body[e + 1..]);
        if !DigitGroup(digits) then None
        else
          var scale := Pow10(GroupValue(digits));
          Some(if esign == 1 then sign as real * m * scale else sign as real * m / scale)
  }

  /** `_try_cast_number`: a float when the text has a dot, else an int, else
      the text itself. */
  function TryCastNumber(val: string): (r: Value)
    ensures r.Int? || r.Float? || r.Str?
    ensures r.Int? ==> '.' !in val && ParseInt(val) == Some(r.i)
    ensures r.Float? ==> '.' in val && ParseFloat(val) == Some(r.x)
    ensures r.Str? ==> r.s == val && (if '.' in val then ParseFloat(val).None? else ParseInt(val).None?)
  {
    if '.' in val then
      match ParseFloat(val)
      case Some(x) => Float(x)
      case None => Str(val)
    else
      match ParseInt(val)
      case Some(i) => Int(i)
      case None => Str(val)
  }

  /** `_try_cast_literal`: "true" and "false" in any case are booleans,
      everything else goes through `TryCastNumber`. */
  function TryCastLiteral(val: string): (r: Value)
    ensures r.Bool? <==> Lower(val) == "true" || Lower(val) == "false"
    ensures r.Bool? ==> r.b == (Lower(val) == "true")
    ensures !r.Bool? ==> r == TryCastNumber(val)
  {
    var lowered := Lower(val);
    if lowered == "true" || lowered == "false" then Bool(lowered == "true") else TryCastNumber(val)
  }

  lemma {:induction false} DecimalGroup(n: nat)
    ensures DigitGroup(DecimalText(n)) && GroupValue(DecimalText(n)) == n
    decreases n
  {
    var r := DecimalText(n);
    if n >= 10 {
      DecimalGroup(n / 10);
      assert r[..|r| - 1] == DecimalText(n / 10);
    }
  }

  /** Text that starts with a digit or a sign is not a boolean literal. */
  lemma NotBoolText(t: string)
    requires |t| > 0 && (IsDigit(t[0]) || t[0] == '-')
    ensures Lower(t) != "true" && Lower(t) != "false"
  {
    assert Lower(t)[0] == t[0];
  }

  /** `int()` reads decimal text back, with or without a minus. */
  lemma DecimalParses(n: nat)
    ensures ParseInt(DecimalText(n)) == Some(n)
    ensures ParseInt("-" + DecimalText(n)) == Some(-(n as int))
  {
    var t := DecimalText(n);
    DecimalGroup(n);
    assert Sign(t) == (1, t);
    TrimmedParses(t, 1, t);
    var u := "-" + t;
    assert u[1..] == t;
    assert Sign(u) == (-1, t);
    TrimmedParses(u, -1, t);
  }

  /** Text with no whitespace at either end parses as its sign and digits. */
  lemma TrimmedParses(s: string, sign: int, digits: string)
    requires |s| > 0 && !IsSpace(s[0]) && !IsSpace(s[|s| - 1])
    requires Sign(s) == (sign, digits) && DigitGroup(digits)
    ensures ParseInt(s) == Some(sign * GroupValue(digits))
  {
    StripTrimmed(s);
  }

  /** Decimal integers cast back to themselves, with or without a minus. */
  lemma IntLiteralRoundTrip(n: nat)
    ensures TryCastLiteral(DecimalText(n)) == Int(n)
    ensures TryCastLiteral("-" + DecimalText(n)) == Int(-(n as int))
  {
    PositiveLiteral(n);
    NegativeLiteral(n);
  }

  lemma PositiveLiteral(n: nat)
    ensures TryCastLiteral(DecimalText(n)) == Int(n)
  {
    var t := DecimalText(n);
    DecimalParses(n);
    NoDot(t);
    IntTextCasts(t, n);
  }

  lemma NegativeLiteral(n: nat)
    ensures TryCastLiteral("-" + DecimalText(n)) == Int(-(n as int))
  {
    NegativeText(n);
    IntTextCasts("-" + DecimalText(n), -(n as int));
  }

  /** A minus and decimal digits: no dot, and `int()` reads the negation. */
  lemma NegativeText(n: nat)
    ensures var u := "-" + DecimalText(n);
      |u| > 0 && u[0] == '-' && '.' !in u && ParseInt(u) == Some(-(n as int))
  {
    DecimalParses(n);
    NoDot(DecimalText(n));
  }

  lemma NoDot(t: string)
    requires forall k :: 0 <= k < |t| ==> IsDigit(t[k])
    ensures '.' !in t && '.' !in "-" + t
  {
    var u := "-" + t;
    assert forall k :: 1 <= k < |u| ==> u[k] == t[k - 1];
  }

  /** Text that `int()` accepts, has no dot and starts with a digit or a
      minus, is cast to that integer. */
  lemma IntTextCasts(t: string, i: int)
    requires |t| > 0 && (IsDigit(t[0]) || t[0] == '-') && '.' !in t && ParseInt(t) == Some(i)
    ensures TryCastLiteral(t) == Int(i)
  {
    NotBoolText(t);
  }

  /** `'\x1c1'.strip() == '1'`, yet `int('\x1c1')` is a ValueError: an
      information separator is whitespace to `strip` but not to `int()`. */
  lemma SeparatorNotNumberSpace()
    ensures Strip("\U{1C}1") == "1" && ParseInt("1") == Some(1)
    ensures ParseInt("\U{1C}1") == None
    ensures ParseInt("\U{A0}1") == Some(1)
  {
    assert SpaceRun("1") == 0;
    assert SpaceRun("\U{1C}1") == 1 && SpaceRun("\U{A0}1") == 1;
    assert "\U{1C}1"[1..] == "1" && "\U{A0}1"[1..] == "1";
    StripTrimmed("1");
    assert !NumberMargins("\U{1C}1");
    assert DigitGroup("1") && GroupValue("1") == 1;
  }

  /** An argument beginning with `$` is never turned into another type. */
  lemma DollarStaysText(val: string)
    requires |val| > 0 && val[0] == '$'
    ensures TryCastLiteral(val) == Str(val)
  {
    assert Lower(val)[0] == '$';
    StripShape(val);
    var t := Strip(val);
    if |t| > 0 {
      assert t[0] == '$' by {
        var a :| 0 <= a <= |val| - |t| && t == val[a..a + |t|] && AllSpace(val[..a]) && AllSpace(val[a + |t|..]);
        if a > 0 { assert val[..a][0] == '$'; }
      }
    }
    if '.' in val {
      var (sign, body) := Sign(t);
      var e := Find(body, {'e', 'E'});
      assert |body| > 0 ==> body[0] == '$';
      assert Mantissa(body[..e]).None? by {
        var m := body[..e];
        if |m| > 0 {
          assert m[0] == '$';
          var dot := Find(m, {'.'});
          assert dot > 0 ==> m[..dot][0] == '$';
        }
      }
    }
  }

  // --------------------------------------------------------------- commands

  /** A parsed command line: its name and keyword arguments. */
  datatype Command = Command(cmd: string, kargs: map<string, Arg>)

  /** A positional argument bound to a declared name: kept verbatim when
      it names a script variable, cast otherwise. */
  function NamedValue(val: string): Value
  {
    if Prefix("$", val) then Str(val) else TryCastLiteral(val)
  }

  /** The cast extra arguments from position `from` on. */
  function Extras(args: seq<string>, from: nat): (r: seq<Value>)
    requires from <= |args|
    ensures |r| == |args| - from && forall j :: 0 <= j < |r| ==> r[j] == TryCastLiteral(args[from + j])
  {
    seq(|args| - from, j requires 0 <= j < |args| - from => TryCastLiteral(args[from + j]))
  }

  /** `kargs.setdefault('args', []).append(v)`: a scalar already stored
      under `args` has no `append`. */
  function Gather(kargs: map<string, Arg>, v: Value): (r: Result<map<string, Arg>>)
    ensures r.Err? <==> "args" in kargs && kargs["args"].One?
    ensures r.Err? ==> r.error == AttributeError
    ensures r.Ok? ==> r.value == kargs["args" := Many((if "args" in kargs then kargs["args"].vs else []) + [v])]
  {
    if "args" !in kargs then assert [] + [v] == [v]; Ok(kargs["args" := Many([v])])
    else match kargs["args"]
      case One(_) => Err(AttributeError)
      case Many(vs) => Ok(kargs["args" := Many(vs + [v])])
  }

  /** Both readings of one argument: as the value of a declared name and
      as a surplus value. */
  datatype Casts = Casts(named: Value, surplus: Value)

  function CastsOf(args: seq<string>): (r: seq<Casts>)
    ensures |r| == |args| && forall j :: 0 <= j < |r| ==> r[j] == Casts(NamedValue(args[j]), TryCastLiteral(args[j]))
  {
    seq(|args|, j requires 0 <= j < |args| => Casts(NamedValue(args[j]), TryCastLiteral(args[j])))
  }

  function Surplus(args: seq<Casts>, from: nat): (r: seq<Value>)
    requires from <= |args|
    ensures |r| == |args| - from && forall j :: 0 <= j < |r| ==> r[j] == args[from + j].surplus
  {
    seq(|args| - from, j requires 0 <= j < |args| - from => args[from + j].surplus)
  }

  /** The loop of `parse_command` over the arguments from position `i`. */
  function BindArgs(names: seq<string>, args: seq<Casts>, i: nat, kargs: map<string, Arg>)
    : (r: Result<map<string, Arg>>)
    requires i <= |args|
    decreases |args| - i
  {
    if i == |args| then Ok(kargs)
    else if i < |names| then BindArgs(names, args, i + 1, kargs[names[i] := One(args[i].named)])
    else
      match Gather(kargs, args[i].surplus)
      case Err(e) => Err(e)
      case Ok(k) => BindArgs(names, args, i + 1, k)
  }

  predicate NoDuplicates(s: seq<string>)
  {
    forall a, b :: 0 <= a < b < |s| ==> s[a] != s[b]
  }


  /** Binding fails exactly when a declared name `args` is bound and
      surplus arguments follow it. */
  lemma {:induction false} BindArgsFails(names: seq<string>, args: seq<Casts>, i: nat, kargs: map<string, Arg>)
    requires i <= |args| && NoDuplicates(names)
    requires "args" in kargs && kargs["args"].One? ==> |args| <= |names|
    ensures BindArgs(names, args, i, kargs).Err? <==> |args| > |names| && exists j :: i <= j < |names| && names[j] == "args"
    decreases |args| - i
  {
    if i < |args| {
      if i < |names| {
        var k := kargs[names[i] := One(args[i].named)];
        if names[i] == "args" && |args| > |names| {
          BindErrAfterArgs(names, args, i + 1, k);
        } else {
          BindArgsFails(names, args, i + 1, k);
        }
      } else {
        assert Gather(kargs, args[i].surplus).Ok?;
        BindArgsFails(names, args, i + 1, Gather(kargs, args[i].surplus).value);
      }
    }
  }

  /** A successful binding leaves every key it does not bind as it was. */
  lemma {:induction false} BindArgsKeeps(names: seq<string>, args: seq<Casts>, i: nat, kargs: map<string, Arg>, key: string)
    requires i <= |args| && key in kargs && BindArgs(names, args, i, kargs).Ok?
    requires forall j :: i <= j < |args| && j < |names| ==> names[j] != key
    requires key != "args" || kargs[key].One?
    ensures var r := BindArgs(names, args, i, kargs).value; key in r && r[key] == kargs[key]
    decreases |args| - i
  {
    if i < |args| {
      if i < |names| {
        BindArgsKeeps(names, args, i + 1, kargs[names[i] := One(args[i].named)], key);
      } else {
        BindArgsKeeps(names, args, i + 1, Gather(kargs, args[i].surplus).value, key);
      }
    }
  }

  /** A successful binding gives each declared name its own argument. */
  lemma {:induction false} BindArgsNamed(names: seq<string>, args: seq<Casts>, i: nat, kargs: map<string, Arg>)
    requires i <= |args| && NoDuplicates(names) && BindArgs(names, args, i, kargs).Ok?
    ensures var r := BindArgs(names, args, i, kargs).value;
      forall j :: i <= j < |args| && j < |names| ==> names[j] in r && r[names[j]] == One(args[j].named)
    decreases |args| - i
  {
    if i < |args| {
      if i < |names| {
        var k := kargs[names[i] := One(args[i].named)];
        BindArgsNamed(names, args, i + 1, k);
        BindArgsKeeps(names, args, i + 1, k, names[i]);
      } else {
        BindArgsNamed(names, args, i + 1, Gather(kargs, args[i].surplus).value);
      }
    }
  }

  /** A successful binding gathers exactly the surplus arguments, cast
      and in order, under `args`. */
  lemma {:induction false} BindArgsSurplus(names: seq<string>, args: seq<Casts>, i: nat, kargs: map<string, Arg>)
    requires i <= |args| && NoDuplicates(names) && |args| > |names| && BindArgs(names, args, i, kargs).Ok?
    requires i <= |names| ==> "args" !in kargs
    requires i > |names| ==> "args" in kargs && kargs["args"] == Many(Surplus(args, |names|)[..i - |names|])
    ensures var r := BindArgs(names, args, i, kargs).value; "args" in r && r["args"] == Many(Surplus(args, |names|))
    decreases |args| - i
  {
    if i == |args| {
      assert Surplus(args, |names|)[..i - |names|] == Surplus(args, |names|);
    } else if i < |names| {
      var k := kargs[names[i] := One(args[i].named)];
      if names[i] == "args" {
        BindErrAfterArgs(names, args, i + 1, k);
      } else {
        BindArgsSurplus(names, args, i + 1, k);
      }
    } else {
      var v := args[i].surplus;
      var k := Gather(kargs, v).value;
      assert k["args"].vs == (if "args" in kargs then kargs["args"].vs else []) + [v];
      assert Surplus(args, |names|)[..i + 1 - |names|] == (if i == |names| then [] else Surplus(args, |names|)[..i - |names|]) + [v];
      BindArgsSurplus(names, args, i + 1, k);
    }
  }

  /** A binding adds no key but the declared names it reached and `args`. */
  lemma {:induction false} BindArgsKeys(names: seq<string>, args: seq<Casts>, i: nat, kargs: map<string, Arg>)
    requires i <= |args| && BindArgs(names, args, i, kargs).Ok?
    ensures var r := BindArgs(names, args, i, kargs).value;
      forall key :: key in r ==>
        key in kargs || (key == "args" && |args| > |names|) || exists j :: i <= j < |args| && j < |names| && names[j] == key
    decreases |args| - i
  {
    if i < |args| {
      if i < |names| {
        BindArgsKeys(names, args, i + 1, kargs[names[i] := One(args[i].named)]);
      } else {
        BindArgsKeys(names, args, i + 1, Gather(kargs, args[i].surplus).value);
      }
    }
  }

  /** Once `args` holds a scalar, the first surplus argument fails. */
  lemma {:induction false} BindErrAfterArgs(names: seq<string>, args: seq<Casts>, i: nat, kargs: map<string, Arg>)
    requires i <= |names| < |args| && "args" in kargs && kargs["args"].One?
    requires NoDuplicates(names) && forall j :: i <= j < |names| ==> names[j] != "args"
    ensures BindArgs(names, args, i, kargs).Err?
    decreases |args| - i
  {
    if i < |names| {
      BindErrAfterArgs(names, args, i + 1, kargs[names[i] := One(args[i].named)]);
    }
  }

  /** `parse_command`: nothing for a blank line; otherwise the first word
      names the command. Its arguments bind to the declared names when the
      command is in `table` (the registry's argument lists) and otherwise
      all go to `args`. */
  function ParseCommand(line: string, table: map<string, seq<string>>): (r: Option<Result<Command>>)
    ensures r.None? <==> AllSpace(line)
    ensures r.Some? && r.value.Ok? ==> r.value.value.cmd == Words(line)[0]
    ensures var ws := Words(line);
      |ws| > 0 && (ws[0] !in table || |ws| == 1) ==>
        r == Some(Ok(Command(ws[0], if |ws| == 1 then map[] else map["args" := Many(Extras(ws, 1))])))
  {
    var parts := Words(line);
    if |parts| == 0 then None
    else
      var cmd, args := parts[0], parts[1..];
      if cmd in table && |args| > 0 then
        match BindArgs(table[cmd], CastsOf(args), 0, map[])
        case Err(e) => Some(Err(e))
        case Ok(k) => Some(Ok(Command(cmd, k)))
      else if |args| > 0 then
        assert Extras(parts, 1) == seq(|args|, j requires 0 <= j < |args| => TryCastLiteral(args[j]));
        Some(Ok(Command(cmd, map["args" := Many(seq(|args|, j requires 0 <= j < |args| => TryCastLiteral(args[j])))])))
      else Some(Ok(Command(cmd, map[])))
  }

  /** A registered command with arguments is bound by `BindArgs`. */
  lemma ParseRegistered(line: string, table: map<string, seq<string>>)
    requires var ws := Words(line); |ws| > 1 && ws[0] in table
    ensures var ws := Words(line); var b := BindArgs(table[ws[0]], CastsOf(ws[1..]), 0, map[]);
      && (b.Err? ==> ParseCommand(line, table) == Some(Err(b.error)))
      && (b.Ok? ==> ParseCommand(line, table) == Some(Ok(Command(ws[0], b.value))))
  {
  }

  /** The whole binding loop over the argument words `args`. */
  lemma BindAll(names: seq<string>, args: seq<string>)
    requires NoDuplicates(names)
    ensures var r := BindArgs(names, CastsOf(args), 0, map[]);
      && (r.Err? <==> |args| > |names| && "args" in names)
      && (r.Ok? ==> && (forall j :: 0 <= j < |args| && j < |names| ==> names[j] in r.value && r.value[names[j]] == One(NamedValue(args[j])))
                    && (|args| > |names| ==> "args" in r.value && r.value["args"] == Many(Extras(args, |names|)))
                    && (forall key :: key in r.value ==> key == "args" || exists j :: 0 <= j < |args| && j < |names| && names[j] == key))
  {
    var casts := CastsOf(args);
    if |casts| > |names| {
      assert Surplus(casts, |names|) == Extras(args, |names|);
    }
    BindArgsFails(names, casts, 0, map[]);
    assert (exists j :: 0 <= j < |names| && names[j] == "args") <==> "args" in names;
    if BindArgs(names, casts, 0, map[]).Ok? {
      BindArgsNamed(names, casts, 0, map[]);
      BindArgsKeys(names, casts, 0, map[]);
      if |casts| > |names| {
        BindArgsSurplus(names, casts, 0, map[]);
      }
    }
  }

  /** A registered command binds each argument to its declared name and
      gathers the surplus under `args`; it fails only when a declared
      name is itself `args` and surplus arguments follow. */
  lemma RegisteredCommand(line: string, table: map<string, seq<string>>)
    requires var ws := Words(line); |ws| > 1 && ws[0] in table && NoDuplicates(table[ws[0]])
    ensures var ws := Words(line); var names := table[ws[0]]; var args := ws[1..];
      var r := ParseCommand(line, table).value;
      && (r.Err? <==> |args| > |names| && "args" in names)
      && (r.Ok? ==> && r.value.cmd == ws[0]
                    && (forall j :: 0 <= j < |args| && j < |names| ==> names[j] in r.value.kargs && r.value.kargs[names[j]] == One(NamedValue(args[j])))
                    && (|args| > |names| ==> "args" in r.value.kargs && r.value.kargs["args"] == Many(Extras(args, |names|)))
                    && (forall key :: key in r.value.kargs ==> key == "args" || exists j :: 0 <= j < |args| && j < |names| && names[j] == key))
  {
    var ws := Words(line);
    var names, args := table[ws[0]], ws[1..];
    ParseRegistered(line, table);
    BindAll(names, args);
  }

  // --------------------------------------------------------- command blocks

  /** A condition as `parse_condition` returns it: its kind and parameters. */
  datatype Cond = Cond(kind: Value, params: map<string, Arg>)

  /** A command of a page: a call, or an `if` with its two branches. The
      name is a value because substitution may replace it. */
  datatype Cmd =
    | Call(name: Value, kargs: map<string, Arg>)
    | IfCmd(cond: Cond, onTrue: seq<Cmd>, onFalse: seq<Cmd>)

  /** A line of a script: its indentation, its stripped text and the
      command it parses to. */
  datatype ScriptLine = ScriptLine(indent: nat, text: string, call: Option<Result<Command>>)

  /** Neither blank nor a comment: the stripped text is not empty and does
      not start with `#`. */
  predicate Significant(l: ScriptLine)
  {
    |l.text| > 0 && l.text[0] != '#'
  }

  predicate Lexed(l: ScriptLine)
  {
    l.text != "" ==> l.call.Some?
  }

  predicate AllLexed(ls: seq<ScriptLine>)
  {
    forall k :: 0 <= k < |ls| ==> Lexed(ls[k])
  }

  function Lex(lines: seq<string>, table: map<string, seq<string>>): (r: seq<ScriptLine>)
    ensures |r| == |lines| && AllLexed(r)
    ensures forall k :: 0 <= k < |r| ==>
      r[k] == ScriptLine(SpaceRun(lines[k]), Strip(lines[k]), ParseCommand(Strip(lines[k]), table))
  {
    seq(|lines|, k requires 0 <= k < |lines| => LexLine(lines[k], table))
  }

  function LexLine(line: string, table: map<string, seq<string>>): (r: ScriptLine)
    ensures Lexed(r)
  {
    var text := Strip(line);
    StripShape(line);
    ScriptLine(SpaceRun(line), text, ParseCommand(text, table))
  }

  /** Commands parsed from `start` and the index where the block ends. */
  datatype Block = Block(cmds: seq<Cmd>, end: nat)

  /** `parse_commands_block` on lexed lines, with `parse_condition` as
      the parameter `cond`: blank and comment lines are skipped, the block
      ends at the first significant line indented less than `indent`, an
      `if` line opens a branch indented four more, optionally followed by
      an `else:` line and its own branch. */
  function ParseBlock(ls: seq<ScriptLine>, start: nat, indent: int, cond: string -> Result<Cond>): (r: Result<Block>)
    requires start <= |ls| && AllLexed(ls)
    ensures r.Ok? ==> start <= r.value.end <= |ls|
    ensures r.Ok? && r.value.end < |ls| ==> Significant(ls[r.value.end]) && ls[r.value.end].indent < indent
    decreases |ls| - start, 3
  {
    if start == |ls| then Ok(Block([], start))
    else
      var l := ls[start];
      if !Significant(l) then ParseBlock(ls, start + 1, indent, cond)
      else if l.indent < indent then Ok(Block([], start))
      else if Prefix("if ", l.text) then ParseIf(ls, start, indent, cond)
      else
        assert Lexed(ls[start]);
        match l.call.value
        case Err(e) => Err(e)
        case Ok(c) =>
          match ParseBlock(ls, start + 1, indent, cond)
          case Err(e) => Err(e)
          case Ok(rest) => Ok(Block([Call(Str(c.cmd), c.kargs)] + rest.cmds, rest.end))
  }

  /** The `if` rule of `parse_commands_block` at an `if` line: first the
      branch indented four more. */
  function ParseIf(ls: seq<ScriptLine>, start: nat, indent: int, cond: string -> Result<Cond>): (r: Result<Block>)
    requires start < |ls| && AllLexed(ls) && Prefix("if ", ls[start].text)
    ensures r.Ok? ==> start < r.value.end <= |ls|
    ensures r.Ok? && r.value.end < |ls| ==> Significant(ls[r.value.end]) && ls[r.value.end].indent < indent
    decreases |ls| - start, 2
  {
    match ParseBlock(ls, start + 1, indent + 4, cond)
    case Err(e) => Err(e)
    case Ok(onTrue) => IfRest(ls, start, indent, cond, onTrue)
  }

  /** The `else:` branch of an `if` whose first branch ended at `at`: the
      branch after that line when it starts with `else:`, otherwise none. */
  function ElseBranch(ls: seq<ScriptLine>, at: nat, indent: int, cond: string -> Result<Cond>): (r: Result<Block>)
    requires at <= |ls| && AllLexed(ls)
    ensures r.Ok? ==> at <= r.value.end <= |ls|
    decreases |ls| - at, 0
  {
    if at < |ls| && Prefix("else:", ls[at].text) then ParseBlock(ls, at + 1, indent + 4, cond)
    else Ok(Block([], at))
  }

  /** The rest of the `if` rule once its first branch is read: the `else:`
      branch, the condition, then the commands after the `if`. */
  function IfRest(ls: seq<ScriptLine>, start: nat, indent: int, cond: string -> Result<Cond>, onTrue: Block)
    : (r: Result<Block>)
    requires start < onTrue.end <= |ls| && AllLexed(ls) && Prefix("if ", ls[start].text)
    ensures r.Ok? ==> onTrue.end <= r.value.end <= |ls|
    ensures r.Ok? && r.value.end < |ls| ==> Significant(ls[r.value.end]) && ls[r.value.end].indent < indent
    decreases |ls| - start, 1
  {
    match ElseBranch(ls, onTrue.end, indent, cond)
    case Err(e) => Err(e)
    case Ok(onFalse) =>
      match cond(RStrip(ls[start].text[3..], ':'))
      case Err(e) => Err(e)
      case Ok(c) =>
        match ParseBlock(ls, onFalse.end, indent, cond)
        case Err(e) => Err(e)
        case Ok(rest) => Ok(Block([IfCmd(c, onTrue.cmds, onFalse.cmds)] + rest.cmds, rest.end))
  }

  /** `parse_commands_block` on the raw lines of a script. */
  function ParseCommandsBlock(lines: seq<string>, start: nat, indent: int, table: map<string, seq<string>>,
                              cond: string -> Result<Cond>): (r: Result<Block>)
    requires start <= |lines|
    ensures r.Ok? ==> start <= r.value.end <= |lines|
    ensures r.Ok? && r.value.end < |lines| ==>
      var stop := Strip(lines[r.value.end]);
      stop != "" && stop[0] != '#' && SpaceRun(lines[r.value.end]) < indent
  {
    ParseBlock(Lex(lines, table), start, indent, cond)
  }

  /** A line that is a plain command, not an `if`, and parses. */
  predicate PlainCall(l: ScriptLine)
  {
    l.call.Some? && l.call.value.Ok? && !Prefix("if ", l.text)
  }

  /** The call a plain line stands for. */
  function CallOf(l: ScriptLine): Cmd
    requires PlainCall(l)
  {
    Call(Str(l.call.value.value.cmd), l.call.value.value.kargs)
  }

  /** Lines `from` to `to` hold only plain calls, blank lines and comments,
      and every call is indented at least `indent`. */
  predicate FlatRun(ls: seq<ScriptLine>, from: nat, to: nat, indent: int)
  {
    from <= to <= |ls| && forall k :: from <= k < to && Significant(ls[k]) ==> PlainCall(ls[k]) && ls[k].indent >= indent
  }

  /** Line `stop` ends a block indented `indent`: it is the end of the
      lines, or a significant line indented less. */
  predicate EndsBlock(ls: seq<ScriptLine>, stop: nat, indent: int)
    requires stop <= |ls|
  {
    stop == |ls| || (Significant(ls[stop]) && ls[stop].indent < indent)
  }

  /** The calls of the significant lines of `ls`, in order. */
  function FlatCalls(ls: seq<ScriptLine>): (r: seq<Cmd>)
    requires forall k :: 0 <= k < |ls| && Significant(ls[k]) ==> PlainCall(ls[k])
    ensures |r| <= |ls| && forall c :: c in r ==> c.Call?
  {
    if |ls| == 0 then []
    else
      assert 0 < |ls| && Significant(ls[0]) ==> PlainCall(ls[0]);
      var c := if Significant(ls[0]) then [CallOf(ls[0])] else [];
      c + FlatCalls(ls[1..])
  }

  /** `FlatCalls` of a slice, one line at a time. */
  lemma FlatCallsCons(ls: seq<ScriptLine>, start: nat, stop: nat)
    requires start < stop <= |ls|
    requires forall k :: start <= k < stop && Significant(ls[k]) ==> PlainCall(ls[k])
    ensures FlatCalls(ls[start..stop])
      == (if Significant(ls[start]) then [CallOf(ls[start])] else []) + FlatCalls(ls[start + 1..stop])
  {
    assert ls[start..stop][1..] == ls[start + 1..stop];
    assert ls[start..stop][0] == ls[start];
  }

  /** A significant plain line at or past the indentation is kept and
      parsing goes on after it. */
  lemma ParseBlockCall(ls: seq<ScriptLine>, start: nat, indent: int, cond: string -> Result<Cond>)
    requires start < |ls| && AllLexed(ls)
    requires Significant(ls[start]) && PlainCall(ls[start]) && ls[start].indent >= indent
    requires ParseBlock(ls, start + 1, indent, cond).Ok?
    ensures var rest := ParseBlock(ls, start + 1, indent, cond).value;
      ParseBlock(ls, start, indent, cond) == Ok(Block([CallOf(ls[start])] + rest.cmds, rest.end))
  {
  }

  /** A block of plain commands up to a dedented line (or the end) parses
      to their calls in order, skipping blank and comment lines, and ends
      at that line. */
  lemma {:induction false} FlatBlock(ls: seq<ScriptLine>, start: nat, stop: nat, indent: int, cond: string -> Result<Cond>)
    requires FlatRun(ls, start, stop, indent) && EndsBlock(ls, stop, indent)
    requires AllLexed(ls)
    ensures ParseBlock(ls, start, indent, cond) == Ok(Block(FlatCalls(ls[start..stop]), stop))
    decreases stop - start
  {
    if start < stop {
      FlatBlock(ls, start + 1, stop, indent, cond);
      FlatCallsCons(ls, start, stop);
      if Significant(ls[start]) {
        ParseBlockCall(ls, start, indent, cond);
      } else {
        assert [] + FlatCalls(ls[start + 1..stop]) == FlatCalls(ls[start + 1..stop]);
      }
    } else {
      assert ls[start..stop] == [];
    }
  }

  /** A significant `if` line at or past the indentation is parsed by the
      `if` rule. */
  lemma ParseBlockAtIf(ls: seq<ScriptLine>, start: nat, indent: int, cond: string -> Result<Cond>)
    requires start < |ls| && AllLexed(ls)
    requires Significant(ls[start]) && ls[start].indent >= indent && Prefix("if ", ls[start].text)
    ensures ParseBlock(ls, start, indent, cond) == ParseIf(ls, start, indent, cond)
  {
  }

  /** The `if` rule reads the branch after the line, then goes on. */
  lemma ParseIfThen(ls: seq<ScriptLine>, start: nat, indent: int, cond: string -> Result<Cond>, t: Block)
    requires start < |ls| && AllLexed(ls) && Prefix("if ", ls[start].text)
    requires ParseBlock(ls, start + 1, indent + 4, cond) == Ok(t)
    ensures start < t.end && ParseIf(ls, start, indent, cond) == IfRest(ls, start, indent, cond, t)
  {
  }

  /** After the first branch, an `else:` line opens a second branch. */
  lemma ElseBranchAt(ls: seq<ScriptLine>, at: nat, indent: int, cond: string -> Result<Cond>)
    requires at <= |ls| && AllLexed(ls)
    ensures ElseBranch(ls, at, indent, cond)
         == if at < |ls| && Prefix("else:", ls[at].text) then ParseBlock(ls, at + 1, indent + 4, cond) else Ok(Block([], at))
  {
  }

  /** With the `else:` branch, the condition and the commands after them
      read, the `if` command goes in front of those commands. */
  lemma IfRestParts(ls: seq<ScriptLine>, start: nat, indent: int, cond: string -> Result<Cond>, t: Block,
                    e: Block, c: Cond, rest: Block)
    requires start < t.end <= |ls| && AllLexed(ls) && Prefix("if ", ls[start].text)
    requires ElseBranch(ls, t.end, indent, cond) == Ok(e)
    requires cond(RStrip(ls[start].text[3..], ':')) == Ok(c)
    requires ParseBlock(ls, e.end, indent, cond) == Ok(rest)
    ensures IfRest(ls, start, indent, cond, t) == Ok(Block([IfCmd(c, t.cmds, e.cmds)] + rest.cmds, rest.end))
  {
  }

  /** An `if` line whose branches are runs of plain calls parses to an
      `if` command holding exactly those calls: the branch indented four
      more after the `if`, then, when the line ending it starts with
      `else:`, the branch after that line. Parsing goes on from the end
      of the last branch. */
  lemma {:induction false} FlatIf(ls: seq<ScriptLine>, start: nat, thenEnd: nat, elseEnd: nat, indent: int,
                                  cond: string -> Result<Cond>, c: Cond)
    requires start < thenEnd <= elseEnd <= |ls| && AllLexed(ls)
    requires Significant(ls[start]) && ls[start].indent >= indent && Prefix("if ", ls[start].text)
    requires cond(RStrip(ls[start].text[3..], ':')) == Ok(c)
    requires FlatRun(ls, start + 1, thenEnd, indent + 4) && EndsBlock(ls, thenEnd, indent + 4)
    requires if thenEnd < |ls| && Prefix("else:", ls[thenEnd].text)
             then thenEnd < elseEnd && FlatRun(ls, thenEnd + 1, elseEnd, indent + 4) && EndsBlock(ls, elseEnd, indent + 4)
             else elseEnd == thenEnd
    requires ParseBlock(ls, elseEnd, indent, cond).Ok?
    ensures var rest := ParseBlock(ls, elseEnd, indent, cond).value;
      var onFalse := if thenEnd < |ls| && Prefix("else:", ls[thenEnd].text) then FlatCalls(ls[thenEnd + 1..elseEnd]) else [];
      ParseBlock(ls, start, indent, cond)
        == Ok(Block([IfCmd(c, FlatCalls(ls[start + 1..thenEnd]), onFalse)] + rest.cmds, rest.end))
  {
    var t := Block(FlatCalls(ls[start + 1..thenEnd]), thenEnd);
    var e := FlatElse(ls, thenEnd, elseEnd, indent, cond);
    FlatBlock(ls, start + 1, thenEnd, indent + 4, cond);
    IfRestParts(ls, start, indent, cond, t, e, c, ParseBlock(ls, elseEnd, indent, cond).value);
    ParseIfThen(ls, start, indent, cond, t);
    ParseBlockAtIf(ls, start, indent, cond);
  }

  /** The `else:` branch of `FlatIf`, as the block it parses to. */
  lemma FlatElse(ls: seq<ScriptLine>, thenEnd: nat, elseEnd: nat, indent: int, cond: string -> Result<Cond>)
    returns (e: Block)
    requires thenEnd <= elseEnd <= |ls| && AllLexed(ls)
    requires if thenEnd < |ls| && Prefix("else:", ls[thenEnd].text)
             then thenEnd < elseEnd && FlatRun(ls, thenEnd + 1, elseEnd, indent + 4) && EndsBlock(ls, elseEnd, indent + 4)
             else elseEnd == thenEnd
    ensures e.end == elseEnd && ElseBranch(ls, thenEnd, indent, cond) == Ok(e)
    ensures e.cmds == if thenEnd < |ls| && Prefix("else:", ls[thenEnd].text) then FlatCalls(ls[thenEnd + 1..elseEnd]) else []
  {
    ElseBranchAt(ls, thenEnd, indent, cond);
    if thenEnd < |ls| && Prefix("else:", ls[thenEnd].text) {
      FlatBlock(ls, thenEnd + 1, elseEnd, indent + 4, cond);
      e := Block(FlatCalls(ls[thenEnd + 1..elseEnd]), elseEnd);
    } else {
      e := Block([], thenEnd);
    }
  }

  /** Four lines: an `if` at the block's indentation, a call under it, an
      `else:` dedented to the margin, and a call under that. */
  function DanglingElse(): (ls: seq<ScriptLine>)
    ensures |ls| == 4 && AllLexed(ls)
  {
    var wait := Some(Ok(Command("wait", map[])));
    [ ScriptLine(8, "if ready:", Some(Ok(Command("if", map[])))),
      ScriptLine(12, "wait", wait),
      ScriptLine(0, "else:", Some(Ok(Command("else:", map[])))),
      ScriptLine(12, "wait", wait) ]
  }

  /** The first line of `DanglingElse` is an `if` on "ready". */
  lemma DanglingElseIf()
    ensures var ls := DanglingElse();
      Significant(ls[0]) && ls[0].indent >= 8 && Prefix("if ", ls[0].text) && RStrip(ls[0].text[3..], ':') == "ready"
  {
    var ls := DanglingElse();
    assert Significant(ls[0]) && Prefix("if ", ls[0].text) && ls[0].text[3..] == "ready:" by {
      assert ls[0].text[..1][0] == 'i';
    }
    assert RStrip("ready:", ':') == "ready";
  }

  /** Each branch of `DanglingElse` is one `wait`, and the line between
      them is an `else:` at the margin. */
  lemma DanglingElseBranches()
    ensures var ls := DanglingElse();
      && FlatRun(ls, 1, 2, 12) && EndsBlock(ls, 2, 12) && Prefix("else:", ls[2].text) && ls[2].indent < 8
      && FlatRun(ls, 3, 4, 12) && EndsBlock(ls, 4, 12)
      && FlatCalls(ls[1..2]) == [Call(Str("wait"), map[])] && FlatCalls(ls[3..4]) == [Call(Str("wait"), map[])]
  {
    var ls := DanglingElse();
    assert PlainCall(ls[1]) && PlainCall(ls[3]) && Significant(ls[1]) && Significant(ls[3]) by {
      assert ls[1].text[..1][0] == 'w' && ls[1].text[..3][0] == 'w';
    }
    assert Significant(ls[2]) && Prefix("else:", ls[2].text) by {
      assert ls[2].text[..1][0] == 'e';
    }
    assert ls[1..2] == [ls[1]] && ls[3..4] == [ls[3]];
    assert FlatCalls([ls[1]]) == [CallOf(ls[1])] + FlatCalls([]);
    assert FlatCalls([ls[3]]) == [CallOf(ls[3])] + FlatCalls([]);
  }

  /** The `else:` check looks only at the text, so an `else:` indented
      less than the block is taken as the `if`'s else branch instead of
      ending the block: the block indented 8 runs past that line. */
  lemma DanglingElseTaken(cond: string -> Result<Cond>, c: Cond)
    requires cond("ready") == Ok(c)
    ensures var ls := DanglingElse();
      && Significant(ls[2]) && ls[2].indent < 8
      && ParseBlock(ls, 0, 8, cond)
         == Ok(Block([IfCmd(c, [Call(Str("wait"), map[])], [Call(Str("wait"), map[])])], 4))
  {
    var ls := DanglingElse();
    DanglingElseIf();
    DanglingElseBranches();
    var rest := ParseBlock(ls, 4, 8, cond);
    assert rest == Ok(Block([], 4));
    FlatIf(ls, 0, 2, 4, 8, cond, c);
    var wait := [Call(Str("wait"), map[])];
    assert [IfCmd(c, wait, wait)] + rest.value.cmds == [IfCmd(c, wait, wait)];
  }
}

=== FILE: autotile.dfy ===
/** Autotiling of `TileRenderer` (game_libs/rendering/tilemap_renderer.py):
    each quarter of a tile picks one of five graphics from the three
    neighbours that meet at that corner, and `_redraw_full` limits drawing
    to the cells under the camera. */
module Autotile {
  import Tilemap
  import opened Wrappers

  datatype Corner = TL | TR | BL | BR

  /** Corner order of the render loop, which also fixes each quarter's offset. */
  const RenderOrder: seq<Corner> := [TL, TR, BL, BR]

  /** The autotile layouts a tileset can declare (`autotilebitmask`). */
  datatype Layout = Field | Wall | Fall | Unique

  /** `corner_neighbors`: indices into the eight-neighbour list (in
      `Tilemap.Offsets` order) of bits 0, 1 and 2 of a corner's mask. */
  function CornerNeighbors(c: Corner): (int, int, int)
  {
    match c
    case TL => (1, 3, 0)
    case TR => (4, 1, 2)
    case BL => (3, 6, 5)
    case BR => (6, 4, 7)
  }

  /** Horizontal and vertical direction in which the corner lies. */
  function Direction(c: Corner): (int, int)
  {
    match c
    case TL => (-1, -1)
    case TR => (1, -1)
    case BL => (-1, 1)
    case BR => (1, 1)
  }

  /** Each corner reads exactly the neighbours touching it: bits 0 and 1
      are the two edge neighbours, bit 2 the diagonal one. */
  lemma CornerGeometry(c: Corner)
    ensures var (a, b, d) := CornerNeighbors(c);
      && 0 <= a < 8 && 0 <= b < 8 && 0 <= d < 8
      && Tilemap.Offsets[d] == Direction(c)
      && {Tilemap.Offsets[a], Tilemap.Offsets[b]} == {(Direction(c).0, 0), (0, Direction(c).1)}
  {
  }

  function B(x: bool): nat { if x then 1 else 0 }

  /** The sum of `neighbors[b] << j` over a corner's three neighbours. */
  function Bitmask(n: seq<bool>, c: Corner): (r: nat)
    requires |n| == 8
    ensures r < 8
    ensures var (a, b, d) := CornerNeighbors(c);
      r % 2 == B(n[a]) && (r / 2) % 2 == B(n[b]) && r / 4 == B(n[d])
  {
    var (a, b, d) := CornerNeighbors(c);
    B(n[a]) + 2 * B(n[b]) + 4 * B(n[d])
  }

  /** `corner_bitmask`: 0 isolated, 1 joined along bit 0, 2 joined along
      bit 1, 3 joined along both edges, 4 fully surrounded. */
  function CornerIndex(mask: nat): (r: nat)
    requires mask < 8
    ensures r < 5
  {
    match mask
    case 0 => 0
    case 1 => 1
    case 2 => 2
    case 3 => 3
    case 4 => 0
    case 5 => 1
    case 6 => 2
    case 7 => 4
  }

  /** The diagonal neighbour only counts when both edge neighbours are
      joined: the index is the two edge bits, or 4 when all three are set. */
  lemma CornerIndexMeaning(n: seq<bool>, c: Corner)
    requires |n| == 8
    ensures var (a, b, d) := CornerNeighbors(c);
      CornerIndex(Bitmask(n, c)) == if n[a] && n[b] && n[d] then 4 else B(n[a]) + 2 * B(n[b])
  {
  }

  /** `AUTOTILEBITMASKS[layout][corner]`: the tile-sheet cell of each of
      the five variants. */
  function Variants(l: Layout, c: Corner): (r: seq<(int, int)>)
    ensures |r| == 5
  {
    match l
    case Field => (match c
      case TL => [(0, 0), (0, 2), (1, 1), (1, 0), (1, 2)]
      case TR => [(0, 0), (0, 1), (1, 2), (1, 0), (0, 2)]
      case BR => [(0, 0), (1, 1), (0, 2), (1, 0), (0, 1)]
      case BL => [(0, 0), (1, 2), (0, 1), (1, 0), (1, 1)])
    case Wall => (match c
      case TL => [(0, 0), (0, 1), (1, 0), (1, 1), (1, 1)]
      case TR => [(1, 0), (0, 0), (1, 1), (0, 1), (0, 1)]
      case BR => [(1, 1), (1, 0), (0, 1), (0, 0), (0, 0)]
      case BL => [(0, 1), (1, 1), (0, 0), (1, 0), (1, 0)])
    case Fall => (match c
      case TL => [(0, 0), (0, 0), (1, 0), (1, 0), (1, 0)]
      case TR => [(1, 0), (0, 0), (1, 0), (0, 0), (0, 0)]
      case BR => [(1, 0), (1, 0), (0, 0), (0, 0), (0, 0)]
      case BL => [(0, 0), (1, 0), (0, 0), (1, 0), (1, 0)])
    case Unique => [(0, 0), (0, 0), (0, 0), (0, 0), (0, 0)]
  }

  /** Where a quarter is read from and drawn to, in pixels. */
  datatype Quarter = Quarter(srcX: int, srcY: int, dstX: int, dstY: int, size: int)

  /** Quarter `q` of a tile of pixel size `size` shows corner `c`: it is
      half the tile wide, and it is cut from the tile-sheet cell of the
      variant that the corner's neighbourhood selects, at the same offset
      it is drawn to. */
  predicate Shows(q: Quarter, l: Layout, size: nat, n: seq<bool>, c: Corner)
    requires |n| == 8
  {
    var (x, y) := Variants(l, c)[CornerIndex(Bitmask(n, c))];
    q.size == size / 2 && q.srcX == x * size + q.dstX && q.srcY == y * size + q.dstY
  }

  /** `TileRenderer.render`: the four quarters blitted for one tile of
      pixel size `size`, given its eight neighbour flags. */
  function Render(l: Layout, size: nat, n: seq<bool>): (r: seq<Quarter>)
    requires |n| == 8
    ensures |r| == 4
    ensures r[0].dstX == 0 && r[0].dstY == 0 && r[1].dstX == size / 2 && r[1].dstY == 0
    ensures r[2].dstX == 0 && r[2].dstY == size / 2 && r[3].dstX == size / 2 && r[3].dstY == size / 2
    ensures forall i :: 0 <= i < 4 ==> Shows(r[i], l, size, n, RenderOrder[i])
  {
    var h := size / 2;
    [Blit(l, size, n, TL, 0, 0), Blit(l, size, n, TR, h, 0), Blit(l, size, n, BL, 0, h), Blit(l, size, n, BR, h, h)]
  }

  /** One quarter, drawn at offset `(ox, oy)` inside the tile. */
  function Blit(l: Layout, size: nat, n: seq<bool>, c: Corner, ox: int, oy: int): (q: Quarter)
    requires |n| == 8
    ensures q.dstX == ox && q.dstY == oy && Shows(q, l, size, n, c)
  {
    var (x, y) := Variants(l, c)[CornerIndex(Bitmask(n, c))];
    Quarter(x * size + ox, y * size + oy, ox, oy, size / 2)
  }

  /** A tile joined on all sides uses the "filled" variant in every
      corner; an isolated one uses the first variant. */
  lemma CornerExtremes(c: Corner)
    ensures CornerIndex(Bitmask([true, true, true, true, true, true, true, true], c)) == 4
    ensures CornerIndex(Bitmask([false, false, false, false, false, false, false, false], c)) == 0
  {
  }

  // ---------------------------------------------------------- visible range

  /** A cell's pixel span `[x*ts, x*ts+ts)` meets the camera span `[lo, hi)`. */
  predicate OnScreen(x: int, lo: int, hi: int, ts: int)
  {
    x * ts < hi && lo < x * ts + ts
  }

  /** `_redraw_full` as written: the range starts at the camera's first
      cell without clamping it at zero. */
  function VisibleRangeAsWritten(lo: int, hi: int, ts: int, count: nat): (int, int)
    requires ts > 0
  {
    (lo / ts, Tilemap.Min(hi / ts + 1, count))
  }

  /** A camera wider than the map, as the camera system centres it:
      a 5-cell row of 32-pixel tiles under a 640-pixel view starts at
      pixel -240, so the drawn range begins at cell -8, which indexes
      past the start of the row. */
  lemma VisibleRangeAsWrittenFails()
    ensures var row := [0, 1, 2, 3, 4];
      var (first, last) := VisibleRangeAsWritten(-240, 400, 32, |row|);
      first < last && PyIndex(row, first).None?
  {
  }

  /** Also with a small overhang: cell -1 is the last cell of the row,
      drawn again to the left of the map. */
  lemma VisibleRangeAsWrittenWraps()
    ensures var row := [0, 1, 2, 3, 4];
      var (first, last) := VisibleRangeAsWritten(-10, 150, 32, |row|);
      first == -1 && first < last && PyIndex(row, first) == Some(row[4])
  {
  }

  /** The visible range clamped on both ends: every cell in it exists, and
      every existing cell under the camera is in it. */
  function VisibleRange(lo: int, hi: int, ts: int, count: nat): (r: (int, int))
    requires ts > 0
    ensures 0 <= r.0 && r.1 <= count
    ensures forall x :: 0 <= x < count && OnScreen(x, lo, hi, ts) ==> r.0 <= x < r.1
  {
    var r := (Tilemap.Max(0, lo / ts), Tilemap.Min(hi / ts + 1, count));
    assert forall x :: 0 <= x < count && OnScreen(x, lo, hi, ts) ==> r.0 <= x < r.1 by {
      forall x | 0 <= x < count && OnScreen(x, lo, hi, ts) ensures r.0 <= x < r.1 {
        Tilemap.CoveredCell(x, lo, hi, ts);
      }
    }
    r
  }
}

=== FILE: dialog_parser.dfy ===
/** The XML-like dialog format (game_libs/dialog/parser.py): a file is a
    list of `<dialog "name">` sections holding paragraphs, choices with
    named options, and gotos. Lines are compared after stripping
    surrounding whitespace; the tag patterns must match at the start of
    the stripped line and may be followed by anything. */
module DialogParser {
  import opened Wrappers
  import opened DialogTree
  import opened Text

  /** Length of the leading run of characters other than `"`. */
  function NameRun(s: string): (n: nat)
    ensures n <= |s| && (forall k :: 0 <= k < n ==> s[k] != '"') && (n < |s| ==> s[n] == '"')
  {
    if |s| == 0 || s[0] == '"' then 0 else 1 + NameRun(s[1..])
  }

  // -------------------------------------------------------------- patterns

  /** The three tag patterns: `tag\s+"([^"]+)"` then, for gotos, `\s*`,
      then `close`. */
  datatype Pattern = Pattern(tag: string, spaceBeforeClose: bool, close: string)

  predicate NoQuote(s: string)
  {
    forall k :: 0 <= k < |s| ==> s[k] != '"'
  }

  /** The text a pattern matches: tag, whitespace, quoted name, optional
      whitespace (gotos only), closing bracket. */
  function Render(p: Pattern, w: string, name: string, g: string): string
  {
    p.tag + w + "\"" + name + "\"" + g + p.close
  }

  /** The parts fit the pattern: `\s+`, `[^"]+` and, for gotos, `\s*`. */
  predicate Fits(p: Pattern, w: string, name: string, g: string)
  {
    && |w| > 0 && AllSpace(w) && |name| > 0 && NoQuote(name) && AllSpace(g)
    && (!p.spaceBeforeClose ==> g == "")
  }

  /** `"([^"]+)"` at the start of `s`: the name and what follows. */
  function QuotedName(s: string): (r: Option<(string, string)>)
    ensures r.Some? ==> |r.value.0| > 0 && NoQuote(r.value.0) && s == "\"" + r.value.0 + "\"" + r.value.1
  {
    if |s| == 0 || s[0] != '"' then None
    else
      var n := NameRun(s[1..]);
      if n == 0 || n == |s| - 1 then None
      else
        assert s == "\"" + s[1..][..n] + "\"" + s[1..][n + 1..];
        Some((s[1..][..n], s[1..][n + 1..]))
  }

  lemma QuotedNameRender(name: string, rest: string)
    requires |name| > 0 && NoQuote(name)
    ensures QuotedName("\"" + name + "\"" + rest) == Some((name, rest))
  {
    var s := "\"" + name + "\"" + rest;
    assert s[1..] == name + ("\"" + rest);
    NameRunAfter(name, "\"" + rest);
    assert s[1..][..|name|] == name;
    assert s[1..][|name| + 1..] == rest;
  }

  /** `\s*` (gotos only) then the closing bracket at the start of `s`. */
  function Closes(p: Pattern, s: string): (r: bool)
    ensures r ==> exists g :: AllSpace(g) && (!p.spaceBeforeClose ==> g == "") && Prefix(g + p.close, s)
  {
    var n := if p.spaceBeforeClose then SpaceRun(s) else 0;
    if Prefix(p.close, s[n..]) then
      assert s[..n] + p.close == s[..n + |p.close|];
      true
    else false
  }

  lemma ClosesRender(p: Pattern, g: string, rest: string)
    requires AllSpace(g) && (!p.spaceBeforeClose ==> g == "") && |p.close| > 0 && !IsSpace(p.close[0])
    ensures Closes(p, g + p.close + rest)
  {
    var s := g + p.close + rest;
    assert s == g + (p.close + rest);
    if p.spaceBeforeClose {
      SpaceRunAfter(g, p.close + rest);
    }
    assert s[|g|..] == p.close + rest;
  }

  /** `re.match` of a pattern at the start of a line, yielding the quoted
      name: a name is found only where the line starts with that name
      rendered through the pattern. */
  function Match(p: Pattern, line: string): (r: Option<string>)
    ensures r.Some? ==> exists w, g :: Fits(p, w, r.value, g) && Prefix(Render(p, w, r.value, g), line)
  {
    if !Prefix(p.tag, line) then None
    else
      var s1 := line[|p.tag|..];
      var n1 := SpaceRun(s1);
      if n1 == 0 then None
      else
        match QuotedName(s1[n1..])
        case None => None
        case Some((name, rest)) =>
          if !Closes(p, rest) then None
          else
            MatchFound(p, line, name, rest);
            Some(name)
  }

  /** When `Match` finds a name, the line starts with a rendering of it. */
  lemma MatchFound(p: Pattern, line: string, name: string, rest: string)
    requires Prefix(p.tag, line)
    requires var s1 := line[|p.tag|..]; var n1 := SpaceRun(s1);
      n1 > 0 && QuotedName(s1[n1..]) == Some((name, rest))
    requires Closes(p, rest)
    ensures exists w, g :: Fits(p, w, name, g) && Prefix(Render(p, w, name, g), line)
  {
    var w, g := MatchParts(p, line, name, rest);
  }

  /** The whitespace and closing gap of a line `Match` accepts. */
  lemma MatchParts(p: Pattern, line: string, name: string, rest: string) returns (w: string, g: string)
    requires Prefix(p.tag, line)
    requires var s1 := line[|p.tag|..]; var n1 := SpaceRun(s1);
      n1 > 0 && QuotedName(s1[n1..]) == Some((name, rest))
    requires Closes(p, rest)
    ensures Fits(p, w, name, g) && Prefix(Render(p, w, name, g), line)
  {
    var s1 := line[|p.tag|..];
    var n1 := SpaceRun(s1);
    w := s1[..n1];
    var t := s1[n1..];
    SplitAt(s1, n1);
    assert t == "\"" + name + "\"" + rest;
    g := CloseGap(p, rest);
    MatchShape(p, line, w, name, g, rest);
  }

  lemma SplitAt(s: string, n: nat)
    requires n <= |s|
    ensures s == s[..n] + s[n..]
  {
  }

  /** The whitespace `Closes` skips before the closing bracket. */
  function CloseGap(p: Pattern, s: string): (g: string)
    requires Closes(p, s)
    ensures AllSpace(g) && (!p.spaceBeforeClose ==> g == "") && Prefix(g + p.close, s)
  {
    var n := if p.spaceBeforeClose then SpaceRun(s) else 0;
    assert s[..n] + p.close == s[..n + |p.close|];
    s[..n]
  }

  lemma MatchShape(p: Pattern, line: string, w: string, name: string, g: string, rest: string)
    requires Prefix(p.tag, line) && line[|p.tag|..] == w + ("\"" + name + "\"" + rest)
    requires Prefix(g + p.close, rest)
    ensures Prefix(Render(p, w, name, g), line)
  {
    var k := |g + p.close|;
    var q := "\"" + name + "\"";
    assert rest == (g + p.close) + rest[k..];
    assert "\"" + name + "\"" + rest == q + rest;
    assert line == p.tag + line[|p.tag|..];
    assert line == p.tag + (w + (q + ((g + p.close) + rest[k..])));
    assert Render(p, w, name, g) == p.tag + w + q + g + p.close;
    assert line == Render(p, w, name, g) + rest[k..];
  }

  lemma NameRunAfter(a: string, b: string)
    requires NoQuote(a) && |b| > 0 && b[0] == '"'
    ensures NameRun(a + b) == |a|
  {
    if |a| > 0 {
      assert (a + b)[1..] == a[1..] + b;
      NameRunAfter(a[1..], b);
    } else {
      assert a + b == b;
    }
  }

  /** Every rendering of a pattern matches it, whatever follows, and gives
      back its name. */
  lemma MatchRender(p: Pattern, w: string, name: string, g: string, rest: string)
    requires Fits(p, w, name, g) && |p.close| > 0 && !IsSpace(p.close[0])
    ensures Match(p, Render(p, w, name, g) + rest) == Some(name)
  {
    var line := Render(p, w, name, g) + rest;
    var after := g + p.close + rest;
    var tail := "\"" + name + "\"" + after;
    assert line == p.tag + (w + tail);
    var s1 := line[|p.tag|..];
    assert Prefix(p.tag, line) && s1 == w + tail;
    SpaceRunAfter(w, tail);
    assert s1[SpaceRun(s1)..] == tail;
    QuotedNameRender(name, after);
    ClosesRender(p, g, rest);
  }

  const DialogOpenPattern := Pattern("<dialog", false, ">")
  const OptionOpenPattern := Pattern("<option", false, ">")
  const GotoPattern := Pattern("<goto", true, "/>")

  // ----------------------------------------------------------------- blocks

  const DialogClose := "</dialog>"
  const ParagraphOpen := "<paragraph>"
  const ParagraphClose := "</paragraph>"
  const ChoiceOpen := "<choice>"
  const ChoiceClose := "</choice>"
  const OptionClose := "</option>"

  /** `ParagraphBlock`, `GotoBlock`, `ChoiceBlock` and `OptionBlock`. */
  datatype Block =
    | ParagraphBlock(lines: seq<string>)
    | GotoBlock(target: string)
    | ChoiceBlock(prompt: Option<seq<string>>, options: seq<OptionBlock>)

  datatype OptionBlock = OptionBlock(name: string, blocks: seq<Block>)

  /** Why parsing stopped; every one of these is a ValueError in the source. */
  datatype Why =
    | UnexpectedOutside(line: string)
    | UnexpectedLine(line: string)
    | MissingEnd(tag: string)
    | MissingParagraphClose
    | TwoPrompts
    | UnexpectedInChoice(line: string)
    | MissingChoiceClose

  /** A line as the parsers see it: stripped, with the three tag patterns
      already tried on it. The source strips every line at the point of use,
      keeps only the stripped text, and matches patterns against it, so
      doing this up front changes nothing. */
  datatype Line = Line(text: string, dialog: Option<string>, option: Option<string>, goto: Option<string>)

  function Lex(raw: seq<string>): (r: seq<Line>)
    ensures |r| == |raw|
    ensures forall k :: 0 <= k < |r| ==>
              && r[k].text == Strip(raw[k])
              && r[k].dialog == Match(DialogOpenPattern, r[k].text)
              && r[k].option == Match(OptionOpenPattern, r[k].text)
              && r[k].goto == Match(GotoPattern, r[k].text)
  {
    seq(|raw|, k requires 0 <= k < |raw| =>
      var t := Strip(raw[k]);
      Line(t, Match(DialogOpenPattern, t), Match(OptionOpenPattern, t), Match(GotoPattern, t)))
  }

  /** A parsed value and the index of the first line after it. */
  datatype Parsed<T> = Done(value: T, next: nat) | Fail(why: Why)

  /** `_parse_paragraph`: every line up to `</paragraph>`, stripped, blank
      ones included. */
  function ParseParagraph(lines: seq<Line>, start: nat): (r: Parsed<seq<string>>)
    requires start <= |lines|
    ensures r.Done? ==> start < r.next <= |lines|
    decreases |lines| - start
  {
    if start == |lines| then Fail(MissingParagraphClose)
    else if lines[start].text == ParagraphClose then Done([], start + 1)
    else
      match ParseParagraph(lines, start + 1)
      case Fail(why) => Fail(why)
      case Done(rest, next) => Done([lines[start].text] + rest, next)
  }

  /** `_parse_paragraph` takes the lines up to the first `</paragraph>` as
      they stand, and fails only when no such line follows. */
  lemma {:induction false} ParagraphUpToClose(lines: seq<Line>, start: nat)
    requires start <= |lines|
    ensures var r := ParseParagraph(lines, start);
      && (r.Fail? <==> forall k :: start <= k < |lines| ==> lines[k].text != ParagraphClose)
      && (r.Fail? ==> r.why == MissingParagraphClose)
      && (r.Done? ==> && lines[r.next - 1].text == ParagraphClose
                      && (forall k :: start <= k < r.next - 1 ==> lines[k].text != ParagraphClose)
                      && |r.value| == r.next - 1 - start
                      && (forall k :: 0 <= k < |r.value| ==> r.value[k] == lines[start + k].text))
    decreases |lines| - start
  {
    if start < |lines| && lines[start].text != ParagraphClose { ParagraphUpToClose(lines, start + 1); }
  }

  /** `_parse_blocks`: blocks up to `endTag`, skipping blank lines. */
  function ParseBlocks(lines: seq<Line>, start: nat, endTag: string): (r: Parsed<seq<Block>>)
    requires start <= |lines|
    ensures r.Done? ==> start < r.next <= |lines| && lines[r.next - 1].text == endTag
    decreases |lines| - start
  {
    if start == |lines| then Fail(MissingEnd(endTag))
    else
      var line := lines[start].text;
      if line == "" then ParseBlocks(lines, start + 1, endTag)
      else if line == endTag then Done([], start + 1)
      else if line == ParagraphOpen then
        match ParseParagraph(lines, start + 1)
        case Fail(why) => Fail(why)
        case Done(p, next) => More(ParagraphBlock(p), ParseBlocks(lines, next, endTag))
      else if line == ChoiceOpen then
        match ParseChoice(lines, start + 1, None, [])
        case Fail(why) => Fail(why)
        case Done(c, next) => More(c, ParseBlocks(lines, next, endTag))
      else match lines[start].goto
        case Some(target) => More(GotoBlock(target), ParseBlocks(lines, start + 1, endTag))
        case None => Fail(UnexpectedLine(line))
  }

  /** A block in front of the blocks parsed after it. */
  function More(b: Block, r: Parsed<seq<Block>>): (m: Parsed<seq<Block>>)
    ensures m.Fail? == r.Fail?
    ensures m.Done? ==> m.next == r.next && m.value == [b] + r.value
    ensures m.Fail? ==> m.why == r.why
  {
    match r
    case Fail(why) => Fail(why)
    case Done(bs, next) => Done([b] + bs, next)
  }

  /** Block parsing cannot succeed without its end tag ahead. */
  lemma {:induction false} BlocksNeedEnd(lines: seq<Line>, start: nat, endTag: string)
    requires start <= |lines|
    requires forall k :: start <= k < |lines| ==> lines[k].text != endTag
    ensures ParseBlocks(lines, start, endTag).Fail?
    decreases |lines| - start, 1
  {
    if start < |lines| {
      var line := lines[start].text;
      if line == "" {
        BlocksNeedEnd(lines, start + 1, endTag);
      } else if line == ParagraphOpen {
        var p := ParseParagraph(lines, start + 1);
        if p.Done? { BlocksNeedEnd(lines, p.next, endTag); }
      } else if line == ChoiceOpen {
        var c := ParseChoice(lines, start + 1, None, []);
        if c.Done? { BlocksNeedEnd(lines, c.next, endTag); }
      } else if lines[start].goto.Some? {
        BlocksNeedEnd(lines, start + 1, endTag);
      }
    }
  }

  /** `_parse_choice`, with the prompt and options gathered so far. */
  function ParseChoice(lines: seq<Line>, start: nat, prompt: Option<seq<string>>, options: seq<OptionBlock>)
    : (r: Parsed<Block>)
    requires start <= |lines|
    ensures r.Done? ==> start < r.next <= |lines| && lines[r.next - 1].text == ChoiceClose
    ensures r.Done? ==> r.value.ChoiceBlock?
    decreases |lines| - start
  {
    if start == |lines| then Fail(MissingChoiceClose)
    else
      var line := lines[start].text;
      if line == "" then ParseChoice(lines, start + 1, prompt, options)
      else if line == ChoiceClose then Done(ChoiceBlock(prompt, options), start + 1)
      else if line == ParagraphOpen then
        if prompt.Some? then Fail(TwoPrompts)
        else match ParseParagraph(lines, start + 1)
          case Fail(why) => Fail(why)
          case Done(p, next) => ParseChoice(lines, next, Some(p), options)
      else match lines[start].option
        case None => Fail(UnexpectedInChoice(line))
        case Some(name) =>
          match ParseBlocks(lines, start + 1, OptionClose)
          case Fail(why) => Fail(why)
          case Done(bs, next) =>
            ParseChoice(lines, next, prompt, options + [OptionBlock(name, bs)])
  }

  /** Nor can a choice without `</choice>` ahead. */
  lemma {:induction false} ChoiceNeedsEnd(lines: seq<Line>, start: nat, prompt: Option<seq<string>>, options: seq<OptionBlock>)
    requires start <= |lines|
    requires forall k :: start <= k < |lines| ==> lines[k].text != ChoiceClose
    ensures ParseChoice(lines, start, prompt, options).Fail?
    decreases |lines| - start
  {
    if start < |lines| {
      var line := lines[start].text;
      if line == "" {
        ChoiceNeedsEnd(lines, start + 1, prompt, options);
      } else if line == ParagraphOpen {
        var p := ParseParagraph(lines, start + 1);
        if prompt.None? && p.Done? { ChoiceNeedsEnd(lines, p.next, Some(p.value), options); }
      } else if lines[start].option.Some? {
        var b := ParseBlocks(lines, start + 1, OptionClose);
        if b.Done? { ChoiceNeedsEnd(lines, b.next, prompt, options + [OptionBlock(lines[start].option.value, b.value)]); }
      }
    }
  }

  /** A finished choice starts with the options gathered before, in order,
      and keeps a prompt already read. */
  lemma {:induction false} ChoiceKeepsGathered(lines: seq<Line>, start: nat, prompt: Option<seq<string>>, options: seq<OptionBlock>)
    requires start <= |lines|
    ensures var r := ParseChoice(lines, start, prompt, options);
      r.Done? ==> && |r.value.options| >= |options| && r.value.options[..|options|] == options
                  && (prompt.Some? ==> r.value.prompt == prompt)
    decreases |lines| - start
  {
    if start < |lines| {
      var line := lines[start].text;
      if line == "" {
        ChoiceKeepsGathered(lines, start + 1, prompt, options);
      } else if line == ParagraphOpen {
        var p := ParseParagraph(lines, start + 1);
        if prompt.None? && p.Done? { ChoiceKeepsGathered(lines, p.next, Some(p.value), options); }
      } else if line != ChoiceClose && lines[start].option.Some? {
        var b := ParseBlocks(lines, start + 1, OptionClose);
        if b.Done? {
          var more := options + [OptionBlock(lines[start].option.value, b.value)];
          ChoiceKeepsGathered(lines, b.next, prompt, more);
          var r := ParseChoice(lines, b.next, prompt, more);
          assert r.Done? ==> r.value.options[..|options|] == more[..|options|];
        }
      }
    }
  }

  /** The first non-blank line at or after `start`, or `|lines|`. */
  function FirstNonBlank(lines: seq<Line>, start: nat): (k: nat)
    requires start <= |lines|
    ensures start <= k <= |lines|
    ensures forall j :: start <= j < k ==> lines[j].text == ""
    ensures k < |lines| ==> lines[k].text != ""
    decreases |lines| - start
  {
    if start == |lines| || lines[start].text != "" then start else FirstNonBlank(lines, start + 1)
  }

  /** A line `_parse_blocks` has no rule for: not blank, not the end tag,
      opening neither a paragraph nor a choice, and not a goto. */
  predicate UnexpectedInBlocks(l: Line, endTag: string)
  {
    l.text != "" && l.text != endTag && l.text != ParagraphOpen && l.text != ChoiceOpen && l.goto.None?
  }

  /** A line `_parse_choice` has no rule for: not blank, not `</choice>`,
      not opening a paragraph, and not opening an option. */
  predicate UnexpectedInOptions(l: Line)
  {
    l.text != "" && l.text != ChoiceClose && l.text != ParagraphOpen && l.option.None?
  }

  /** The first non-blank line decides how `_parse_blocks` begins: the end
      of the lines is the missing end tag, the end tag closes an empty
      list, and a line without a rule is the ValueError for it. */
  lemma {:induction false} ParseBlocksFirst(lines: seq<Line>, start: nat, endTag: string)
    requires start <= |lines|
    ensures var r := ParseBlocks(lines, start, endTag);
      var k := FirstNonBlank(lines, start);
      && (k == |lines| ==> r == Fail(MissingEnd(endTag)))
      && (k < |lines| && lines[k].text == endTag ==> r == Done([], k + 1))
      && (k < |lines| && UnexpectedInBlocks(lines[k], endTag) ==> r == Fail(UnexpectedLine(lines[k].text)))
    decreases |lines| - start
  {
    if start < |lines| && lines[start].text == "" {
      ParseBlocksFirst(lines, start + 1, endTag);
      assert ParseBlocks(lines, start, endTag) == ParseBlocks(lines, start + 1, endTag);
      assert FirstNonBlank(lines, start) == FirstNonBlank(lines, start + 1);
    }
  }

  /** The same for `_parse_choice`, whatever it has gathered so far. */
  lemma {:induction false} ParseChoiceFirst(lines: seq<Line>, start: nat, prompt: Option<seq<string>>, options: seq<OptionBlock>)
    requires start <= |lines|
    ensures var r := ParseChoice(lines, start, prompt, options);
      var k := FirstNonBlank(lines, start);
      && (k == |lines| ==> r == Fail(MissingChoiceClose))
      && (k < |lines| && lines[k].text == ChoiceClose ==> r == Done(ChoiceBlock(prompt, options), k + 1))
      && (k < |lines| && UnexpectedInOptions(lines[k]) ==> r == Fail(UnexpectedInChoice(lines[k].text)))
    decreases |lines| - start
  {
    if start < |lines| && lines[start].text == "" {
      ParseChoiceFirst(lines, start + 1, prompt, options);
      assert ParseChoice(lines, start, prompt, options) == ParseChoice(lines, start + 1, prompt, options);
      assert FirstNonBlank(lines, start) == FirstNonBlank(lines, start + 1);
    }
  }

  /** A top-level dialog: its name and its blocks. */
  type Named = (string, seq<Block>)

  /** The loop of `parse_dialogs` after `splitlines`: the top-level dialogs
      in file order. Blank lines are skipped; any other line that does not
      open a dialog raises ValueError. */
  function ParseTop(lines: seq<Line>, start: nat): (r: Result2<seq<Named>>)
    requires start <= |lines|
    decreases |lines| - start
  {
    if start == |lines| then Ok2([])
    else
      var line := lines[start].text;
      if line == "" then ParseTop(lines, start + 1)
      else match lines[start].dialog
        case None => Err2(UnexpectedOutside(line))
        case Some(name) =>
          match ParseBlocks(lines, start + 1, DialogClose)
          case Fail(why) => Err2(why)
          case Done(bs, next) =>
            match ParseTop(lines, next)
            case Err2(why) => Err2(why)
            case Ok2(rest) => Ok2([(name, bs)] + rest)
  }

  /** What the loop meets first decides: the first non-blank line must
      open a dialog, whose blocks head the list; any other line is the
      ValueError for a line outside a dialog. */
  lemma {:induction false} ParseTopFirst(lines: seq<Line>, start: nat)
    requires start <= |lines|
    ensures var r := ParseTop(lines, start);
      var k := FirstNonBlank(lines, start);
      && (k < |lines| && lines[k].dialog.None? ==> r == Err2(UnexpectedOutside(lines[k].text)))
      && (k < |lines| && lines[k].dialog.Some? && r.Ok2? ==>
            && |r.value| > 0 && r.value[0].0 == lines[k].dialog.value
            && ParseBlocks(lines, k + 1, DialogClose).Done? && ParseBlocks(lines, k + 1, DialogClose).value == r.value[0].1)
    decreases |lines| - start
  {
    if start < |lines| {
      if lines[start].text == "" {
        ParseTopFirst(lines, start + 1);
        assert ParseTop(lines, start) == ParseTop(lines, start + 1);
        assert FirstNonBlank(lines, start) == FirstNonBlank(lines, start + 1);
      } else {
        ParseTopAt(lines, start);
      }
    }
  }

  /** `ParseTopFirst` where the first line is not blank. */
  lemma ParseTopAt(lines: seq<Line>, k: nat)
    requires k < |lines| && lines[k].text != ""
    ensures var r := ParseTop(lines, k);
      && (lines[k].dialog.None? ==> r == Err2(UnexpectedOutside(lines[k].text)))
      && (lines[k].dialog.Some? && r.Ok2? ==>
            && |r.value| > 0 && r.value[0].0 == lines[k].dialog.value
            && ParseBlocks(lines, k + 1, DialogClose).Done? && ParseBlocks(lines, k + 1, DialogClose).value == r.value[0].1)
  {
  }

  /** The index of the line opening each top-level dialog, as the loop of
      `parse_dialogs` meets them. */
  function DialogStarts(lines: seq<Line>, start: nat): (at: seq<nat>)
    requires start <= |lines|
    ensures forall i :: 0 <= i < |at| ==> start <= at[i] < |lines|
    decreases |lines| - start
  {
    if start == |lines| then []
    else if lines[start].text == "" then DialogStarts(lines, start + 1)
    else if lines[start].dialog.None? then []
    else match ParseBlocks(lines, start + 1, DialogClose)
      case Fail(_) => []
      case Done(_, next) => [start] + DialogStarts(lines, next)
  }

  /** `ds[i]` is the dialog opened at line `at[i]`: that line names it and
      the lines come in order. */
  predicate Ordered(lines: seq<Line>, at: seq<nat>, ds: seq<Named>)
  {
    && |at| == |ds|
    && (forall i :: 0 <= i < |at| ==> at[i] < |lines| && lines[at[i]].dialog == Some(ds[i].0))
    && (forall i, j :: 0 <= i < j < |at| ==> at[i] < at[j])
  }

  /** A dialog opened before all the others goes in front. */
  lemma OrderedCons(lines: seq<Line>, k: nat, d: Named, at: seq<nat>, ds: seq<Named>)
    requires Ordered(lines, at, ds) && k < |lines| && lines[k].dialog == Some(d.0)
    requires forall i :: 0 <= i < |at| ==> k < at[i]
    ensures Ordered(lines, [k] + at, [d] + ds)
  {
    var at', ds' := [k] + at, [d] + ds;
    assert forall i :: 0 < i < |at'| ==> at'[i] == at[i - 1] && ds'[i] == ds[i - 1];
  }

  /** The dialogs come in file order: the i-th is opened by a line after
      that of the one before it, and carries that line's name. */
  lemma {:induction false} TopInOrder(lines: seq<Line>, start: nat)
    requires start <= |lines|
    ensures ParseTop(lines, start).Ok2? ==> Ordered(lines, DialogStarts(lines, start), ParseTop(lines, start).value)
    decreases |lines| - start
  {
    if start < |lines| {
      if lines[start].text == "" {
        TopBlank(lines, start);
        TopInOrder(lines, start + 1);
      } else if lines[start].dialog.Some? && ParseBlocks(lines, start + 1, DialogClose).Done? {
        var b := ParseBlocks(lines, start + 1, DialogClose);
        TopDialog(lines, start);
        TopInOrder(lines, b.next);
        if ParseTop(lines, start).Ok2? {
          OrderedCons(lines, start, (lines[start].dialog.value, b.value),
                      DialogStarts(lines, b.next), ParseTop(lines, b.next).value);
        }
      }
    }
  }

  /** Every top-level dialog is named by a line of the part read, and a
      part holding only blank lines has none. */
  lemma {:induction false} TopOpened(lines: seq<Line>, start: nat)
    requires start <= |lines|
    ensures var r := ParseTop(lines, start);
      r.Ok2? ==> forall i :: 0 <= i < |r.value| ==>
        exists k :: start <= k < |lines| && lines[k].dialog == Some(r.value[i].0)
    ensures (forall k :: start <= k < |lines| ==> lines[k].text == "") ==> ParseTop(lines, start) == Ok2([])
    decreases |lines| - start
  {
    TopInOrder(lines, start);
    var r := ParseTop(lines, start);
    if r.Ok2? {
      var at := DialogStarts(lines, start);
      forall i | 0 <= i < |r.value|
        ensures exists k :: start <= k < |lines| && lines[k].dialog == Some(r.value[i].0)
      {
        assert lines[at[i]].dialog == Some(r.value[i].0);
      }
    }
    if start < |lines| && lines[start].text == "" {
      TopBlank(lines, start);
      TopOpened(lines, start + 1);
    }
  }

  /** The loop skips a blank line. */
  lemma TopBlank(lines: seq<Line>, start: nat)
    requires start < |lines| && lines[start].text == ""
    ensures ParseTop(lines, start) == ParseTop(lines, start + 1)
    ensures DialogStarts(lines, start) == DialogStarts(lines, start + 1)
  {
  }

  /** A dialog line whose blocks parse heads both lists. */
  lemma TopDialog(lines: seq<Line>, start: nat)
    requires start < |lines| && lines[start].text != "" && lines[start].dialog.Some?
    requires ParseBlocks(lines, start + 1, DialogClose).Done?
    ensures var b := ParseBlocks(lines, start + 1, DialogClose);
      && DialogStarts(lines, start) == [start] + DialogStarts(lines, b.next)
      && ParseTop(lines, start).Ok2? == ParseTop(lines, b.next).Ok2?
      && (ParseTop(lines, start).Ok2? ==>
            ParseTop(lines, start).value == [(lines[start].dialog.value, b.value)] + ParseTop(lines, b.next).value)
  {
  }

  /** `dialog_blocks[name] = blocks` for each dialog in turn: a later
      dialog of the same name replaces the earlier one. */
  function Overlay(found: map<string, seq<Block>>, ds: seq<Named>): (r: map<string, seq<Block>>)
    ensures forall name :: name in r <==> name in found || exists i :: 0 <= i < |ds| && ds[i].0 == name
    ensures forall i :: 0 <= i < |ds| && LastOf(ds, i) ==> r[ds[i].0] == ds[i].1
    ensures forall name :: name in found && (forall i :: 0 <= i < |ds| ==> ds[i].0 != name) ==> r[name] == found[name]
    decreases |ds|
  {
    if |ds| == 0 then found
    else
      var before := Overlay(found, ds[..|ds| - 1]);
      OverlayStep(found, ds, before);
      before[ds[|ds| - 1].0 := ds[|ds| - 1].1]
  }

  /** One step of `Overlay`: the last dialog written over the others. */
  lemma OverlayStep(found: map<string, seq<Block>>, ds: seq<Named>, before: map<string, seq<Block>>)
    requires |ds| > 0
    requires var init := ds[..|ds| - 1];
      && (forall name :: name in before <==> name in found || exists i :: 0 <= i < |init| && init[i].0 == name)
      && (forall i :: 0 <= i < |init| && LastOf(init, i) ==> before[init[i].0] == init[i].1)
      && (forall name :: name in found && (forall i :: 0 <= i < |init| ==> init[i].0 != name) ==> before[name] == found[name])
    ensures var r := before[ds[|ds| - 1].0 := ds[|ds| - 1].1];
      && (forall name :: name in r <==> name in found || exists i :: 0 <= i < |ds| && ds[i].0 == name)
      && (forall i :: 0 <= i < |ds| && LastOf(ds, i) ==> r[ds[i].0] == ds[i].1)
      && (forall name :: name in found && (forall i :: 0 <= i < |ds| ==> ds[i].0 != name) ==> r[name] == found[name])
  {
    OverlayStepKeys(found, ds, before);
    OverlayStepLast(ds, before);
    OverlayStepKeeps(found, ds, before);
  }

  lemma OverlayStepKeys(found: map<string, seq<Block>>, ds: seq<Named>, before: map<string, seq<Block>>)
    requires |ds| > 0
    requires var init := ds[..|ds| - 1];
      forall name :: name in before <==> name in found || exists i :: 0 <= i < |init| && init[i].0 == name
    ensures var r := before[ds[|ds| - 1].0 := ds[|ds| - 1].1];
      forall name :: name in r <==> name in found || exists i :: 0 <= i < |ds| && ds[i].0 == name
  {
    var init := ds[..|ds| - 1];
    var r := before[ds[|ds| - 1].0 := ds[|ds| - 1].1];
    forall name ensures name in r <==> name in found || exists i :: 0 <= i < |ds| && ds[i].0 == name {
      if exists i :: 0 <= i < |ds| && ds[i].0 == name {
        var i :| 0 <= i < |ds| && ds[i].0 == name;
        if i < |ds| - 1 { assert init[i].0 == name; }
      }
      if exists i :: 0 <= i < |init| && init[i].0 == name {
        var i :| 0 <= i < |init| && init[i].0 == name;
        assert ds[i].0 == name;
      }
    }
  }

  lemma OverlayStepLast(ds: seq<Named>, before: map<string, seq<Block>>)
    requires |ds| > 0
    requires var init := ds[..|ds| - 1];
      forall i :: 0 <= i < |init| && LastOf(init, i) ==> init[i].0 in before && before[init[i].0] == init[i].1
    ensures var r := before[ds[|ds| - 1].0 := ds[|ds| - 1].1];
      forall i :: 0 <= i < |ds| && LastOf(ds, i) ==> r[ds[i].0] == ds[i].1
  {
    var init := ds[..|ds| - 1];
    var last := ds[|ds| - 1];
    var r := before[last.0 := last.1];
    forall i | 0 <= i < |ds| && LastOf(ds, i) ensures r[ds[i].0] == ds[i].1 {
      if i < |ds| - 1 {
        assert ds[i].0 != last.0;
        assert LastOf(init, i) by {
          forall j | i < j < |init| ensures init[j].0 != init[i].0 { assert init[j] == ds[j]; }
        }
      }
    }
  }

  lemma OverlayStepKeeps(found: map<string, seq<Block>>, ds: seq<Named>, before: map<string, seq<Block>>)
    requires |ds| > 0
    requires var init := ds[..|ds| - 1];
      forall name :: name in found && (forall i :: 0 <= i < |init| ==> init[i].0 != name) ==> name in before && before[name] == found[name]
    ensures var r := before[ds[|ds| - 1].0 := ds[|ds| - 1].1];
      forall name :: name in found && (forall i :: 0 <= i < |ds| ==> ds[i].0 != name) ==> r[name] == found[name]
  {
    var init := ds[..|ds| - 1];
    forall name | name in found && (forall i :: 0 <= i < |ds| ==> ds[i].0 != name)
      ensures before[ds[|ds| - 1].0 := ds[|ds| - 1].1][name] == found[name]
    {
      assert forall i :: 0 <= i < |init| ==> init[i] == ds[i];
      assert name != ds[|ds| - 1].0;
    }
  }

  /** Entry `i` is the last one with its name. */
  predicate LastOf(ds: seq<Named>, i: nat)
    requires i < |ds|
  {
    forall j :: i < j < |ds| ==> ds[j].0 != ds[i].0
  }

  datatype Result2<T> = Ok2(value: T) | Err2(why: Why)

  // --------------------------------------------------------------- building

  /** `_build_block`: a paragraph or goto becomes a leaf; a choice becomes
      an option node with one branch per option, an empty option giving an
      end node. */
  function BuildBlock(b: Block): (d: Tree)
    ensures WellFormed(d)
    decreases b, 1
  {
    match b
    case ParagraphBlock(lines) => Tree(Some(Paragraph(lines)), [])
    case GotoBlock(target) => Tree(Some(Goto(target)), [])
    case ChoiceBlock(prompt, options) =>
      var promptLines := if prompt.Some? then prompt.value else [];
      var names := seq(|options|, k requires 0 <= k < |options| => options[k].name);
      Branch(promptLines, names, BuildBranches(options)).value
  }

  /** The branches of a choice, one per option. */
  function BuildBranches(options: seq<OptionBlock>): (r: seq<Tree>)
    ensures |r| == |options|
    ensures forall k :: 0 <= k < |r| ==> WellFormed(r[k])
    ensures forall k :: 0 <= k < |r| ==>
              r[k] == if |options[k].blocks| == 0 then Tree(None, []) else BuildSequence(options[k].blocks)
    decreases options, 0
  {
    if |options| == 0 then []
    else
      var o := options[0];
      var first := if |o.blocks| == 0 then Tree(None, []) else BuildSequence(o.blocks);
      var rest := BuildBranches(options[1..]);
      var r := [first] + rest;
      assert forall k :: 1 <= k < |options| ==> options[k] == options[1..][k - 1] && r[k] == rest[k - 1];
      r
  }

  /** `_build_sequence`: the blocks chained left to right with `>>`; no
      blocks give an end node. The chaining never raises, since every
      built dialog is well formed. */
  function BuildSequence(blocks: seq<Block>): (d: Tree)
    ensures WellFormed(d)
    decreases blocks, 2
  {
    if |blocks| == 0 then Tree(None, [])
    else if |blocks| == 1 then BuildBlock(blocks[0])
    else AppendToLeaves(BuildSequence(blocks[..|blocks| - 1]), BuildBlock(blocks[|blocks| - 1])).value
  }

  /** `_build_dialogs`: one dialog per parsed name. */
  function BuildDialogs(found: map<string, seq<Block>>): (r: map<string, Tree>)
    ensures r.Keys == found.Keys
    ensures forall name :: name in r ==> r[name] == BuildSequence(found[name]) && WellFormed(r[name])
  {
    map name | name in found :: BuildSequence(found[name])
  }

  /** `parse_dialogs` on the lines of a file. */
  function ParseDialogs(raw: seq<string>): (r: Result2<map<string, Tree>>)
    ensures r.Ok2? ==> forall name :: name in r.value ==>
              exists k :: 0 <= k < |raw| && Match(DialogOpenPattern, Strip(raw[k])) == Some(name)
    ensures r.Ok2? ==> forall name :: name in r.value ==> WellFormed(r.value[name])
    ensures var top := ParseTop(Lex(raw), 0);
      && (top.Err2? ==> r == Err2(top.why))
      && (top.Ok2? ==> r.Ok2? && BuiltFrom(r.value, top.value))
    ensures var k := FirstNonBlank(Lex(raw), 0);
      k < |raw| && Match(DialogOpenPattern, Strip(raw[k])).None? ==> r == Err2(UnexpectedOutside(Strip(raw[k])))
  {
    var lines := Lex(raw);
    ParseTopFirst(lines, 0);
    match ParseTop(lines, 0)
    case Err2(why) => Err2(why)
    case Ok2(ds) =>
      DialogsFound(raw, ds);
      BuiltFromLast(ds);
      Ok2(BuildDialogs(Overlay(map[], ds)))
  }

  /** Every dialog built from the top-level list of a file is named by
      one of its `<dialog>` lines. */
  lemma DialogsFound(raw: seq<string>, ds: seq<Named>)
    requires ParseTop(Lex(raw), 0) == Ok2(ds)
    ensures forall name :: name in BuildDialogs(Overlay(map[], ds)) ==>
      exists k :: 0 <= k < |raw| && Match(DialogOpenPattern, Strip(raw[k])) == Some(name)
  {
    TopNames(raw, ds);
    var found := Overlay(map[], ds);
    forall name | name in found
      ensures exists k :: 0 <= k < |raw| && Match(DialogOpenPattern, Strip(raw[k])) == Some(name)
    {
      var i :| 0 <= i < |ds| && ds[i].0 == name;
    }
  }

  /** `table` holds exactly the names of the list `ds`, each with the
      dialog built from its last occurrence. */
  ghost predicate BuiltFrom(table: map<string, Tree>, ds: seq<Named>)
  {
    && (forall name :: name in table <==> exists i :: 0 <= i < |ds| && ds[i].0 == name)
    && (forall i :: 0 <= i < |ds| && LastOf(ds, i) ==> ds[i].0 in table && table[ds[i].0] == BuildSequence(ds[i].1))
  }

  /** The table built from the top-level list is `BuiltFrom` that list. */
  lemma BuiltFromLast(ds: seq<Named>)
    ensures BuiltFrom(BuildDialogs(Overlay(map[], ds)), ds)
  {
  }

  /** Every top-level dialog of a file is named by one of its lines. */
  lemma TopNames(raw: seq<string>, ds: seq<Named>)
    requires ParseTop(Lex(raw), 0) == Ok2(ds)
    ensures forall i :: 0 <= i < |ds| ==> exists k :: 0 <= k < |raw| && Match(DialogOpenPattern, Strip(raw[k])) == Some(ds[i].0)
  {
    var lines := Lex(raw);
    TopOpened(lines, 0);
    forall i | 0 <= i < |ds|
      ensures exists k :: 0 <= k < |raw| && Match(DialogOpenPattern, Strip(raw[k])) == Some(ds[i].0)
    {
      var k :| 0 <= k < |lines| && lines[k].dialog == Some(ds[i].0);
      assert Match(DialogOpenPattern, Strip(raw[k])) == Some(ds[i].0);
    }
  }

  // -------------------------------------------------------------- rendering

  /** The opening lines of the three named tags, one space before the name. */
  function DialogText(name: string): string { Render(DialogOpenPattern, " ", name, "") }
  function OptionText(name: string): string { Render(OptionOpenPattern, " ", name, "") }
  function GotoText(target: string): string { Render(GotoPattern, " ", target, "") }

  /** A name the tag patterns can carry: non-empty and free of quotes. */
  predicate Nameable(name: string)
  {
    |name| > 0 && NoQuote(name)
  }

  /** Paragraph lines that do not end the paragraph early. */
  predicate ParagraphText(ts: seq<string>)
  {
    forall k :: 0 <= k < |ts| ==> ts[k] != ParagraphClose
  }

  /** A block the format can write down: its names fit the patterns and
      its paragraphs hold no closing tag. */
  predicate Renderable(b: Block)
    decreases b
  {
    match b
    case ParagraphBlock(ts) => ParagraphText(ts)
    case GotoBlock(target) => Nameable(target)
    case ChoiceBlock(prompt, options) =>
      && (prompt.Some? ==> ParagraphText(prompt.value))
      && forall i :: 0 <= i < |options| ==>
           && Nameable(options[i].name)
           && forall j :: 0 <= j < |options[i].blocks| ==> Renderable(options[i].blocks[j])
  }

  predicate AllRenderable(bs: seq<Block>)
  {
    forall j :: 0 <= j < |bs| ==> Renderable(bs[j])
  }

  function ParagraphLines(ts: seq<string>): seq<string>
  {
    [ParagraphOpen] + ts + [ParagraphClose]
  }

  function PromptLines(prompt: Option<seq<string>>): seq<string>
  {
    if prompt.Some? then ParagraphLines(prompt.value) else []
  }

  /** The stripped lines a block is written as, each tag on a line of
      its own. */
  function RenderBlock(b: Block): seq<string>
    decreases b, 1
  {
    match b
    case ParagraphBlock(ts) => ParagraphLines(ts)
    case GotoBlock(target) => [GotoText(target)]
    case ChoiceBlock(prompt, options) =>
      [ChoiceOpen] + PromptLines(prompt) + RenderOptions(options) + [ChoiceClose]
  }

  function RenderOptions(options: seq<OptionBlock>): seq<string>
    decreases options, 0
  {
    if |options| == 0 then []
    else OptionLines(options[0]) + RenderOptions(options[1..])
  }

  function OptionLines(o: OptionBlock): seq<string>
    decreases o, 3
  {
    [OptionText(o.name)] + RenderBlocks(o.blocks) + [OptionClose]
  }

  function RenderBlocks(bs: seq<Block>): seq<string>
    decreases bs, 2
  {
    if |bs| == 0 then [] else RenderBlock(bs[0]) + RenderBlocks(bs[1..])
  }

  /** The lines from `start` on read `ts`, with the option and goto
      patterns tried on each, as `Lex` leaves them. */
  predicate Reads(lines: seq<Line>, start: nat, ts: seq<string>)
  {
    && start + |ts| <= |lines|
    && forall k :: 0 <= k < |ts| ==> lines[start + k].text == ts[k]
  }

  predicate Tried(l: Line)
  {
    l.option == Match(OptionOpenPattern, l.text) && l.goto == Match(GotoPattern, l.text)
  }

  predicate AllTried(lines: seq<Line>)
  {
    forall k {:trigger Tried(lines[k])} :: 0 <= k < |lines| ==> Tried(lines[k])
  }

  lemma ReadsHead(lines: seq<Line>, start: nat, ts: seq<string>)
    requires Reads(lines, start, ts) && |ts| > 0
    ensures start < |lines| && lines[start].text == ts[0]
  {
    assert lines[start + 0].text == ts[0];
  }

  lemma ReadsSplit(lines: seq<Line>, start: nat, a: seq<string>, b: seq<string>)
    requires Reads(lines, start, a + b)
    ensures Reads(lines, start, a) && Reads(lines, start + |a|, b)
  {
    assert forall k :: 0 <= k < |a| ==> (a + b)[k] == a[k];
    assert forall k :: 0 <= k < |b| ==> (a + b)[|a| + k] == b[k];
  }

  lemma MoreDone(x: Parsed<seq<Block>>, y: Parsed<seq<Block>>, bs: seq<Block>, next: nat)
    requires |bs| > 0 && x == More(bs[0], y) && y == Done(bs[1..], next)
    ensures x == Done(bs, next)
  {
    assert [bs[0]] + bs[1..] == bs;
  }

  lemma ConsAppend<T>(done: seq<T>, todo: seq<T>)
    requires |todo| > 0
    ensures done + [todo[0]] + todo[1..] == done + todo
  {
    assert [todo[0]] + todo[1..] == todo;
  }

  lemma RenderBlocksCons(bs: seq<Block>, endTag: string)
    requires |bs| > 0
    ensures RenderBlocks(bs) + [endTag] == RenderBlock(bs[0]) + (RenderBlocks(bs[1..]) + [endTag])
  {
  }

  lemma RenderOptionsCons(todo: seq<OptionBlock>)
    requires |todo| > 0
    ensures RenderOptions(todo) + [ChoiceClose] == OptionLines(todo[0]) + (RenderOptions(todo[1..]) + [ChoiceClose])
  {
  }

  lemma RenderableTail(bs: seq<Block>)
    requires AllRenderable(bs) && |bs| > 0
    ensures Renderable(bs[0]) && AllRenderable(bs[1..])
  {
    assert forall j :: 0 <= j < |bs| - 1 ==> bs[1..][j] == bs[j + 1];
  }

  predicate RenderableOptions(todo: seq<OptionBlock>)
  {
    forall i :: 0 <= i < |todo| ==> Nameable(todo[i].name) && AllRenderable(todo[i].blocks)
  }

  lemma OptionsTail(todo: seq<OptionBlock>)
    requires RenderableOptions(todo) && |todo| > 0
    ensures Nameable(todo[0].name) && AllRenderable(todo[0].blocks) && RenderableOptions(todo[1..])
  {
    assert forall i :: 0 <= i < |todo| - 1 ==> todo[1..][i] == todo[i + 1];
  }

  /** The tag lines are told apart by their second character. */
  lemma TagsDiffer(name: string)
    ensures var o := OptionText(name); var g := GotoText(name);
      && |o| > 1 && o[1] == 'o' && |g| > 1 && g[1] == 'g'
      && DialogClose[1] == '/' && OptionClose[1] == '/' && ChoiceClose[1] == '/'
      && ParagraphOpen[1] == 'p' && ChoiceOpen[1] == 'c'
  {
    assert OptionText(name) == "<option" + (" " + "\"" + name + "\"" + "" + ">");
    assert GotoText(name) == "<goto" + (" " + "\"" + name + "\"" + "" + "/>");
  }

  /** A named tag line reads back its name. */
  lemma NamedLines(name: string)
    requires Nameable(name)
    ensures Match(DialogOpenPattern, DialogText(name)) == Some(name)
    ensures Match(OptionOpenPattern, OptionText(name)) == Some(name)
    ensures Match(GotoPattern, GotoText(name)) == Some(name)
  {
    assert Fits(DialogOpenPattern, " ", name, "") && Fits(GotoPattern, " ", name, "");
    MatchRender(DialogOpenPattern, " ", name, "", "");
    MatchRender(OptionOpenPattern, " ", name, "", "");
    MatchRender(GotoPattern, " ", name, "", "");
    assert DialogText(name) + "" == DialogText(name);
    assert OptionText(name) + "" == OptionText(name);
    assert GotoText(name) + "" == GotoText(name);
  }

  /** A written paragraph body reads back as its lines. */
  lemma ParagraphParses(lines: seq<Line>, start: nat, ts: seq<string>)
    requires ParagraphText(ts) && Reads(lines, start, ts + [ParagraphClose])
    ensures ParseParagraph(lines, start) == Done(ts, start + |ts| + 1)
  {
    ReadsSplit(lines, start, ts, [ParagraphClose]);
    ReadsHead(lines, start + |ts|, [ParagraphClose]);
    ParagraphUpToClose(lines, start);
    var r := ParseParagraph(lines, start);
    assert forall k :: start <= k < start + |ts| ==> lines[k].text == ts[k - start];
    assert r.value == ts;
  }

  /** One rule of `_parse_blocks` or `_parse_choice` at a line. */
  lemma BlocksAtParagraph(lines: seq<Line>, start: nat, endTag: string, ts: seq<string>, next: nat)
    requires start < |lines| && lines[start].text == ParagraphOpen && endTag != ParagraphOpen
    requires ParseParagraph(lines, start + 1) == Done(ts, next)
    ensures ParseBlocks(lines, start, endTag) == More(ParagraphBlock(ts), ParseBlocks(lines, next, endTag))
  {
  }

  lemma BlocksAtGoto(lines: seq<Line>, start: nat, endTag: string, target: string)
    requires start < |lines| && lines[start].goto == Some(target)
    requires lines[start].text !in {"", endTag, ParagraphOpen, ChoiceOpen}
    ensures ParseBlocks(lines, start, endTag) == More(GotoBlock(target), ParseBlocks(lines, start + 1, endTag))
  {
  }

  lemma BlocksAtChoice(lines: seq<Line>, start: nat, endTag: string, c: Block, next: nat)
    requires start < |lines| && lines[start].text == ChoiceOpen && endTag != ChoiceOpen && endTag != ParagraphOpen
    requires ParseChoice(lines, start + 1, None, []) == Done(c, next)
    ensures ParseBlocks(lines, start, endTag) == More(c, ParseBlocks(lines, next, endTag))
  {
  }

  lemma ChoiceAtClose(lines: seq<Line>, start: nat, prompt: Option<seq<string>>, options: seq<OptionBlock>)
    requires start < |lines| && lines[start].text == ChoiceClose
    ensures ParseChoice(lines, start, prompt, options) == Done(ChoiceBlock(prompt, options), start + 1)
  {
  }

  lemma ChoiceAtPrompt(lines: seq<Line>, start: nat, options: seq<OptionBlock>, ts: seq<string>, next: nat)
    requires start < |lines| && lines[start].text == ParagraphOpen
    requires ParseParagraph(lines, start + 1) == Done(ts, next)
    ensures ParseChoice(lines, start, None, options) == ParseChoice(lines, next, Some(ts), options)
  {
  }

  lemma ChoiceAtOption(lines: seq<Line>, start: nat, prompt: Option<seq<string>>, options: seq<OptionBlock>,
                       name: string, bs: seq<Block>, next: nat)
    requires start < |lines| && lines[start].option == Some(name)
    requires lines[start].text !in {"", ChoiceClose, ParagraphOpen}
    requires ParseBlocks(lines, start + 1, OptionClose) == Done(bs, next)
    ensures ParseChoice(lines, start, prompt, options) == ParseChoice(lines, next, prompt, options + [OptionBlock(name, bs)])
  {
  }

  // ---- reading rendered lines, one piece at a time

  /** The first of several rendered blocks, and the rest after it. */
  lemma {:induction false} BlocksSplit(lines: seq<Line>, start: nat, bs: seq<Block>, endTag: string)
    requires |bs| > 0 && AllRenderable(bs) && Reads(lines, start, RenderBlocks(bs) + [endTag])
    ensures Renderable(bs[0]) && AllRenderable(bs[1..])
    ensures Reads(lines, start, RenderBlock(bs[0]))
    ensures Reads(lines, start + |RenderBlock(bs[0])|, RenderBlocks(bs[1..]) + [endTag])
    ensures |RenderBlocks(bs)| == |RenderBlock(bs[0])| + |RenderBlocks(bs[1..])| && |RenderBlock(bs[0])| > 0
  {
    RenderBlocksCons(bs, endTag);
    ReadsSplit(lines, start, RenderBlock(bs[0]), RenderBlocks(bs[1..]) + [endTag]);
    RenderableTail(bs);
  }

  /** The first of several rendered options, and the rest after it. */
  lemma {:induction false} OptionsSplit(lines: seq<Line>, start: nat, todo: seq<OptionBlock>)
    requires |todo| > 0 && RenderableOptions(todo) && Reads(lines, start, RenderOptions(todo) + [ChoiceClose])
    ensures Nameable(todo[0].name) && AllRenderable(todo[0].blocks) && RenderableOptions(todo[1..])
    ensures Reads(lines, start, OptionLines(todo[0]))
    ensures Reads(lines, start + |OptionLines(todo[0])|, RenderOptions(todo[1..]) + [ChoiceClose])
    ensures |RenderOptions(todo)| == |OptionLines(todo[0])| + |RenderOptions(todo[1..])|
  {
    RenderOptionsCons(todo);
    ReadsSplit(lines, start, OptionLines(todo[0]), RenderOptions(todo[1..]) + [ChoiceClose]);
    OptionsTail(todo);
  }

  /** A rendered option: its `<option>` line, then its blocks and `</option>`. */
  lemma {:induction false} OptionSplit(lines: seq<Line>, start: nat, o: OptionBlock)
    requires Reads(lines, start, OptionLines(o))
    ensures start < |lines| && lines[start].text == OptionText(o.name)
    ensures Reads(lines, start + 1, RenderBlocks(o.blocks) + [OptionClose])
    ensures |OptionLines(o)| == |RenderBlocks(o.blocks)| + 2
  {
    assert OptionLines(o) == [OptionText(o.name)] + (RenderBlocks(o.blocks) + [OptionClose]);
    ReadsSplit(lines, start, [OptionText(o.name)], RenderBlocks(o.blocks) + [OptionClose]);
    ReadsHead(lines, start, [OptionText(o.name)]);
  }

  /** A rendered choice: `<choice>`, its prompt, then its options and
      `</choice>`. */
  lemma {:induction false} ChoiceSplit(lines: seq<Line>, start: nat, prompt: Option<seq<string>>, options: seq<OptionBlock>)
    requires Renderable(ChoiceBlock(prompt, options)) && Reads(lines, start, RenderBlock(ChoiceBlock(prompt, options)))
    ensures (prompt.Some? ==> ParagraphText(prompt.value)) && RenderableOptions(options)
    ensures start < |lines| && lines[start].text == ChoiceOpen
    ensures Reads(lines, start + 1, PromptLines(prompt))
    ensures Reads(lines, start + 1 + |PromptLines(prompt)|, RenderOptions(options) + [ChoiceClose])
    ensures |RenderBlock(ChoiceBlock(prompt, options))| == |PromptLines(prompt)| + |RenderOptions(options)| + 2
  {
    var rest := RenderOptions(options) + [ChoiceClose];
    assert RenderBlock(ChoiceBlock(prompt, options)) == [ChoiceOpen] + (PromptLines(prompt) + rest);
    ReadsSplit(lines, start, [ChoiceOpen], PromptLines(prompt) + rest);
    ReadsHead(lines, start, [ChoiceOpen]);
    ReadsSplit(lines, start + 1, PromptLines(prompt), rest);
  }

  /** A rendered paragraph: `<paragraph>`, then its lines and `</paragraph>`. */
  lemma {:induction false} ParagraphSplit(lines: seq<Line>, start: nat, ts: seq<string>)
    requires Reads(lines, start, ParagraphLines(ts))
    ensures start < |lines| && lines[start].text == ParagraphOpen
    ensures Reads(lines, start + 1, ts + [ParagraphClose])
  {
    assert ParagraphLines(ts) == [ParagraphOpen] + (ts + [ParagraphClose]);
    ReadsSplit(lines, start, [ParagraphOpen], ts + [ParagraphClose]);
    ReadsHead(lines, start, [ParagraphOpen]);
  }

  // ---- parsing rendered lines

  /** Written blocks followed by their end tag read back as those blocks,
      ending just after the tag. */
  lemma {:induction false} BlocksParse(lines: seq<Line>, start: nat, bs: seq<Block>, endTag: string)
    requires endTag == DialogClose || endTag == OptionClose
    requires AllTried(lines) && AllRenderable(bs) && Reads(lines, start, RenderBlocks(bs) + [endTag])
    ensures ParseBlocks(lines, start, endTag) == Done(bs, start + |RenderBlocks(bs)| + 1)
    decreases |RenderBlocks(bs)|, 3
  {
    if |bs| == 0 {
      assert RenderBlocks(bs) + [endTag] == [endTag];
      ReadsHead(lines, start, [endTag]);
    } else {
      MoreBlocksParse(lines, start, bs, endTag);
    }
  }

  /** `BlocksParse` with at least one block. */
  lemma {:induction false} MoreBlocksParse(lines: seq<Line>, start: nat, bs: seq<Block>, endTag: string)
    requires endTag == DialogClose || endTag == OptionClose
    requires AllTried(lines) && AllRenderable(bs) && Reads(lines, start, RenderBlocks(bs) + [endTag]) && |bs| > 0
    ensures ParseBlocks(lines, start, endTag) == Done(bs, start + |RenderBlocks(bs)| + 1)
    decreases |RenderBlocks(bs)|, 2
  {
    var mid := start + |RenderBlock(bs[0])|;
    BlocksSplit(lines, start, bs, endTag);
    BlockParses(lines, start, bs[0], endTag);
    BlocksParse(lines, mid, bs[1..], endTag);
    MoreDone(ParseBlocks(lines, start, endTag), ParseBlocks(lines, mid, endTag), bs, start + |RenderBlocks(bs)| + 1);
  }

  /** One written block, then whatever parsing after it gives. */
  lemma {:induction false} BlockParses(lines: seq<Line>, start: nat, b: Block, endTag: string)
    requires endTag == DialogClose || endTag == OptionClose
    requires AllTried(lines) && Renderable(b) && Reads(lines, start, RenderBlock(b))
    ensures ParseBlocks(lines, start, endTag) == More(b, ParseBlocks(lines, start + |RenderBlock(b)|, endTag))
    decreases |RenderBlock(b)|, 1
  {
    match b
    case ParagraphBlock(ts) => ParagraphBlockParses(lines, start, ts, endTag);
    case GotoBlock(target) => GotoBlockParses(lines, start, target, endTag);
    case ChoiceBlock(prompt, options) => ChoiceBlockParses(lines, start, prompt, options, endTag);
  }

  lemma {:induction false} ParagraphBlockParses(lines: seq<Line>, start: nat, ts: seq<string>, endTag: string)
    requires endTag == DialogClose || endTag == OptionClose
    requires ParagraphText(ts) && Reads(lines, start, ParagraphLines(ts))
    ensures ParseBlocks(lines, start, endTag) == More(ParagraphBlock(ts), ParseBlocks(lines, start + |ts| + 2, endTag))
  {
    TagsDiffer("");
    ParagraphSplit(lines, start, ts);
    ParagraphParses(lines, start + 1, ts);
    BlocksAtParagraph(lines, start, endTag, ts, start + |ts| + 2);
  }

  lemma {:induction false} GotoBlockParses(lines: seq<Line>, start: nat, target: string, endTag: string)
    requires endTag == DialogClose || endTag == OptionClose
    requires AllTried(lines) && Nameable(target) && Reads(lines, start, [GotoText(target)])
    ensures ParseBlocks(lines, start, endTag) == More(GotoBlock(target), ParseBlocks(lines, start + 1, endTag))
  {
    TagsDiffer(target);
    NamedLines(target);
    ReadsHead(lines, start, [GotoText(target)]);
    assert Tried(lines[start]);
    BlocksAtGoto(lines, start, endTag, target);
  }

  lemma {:induction false} ChoiceBlockParses(lines: seq<Line>, start: nat, prompt: Option<seq<string>>, options: seq<OptionBlock>, endTag: string)
    requires endTag == DialogClose || endTag == OptionClose
    requires AllTried(lines) && Renderable(ChoiceBlock(prompt, options))
    requires Reads(lines, start, RenderBlock(ChoiceBlock(prompt, options)))
    ensures var n := |RenderBlock(ChoiceBlock(prompt, options))|;
      ParseBlocks(lines, start, endTag) == More(ChoiceBlock(prompt, options), ParseBlocks(lines, start + n, endTag))
    decreases |RenderBlock(ChoiceBlock(prompt, options))|, 0
  {
    TagsDiffer("");
    ChoiceSplit(lines, start, prompt, options);
    ChoiceParses(lines, start + 1, prompt, options);
    BlocksAtChoice(lines, start, endTag, ChoiceBlock(prompt, options), start + |RenderBlock(ChoiceBlock(prompt, options))|);
  }

  /** A written choice body (the prompt lines, then the options and
      `</choice>`) reads back as the choice. */
  lemma {:induction false} ChoiceParses(lines: seq<Line>, start: nat, prompt: Option<seq<string>>, options: seq<OptionBlock>)
    requires AllTried(lines) && (prompt.Some? ==> ParagraphText(prompt.value)) && RenderableOptions(options)
    requires Reads(lines, start, PromptLines(prompt))
    requires Reads(lines, start + |PromptLines(prompt)|, RenderOptions(options) + [ChoiceClose])
    ensures ParseChoice(lines, start, None, [])
         == Done(ChoiceBlock(prompt, options), start + |PromptLines(prompt)| + |RenderOptions(options)| + 1)
    decreases |RenderOptions(options)|, 3
  {
    PromptPartParses(lines, start, prompt);
    OptionsParse(lines, start + |PromptLines(prompt)|, prompt, [], options);
    assert [] + options == options;
  }

  /** The written prompt, if any, is taken up before any option. */
  lemma {:induction false} PromptPartParses(lines: seq<Line>, start: nat, prompt: Option<seq<string>>)
    requires (prompt.Some? ==> ParagraphText(prompt.value)) && Reads(lines, start, PromptLines(prompt))
    ensures ParseChoice(lines, start, None, []) == ParseChoice(lines, start + |PromptLines(prompt)|, prompt, [])
  {
    if prompt.Some? {
      PromptParses(lines, start, prompt.value);
    }
  }

  lemma {:induction false} PromptParses(lines: seq<Line>, start: nat, ts: seq<string>)
    requires ParagraphText(ts) && Reads(lines, start, ParagraphLines(ts))
    ensures ParseChoice(lines, start, None, []) == ParseChoice(lines, start + |ts| + 2, Some(ts), [])
  {
    ParagraphSplit(lines, start, ts);
    ParagraphParses(lines, start + 1, ts);
    ChoiceAtPrompt(lines, start, [], ts, start + |ts| + 2);
  }

  /** Written options after the ones already gathered read back, in
      order, up to `</choice>`. */
  lemma {:induction false} OptionsParse(lines: seq<Line>, start: nat, prompt: Option<seq<string>>,
                     done: seq<OptionBlock>, todo: seq<OptionBlock>)
    requires AllTried(lines)
    requires RenderableOptions(todo)
    requires Reads(lines, start, RenderOptions(todo) + [ChoiceClose])
    ensures ParseChoice(lines, start, prompt, done)
         == Done(ChoiceBlock(prompt, done + todo), start + |RenderOptions(todo)| + 1)
    decreases |RenderOptions(todo)|, 2
  {
    if |todo| == 0 {
      assert RenderOptions(todo) + [ChoiceClose] == [ChoiceClose];
      ReadsHead(lines, start, [ChoiceClose]);
      ChoiceAtClose(lines, start, prompt, done);
      assert done + todo == done;
    } else {
      MoreOptionsParse(lines, start, prompt, done, todo);
    }
  }

  /** `OptionsParse` with at least one option left. */
  lemma {:induction false} MoreOptionsParse(lines: seq<Line>, start: nat, prompt: Option<seq<string>>,
                                            done: seq<OptionBlock>, todo: seq<OptionBlock>)
    requires AllTried(lines) && |todo| > 0
    requires RenderableOptions(todo)
    requires Reads(lines, start, RenderOptions(todo) + [ChoiceClose])
    ensures ParseChoice(lines, start, prompt, done)
         == Done(ChoiceBlock(prompt, done + todo), start + |RenderOptions(todo)| + 1)
    decreases |RenderOptions(todo)|, 1
  {
    var mid := start + |OptionLines(todo[0])|;
    OptionsSplit(lines, start, todo);
    OptionParses(lines, start, prompt, done, todo[0]);
    OptionsParse(lines, mid, prompt, done + [todo[0]], todo[1..]);
    ConsAppend(done, todo);
  }

  /** One written option is added to those gathered. */
  lemma {:induction false} OptionParses(lines: seq<Line>, start: nat, prompt: Option<seq<string>>, done: seq<OptionBlock>, o: OptionBlock)
    requires AllTried(lines) && Nameable(o.name) && AllRenderable(o.blocks)
    requires Reads(lines, start, OptionLines(o))
    ensures ParseChoice(lines, start, prompt, done)
         == ParseChoice(lines, start + |OptionLines(o)|, prompt, done + [o])
    decreases |OptionLines(o)|, 0
  {
    OptionSplit(lines, start, o);
    OptionHead(lines, start, o.name);
    BlocksParse(lines, start + 1, o.blocks, OptionClose);
    ChoiceAtOption(lines, start, prompt, done, o.name, o.blocks, start + |OptionLines(o)|);
  }

  /** A written option line opens that option. */
  lemma {:induction false} OptionHead(lines: seq<Line>, start: nat, name: string)
    requires AllTried(lines) && Nameable(name) && start < |lines| && lines[start].text == OptionText(name)
    ensures lines[start].option == Some(name) && lines[start].text !in {"", ChoiceClose, ParagraphOpen}
  {
    TagsDiffer(name);
    NamedLines(name);
    assert Tried(lines[start]);
  }

  // ----------------------------------------------------------- properties

  predicate AllParagraphs(blocks: seq<Block>)
  {
    forall k :: 0 <= k < |blocks| ==> blocks[k].ParagraphBlock?
  }

  /** Reading a dialog built from paragraphs alone shows each paragraph's
      lines in file order and ends openly, consuming no choice. */
  lemma {:induction false} WalkParagraphs(blocks: seq<Block>, choices: seq<nat>)
    requires AllParagraphs(blocks)
    ensures Walk(BuildSequence(blocks), choices) ==
              Walked(seq(|blocks|, k requires 0 <= k < |blocks| => blocks[k].lines), Open, choices)
    decreases |blocks|
  {
    if |blocks| > 1 {
      var init := blocks[..|blocks| - 1];
      var last := blocks[|blocks| - 1];
      assert AllParagraphs(init);
      WalkParagraphs(init, choices);
      ChainWalk(BuildSequence(init), BuildBlock(last), choices);
      assert seq(|init|, k requires 0 <= k < |init| => init[k].lines) + [last.lines]
          == seq(|blocks|, k requires 0 <= k < |blocks| => blocks[k].lines);
    }
  }

  /** A file of blank lines holds no dialog. */
  lemma BlankFile(raw: seq<string>)
    requires forall k :: 0 <= k < |raw| ==> AllSpace(raw[k])
    ensures ParseDialogs(raw) == Ok2(map[])
  {
    forall k | 0 <= k < |raw| ensures Strip(raw[k]) == "" {
      StripShape(raw[k]);
    }
    TopOpened(Lex(raw), 0);
  }

  /** A choice becomes an option node over its prompt (none giving no
      lines) and option names, with one branch per option in order; an
      option without blocks leads straight to an end node. */
  lemma ChoiceShape(prompt: Option<seq<string>>, options: seq<OptionBlock>)
    ensures var d := BuildBlock(ChoiceBlock(prompt, options));
      && d.node == Some(Choice(if prompt.Some? then prompt.value else [],
                               seq(|options|, k requires 0 <= k < |options| => options[k].name)))
      && |d.children| == |options|
      && forall k :: 0 <= k < |options| ==>
           d.children[k] == if |options[k].blocks| == 0 then Tree(None, []) else BuildSequence(options[k].blocks)
  {
  }

  /** Once a choice has its prompt, the next non-blank line opening a
      paragraph is refused. */
  lemma {:induction false} TwoPromptsRefused(lines: seq<Line>, start: nat, at: nat, prompt: seq<string>,
                                             options: seq<OptionBlock>)
    requires start <= at < |lines| && lines[at].text == ParagraphOpen
    requires forall k :: start <= k < at ==> lines[k].text == ""
    ensures ParseChoice(lines, start, Some(prompt), options) == Fail(TwoPrompts)
    decreases at - start
  {
    if start < at {
      TwoPromptsRefused(lines, start + 1, at, prompt, options);
    }
  }
}

=== FILE: dialog_queue.dfy ===
/** The global dialog queue (`DialogManager`, game_libs/managers/dialog.py):
    names wait in a queue, one is active at a time, and finished names
    carry a one-shot "done" flag. The class-level state is a value here
    and each operation returns the new state. */
module DialogQueue {
  import opened Wrappers

  datatype Queue = Queue(waiting: seq<string>, active: Option<string>, done: set<string>)

  const Empty := Queue([], None, {})

  predicate NoDuplicates(s: seq<string>)
  {
    forall i, j :: 0 <= i < j < |s| ==> s[i] != s[j]
  }

  /** What the operations maintain: no name waits twice, the active name
      is not also waiting, and the empty name never enters. */
  ghost predicate Valid(q: Queue)
  {
    && NoDuplicates(q.waiting)
    && "" !in q.waiting
    && (q.active.Some? ==> q.active.value !in q.waiting && q.active.value != "")
  }

  predicate Known(q: Queue, name: string)
  {
    q.active == Some(name) || name in q.waiting
  }

  /** `enqueue`: refuses the empty name; a name already active or waiting
      is accepted without change; otherwise it goes to the front when
      forced and to the back when not. */
  function Enqueue(q: Queue, name: string, force: bool): (r: (Queue, bool))
    ensures r.1 <==> name != ""
    ensures name == "" || Known(q, name) ==> r.0 == q
    ensures name != "" && !Known(q, name) ==>
              r.0 == q.(waiting := if force then [name] + q.waiting else q.waiting + [name])
    ensures name != "" ==> Known(r.0, name)
    ensures Valid(q) ==> Valid(r.0)
  {
    if name == "" then (q, false)
    else if Known(q, name) then (q, true)
    else if force then (q.(waiting := [name] + q.waiting), true)
    else (q.(waiting := q.waiting + [name]), true)
  }

  /** Enqueuing the same name twice is the same as once. */
  lemma EnqueueIdempotent(q: Queue, name: string, force: bool, force2: bool)
    ensures Enqueue(Enqueue(q, name, force).0, name, force2) == (Enqueue(q, name, force).0, name != "")
  {
  }

  /** `request_next`: nothing while a dialog is active or nothing waits;
      otherwise the front name becomes active and is returned. */
  function RequestNext(q: Queue): (r: (Queue, Option<string>))
    ensures q.active.Some? || |q.waiting| == 0 ==> r == (q, None)
    ensures q.active.None? && |q.waiting| > 0 ==>
              && r.1 == Some(q.waiting[0]) && r.0.active == r.1
              && r.0.waiting == q.waiting[1..] && r.0.done == q.done
    ensures Valid(q) ==> Valid(r.0)
  {
    if q.active.Some? || |q.waiting| == 0 then (q, None)
    else (q.(waiting := q.waiting[1..], active := Some(q.waiting[0])), Some(q.waiting[0]))
  }

  /** A forced name jumps the queue. */
  lemma ForcedFirst(q: Queue, name: string)
    requires q.active.None? && name != "" && name !in q.waiting
    ensures RequestNext(Enqueue(q, name, true).0).1 == Some(name)
  {
  }

  /** `mark_done`: ignores the empty name; otherwise flags the name and
      releases it if it is the active one. */
  function MarkDone(q: Queue, name: string): (r: Queue)
    ensures name == "" ==> r == q
    ensures name != "" ==> r.done == q.done + {name} && r.waiting == q.waiting
    ensures name != "" ==> r.active == if q.active == Some(name) then None else q.active
    ensures Valid(q) ==> Valid(r)
  {
    if name == "" then q
    else q.(done := q.done + {name}, active := if q.active == Some(name) then None else q.active)
  }

  /** `is_done`: reports the flag and consumes it. */
  function IsDone(q: Queue, name: string): (r: (Queue, bool))
    ensures r.1 <==> name in q.done
    ensures r.0 == q.(done := q.done - {name})
  {
    if name in q.done then (q.(done := q.done - {name}), true) else (q, false)
  }

  /** The flag is one-shot: asking twice answers false the second time. */
  lemma IsDoneConsumes(q: Queue, name: string)
    ensures !IsDone(IsDone(q, name).0, name).1
  {
  }

  /** Finishing the active dialog frees the queue for the next one and
      raises its flag exactly once. */
  lemma FinishActive(q: Queue, name: string)
    requires q.active == Some(name) && name != ""
    ensures var m := MarkDone(q, name);
      m.active.None? && IsDone(m, name).1 && !IsDone(IsDone(m, name).0, name).1
  {
  }

  /** Names enqueued one after another, unforced. */
  function EnqueueAll(q: Queue, names: seq<string>): Queue
    decreases |names|
  {
    if |names| == 0 then q else EnqueueAll(Enqueue(q, names[0], false).0, names[1..])
  }

  /** The names the queue hands out, in order, when each one is finished
      as soon as it is requested. */
  function Served(q: Queue): seq<string>
    decreases |q.waiting|
  {
    var (p, name) := RequestNext(q);
    if name.None? then [] else [name.value] + Served(MarkDone(p, name.value))
  }

  /** Appending names that are new, distinct and non-empty puts them at
      the back in their order, and changes nothing else. */
  lemma {:induction false} EnqueueAllAppends(q: Queue, names: seq<string>)
    requires forall i :: 0 <= i < |names| ==> names[i] != "" && !Known(q, names[i])
    requires NoDuplicates(names)
    ensures EnqueueAll(q, names) == q.(waiting := q.waiting + names)
    decreases |names|
  {
    if |names| > 0 {
      var q1 := Enqueue(q, names[0], false).0;
      assert q1 == q.(waiting := q.waiting + [names[0]]);
      forall i | 0 <= i < |names[1..]| ensures names[1..][i] != "" && !Known(q1, names[1..][i]) {
        assert names[1..][i] == names[i + 1] != names[0];
      }
      EnqueueAllAppends(q1, names[1..]);
      assert q.waiting + [names[0]] + names[1..] == q.waiting + names;
    }
  }

  /** With no dialog active, the queue serves its names front to back. */
  lemma {:induction false} ServedInOrder(q: Queue)
    requires q.active.None? && "" !in q.waiting
    ensures Served(q) == q.waiting
    decreases |q.waiting|
  {
    if |q.waiting| > 0 {
      var m := MarkDone(RequestNext(q).0, q.waiting[0]);
      assert m.active.None? && m.waiting == q.waiting[1..];
      ServedInOrder(m);
      assert [q.waiting[0]] + q.waiting[1..] == q.waiting;
    }
  }

  /** Names leave the queue in the order they were appended: unforced new
      names are served after everything already waiting, in their own
      order. */
  lemma FirstInFirstOut(q: Queue, names: seq<string>)
    requires Valid(q) && q.active.None?
    requires forall i :: 0 <= i < |names| ==> names[i] != "" && !Known(q, names[i])
    requires NoDuplicates(names)
    ensures Served(EnqueueAll(q, names)) == q.waiting + names
  {
    EnqueueAllAppends(q, names);
    ServedInOrder(q.(waiting := q.waiting + names));
  }

  /** `clear`. */
  function Clear(q: Queue): (r: Queue)
    ensures r == Empty && Valid(r)
  {
    Queue([], None, {})
  }

  /** The list comprehension of `remove`: the queue without `name`. */
  function Without(s: seq<string>, name: string): (r: seq<string>)
    ensures name !in r
    ensures forall x :: x in r <==> x in s && x != name
    ensures |r| <= |s|
    ensures NoDuplicates(s) ==> NoDuplicates(r)
  {
    if |s| == 0 then []
    else if s[0] == name then Without(s[1..], name)
    else
      var rest := Without(s[1..], name);
      assert s[0] !in rest && NoDuplicates(rest) ==> NoDuplicates([s[0]] + rest) by {
        if s[0] !in rest && NoDuplicates(rest) {
          forall i, j | 0 <= i < j < |[s[0]] + rest| ensures ([s[0]] + rest)[i] != ([s[0]] + rest)[j] {
            if i == 0 { assert ([s[0]] + rest)[j] in rest; }
          }
        }
      }
      assert NoDuplicates(s) ==> s[0] !in s[1..] && NoDuplicates(s[1..]);
      [s[0]] + rest
  }

  /** `Without` keeps the other names in order: it is a subsequence. */
  lemma {:induction false} WithoutKeepsOrder(s: seq<string>, name: string, x: string, y: string)
    requires x != name && y != name
    requires exists i, j :: 0 <= i < j < |s| && s[i] == x && s[j] == y
    ensures exists i, j :: 0 <= i < j < |Without(s, name)| && Without(s, name)[i] == x && Without(s, name)[j] == y
  {
    var i, j :| 0 <= i < j < |s| && s[i] == x && s[j] == y;
    var t := s[1..];
    if i == 0 {
      assert s[0] != name;
      assert t[j - 1] == y;
      assert y in Without(t, name);
      var k :| 0 <= k < |Without(t, name)| && Without(t, name)[k] == y;
      assert Without(s, name) == [x] + Without(t, name);
      assert Without(s, name)[0] == x && Without(s, name)[k + 1] == y;
    } else {
      assert t[i - 1] == x && t[j - 1] == y;
      WithoutKeepsOrder(t, name, x, y);
      var a, b :| 0 <= a < b < |Without(t, name)| && Without(t, name)[a] == x && Without(t, name)[b] == y;
      if s[0] == name {
        assert Without(s, name) == Without(t, name);
      } else {
        assert Without(s, name) == [s[0]] + Without(t, name);
        assert Without(s, name)[a + 1] == x && Without(s, name)[b + 1] == y;
      }
    }
  }

  /** `remove`: drops the name from the queue only. */
  function Remove(q: Queue, name: string): (r: Queue)
    ensures name !in r.waiting && r.active == q.active && r.done == q.done
    ensures forall x :: x != name ==> (x in r.waiting <==> x in q.waiting)
    ensures Valid(q) ==> Valid(r)
  {
    if name in q.waiting then q.(waiting := Without(q.waiting, name)) else q
  }
}

=== FILE: dialog_tree.dfy ===
/** Dialog trees and their combinators (game_libs/dialog/component.py).
    `Tree` and its subclass `Dialog` share one shape: an optional node and
    a list of children. The generic tree operators (`+`, `|`, tree `>>`)
    and the dialog chaining `>>` (`_append_to_leaves`) are distinct
    functions here. */
module DialogTree {
  import opened Wrappers

  /** `DialogParagraph`, `DialogGoto` and `DialogOption` (the option's
      paragraph reduced to its lines). */
  datatype Node =
    | Paragraph(lines: seq<string>)
    | Goto(target: string)
    | Choice(prompt: seq<string>, names: seq<string>)

  /** A missing node (`None`) marks the end of a dialog. */
  datatype Tree = Tree(node: Option<Node>, children: seq<Tree>)

  /** The right operand of `|` and `>>`: a bare node or a whole tree. */
  datatype Operand = NodeArg(n: Option<Node>) | TreeArg(t: Tree)

  /** `tree1 + tree2`. */
  function Plus(a: Tree, b: Tree): (r: Tree)
    ensures r.node.None? && r.children == [a, b]
  {
    Tree(None, [a, b])
  }

  /** `node | tree`: the node replaces the root and the children stay;
      two trees raise TypeError. */
  function Attach(t: Tree, other: Operand): (r: Result<Tree>)
    ensures r.Err? <==> other.TreeArg?
    ensures r.Err? ==> r.error == TypeError
    ensures r.Ok? ==> r.value.node == other.n && r.value.children == t.children
  {
    match other
    case TreeArg(_) => Err(TypeError)
    case NodeArg(n) => Ok(Tree(n, t.children))
  }

  /** Tree `>>`: keeps the root and appends the operand, a bare node first
      wrapped into a leaf, as the last child. */
  function Then(t: Tree, other: Operand): (r: Tree)
    ensures r.node == t.node
    ensures |r.children| == |t.children| + 1 && r.children[..|t.children|] == t.children
    ensures r.children[|t.children|] == match other
      case NodeArg(n) => Tree(n, [])
      case TreeArg(o) => o
  {
    var o := match other
      case NodeArg(n) => Tree(n, [])
      case TreeArg(o) => o;
    Tree(t.node, t.children + [o])
  }

  /** `DialogOption.__floordiv__`: one branch per option name, or ValueError. */
  function Branch(prompt: seq<string>, names: seq<string>, branches: seq<Tree>): (r: Result<Tree>)
    ensures r.Ok? <==> |branches| == |names|
    ensures r.Err? ==> r.error == ValueError
    ensures r.Ok? ==> r.value.node == Some(Choice(prompt, names)) && r.value.children == branches
  {
    if |branches| != |names| then Err(ValueError)
    else Ok(Tree(Some(Choice(prompt, names)), branches))
  }

  // ---------------------------------------------------------- dialog views

  /** `Dialog.paragraph`: the text to display, none for a goto or an end. */
  function ParagraphOf(d: Tree): (r: Option<seq<string>>)
    ensures r.None? <==> d.node.None? || d.node.value.Goto?
    ensures d.node.Some? && d.node.value.Paragraph? ==> r == Some(d.node.value.lines)
    ensures d.node.Some? && d.node.value.Choice? ==> r == Some(d.node.value.prompt)
  {
    match d.node
    case Some(Paragraph(lines)) => Some(lines)
    case Some(Choice(prompt, _)) => Some(prompt)
    case _ => None
  }

  /** `Dialog.options_names`: present exactly on option nodes. */
  function OptionNames(d: Tree): (r: Option<seq<string>>)
    ensures r.Some? <==> d.node.Some? && d.node.value.Choice?
    ensures r.Some? ==> r.value == d.node.value.names
  {
    match d.node
    case Some(Choice(_, names)) => Some(names)
    case _ => None
  }

  /** `Dialog.end`. */
  function End(d: Tree): (r: bool)
    ensures r <==> ParagraphOf(d).None? && !(d.node.Some? && d.node.value.Goto?)
  {
    d.node.None?
  }

  /** Python truthiness of `options_names`: an option node with no names
      behaves like a paragraph. */
  predicate Branching(d: Tree)
  {
    d.node.Some? && d.node.value.Choice? && |d.node.value.names| > 0
  }

  /** A node that text flows through: a paragraph or a nameless option. */
  predicate Linear(d: Tree)
  {
    d.node.Some? && !d.node.value.Goto? && !Branching(d)
  }

  /** Every reachable linear node has at most one child (subtrees under an
      end or a goto are never visited). */
  ghost predicate WellFormed(d: Tree)
    decreases d
  {
    if Branching(d) then forall i :: 0 <= i < |d.children| ==> WellFormed(d.children[i])
    else if Linear(d) then |d.children| <= 1 && (|d.children| == 1 ==> WellFormed(d.children[0]))
    else true
  }

  // --------------------------------------------------------------- chaining

  /** `Dialog >> next` (`_append_to_leaves`): `next` is hung below every
      open end. An end node is replaced by `next`, a goto is left alone,
      an option maps over its branches, and a paragraph with several
      children raises ValueError. */
  function AppendToLeaves(d: Tree, next: Tree): (r: Result<Tree>)
    ensures r.Ok? <==> WellFormed(d)
    ensures r.Err? ==> r.error == ValueError
    ensures r.Ok? && WellFormed(next) ==> WellFormed(r.value)
    decreases d, |d.children| + 1
  {
    if d.node.None? then Ok(next)
    else if d.node.value.Goto? then Ok(d)
    else if Branching(d) then
      match AppendFrom(d, 0, next)
      case Err(e) => Err(e)
      case Ok(cs) => Ok(Tree(d.node, cs))
    else if |d.children| > 1 then Err(ValueError)
    else if |d.children| == 1 then
      match AppendToLeaves(d.children[0], next)
      case Err(e) => Err(e)
      case Ok(c) => Ok(Tree(d.node, [c]))
    else Ok(Tree(d.node, [next]))
  }

  /** The list comprehension over `d.children[i..]`. */
  function AppendFrom(d: Tree, i: nat, next: Tree): (r: Result<seq<Tree>>)
    requires i <= |d.children|
    ensures r.Ok? <==> forall k :: i <= k < |d.children| ==> WellFormed(d.children[k])
    ensures r.Err? ==> r.error == ValueError
    ensures r.Ok? ==> |r.value| == |d.children| - i
    ensures r.Ok? ==> forall k :: 0 <= k < |r.value| ==> AppendToLeaves(d.children[i + k], next) == Ok(r.value[k])
    decreases d, |d.children| - i
  {
    if i == |d.children| then Ok([])
    else
      match AppendToLeaves(d.children[i], next)
      case Err(e) => Err(e)
      case Ok(c) =>
        match AppendFrom(d, i + 1, next)
        case Err(e) => Err(e)
        case Ok(rest) => Ok([c] + rest)
  }

  // ---------------------------------------------------------------- walking

  /** How a walk through a dialog stops: at an open end, at a goto, or
      waiting on (or refusing) a choice. */
  datatype Stop = Open | Jump(target: string) | Stuck

  /** The paragraphs shown, where the walk stopped, and the unused choices. */
  datatype Walked = Walked(shown: seq<seq<string>>, stop: Stop, rest: seq<nat>)

  /** Reference reading of a dialog: show each node's text, follow the
      only child of a linear node and the chosen branch of an option. */
  function Walk(d: Tree, choices: seq<nat>): (w: Walked)
    ensures |w.rest| <= |choices|
    decreases d
  {
    if d.node.None? then Walked([], Open, choices)
    else if d.node.value.Goto? then Walked([], Jump(d.node.value.target), choices)
    else
      var text := ParagraphOf(d).value;
      if Branching(d) then
        if |choices| == 0 || choices[0] >= |d.children| then Walked([text], Stuck, choices)
        else
          var w := Walk(d.children[choices[0]], choices[1..]);
          Walked([text] + w.shown, w.stop, w.rest)
      else if |d.children| == 0 then Walked([text], Open, choices)
      else if |d.children| == 1 then
        var w := Walk(d.children[0], choices);
        Walked([text] + w.shown, w.stop, w.rest)
      else Walked([text], Stuck, choices)
  }

  /** A walk uses its choices from the front, at most one for each node
      it shows (only option nodes take one), and shows nothing exactly
      when the dialog starts at an end or a goto. */
  lemma {:induction false} WalkConsumes(d: Tree, choices: seq<nat>)
    ensures var w := Walk(d, choices);
      && w.rest == choices[|choices| - |w.rest|..]
      && |choices| - |w.rest| <= |w.shown|
      && (|w.shown| == 0 <==> d.node.None? || d.node.value.Goto?)
    decreases d
  {
    if d.node.Some? && !d.node.value.Goto? {
      if Branching(d) {
        if |choices| > 0 && choices[0] < |d.children| {
          WalkConsumes(d.children[choices[0]], choices[1..]);
          var w := Walk(d.children[choices[0]], choices[1..]);
          assert choices[1..][|choices| - 1 - |w.rest|..] == choices[|choices| - |w.rest|..];
        }
      } else if |d.children| == 1 {
        WalkConsumes(d.children[0], choices);
      }
    }
  }

  /** What `Walk` yields once `d` reached an open end and `next` follows. */
  function Continue(w: Walked, next: Tree): Walked
  {
    if w.stop == Open then
      var v := Walk(next, w.rest);
      Walked(w.shown + v.shown, v.stop, v.rest)
    else w
  }

  /** The tree `>>` builds from an option node: its branches, each
      chained. */
  lemma ChainedBranches(d: Tree, next: Tree, c: nat)
    requires WellFormed(d) && Branching(d) && c < |d.children|
    ensures var r := AppendToLeaves(d, next).value;
      && r.node == d.node && |r.children| == |d.children|
      && r.children[c] == AppendToLeaves(d.children[c], next).value
  {
    var cs := AppendFrom(d, 0, next).value;
    assert AppendToLeaves(d, next).value == Tree(d.node, cs);
    assert AppendToLeaves(d.children[0 + c], next) == Ok(cs[c]);
  }

  /** A walk through an option node with a valid choice goes on into the
      chosen branch. */
  lemma WalkChosen(t: Tree, choices: seq<nat>)
    requires Branching(t) && |choices| > 0 && choices[0] < |t.children|
    ensures var w := Walk(t.children[choices[0]], choices[1..]);
      Walk(t, choices) == Walked([ParagraphOf(t).value] + w.shown, w.stop, w.rest)
  {
  }

  /** Continuing a walk that showed `text` first. */
  lemma ContinueAfter(text: seq<string>, w: Walked, next: Tree)
    ensures Continue(Walked([text] + w.shown, w.stop, w.rest), next)
      == var c := Continue(w, next); Walked([text] + c.shown, c.stop, c.rest)
  {
    if w.stop == Open {
      var v := Walk(next, w.rest);
      assert [text] + (w.shown + v.shown) == [text] + w.shown + v.shown;
    }
  }

  /** The step of `ChainWalk` at an option node, given the chosen
      branch's case. */
  lemma ChainBranch(d: Tree, next: Tree, choices: seq<nat>)
    requires WellFormed(d) && Branching(d)
    requires |choices| > 0 && choices[0] < |d.children| ==>
      Walk(AppendToLeaves(d.children[choices[0]], next).value, choices[1..])
        == Continue(Walk(d.children[choices[0]], choices[1..]), next)
    ensures Walk(AppendToLeaves(d, next).value, choices) == Continue(Walk(d, choices), next)
  {
    var r := AppendToLeaves(d, next).value;
    if |choices| > 0 && choices[0] < |d.children| {
      var c := choices[0];
      ChainedBranches(d, next, c);
      WalkChosen(d, choices);
      WalkChosen(r, choices);
      ContinueAfter(ParagraphOf(d).value, Walk(d.children[c], choices[1..]), next);
    } else {
      var cs := AppendFrom(d, 0, next).value;
      assert r == Tree(d.node, cs) && |cs| == |d.children|;
    }
  }

  /** The step of `ChainWalk` at a paragraph, given its child's case. */
  lemma ChainLinear(d: Tree, next: Tree, choices: seq<nat>)
    requires WellFormed(d) && Linear(d)
    requires |d.children| == 1 ==>
      Walk(AppendToLeaves(d.children[0], next).value, choices) == Continue(Walk(d.children[0], choices), next)
    ensures Walk(AppendToLeaves(d, next).value, choices) == Continue(Walk(d, choices), next)
  {
    var r := AppendToLeaves(d, next).value;
    var text := ParagraphOf(d).value;
    if |d.children| == 1 {
      var w := Walk(d.children[0], choices);
      assert r == Tree(d.node, [AppendToLeaves(d.children[0], next).value]);
      if w.stop == Open {
        var v := Walk(next, w.rest);
        assert [text] + (w.shown + v.shown) == [text] + w.shown + v.shown;
      }
    } else {
      assert r == Tree(d.node, [next]);
    }
  }

  /** Reading `d >> next` is reading `d` and, if that reached an open end,
      going on with `next` from the remaining choices. */
  lemma {:induction false} ChainWalk(d: Tree, next: Tree, choices: seq<nat>)
    requires WellFormed(d)
    ensures Walk(AppendToLeaves(d, next).value, choices) == Continue(Walk(d, choices), next)
    decreases d
  {
    if d.node.None? || d.node.value.Goto? {
    } else if Branching(d) {
      if |choices| > 0 && choices[0] < |d.children| {
        ChainWalk(d.children[choices[0]], next, choices[1..]);
      }
      ChainBranch(d, next, choices);
    } else {
      if |d.children| == 1 {
        ChainWalk(d.children[0], next, choices);
      }
      ChainLinear(d, next, choices);
    }
  }
}

=== FILE: ecs_engine.dfy ===
/** The entity store of the ECS engine (game_libs/ecs_core/engine.py):
    entities are integer ids handed out by a counter, each holding at most
    one component per component type. Component values are opaque here. */
module ECSEngine {
  import opened Wrappers

  /** Component types are named by their string value, as `ctype.value`. */
  type ComponentType = string

  datatype Engine<V> = Engine(components: map<nat, map<ComponentType, V>>, counter: nat)

  /** Every live id was handed out by the counter. */
  predicate Valid<V>(e: Engine<V>)
  {
    forall eid :: eid in e.components ==> eid < e.counter
  }

  /** `reset`: no entities, and the counter starts again at 0. */
  function Reset<V>(): (r: Engine<V>)
    ensures Valid(r) && r.components == map[] && r.counter == 0
  {
    Engine(map[], 0)
  }

  /** `new_entity`: a fresh id with no components; nothing else changes. */
  function NewEntity<V>(e: Engine<V>): (r: (Engine<V>, nat))
    requires Valid(e)
    ensures var (e', eid) := r;
      && eid !in e.components
      && Valid(e')
      && e'.components == e.components[eid := map[]]
      && e'.counter > eid
  {
    (Engine(e.components[e.counter := map[]], e.counter + 1), e.counter)
  }

  /** `n` calls to `new_entity` in a row. */
  function NewEntities<V>(e: Engine<V>, n: nat): (r: (Engine<V>, seq<nat>))
    requires Valid(e)
    ensures Valid(r.0) && |r.1| == n
    decreases n
  {
    if n == 0 then (e, [])
    else
      var (e1, eid) := NewEntity(e);
      var (e2, rest) := NewEntities(e1, n - 1);
      (e2, [eid] + rest)
  }

  /** Ids come out strictly increasing from the counter, so they are
      distinct, and none of them was live before. */
  lemma {:induction false} IdsIncrease<V>(e: Engine<V>, n: nat)
    requires Valid(e)
    ensures var ids := NewEntities(e, n).1;
      && (forall i :: 0 <= i < n ==> ids[i] == e.counter + i)
      && (forall i :: 0 <= i < n ==> ids[i] !in e.components)
    decreases n
  {
    if n > 0 {
      var (e1, eid) := NewEntity(e);
      assert eid == e.counter && e1.counter == e.counter + 1;
      IdsIncrease(e1, n - 1);
      var rest := NewEntities(e1, n - 1).1;
      assert var ids1 := NewEntities(e1, n - 1).1; forall j :: 0 <= j < n - 1 ==> ids1[j] == e1.counter + j;
      assert forall j :: 0 <= j < n - 1 ==> rest[j] == e1.counter + j;
      var ids := NewEntities(e, n).1;
      assert ids == [eid] + rest;
      forall i | 0 <= i < n
        ensures ids[i] == e.counter + i && ids[i] !in e.components
      {
        if i > 0 {
          assert ids[i] == rest[i - 1];
          assert rest[i - 1] == e1.counter + (i - 1);
          assert ids[i] !in e1.components;
        }
      }
    }
  }

  /** After `reset`, the first `n` entities are 0, 1, ..., n-1, each with
      no components. */
  lemma FreshLevel<V>(n: nat)
    ensures var (e, ids) := NewEntities(Reset<V>(), n);
      (forall i :: 0 <= i < n ==> ids[i] == i) && e.counter == n
  {
    IdsIncrease(Reset<V>(), n);
    CounterAdvances(Reset<V>(), n);
  }

  lemma {:induction false} CounterAdvances<V>(e: Engine<V>, n: nat)
    requires Valid(e)
    ensures NewEntities(e, n).0.counter == e.counter + n
    decreases n
  {
    if n > 0 {
      CounterAdvances(NewEntity(e).0, n - 1);
    }
  }

  /** `remove_entity`: drops the id if present; an unknown id is ignored. */
  function RemoveEntity<V>(e: Engine<V>, eid: nat): (r: Engine<V>)
    ensures r.counter == e.counter
    ensures forall x :: x in r.components <==> x in e.components && x != eid
    ensures forall x :: x in r.components ==> r.components[x] == e.components[x]
    ensures Valid(e) ==> Valid(r)
  {
    Engine(e.components - {eid}, e.counter)
  }

  /** Removing twice is removing once. */
  lemma RemoveIdempotent<V>(e: Engine<V>, eid: nat)
    ensures RemoveEntity(RemoveEntity(e, eid), eid) == RemoveEntity(e, eid)
  {
  }

  /** `add_component`: the component type must name a known component
      class and the entity must exist (ValueError otherwise); the new value
      replaces any previous one of that type. */
  function AddComponent<V>(e: Engine<V>, eid: nat, ctype: ComponentType, known: set<ComponentType>, comp: V)
    : (r: Result<Engine<V>>)
    ensures r.Err? <==> ctype !in known || eid !in e.components
    ensures r.Err? ==> r.error == ValueError
    ensures r.Ok? ==> && r.value.counter == e.counter
                      && r.value.components.Keys == e.components.Keys
                      && (forall x :: x in e.components && x != eid ==> r.value.components[x] == e.components[x])
                      && r.value.components[eid] == e.components[eid][ctype := comp]
  {
    if ctype !in known then Err(ValueError)
    else if eid !in e.components then Err(ValueError)
    else Ok(Engine(e.components[eid := e.components[eid][ctype := comp]], e.counter))
  }

  /** `get_component`: the component, None when the entity lacks it, and
      KeyError for an unknown entity. */
  function GetComponent<V>(e: Engine<V>, eid: nat, ctype: ComponentType): (r: Result<Option<V>>)
    ensures r.Err? <==> eid !in e.components
    ensures r.Err? ==> r.error == KeyError
    ensures r.Ok? ==> (r.value.Some? <==> ctype in e.components[eid])
    ensures r.Ok? && r.value.Some? ==> r.value.value == e.components[eid][ctype]
  {
    if eid !in e.components then Err(KeyError)
    else if ctype in e.components[eid] then Ok(Some(e.components[eid][ctype]))
    else Ok(None)
  }

  /** `has_component`: KeyError for an unknown entity. */
  function HasComponent<V>(e: Engine<V>, eid: nat, ctype: ComponentType): (r: Result<bool>)
    ensures r.Err? <==> eid !in e.components
    ensures r.Err? ==> r.error == KeyError
    ensures r.Ok? ==> (r.value <==> GetComponent(e, eid, ctype).value.Some?)
  {
    if eid !in e.components then Err(KeyError) else Ok(ctype in e.components[eid])
  }

  /** `remove_component`: drops the component if present; KeyError for an
      unknown entity. */
  function RemoveComponent<V>(e: Engine<V>, eid: nat, ctype: ComponentType): (r: Result<Engine<V>>)
    ensures r.Err? <==> eid !in e.components
    ensures r.Err? ==> r.error == KeyError
    ensures r.Ok? ==> && r.value.counter == e.counter
                      && r.value.components.Keys == e.components.Keys
                      && (forall x :: x in e.components && x != eid ==> r.value.components[x] == e.components[x])
                      && (forall t :: t in r.value.components[eid] <==> t in e.components[eid] && t != ctype)
  {
    if eid !in e.components then Err(KeyError)
    else Ok(Engine(e.components[eid := e.components[eid] - {ctype}], e.counter))
  }

  /** Reading a component back after adding it gives the value added, and
      after removing it gives None. */
  lemma AddThenGet<V>(e: Engine<V>, eid: nat, ctype: ComponentType, known: set<ComponentType>, comp: V)
    requires ctype in known && eid in e.components
    ensures var e' := AddComponent(e, eid, ctype, known, comp).value;
      && GetComponent(e', eid, ctype) == Ok(Some(comp))
      && GetComponent(RemoveComponent(e', eid, ctype).value, eid, ctype) == Ok(None)
  {
  }

  /** Adding a component of one type does not disturb the others. */
  lemma AddKeepsOthers<V>(e: Engine<V>, eid: nat, ctype: ComponentType, other: ComponentType,
                          known: set<ComponentType>, comp: V, x: nat)
    requires ctype in known && eid in e.components && x in e.components && (x != eid || other != ctype)
    ensures GetComponent(AddComponent(e, eid, ctype, known, comp).value, x, other) == GetComponent(e, x, other)
  {
  }

  predicate HasAll<V>(comps: map<ComponentType, V>, ctypes: seq<ComponentType>)
  {
    forall i :: 0 <= i < |ctypes| ==> ctypes[i] in comps
  }

  /** `get_entities_with`: the live entities holding every listed type,
      in the order they were created (ascending ids, since the counter
      only grows). */
  method EntitiesWith<V>(e: Engine<V>, ctypes: seq<ComponentType>) returns (r: seq<nat>)
    requires Valid(e)
    ensures forall eid :: eid in r <==> eid in e.components && HasAll(e.components[eid], ctypes)
    ensures forall i, j :: 0 <= i < j < |r| ==> r[i] < r[j]
  {
    r := [];
    var eid := 0;
    while eid < e.counter
      invariant eid <= e.counter
      invariant forall x :: x in r <==> x < eid && x in e.components && HasAll(e.components[x], ctypes)
      invariant forall i, j :: 0 <= i < j < |r| ==> r[i] < r[j]
      invariant forall i :: 0 <= i < |r| ==> r[i] < eid
    {
      if eid in e.components && HasAll(e.components[eid], ctypes) {
        r := r + [eid];
      }
      eid := eid + 1;
    }
  }
}

=== FILE: ecs_flags.dfy ===
/** The flag and collision components of the ECS (game_libs/ecs_core/components.py):
    `State` and `Properties` hold bit sets of `EntityState` and
    `EntityProperty`, and `MapCollision` / `EntityCollision` record which
    sides of a hitbox touch something. */
module ECSFlags {
  import opened Wrappers

  /** A flag value as the set of its bit positions: `|` is union, `& ~` is
      difference, and `a & b` is non-zero exactly when the sets meet.
      `EntityState` has 16 base flags, at bits 0 to 15. */
  type Flags = set<nat>

  // Base states, numbered by `auto()` from bit 0.
  const ON_GROUND: Flags := {0}
  const WALL_STICKING: Flags := {1}
  const CROUCHING: Flags := {2}
  const HANGING: Flags := {3}
  const WALKING: Flags := {4}
  const RUNNING: Flags := {5}
  const JUMPING: Flags := {6}
  const DASHING: Flags := {7}
  const CLIMBING: Flags := {8}
  const FALLING: Flags := {9}
  const WALL_SLIDING: Flags := {10}
  const FREEZED: Flags := {11}
  const SLOWED: Flags := {12}
  const SHIELDED: Flags := {13}
  const HURTED: Flags := {14}
  const INVISIBLE: Flags := {15}

  // Combined states.
  const IGNORE_GRAVITY: Flags := ON_GROUND + WALL_STICKING + FREEZED + DASHING + HANGING
  const CAN_JUMP: Flags := ON_GROUND + WALL_STICKING + WALL_SLIDING + HANGING + CLIMBING
  const CAN_MOVE: Flags := ON_GROUND + FALLING + HANGING + CLIMBING
  const MOVING: Flags := WALKING + RUNNING + JUMPING + DASHING + FALLING + WALL_SLIDING + CLIMBING
  const NO_DRAG: Flags := CROUCHING + WALL_STICKING + DASHING + HANGING + FREEZED + CLIMBING

  // Entity properties.
  const PHASABLE: Flags := {0}
  const FLOATING: Flags := {1}

  /** The state flags by attribute name, as `getattr(EntityState, name)`. */
  function StateNamed(name: string): Option<Flags>
  {
    match name
    case "NONE" => Some({})
    case "ON_GROUND" => Some(ON_GROUND)
    case "WALL_STICKING" => Some(WALL_STICKING)
    case "CROUCHING" => Some(CROUCHING)
    case "HANGING" => Some(HANGING)
    case "WALKING" => Some(WALKING)
    case "RUNNING" => Some(RUNNING)
    case "JUMPING" => Some(JUMPING)
    case "DASHING" => Some(DASHING)
    case "CLIMBING" => Some(CLIMBING)
    case "FALLING" => Some(FALLING)
    case "WALL_SLIDING" => Some(WALL_SLIDING)
    case "FREEZED" => Some(FREEZED)
    case "SLOWED" => Some(SLOWED)
    case "SHIELDED" => Some(SHIELDED)
    case "HURTED" => Some(HURTED)
    case "INVISIBLE" => Some(INVISIBLE)
    case "IGNORE_GRAVITY" => Some(IGNORE_GRAVITY)
    case "CAN_JUMP" => Some(CAN_JUMP)
    case "CAN_MOVE" => Some(CAN_MOVE)
    case "MOVING" => Some(MOVING)
    case "NO_DRAG" => Some(NO_DRAG)
    case _ => None
  }

  // ------------------------------------------------------------ flag sets

  /** The union of a list of masks. */
  function Union(masks: seq<Flags>): (u: Flags)
    ensures forall b :: b in u <==> exists i :: 0 <= i < |masks| && b in masks[i]
  {
    if |masks| == 0 then {} else masks[0] + Union(masks[1..])
  }

  /** `add_flag`: OR each mask in, in turn. */
  function AddFlags(flags: Flags, masks: seq<Flags>): (r: Flags)
    ensures r == flags + Union(masks)
    decreases |masks|
  {
    if |masks| == 0 then flags else AddFlags(flags + masks[0], masks[1..])
  }

  /** `remove_flag`: clear each mask, in turn. */
  function RemoveFlags(flags: Flags, masks: seq<Flags>): (r: Flags)
    ensures r == flags - Union(masks)
    decreases |masks|
  {
    if |masks| == 0 then flags else RemoveFlags(flags - masks[0], masks[1..])
  }

  /** Adding then removing the same masks leaves none of their bits set,
      and keeps every other bit as it was. */
  lemma AddThenRemove(flags: Flags, masks: seq<Flags>)
    ensures RemoveFlags(AddFlags(flags, masks), masks) * Union(masks) == {}
    ensures RemoveFlags(AddFlags(flags, masks), masks) == flags - Union(masks)
  {
  }

  /** `has_all_flags`: every mask shares at least one bit with the flags
      (a combined mask counts when any one of its states is set). */
  function HasAll(flags: Flags, masks: seq<Flags>): (r: bool)
    ensures r <==> forall i :: 0 <= i < |masks| ==> flags * masks[i] != {}
  {
    if |masks| == 0 then true else flags * masks[0] != {} && HasAll(flags, masks[1..])
  }

  /** `has_any_flags`: some mask shares a bit with the flags. */
  function HasAny(flags: Flags, masks: seq<Flags>): (r: bool)
    ensures r <==> exists i :: 0 <= i < |masks| && flags * masks[i] != {}
  {
    if |masks| == 0 then false else flags * masks[0] != {} || HasAny(flags, masks[1..])
  }

  /** `has_flag`: `has_all_flags` on the states named; an unknown name has
      no attribute on `EntityState`. */
  function HasFlag(flags: Flags, names: seq<string>): (r: Result<bool>)
    ensures r.Err? <==> exists i :: 0 <= i < |names| && StateNamed(names[i]).None?
    ensures r.Err? ==> r.error == AttributeError
    ensures r.Ok? ==> (r.value <==> forall i :: 0 <= i < |names| ==> flags * StateNamed(names[i]).value != {})
  {
    if |names| == 0 then Ok(true)
    else
      match StateNamed(names[0])
      case None => Err(AttributeError)
      case Some(m) =>
        match HasFlag(flags, names[1..])
        case Err(e) => Err(e)
        case Ok(rest) => Ok(flags * m != {} && rest)
  }

  /** The generator of `has_flag` is consumed by `all`, which stops at
      the first mask not present: an unknown name after it goes unnoticed.
      The model checks all names first, so it states the same answer
      whenever the code gives one without an error. */
  lemma {:induction false} HasFlagAgrees(flags: Flags, names: seq<string>)
    requires forall i :: 0 <= i < |names| ==> StateNamed(names[i]).Some?
    ensures HasFlag(flags, names) == Ok(HasAll(flags, seq(|names|, i requires 0 <= i < |names| => StateNamed(names[i]).value)))
  {
    var masks := seq(|names|, i requires 0 <= i < |names| => StateNamed(names[i]).value);
    if |names| > 0 {
      HasFlagAgrees(flags, names[1..]);
      assert masks[1..] == seq(|names| - 1, i requires 0 <= i < |names| - 1 => StateNamed(names[1..][i]).value);
    }
  }

  /** A flag just added is present, and one just removed is absent. */
  lemma AddedIsPresent(flags: Flags, mask: Flags)
    requires mask != {}
    ensures HasAll(AddFlags(flags, [mask]), [mask])
    ensures !HasAny(RemoveFlags(flags, [mask]), [mask])
  {
    assert Union([mask]) == mask;
  }

  /** Testing a union of masks is testing whether any part is set. */
  lemma MaskIsAny(flags: Flags, parts: seq<Flags>)
    ensures HasAll(flags, [Union(parts)]) <==> HasAny(flags, parts)
  {
    if HasAll(flags, [Union(parts)]) {
      var b :| b in flags * Union(parts);
      var i :| 0 <= i < |parts| && b in parts[i];
      assert b in flags * parts[i];
    }
    if HasAny(flags, parts) {
      var i :| 0 <= i < |parts| && flags * parts[i] != {};
      var b :| b in flags * parts[i];
      assert b in flags * Union(parts);
    }
  }

  /** The base states each combined state lists, in source order. */
  const IGNORE_GRAVITY_PARTS: seq<Flags> := [ON_GROUND, WALL_STICKING, FREEZED, DASHING, HANGING]
  const CAN_JUMP_PARTS: seq<Flags> := [ON_GROUND, WALL_STICKING, WALL_SLIDING, HANGING, CLIMBING]
  const CAN_MOVE_PARTS: seq<Flags> := [ON_GROUND, FALLING, HANGING, CLIMBING]
  const MOVING_PARTS: seq<Flags> := [WALKING, RUNNING, JUMPING, DASHING, FALLING, WALL_SLIDING, CLIMBING]
  const NO_DRAG_PARTS: seq<Flags> := [CROUCHING, WALL_STICKING, DASHING, HANGING, FREEZED, CLIMBING]

  /** The bits of a combined state are exactly the bits of its parts. */
  lemma UnionBits(combined: Flags, parts: seq<Flags>)
    requires forall b :: b in combined <==> exists i :: 0 <= i < |parts| && b in parts[i]
    ensures combined == Union(parts)
  {
  }

  /** Each combined state is the union of the base states listed for it. */
  lemma CombinedParts()
    ensures IGNORE_GRAVITY == Union(IGNORE_GRAVITY_PARTS)
    ensures CAN_JUMP == Union(CAN_JUMP_PARTS)
    ensures CAN_MOVE == Union(CAN_MOVE_PARTS)
    ensures MOVING == Union(MOVING_PARTS)
    ensures NO_DRAG == Union(NO_DRAG_PARTS)
  {
    IgnoreGravityParts();
    CanJumpParts();
    CanMoveParts();
    MovingParts();
    NoDragParts();
  }

  lemma IgnoreGravityParts()
    ensures IGNORE_GRAVITY == Union(IGNORE_GRAVITY_PARTS)
  {
    forall b ensures b in IGNORE_GRAVITY <==> exists i :: 0 <= i < 5 && b in IGNORE_GRAVITY_PARTS[i] {
      assert b in IGNORE_GRAVITY <==> b in IGNORE_GRAVITY_PARTS[0] || b in IGNORE_GRAVITY_PARTS[1] || b in IGNORE_GRAVITY_PARTS[2] || b in IGNORE_GRAVITY_PARTS[3] || b in IGNORE_GRAVITY_PARTS[4];
    }
    UnionBits(IGNORE_GRAVITY, IGNORE_GRAVITY_PARTS);
  }

  lemma CanJumpParts()
    ensures CAN_JUMP == Union(CAN_JUMP_PARTS)
  {
    forall b ensures b in CAN_JUMP <==> exists i :: 0 <= i < 5 && b in CAN_JUMP_PARTS[i] {
      assert b in CAN_JUMP <==> b in CAN_JUMP_PARTS[0] || b in CAN_JUMP_PARTS[1] || b in CAN_JUMP_PARTS[2] || b in CAN_JUMP_PARTS[3] || b in CAN_JUMP_PARTS[4];
    }
    UnionBits(CAN_JUMP, CAN_JUMP_PARTS);
  }

  lemma CanMoveParts()
    ensures CAN_MOVE == Union(CAN_MOVE_PARTS)
  {
    forall b ensures b in CAN_MOVE <==> exists i :: 0 <= i < 4 && b in CAN_MOVE_PARTS[i] {
      assert b in CAN_MOVE <==> b in CAN_MOVE_PARTS[0] || b in CAN_MOVE_PARTS[1] || b in CAN_MOVE_PARTS[2] || b in CAN_MOVE_PARTS[3];
    }
    UnionBits(CAN_MOVE, CAN_MOVE_PARTS);
  }

  lemma MovingParts()
    ensures MOVING == Union(MOVING_PARTS)
  {
    forall b ensures b in MOVING <==> exists i :: 0 <= i < 7 && b in MOVING_PARTS[i] {
      assert b in MOVING <==> b in MOVING_PARTS[0] || b in MOVING_PARTS[1] || b in MOVING_PARTS[2] || b in MOVING_PARTS[3] || b in MOVING_PARTS[4] || b in MOVING_PARTS[5] || b in MOVING_PARTS[6];
    }
    UnionBits(MOVING, MOVING_PARTS);
  }

  lemma NoDragParts()
    ensures NO_DRAG == Union(NO_DRAG_PARTS)
  {
    forall b ensures b in NO_DRAG <==> exists i :: 0 <= i < 6 && b in NO_DRAG_PARTS[i] {
      assert b in NO_DRAG <==> b in NO_DRAG_PARTS[0] || b in NO_DRAG_PARTS[1] || b in NO_DRAG_PARTS[2] || b in NO_DRAG_PARTS[3] || b in NO_DRAG_PARTS[4] || b in NO_DRAG_PARTS[5];
    }
    UnionBits(NO_DRAG, NO_DRAG_PARTS);
  }

  /** Testing a combined state tests whether any one of its base states
      is set. */
  lemma CombinedMasks(flags: Flags)
    ensures HasAll(flags, [IGNORE_GRAVITY]) <==> HasAny(flags, IGNORE_GRAVITY_PARTS)
    ensures HasAll(flags, [CAN_JUMP]) <==> HasAny(flags, CAN_JUMP_PARTS)
    ensures HasAll(flags, [CAN_MOVE]) <==> HasAny(flags, CAN_MOVE_PARTS)
    ensures HasAll(flags, [MOVING]) <==> HasAny(flags, MOVING_PARTS)
    ensures HasAll(flags, [NO_DRAG]) <==> HasAny(flags, NO_DRAG_PARTS)
  {
    CombinedParts();
    MaskIsAny(flags, IGNORE_GRAVITY_PARTS);
    MaskIsAny(flags, CAN_JUMP_PARTS);
    MaskIsAny(flags, CAN_MOVE_PARTS);
    MaskIsAny(flags, MOVING_PARTS);
    MaskIsAny(flags, NO_DRAG_PARTS);
  }

  // ------------------------------------------------------------ collisions

  /** Which sides of a hitbox are blocked. */
  datatype Sides = Sides(left: bool, right: bool, top: bool, bottom: bool)

  function TopLeft(s: Sides): bool { s.left && s.top }
  function TopRight(s: Sides): bool { s.right && s.top }
  function BottomLeft(s: Sides): bool { s.left && s.bottom }
  function BottomRight(s: Sides): bool { s.right && s.bottom }

  /** `colliding`: any side is blocked. */
  function Colliding(s: Sides): (r: bool)
    ensures r <==> s != Sides(false, false, false, false)
  {
    s.left || s.right || s.top || s.bottom
  }

  /** A blocked corner means a collision, but a collision need not block
      a corner: a single side is enough. */
  lemma CornersImplyColliding(s: Sides)
    ensures TopLeft(s) || TopRight(s) || BottomLeft(s) || BottomRight(s) ==> Colliding(s)
    ensures Colliding(Sides(true, false, false, false))
    ensures !TopLeft(Sides(true, false, false, false)) && !BottomLeft(Sides(true, false, false, false))
  {
  }

  /** `MapCollision.reset`: every side clear. */
  function ResetSides(s: Sides): (r: Sides)
    ensures !Colliding(r) && !TopLeft(r) && !TopRight(r) && !BottomLeft(r) && !BottomRight(r)
  {
    Sides(false, false, false, false)
  }

  /** The four corner flags of an entity met in a collision. */
  datatype Corners = Corners(topLeft: bool, topRight: bool, bottomLeft: bool, bottomRight: bool)

  /** `EntityCollision`: the sides and the entities met this frame. */
  datatype EntityCollision = EntityCollision(collided: seq<(nat, Corners)>, sides: Sides)

  /** `EntityCollision.reset`: every side clear and no entity recorded. */
  function ResetEntityCollision(c: EntityCollision): (r: EntityCollision)
    ensures !Colliding(r.sides) && |r.collided| == 0
  {
    EntityCollision([], ResetSides(c.sides))
  }
}

=== FILE: editor_grid.dfy ===
/** The map editor's edits of a tile grid (`MapCanvas` in Editor.py): the
    flood fill, the rectangle tool, the brush and the eraser, and
    `format_grid`, which writes a grid into a level file. A grid is a list
    of rows of tile indices; -1 is the empty tile. Cells are `(x, y)`,
    read as `grid[y][x]`. */
module EditorGrid {
  import opened Wrappers
  import opened Text

  type Grid = seq<seq<int>>
  type Cell = (int, int)

  /** `height` rows of `width` tiles each, as a tilemap keeps them. */
  predicate Rectangular(g: Grid, w: nat, h: nat)
  {
    |g| == h && forall y :: 0 <= y < h ==> |g[y]| == w
  }

  predicate InGrid(w: nat, h: nat, c: Cell)
  {
    0 <= c.0 < w && 0 <= c.1 < h
  }

  function At(g: Grid, w: nat, h: nat, c: Cell): int
    requires Rectangular(g, w, h) && InGrid(w, h, c)
  {
    g[c.1][c.0]
  }

  /** `grid[y][x] = v`. */
  function Set(g: Grid, w: nat, h: nat, c: Cell, v: int): (r: Grid)
    requires Rectangular(g, w, h) && InGrid(w, h, c)
    ensures Rectangular(r, w, h)
    ensures forall d :: InGrid(w, h, d) ==> At(r, w, h, d) == if d == c then v else At(g, w, h, d)
  {
    g[c.1 := g[c.1][c.0 := v]]
  }

  /** Two grids of one shape with the same tile everywhere are equal. */
  lemma SameTiles(g: Grid, r: Grid, w: nat, h: nat)
    requires Rectangular(g, w, h) && Rectangular(r, w, h)
    requires forall c :: InGrid(w, h, c) ==> At(g, w, h, c) == At(r, w, h, c)
    ensures g == r
  {
    forall y | 0 <= y < h
      ensures g[y] == r[y]
    {
      forall x | 0 <= x < w
        ensures g[y][x] == r[y][x]
      {
        assert InGrid(w, h, (x, y));
      }
    }
  }

  /** The four cells sharing a side with `a`. */
  predicate Adjacent(a: Cell, b: Cell)
  {
    (a.0 == b.0 && (a.1 - b.1 == 1 || b.1 - a.1 == 1)) || (a.1 == b.1 && (a.0 - b.0 == 1 || b.0 - a.0 == 1))
  }

  // -------------------------------------------------------------- flood fill

  /** A walk through side-adjacent cells of the grid, all holding `t`. */
  ghost predicate IsPath(g: Grid, w: nat, h: nat, t: int, p: seq<Cell>)
    requires Rectangular(g, w, h)
  {
    && |p| > 0
    && (forall k :: 0 <= k < |p| ==> InGrid(w, h, p[k]) && At(g, w, h, p[k]) == t)
    && (forall k :: 0 <= k < |p| - 1 ==> Adjacent(p[k], p[k + 1]))
  }

  /** `c` is reached from `start` through cells holding the tile found at
      `start`. */
  ghost predicate Connected(g: Grid, w: nat, h: nat, start: Cell, c: Cell)
    requires Rectangular(g, w, h)
  {
    InGrid(w, h, start) && exists p :: IsPath(g, w, h, At(g, w, h, start), p) && p[0] == start && p[|p| - 1] == c
  }

  ghost function Cells(w: nat, h: nat): (r: set<Cell>)
    ensures forall c :: c in r <==> InGrid(w, h, c)
  {
    set x, y | 0 <= x < w && 0 <= y < h :: (x, y)
  }

  /** The region a fill from `start` repaints. */
  ghost function Region(g: Grid, w: nat, h: nat, start: Cell): set<Cell>
    requires Rectangular(g, w, h)
  {
    set c | c in Cells(w, h) && Connected(g, w, h, start, c)
  }

  lemma StartConnected(g: Grid, w: nat, h: nat, start: Cell)
    requires Rectangular(g, w, h) && InGrid(w, h, start)
    ensures Connected(g, w, h, start, start)
  {
    assert IsPath(g, w, h, At(g, w, h, start), [start]);
  }

  /** A cell waiting to be filled: inside the grid, and connected to the
      start if it holds the start's tile. */
  ghost predicate Pending(g: Grid, w: nat, h: nat, start: Cell, n: Cell)
    requires Rectangular(g, w, h) && InGrid(w, h, start)
  {
    InGrid(w, h, n) && (At(g, w, h, n) == At(g, w, h, start) ==> Connected(g, w, h, start, n))
  }

  /** A connected cell's neighbours holding the start tile are connected. */
  lemma NeighboursConnected(g: Grid, w: nat, h: nat, start: Cell, c: Cell)
    requires Rectangular(g, w, h) && Connected(g, w, h, start, c)
    ensures forall n :: InGrid(w, h, n) && Adjacent(c, n) ==> Pending(g, w, h, start, n)
  {
    var t := At(g, w, h, start);
    var p :| IsPath(g, w, h, t, p) && p[0] == start && p[|p| - 1] == c;
    forall n | InGrid(w, h, n) && Adjacent(c, n) && At(g, w, h, n) == t
      ensures Connected(g, w, h, start, n)
    {
      var q := p + [n];
      assert IsPath(g, w, h, t, q);
    }
  }

  /** Once no cell is waiting, the filled set is closed under stepping to
      a neighbour that holds the target, so it holds every path from a
      filled cell. */
  lemma {:induction false} PathFilled(g: Grid, w: nat, h: nat, t: int, p: seq<Cell>, filled: set<Cell>, k: nat)
    requires Rectangular(g, w, h) && IsPath(g, w, h, t, p) && p[0] in filled && k < |p|
    requires forall c, n :: c in filled && InGrid(w, h, n) && Adjacent(c, n) ==> n in filled || At(g, w, h, n) != t
    ensures p[k] in filled
    decreases k
  {
    if k > 0 {
      PathFilled(g, w, h, t, p, filled, k - 1);
      assert Adjacent(p[k - 1], p[k]);
    }
  }

  /** The neighbours a fill pushes after painting `c`, in the order the
      editor pushes them: left, right, up, down, each only when inside. */
  function Neighbours(w: nat, h: nat, c: Cell): (r: seq<Cell>)
    ensures forall i :: 0 <= i < |r| ==> InGrid(w, h, r[i]) && Adjacent(c, r[i])
    ensures InGrid(w, h, c) ==> forall n :: InGrid(w, h, n) && Adjacent(c, n) ==> n in r
  {
    var (x, y) := c;
    (if x > 0 && 0 <= y < h && x - 1 < w then [(x - 1, y)] else [])
    + (if 0 <= x + 1 < w && 0 <= y < h then [(x + 1, y)] else [])
    + (if y > 0 && 0 <= x < w && y - 1 < h then [(x, y - 1)] else [])
    + (if 0 <= y + 1 < h && 0 <= x < w then [(x, y + 1)] else [])
  }

  /** No filled cell has a neighbour holding `t` that is neither filled
      nor waiting. */
  ghost predicate Closed(g: Grid, w: nat, h: nat, t: int, filled: set<Cell>, todo: seq<Cell>)
    requires Rectangular(g, w, h)
  {
    forall c, n :: c in filled && InGrid(w, h, n) && Adjacent(c, n) ==> n in filled || n in todo || At(g, w, h, n) != t
  }

  /** Dropping a popped cell that is already filled or does not hold the
      target keeps the filled set closed. */
  lemma ClosedPop(g: Grid, w: nat, h: nat, t: int, filled: set<Cell>, todo: seq<Cell>, c: Cell)
    requires Rectangular(g, w, h) && InGrid(w, h, c)
    requires Closed(g, w, h, t, filled, todo + [c])
    requires c in filled || At(g, w, h, c) != t
    ensures Closed(g, w, h, t, filled, todo)
  {
    forall f, n | f in filled && InGrid(w, h, n) && Adjacent(f, n)
      ensures n in filled || n in todo || At(g, w, h, n) != t
    {
      assert n in todo + [c] ==> n in todo || n == c;
    }
  }

  /** Filling a popped cell and pushing its neighbours keeps the filled
      set closed. */
  lemma ClosedFill(g: Grid, w: nat, h: nat, t: int, filled: set<Cell>, todo: seq<Cell>, c: Cell)
    requires Rectangular(g, w, h) && InGrid(w, h, c)
    requires Closed(g, w, h, t, filled, todo + [c])
    ensures Closed(g, w, h, t, filled + {c}, todo + Neighbours(w, h, c))
  {
    forall f, n | f in filled + {c} && InGrid(w, h, n) && Adjacent(f, n)
      ensures n in filled + {c} || n in todo + Neighbours(w, h, c) || At(g, w, h, n) != t
    {
      assert n in todo + [c] ==> n in todo || n == c;
      if f == c {
        assert n in Neighbours(w, h, c);
      }
    }
  }

  /** When nothing waits, the filled cells are the region. */
  lemma FilledIsRegion(g: Grid, w: nat, h: nat, start: Cell, filled: set<Cell>)
    requires Rectangular(g, w, h) && InGrid(w, h, start) && start in filled
    requires forall c :: c in filled ==> Connected(g, w, h, start, c)
    requires Closed(g, w, h, At(g, w, h, start), filled, [])
    ensures forall c :: InGrid(w, h, c) ==> (c in filled <==> Connected(g, w, h, start, c))
    ensures filled == Region(g, w, h, start)
  {
    var t := At(g, w, h, start);
    forall c | InGrid(w, h, c) && Connected(g, w, h, start, c)
      ensures c in filled
    {
      var p :| IsPath(g, w, h, t, p) && p[0] == start && p[|p| - 1] == c;
      PathFilled(g, w, h, t, p, filled, |p| - 1);
    }
    forall c | c in filled
      ensures InGrid(w, h, c)
    {
      var p :| IsPath(g, w, h, t, p) && p[0] == start && p[|p| - 1] == c;
    }
  }

  /** `MapCanvas.fill`: outside the grid, when the tile under the cursor
      already is the replacement, or when the replacement is the empty
      tile, nothing changes. Otherwise every cell connected to the start
      through cells of the start's tile becomes the replacement, every
      other cell keeps its tile, and `count` is the size of that region. */
  method Fill(g: Grid, w: nat, h: nat, start: Cell, repl: int) returns (r: Grid, count: nat)
    requires Rectangular(g, w, h)
    ensures Rectangular(r, w, h)
    ensures !InGrid(w, h, start) || At(g, w, h, start) == repl || repl == -1 ==> r == g && count == 0
    ensures InGrid(w, h, start) && At(g, w, h, start) != repl && repl != -1 ==>
      && (forall c :: InGrid(w, h, c) ==> At(r, w, h, c) == if Connected(g, w, h, start, c) then repl else At(g, w, h, c))
      && count == |Region(g, w, h, start)|
  {
    r, count := g, 0;
    if !InGrid(w, h, start) {
      return;
    }
    var t := At(g, w, h, start);
    if t == repl || repl == -1 {
      return;
    }
    var filled;
    r, filled := FillRegion(g, w, h, start, repl);
    FilledIsRegion(g, w, h, start, filled);
    count := |filled|;
  }

  /** What the fill loop keeps: painted cells are the filled ones, all
      connected to the start; waiting cells are pending; the filled set is
      closed up to the waiting cells; and the start is filled or waiting. */
  ghost predicate FillState(g: Grid, w: nat, h: nat, start: Cell, repl: int, r: Grid, filled: set<Cell>, todo: seq<Cell>)
    requires Rectangular(g, w, h) && InGrid(w, h, start)
  {
    && Rectangular(r, w, h)
    && filled <= Cells(w, h)
    && (forall c :: c in filled ==> Connected(g, w, h, start, c))
    && (forall c :: InGrid(w, h, c) ==> At(r, w, h, c) == if c in filled then repl else At(g, w, h, c))
    && (forall n :: n in todo ==> Pending(g, w, h, start, n))
    && Closed(g, w, h, At(g, w, h, start), filled, todo)
    && (start in filled || start in todo)
  }

  /** The fill starts with nothing filled and the start waiting. */
  lemma FillStart(g: Grid, w: nat, h: nat, start: Cell, repl: int)
    requires Rectangular(g, w, h) && InGrid(w, h, start)
    ensures FillState(g, w, h, start, repl, g, {}, [start])
  {
    StartConnected(g, w, h, start);
  }

  /** The cell popped from the worklist lies in the grid. */
  lemma Popped(g: Grid, w: nat, h: nat, start: Cell, repl: int, r: Grid, filled: set<Cell>, todo: seq<Cell>)
    requires Rectangular(g, w, h) && InGrid(w, h, start)
    requires |todo| > 0 && FillState(g, w, h, start, repl, r, filled, todo)
    ensures InGrid(w, h, todo[|todo| - 1]) && todo == todo[..|todo| - 1] + [todo[|todo| - 1]]
  {
    assert todo[|todo| - 1] in todo;
  }

  /** Popping a cell that is filled already, or that does not hold the
      target, keeps the loop's state. */
  lemma SkipStep(g: Grid, w: nat, h: nat, start: Cell, repl: int, r: Grid, filled: set<Cell>, rest: seq<Cell>, c: Cell)
    requires Rectangular(g, w, h) && InGrid(w, h, start)
    requires InGrid(w, h, c) && FillState(g, w, h, start, repl, r, filled, rest + [c])
    requires c in filled || At(r, w, h, c) != At(g, w, h, start)
    ensures FillState(g, w, h, start, repl, r, filled, rest)
  {
    assert c in rest + [c];
    ClosedPop(g, w, h, At(g, w, h, start), filled, rest, c);
    assert start in rest + [c] ==> start in rest || start == c;
  }

  /** Painting a popped cell that holds the target and pushing its
      neighbours keeps the loop's state and fills one more cell. */
  lemma PaintStep(g: Grid, w: nat, h: nat, start: Cell, repl: int, r: Grid, filled: set<Cell>, rest: seq<Cell>, c: Cell)
    requires Rectangular(g, w, h) && InGrid(w, h, start)
    requires InGrid(w, h, c) && FillState(g, w, h, start, repl, r, filled, rest + [c])
    requires c !in filled && At(r, w, h, c) == At(g, w, h, start)
    ensures FillState(g, w, h, start, repl, Set(r, w, h, c, repl), filled + {c}, rest + Neighbours(w, h, c))
    ensures Cells(w, h) - (filled + {c}) < Cells(w, h) - filled
  {
    assert c in rest + [c];
    assert Pending(g, w, h, start, c);
    NeighboursConnected(g, w, h, start, c);
    ClosedFill(g, w, h, At(g, w, h, start), filled, rest, c);
    assert c in Cells(w, h) - filled;
    var todo := rest + Neighbours(w, h, c);
    assert forall n :: n in todo ==> n in rest || n in Neighbours(w, h, c);
    assert forall n :: n in rest ==> n in rest + [c];
  }

  /** The worklist loop of the fill: cells are popped from the end of the
      list, and each one still holding the target is painted and its
      neighbours pushed. */
  method FillRegion(g: Grid, w: nat, h: nat, start: Cell, repl: int) returns (r: Grid, filled: set<Cell>)
    requires Rectangular(g, w, h) && InGrid(w, h, start) && At(g, w, h, start) != repl
    ensures Rectangular(r, w, h) && start in filled
    ensures forall c :: c in filled ==> Connected(g, w, h, start, c)
    ensures forall c :: InGrid(w, h, c) ==> At(r, w, h, c) == if c in filled then repl else At(g, w, h, c)
    ensures Closed(g, w, h, At(g, w, h, start), filled, [])
  {
    r := g;
    var t := At(g, w, h, start);
    var todo: seq<Cell> := [start];
    filled := {};
    FillStart(g, w, h, start, repl);
    while |todo| > 0
      invariant FillState(g, w, h, start, repl, r, filled, todo)
      decreases |Cells(w, h) - filled|, |todo|
    {
      var c := todo[|todo| - 1];
      var rest := todo[..|todo| - 1];
      Popped(g, w, h, start, repl, r, filled, todo);
      if c in filled || At(r, w, h, c) != t {
        SkipStep(g, w, h, start, repl, r, filled, rest, c);
        todo := rest;
      } else {
        PaintStep(g, w, h, start, repl, r, filled, rest, c);
        r := Set(r, w, h, c, repl);
        filled := filled + {c};
        todo := rest + Neighbours(w, h, c);
      }
    }
  }

  // ----------------------------------------------------- brush, eraser, rect

  /** The brush: the selected tile at the cell, unless the cell is outside
      the grid or the selection is the empty tile. */
  function Brush(g: Grid, w: nat, h: nat, c: Cell, tile: int): (r: Grid)
    requires Rectangular(g, w, h)
    ensures Rectangular(r, w, h)
    ensures forall d :: InGrid(w, h, d) ==>
      At(r, w, h, d) == if d == c && tile != -1 then tile else At(g, w, h, d)
  {
    if InGrid(w, h, c) && tile != -1 then Set(g, w, h, c, tile) else g
  }

  /** The eraser: the empty tile at the cell, when it is inside the grid. */
  function Erase(g: Grid, w: nat, h: nat, c: Cell): (r: Grid)
    requires Rectangular(g, w, h)
    ensures Rectangular(r, w, h)
    ensures forall d :: InGrid(w, h, d) ==> At(r, w, h, d) == if d == c then -1 else At(g, w, h, d)
  {
    if InGrid(w, h, c) then Set(g, w, h, c, -1) else g
  }

  /** Erasing a cell undoes whatever the brush put there, and brushing
      twice is brushing once. */
  lemma EraseUndoesBrush(g: Grid, w: nat, h: nat, c: Cell, tile: int)
    requires Rectangular(g, w, h)
    ensures Erase(Brush(g, w, h, c, tile), w, h, c) == Erase(g, w, h, c)
    ensures Brush(Brush(g, w, h, c, tile), w, h, c, tile) == Brush(g, w, h, c, tile)
  {
    SameTiles(Erase(Brush(g, w, h, c, tile), w, h, c), Erase(g, w, h, c), w, h);
    SameTiles(Brush(Brush(g, w, h, c, tile), w, h, c, tile), Brush(g, w, h, c, tile), w, h);
  }

  function Min(a: int, b: int): int { if a <= b then a else b }
  function Max(a: int, b: int): int { if a >= b then a else b }

  /** `c` lies in the rectangle spanned by the corners `a` and `b`, in
      whichever order they were given. */
  predicate InBox(a: Cell, b: Cell, c: Cell)
  {
    (a.0 <= c.0 <= b.0 || b.0 <= c.0 <= a.0) && (a.1 <= c.1 <= b.1 || b.1 <= c.1 <= a.1)
  }

  /** The rectangle tool on release: the press was on cell `a` (a press
      outside the grid starts no rectangle). A release outside the grid
      or with the empty tile selected paints nothing; otherwise every cell
      between the two corners gets the tile and the rest keep theirs. A
      one-cell rectangle is the brush. */
  method PaintRect(g: Grid, w: nat, h: nat, a: Cell, b: Cell, tile: int) returns (r: Grid)
    requires Rectangular(g, w, h) && InGrid(w, h, a)
    ensures Rectangular(r, w, h)
    ensures !InGrid(w, h, b) || tile == -1 ==> r == g
    ensures InGrid(w, h, b) && tile != -1 ==>
      forall c :: InGrid(w, h, c) ==> At(r, w, h, c) == if InBox(a, b, c) then tile else At(g, w, h, c)
    ensures a == b ==> r == Brush(g, w, h, a, tile)
  {
    r := g;
    if !InGrid(w, h, b) || tile == -1 {
      return;
    }
    var x1, x2 := Min(a.0, b.0), Max(a.0, b.0);
    var y1, y2 := Min(a.1, b.1), Max(a.1, b.1);
    var y := y1;
    while y <= y2
      invariant y1 <= y <= y2 + 1
      invariant Rectangular(r, w, h)
      invariant forall c :: InGrid(w, h, c) ==>
        At(r, w, h, c) == if InBox(a, b, c) && c.1 < y then tile else At(g, w, h, c)
    {
      var x := x1;
      while x <= x2
        invariant x1 <= x <= x2 + 1
        invariant Rectangular(r, w, h)
        invariant forall c :: InGrid(w, h, c) ==>
          At(r, w, h, c) == if InBox(a, b, c) && (c.1 < y || (c.1 == y && c.0 < x)) then tile else At(g, w, h, c)
      {
        r := Set(r, w, h, (x, y), tile);
        x := x + 1;
      }
      y := y + 1;
    }
    if a == b {
      SameTiles(r, Brush(g, w, h, a, tile), w, h);
    }
  }

  // ------------------------------------------------------------- format_grid

  /** `n` copies of `s`, as `s * n`. */
  function Repeat(s: string, n: nat): (r: string)
    ensures |r| == n * |s|
    ensures |s| == 1 ==> forall k :: 0 <= k < |r| ==> r[k] == s[0]
  {
    if n == 0 then "" else Repeat(s, n - 1) + s
  }

  function Tabs(n: nat): string
  {
    Repeat("\t", n)
  }

  /** `sep.join(parts)`. */
  function JoinWith(parts: seq<string>, sep: string): string
  {
    if |parts| == 0 then "" else if |parts| == 1 then parts[0] else parts[0] + sep + JoinWith(parts[1..], sep)
  }

  /** `s[:-1]`. */
  function DropLast(s: string): string
  {
    if |s| == 0 then s else s[..|s| - 1]
  }

  /** `f"{s: >{n}}"`: right-aligned in a field of `n`, spaces in front. */
  function PadLeft(s: string, n: nat): (r: string)
    ensures |r| == if |s| < n then n else |s|
    ensures r[|r| - |s|..] == s && AllSpace(r[..|r| - |s|])
  {
    Repeat(" ", if |s| < n then n - |s| else 0) + s
  }

  /** The widest `str(cell)` of a row, 0 for an empty row. */
  function RowWidth(row: seq<int>): (m: nat)
    ensures forall j :: 0 <= j < |row| ==> |IntText(row[j])| <= m
    ensures |row| > 0 ==> exists j :: 0 <= j < |row| && |IntText(row[j])| == m
  {
    if |row| == 0 then 0
    else
      var rest := RowWidth(row[1..]);
      var m := if |IntText(row[0])| >= rest then |IntText(row[0])| else rest;
      assert |row[1..]| > 0 ==> exists j :: 1 <= j < |row| && |IntText(row[j])| == rest by {
        if |row[1..]| > 0 {
          var j :| 0 <= j < |row[1..]| && |IntText(row[1..][j])| == rest;
          assert row[1..][j] == row[j + 1];
        }
      }
      m
  }

  /** The widest `str(cell)` of the grid, 0 when it has no cell. */
  function GridWidth(g: Grid): (m: nat)
    ensures forall i, j :: 0 <= i < |g| && 0 <= j < |g[i]| ==> |IntText(g[i][j])| <= m
  {
    if |g| == 0 then 0
    else
      var rest := GridWidth(g[1..]);
      assert forall i, j :: 1 <= i < |g| && 0 <= j < |g[i]| ==> |IntText(g[i][j])| <= rest by {
        forall i, j | 1 <= i < |g| && 0 <= j < |g[i]|
          ensures |IntText(g[i][j])| <= rest
        {
          assert g[1..][i - 1] == g[i];
        }
      }
      if RowWidth(g[0]) >= rest then RowWidth(g[0]) else rest
  }

  predicate HasCell(g: Grid)
  {
    exists i :: 0 <= i < |g| && |g[i]| > 0
  }

  /** One row as written: each cell right-aligned to `width`, between
      brackets, separated by commas. */
  function RowText(row: seq<int>, width: nat): string
  {
    "[" + JoinWith(seq(|row|, j requires 0 <= j < |row| => PadLeft(IntText(row[j]), width)), ", ") + "]"
  }

  /** Every cell is written in a field exactly as wide as the widest cell,
      so the columns line up, and stripping the padding gives `str(cell)`
      back. */
  lemma CellsAligned(g: Grid, i: nat, j: nat)
    requires i < |g| && j < |g[i]|
    ensures |PadLeft(IntText(g[i][j]), GridWidth(g))| == GridWidth(g)
    ensures Strip(PadLeft(IntText(g[i][j]), GridWidth(g))) == IntText(g[i][j])
  {
    var s := IntText(g[i][j]);
    var p := PadLeft(s, GridWidth(g));
    var pad := p[..|p| - |s|];
    assert p == pad + s;
    SpaceRunAfter(pad, s);
    assert p[SpaceRun(p)..] == s;
    assert TrailingRun(s) == 0;
    assert s[..|s| - 0] == s;
  }

  /** The row lines, each indented one tab deeper than the closing line. */
  function Lines(g: Grid, indent: nat): (r: seq<string>)
    ensures |r| == |g|
  {
    seq(|g|, i requires 0 <= i < |g| => Tabs(indent + 1) + RowText(g[i], GridWidth(g)))
  }

  /** Each line followed by a comma. */
  function Terminated(xs: seq<string>): (r: seq<string>)
    ensures |r| == |xs| && forall i :: 0 <= i < |xs| ==> r[i] == xs[i] + ","
  {
    seq(|xs|, i requires 0 <= i < |xs| => xs[i] + ",")
  }

  /** `format_grid` as written: no cell at all leaves `max` with nothing to
      compare (ValueError). Each row line ends in a comma, the last comma
      is cut off, and the closing bracket follows `"\n\t" * indent`. */
  function FormatGridAsWritten(g: Grid, indent: nat): (r: Result<string>)
    ensures r.Err? <==> !HasCell(g)
    ensures r.Err? ==> r.error == ValueError
  {
    if !HasCell(g) then Err(ValueError)
    else
      Ok("[\n" + DropLast(JoinWith(Terminated(Lines(g, indent)), "\n")) + Repeat("\n\t", indent) + "]")
  }

  /** `format_grid` with the closing bracket on its own line, indented by
      `indent` tabs: the row lines are separated by a comma and a line
      break. */
  function FormatGrid(g: Grid, indent: nat): (r: Result<string>)
    ensures r.Err? <==> !HasCell(g)
    ensures r.Err? ==> r.error == ValueError
  {
    if !HasCell(g) then Err(ValueError)
    else
      Ok("[\n" + JoinWith(Lines(g, indent), ",\n") + "\n" + Tabs(indent) + "]")
  }

  /** Ending every line with a comma, joining with line breaks and cutting
      the last character is joining with a comma and a line break. */
  lemma {:induction false} CutLastComma(xs: seq<string>)
    requires |xs| > 0
    ensures DropLast(JoinWith(Terminated(xs), "\n")) == JoinWith(xs, ",\n")
    decreases |xs|
  {
    var ts := Terminated(xs);
    if |xs| == 1 {
      assert JoinWith(ts, "\n") == xs[0] + ",";
      assert (xs[0] + ",")[..|xs[0]|] == xs[0];
    } else {
      var tail := Terminated(xs[1..]);
      assert ts[1..] == tail;
      CutLastComma(xs[1..]);
      var rest := JoinWith(tail, "\n");
      assert JoinWith(ts, "\n") == (xs[0] + ",") + "\n" + rest;
      assert |rest| > 0 by {
        assert |tail| > 0 && |tail[0]| > 0;
        if |tail| > 1 {
          assert |JoinWith(tail, "\n")| >= |tail[0]|;
        }
      }
      assert DropLast((xs[0] + ",") + "\n" + rest) == xs[0] + ",\n" + DropLast(rest);
    }
  }

  /** At the one indentation the editor uses, 1, the code's output is the
      intended layout. */
  lemma AsWrittenAtIndentOne(g: Grid)
    ensures FormatGridAsWritten(g, 1) == FormatGrid(g, 1)
  {
    if HasCell(g) {
      var i :| 0 <= i < |g| && |g[i]| > 0;
      assert |Lines(g, 1)| > 0;
      CutLastComma(Lines(g, 1));
      assert Repeat("\n\t", 1) == "\n\t";
      assert Tabs(1) == "\t";
      var pre := "[\n" + JoinWith(Lines(g, 1), ",\n");
      assert pre + "\n" + "\t" == pre + "\n\t";
      assert FormatGridAsWritten(g, 1) == Ok(pre + "\n\t" + "]");
      assert FormatGrid(g, 1) == Ok(pre + "\n" + "\t" + "]");
    }
  }

  /** The text after the last line break. */
  function LastLine(s: string): (r: string)
    ensures '\n' !in r
  {
    if |s| == 0 || s[|s| - 1] == '\n' then "" else LastLine(s[..|s| - 1]) + [s[|s| - 1]]
  }

  lemma {:induction false} LastLineAfter(a: string, t: string)
    requires '\n' !in t
    ensures LastLine(a + "\n" + t) == t
    decreases |t|
  {
    if |t| > 0 {
      var s := a + "\n" + t;
      assert s[..|s| - 1] == a + "\n" + t[..|t| - 1];
      LastLineAfter(a, t[..|t| - 1]);
      assert t == t[..|t| - 1] + [t[|t| - 1]];
    } else {
      assert a + "\n" + t == a + "\n";
    }
  }

  /** The closing bracket stands on its own line after `indent` tabs. */
  lemma ClosingLine(g: Grid, indent: nat)
    requires HasCell(g)
    ensures LastLine(FormatGrid(g, indent).value) == Tabs(indent) + "]"
  {
    var t := Tabs(indent) + "]";
    assert '\n' !in t;
    var head := "[\n" + JoinWith(Lines(g, indent), ",\n");
    assert FormatGrid(g, indent).value == head + "\n" + t;
    LastLineAfter(head, t);
  }

  /** As written, the closing bracket always sits one tab in, whatever the
      indentation asked for; from indentation 2 on, it is misplaced and a
      line holding a lone tab comes before it. */
  lemma ClosingAsWritten(g: Grid, indent: nat)
    requires HasCell(g) && indent >= 1
    ensures LastLine(FormatGridAsWritten(g, indent).value) == "\t]"
    ensures indent >= 2 ==> FormatGridAsWritten(g, indent) != FormatGrid(g, indent)
  {
    var head := "[\n" + DropLast(JoinWith(Terminated(Lines(g, indent)), "\n"));
    assert Repeat("\n\t", indent) == Repeat("\n\t", indent - 1) + "\n" + "\t";
    assert FormatGridAsWritten(g, indent).value == (head + Repeat("\n\t", indent - 1)) + "\n" + "\t]";
    LastLineAfter(head + Repeat("\n\t", indent - 1), "\t]");
    if indent >= 2 {
      ClosingLine(g, indent);
      assert |Tabs(indent) + "]"| > 2;
    }
  }
}

=== FILE: input.dfy ===
/** Per-action input state (game_libs/managers/event.py): the keyboard and
    gamepad readers turn "is this down now" plus "was it down last frame"
    into PRESSED / HELD / RELEASED, and the event manager merges the two
    devices with the precedence PRESSED > HELD > RELEASED. */
module Input {
  import opened Wrappers

  datatype KeyState = Released | Pressed | Held

  /** The seven game actions every reader reports on. */
  datatype Action = Up | Down | Left | Right | Jump | Sprint | Pause

  const AllActions: set<Action> := {Up, Down, Left, Right, Jump, Sprint, Pause}

  lemma AllActionsComplete(a: Action)
    ensures a in AllActions
  {
  }

  /** The attribute name the mapping dictionaries use for an action. */
  function ActionOf(name: string): (r: Option<Action>)
    ensures r.Some? ==> name in {"UP", "DOWN", "LEFT", "RIGHT", "JUMP", "SPRINT", "PAUSE"}
  {
    match name
    case "UP" => Some(Up)
    case "DOWN" => Some(Down)
    case "LEFT" => Some(Left)
    case "RIGHT" => Some(Right)
    case "JUMP" => Some(Jump)
    case "SPRINT" => Some(Sprint)
    case "PAUSE" => Some(Pause)
    case _ => None
  }

  // ---------------------------------------------------------------- keyboard

  /** Keyboard bindings: for each action, the key codes in the order the
      reader tries them, plus the codes recorded as down on the last frame. */
  datatype KeyMapping = KeyMapping(bindings: map<Action, seq<int>>, lastDown: set<int>)

  ghost predicate Complete(m: KeyMapping)
  {
    forall a: Action :: a in m.bindings
  }

  /** `keys[code]` on the pressed-key tuple reads true; an out-of-range
      code is the IndexError the reader skips. */
  predicate IsDown(keys: seq<bool>, code: int)
  {
    PyIndex(keys, code) == Some(true)
  }

  /** Position in `codes` of the first code that is down; the reader stops
      there (`break`). */
  function FirstDown(keys: seq<bool>, codes: seq<int>): (r: Option<nat>)
    ensures r.Some? ==> r.value < |codes| && IsDown(keys, codes[r.value])
    ensures r.Some? ==> forall j :: 0 <= j < r.value ==> !IsDown(keys, codes[j])
    ensures r.None? <==> forall j :: 0 <= j < |codes| ==> !IsDown(keys, codes[j])
  {
    if |codes| == 0 then None
    else if IsDown(keys, codes[0]) then Some(0)
    else match FirstDown(keys, codes[1..])
      case None => None
      case Some(i) => Some(i + 1)
  }

  /** The state the keyboard reports for one action. */
  function KeyboardState(m: KeyMapping, keys: seq<bool>, a: Action): KeyState
    requires a in m.bindings
  {
    match FirstDown(keys, m.bindings[a])
    case None => Released
    case Some(i) => if m.bindings[a][i] in m.lastDown then Held else Pressed
  }

  /** The key code that made an action active this frame, if any. */
  function ActiveCode(m: KeyMapping, keys: seq<bool>, a: Action): Option<int>
    requires a in m.bindings
  {
    match FirstDown(keys, m.bindings[a])
    case None => None
    case Some(i) => Some(m.bindings[a][i])
  }

  /** `KeyMapping.serialize`: all seven actions are reported, RELEASED unless
      one of their codes is down; the first down code gives HELD when it was
      recorded last frame and PRESSED otherwise. The codes recorded for the
      next frame are exactly those first down codes. */
  function KeyboardSerialize(m: KeyMapping, keys: seq<bool>): (r: (map<Action, KeyState>, KeyMapping))
    requires Complete(m)
    ensures r.0.Keys == AllActions
    ensures r.1.bindings == m.bindings
    ensures forall a :: a in r.0 ==> (r.0[a] == Released <==>
              forall j :: 0 <= j < |m.bindings[a]| ==> !IsDown(keys, m.bindings[a][j]))
    ensures forall a :: a in r.0 && r.0[a] != Released ==>
              && FirstDown(keys, m.bindings[a]).Some?
              && (r.0[a] == Held <==> m.bindings[a][FirstDown(keys, m.bindings[a]).value] in m.lastDown)
    ensures forall c :: c in r.1.lastDown <==> exists a :: ActiveCode(m, keys, a) == Some(c)
    ensures forall c :: c in r.1.lastDown ==> IsDown(keys, c)
  {
    (KeyboardStates(m, keys), m.(lastDown := NextDown(m, keys)))
  }

  /** The state reported for each of the seven actions. */
  function KeyboardStates(m: KeyMapping, keys: seq<bool>): (r: map<Action, KeyState>)
    requires Complete(m)
    ensures r.Keys == AllActions
    ensures forall a :: a in r ==> r[a] == KeyboardState(m, keys, a)
  {
    assert forall a: Action :: a in AllActions by {
      forall a: Action { AllActionsComplete(a); }
    }
    map a: Action | a in AllActions :: KeyboardState(m, keys, a)
  }

  /** The codes recorded for the next frame. */
  function NextDown(m: KeyMapping, keys: seq<bool>): (r: set<int>)
    requires Complete(m)
    ensures forall c :: c in r <==> exists a :: ActiveCode(m, keys, a) == Some(c)
  {
    assert forall a: Action :: a in AllActions by {
      forall a: Action { AllActionsComplete(a); }
    }
    set a: Action | a in AllActions && ActiveCode(m, keys, a).Some? :: ActiveCode(m, keys, a).value
  }

  /** Serializing the same held keys twice: whatever was PRESSED or HELD on
      the first frame is HELD on the second. */
  lemma PressedThenHeld(m: KeyMapping, keys: seq<bool>, a: Action)
    requires Complete(m)
    requires KeyboardSerialize(m, keys).0[a] != Released
    ensures KeyboardSerialize(KeyboardSerialize(m, keys).1, keys).0[a] == Held
  {
    var m' := KeyboardSerialize(m, keys).1;
    var c := ActiveCode(m, keys, a);
    assert c.Some?;
    assert c.value in m'.lastDown;
    assert ActiveCode(m', keys, a) == c;
  }

  /** `KeyMapping.from_dict`: any negative code in a known action raises
      KeyError; unknown action names are ignored; known actions take the
      given codes, the others keep their defaults. */
  function FromDict(defaults: map<Action, seq<int>>, d: map<string, seq<int>>): (r: Result<KeyMapping>)
    ensures r.Err? <==> exists name :: name in d && ActionOf(name).Some? &&
                          exists j :: 0 <= j < |d[name]| && d[name][j] < 0
    ensures r.Err? ==> r.error == KeyError
    ensures r.Ok? ==> r.value.lastDown == {}
    ensures r.Ok? ==> forall name :: name in d && ActionOf(name).Some? ==>
              ActionOf(name).value in r.value.bindings && r.value.bindings[ActionOf(name).value] == d[name]
    ensures r.Ok? ==> forall a :: a in r.value.bindings <==> a in defaults || exists name :: name in d && ActionOf(name) == Some(a)
    ensures r.Ok? ==> forall a :: a in defaults && (forall name :: name in d ==> ActionOf(name) != Some(a)) ==>
              a in r.value.bindings && r.value.bindings[a] == defaults[a]
  {
    if exists name :: name in d && ActionOf(name).Some? && exists j :: 0 <= j < |d[name]| && d[name][j] < 0 then
      Err(KeyError)
    else
      var overrides := map a: Action | a in AllActions && (exists name :: name in d && ActionOf(name) == Some(a)) :: BindingFor(d, a);
      Ok(KeyMapping(defaults + overrides, {}))
  }

  /** The codes a mapping dictionary gives for action `a`. The seven names
      are distinct, so at most one key of the dictionary names `a`. */
  function BindingFor(d: map<string, seq<int>>, a: Action): (r: seq<int>)
    requires exists name :: name in d && ActionOf(name) == Some(a)
    ensures forall name :: name in d && ActionOf(name) == Some(a) ==> r == d[name]
  {
    var name :| name in d && ActionOf(name) == Some(a);
    NameUnique(name, a);
    d[name]
  }

  lemma NameUnique(name: string, a: Action)
    requires ActionOf(name) == Some(a)
    ensures forall n :: ActionOf(n) == Some(a) ==> n == name
  {
  }

  // ----------------------------------------------------------------- gamepad

  const Directions: set<Action> := {Up, Down, Left, Right}
  const Buttons: set<Action> := {Jump, Sprint, Pause}

  /** `GamepadMapping.serialize`: the direction and button readings (always
      reported for the four directions and three buttons) replace last
      frame's flags; an action is HELD when down now and last frame,
      PRESSED when down now only, RELEASED otherwise. */
  function GamepadSerialize(last: map<Action, bool>, dir: map<Action, bool>, btn: map<Action, bool>)
    : (r: (map<Action, KeyState>, map<Action, bool>))
    requires dir.Keys == Directions && btn.Keys == Buttons
    ensures r.0.Keys == r.1.Keys == last.Keys + AllActions
    ensures forall a :: a in r.0 ==>
              var wasDown := a in last && last[a];
              && (r.0[a] == Held <==> r.1[a] && wasDown)
              && (r.0[a] == Pressed <==> r.1[a] && !wasDown)
              && (r.0[a] == Released <==> !r.1[a])
    ensures forall a :: a in dir ==> r.1[a] == dir[a]
    ensures forall a :: a in btn ==> r.1[a] == btn[a]
  {
    var now := last + dir + btn;
    ReadingsCover(last, dir, btn);
    (Transitions(last, now), now)
  }

  /** The readings cover all seven actions. */
  lemma ReadingsCover(last: map<Action, bool>, dir: map<Action, bool>, btn: map<Action, bool>)
    requires dir.Keys == Directions && btn.Keys == Buttons
    ensures (last + dir + btn).Keys == last.Keys + AllActions
  {
    forall a: Action { AllActionsComplete(a); }
  }

  /** The state of each action from whether it was down last frame and
      whether it is down now. */
  function Transitions(last: map<Action, bool>, now: map<Action, bool>): (r: map<Action, KeyState>)
    ensures r.Keys == now.Keys
    ensures forall a :: a in r ==>
              var wasDown := a in last && last[a];
              && (r[a] == Held <==> now[a] && wasDown)
              && (r[a] == Pressed <==> now[a] && !wasDown)
              && (r[a] == Released <==> !now[a])
  {
    map a | a in now :: if now[a] then (if a in last && last[a] then Held else Pressed) else Released
  }

  // ------------------------------------------------------------------- merge

  /** Precedence used when merging devices. */
  function Rank(s: KeyState): nat
  {
    match s
    case Released => 0
    case Held => 1
    case Pressed => 2
  }

  /** Merge of the keyboard and gamepad state of one action (event.py:454-460). */
  function MergeState(kb: KeyState, gp: KeyState): (r: KeyState)
    ensures Rank(r) == if Rank(kb) >= Rank(gp) then Rank(kb) else Rank(gp)
    ensures r == kb || r == gp
  {
    if kb == Pressed || gp == Pressed then Pressed
    else if kb == Held || gp == Held then Held
    else Released
  }

  /** `EventManager.update`, key part: every keyboard action is reported,
      with a missing gamepad entry counting as RELEASED. */
  function Merge(kb: map<Action, KeyState>, gp: map<Action, KeyState>): (r: map<Action, KeyState>)
    ensures r.Keys == kb.Keys
    ensures forall a :: a in r ==>
              var g := if a in gp then gp[a] else Released;
              Rank(r[a]) == (if Rank(kb[a]) >= Rank(g) then Rank(kb[a]) else Rank(g))
  {
    map a | a in kb :: MergeState(kb[a], if a in gp then gp[a] else Released)
  }

  /** The merge is symmetric in the two devices and RELEASED is neutral. */
  lemma MergeSymmetric(x: KeyState, y: KeyState)
    ensures MergeState(x, y) == MergeState(y, x)
    ensures MergeState(x, Released) == x
  {
  }
}

=== FILE: keypack.dfy ===
/** Bit packing of the keyboard state sent over UDP (`encode` / `decode`
    in game_libs/py_udp.py): key `i` travels as bit `i % 8` of byte `i / 8`,
    least significant bit first. */
module KeyPack {

  /** Bit `k` of byte `b`, bit 0 being the least significant. */
  function Bit(b: bv8, k: nat): bool
    requires k < 8
  {
    (b >> k) & 1 == 1
  }

  lemma SetBit(b: bv8, r: nat, k: nat)
    requires r < 8 && k < 8
    ensures Bit(b | (1 << r), k) == (Bit(b, k) || k == r)
  {
    var m: bv8 := 1 << r;
    assert (b | m) >> k == (b >> k) | (m >> k);
    assert ((b >> k) | (m >> k)) & 1 == ((b >> k) & 1) | ((m >> k) & 1);
    assert (m >> k) & 1 == if k == r then 1 else 0;
  }

  lemma ZeroByte(b: bv8)
    requires forall k :: 0 <= k < 8 ==> !Bit(b, k)
    ensures b == 0
  {
    assert !Bit(b, 0) && !Bit(b, 1) && !Bit(b, 2) && !Bit(b, 3);
    assert !Bit(b, 4) && !Bit(b, 5) && !Bit(b, 6) && !Bit(b, 7);
  }

  /** The eight key flags carried by one byte, bit 0 first. */
  function ByteBits(b: bv8): (r: seq<bool>)
    ensures |r| == 8
    ensures forall k :: 0 <= k < 8 ==> r[k] == Bit(b, k)
  {
    seq(8, k requires 0 <= k < 8 => Bit(b, k))
  }

  /** `decode`: every byte expands to exactly eight flags, in byte order. */
  function Decode(data: seq<bv8>): (r: seq<bool>)
    ensures |r| == 8 * |data|
    ensures forall j, k :: 0 <= j < |data| && 0 <= k < 8 ==> r[8 * j + k] == Bit(data[j], k)
  {
    if |data| == 0 then []
    else
      var rest := Decode(data[1..]);
      var r := ByteBits(data[0]) + rest;
      assert forall j, k :: 1 <= j < |data| && 0 <= k < 8 ==> Bit(data[j], k) == Bit(data[1..][j - 1], k);
      r
  }

  /** `encode`: one byte per started group of eight keys, each pressed key
      OR-ed into its bit. The result decodes back to the input followed by
      `false` padding. */
  method Encode(bits: seq<bool>) returns (bytes: seq<bv8>)
    ensures |bytes| == (|bits| + 7) / 8
    ensures forall j, k :: 0 <= j < |bytes| && 0 <= k < 8 ==>
              Bit(bytes[j], k) == (8 * j + k < |bits| && bits[8 * j + k])
    ensures Decode(bytes)[..|bits|] == bits
    ensures forall i :: |bits| <= i < |Decode(bytes)| ==> !Decode(bytes)[i]
    ensures (forall i :: 0 <= i < |bits| ==> !bits[i]) ==> forall j :: 0 <= j < |bytes| ==> bytes[j] == 0
  {
    bytes := seq((|bits| + 7) / 8, _ => 0);
    var i := 0;
    while i < |bits|
      invariant 0 <= i <= |bits|
      invariant |bytes| == (|bits| + 7) / 8
      invariant forall j, k :: 0 <= j < |bytes| && 0 <= k < 8 ==>
                  Bit(bytes[j], k) == (8 * j + k < i && bits[8 * j + k])
    {
      var q, r := i / 8, i % 8;
      var before := bytes;
      if bits[i] {
        bytes := bytes[q := bytes[q] | (1 << r)];
      }
      forall j, k | 0 <= j < |bytes| && 0 <= k < 8
        ensures Bit(bytes[j], k) == (8 * j + k < i + 1 && bits[8 * j + k])
      {
        if j == q && bits[i] {
          SetBit(before[q], r, k);
        }
        assert 8 * j + k == i <==> (j == q && k == r);
      }
      i := i + 1;
    }
    var d := Decode(bytes);
    forall i | 0 <= i < |d|
      ensures d[i] == (i < |bits| && bits[i])
    {
      var j, k := i / 8, i % 8;
      assert i == 8 * j + k;
      assert d[8 * j + k] == Bit(bytes[j], k);
    }
    if forall i :: 0 <= i < |bits| ==> !bits[i] {
      forall j | 0 <= j < |bytes| {
        ZeroByte(bytes[j]);
      }
    }
  }
}

=== FILE: layers.dfy ===
/** The editor's layer list (`LayerPicker` in Editor.py): the list view
    shows the main tilemap first and then one entry per parallax layer,
    so entry `i > 0` is parallax layer `i - 1`. The layers themselves are
    opaque values here. */
module Layers {
  import opened Wrappers

  datatype Picker<T> = Picker(parallax: seq<T>, selected: int)

  /** The list view always has an entry selected: its item list is never
      empty, clicks only select existing entries (`Widgets.Click`), and
      `refresh` clamps. */
  predicate Valid<T>(p: Picker<T>)
  {
    0 <= p.selected <= |p.parallax|
  }

  /** The parallax layer the selection points at; None for the main
      tilemap. */
  function SelectedLayer<T>(p: Picker<T>): (r: Option<T>)
    requires Valid(p)
    ensures r.None? <==> p.selected == 0
  {
    if p.selected == 0 then None else Some(p.parallax[p.selected - 1])
  }

  /** `refresh`: the item list is rebuilt from the layers and the old
      selection is kept, clamped to the last entry. */
  function Refresh<T>(p: Picker<T>): (r: Picker<T>)
    requires p.selected >= 0
    ensures Valid(r) && r.parallax == p.parallax
    ensures r.selected == if p.selected <= |p.parallax| then p.selected else |p.parallax|
  {
    p.(selected := if p.selected < |p.parallax| then p.selected else |p.parallax|)
  }

  /** `remove_layer`: the main tilemap cannot be removed; otherwise the
      selected parallax layer is deleted and the selection clamped. */
  function RemoveLayer<T>(p: Picker<T>): (r: Picker<T>)
    requires Valid(p)
    ensures Valid(r)
    ensures p.selected == 0 ==> r == p
    ensures p.selected > 0 ==>
      && r.parallax == p.parallax[..p.selected - 1] + p.parallax[p.selected..]
      && multiset(r.parallax) + multiset{p.parallax[p.selected - 1]} == multiset(p.parallax)
  {
    if p.selected == 0 then p
    else
      var i := p.selected - 1;
      assert p.parallax == p.parallax[..i] + [p.parallax[i]] + p.parallax[i + 1..];
      Refresh(p.(parallax := p.parallax[..i] + p.parallax[i + 1..]))
  }

  /** After a removal the selection moves on to the layer that followed the
      removed one, or to the new last entry when the last layer went. */
  lemma RemoveSelectsNext<T>(p: Picker<T>)
    requires Valid(p) && p.selected > 0
    ensures var r := RemoveLayer(p);
      && (p.selected < |p.parallax| ==> SelectedLayer(r) == Some(p.parallax[p.selected]))
      && (p.selected == |p.parallax| ==> r.selected == |r.parallax|)
  {
    var r := RemoveLayer(p);
    if p.selected < |p.parallax| {
      assert r.parallax[p.selected - 1] == p.parallax[p.selected];
    }
  }

  /** Exchanges the layers at `i` and `i + 1`. */
  function SwapNext<T>(s: seq<T>, i: nat): (r: seq<T>)
    requires i + 1 < |s|
    ensures |r| == |s| && r[i] == s[i + 1] && r[i + 1] == s[i]
    ensures forall k :: 0 <= k < |s| && k != i && k != i + 1 ==> r[k] == s[k]
  {
    s[i := s[i + 1]][i + 1 := s[i]]
  }

  /** Swapping two neighbours only reorders the layers. */
  lemma SwapPermutes<T>(s: seq<T>, i: nat)
    requires i + 1 < |s|
    ensures multiset(SwapNext(s, i)) == multiset(s)
  {
    var r := SwapNext(s, i);
    assert s == s[..i] + [s[i], s[i + 1]] + s[i + 2..];
    assert r == s[..i] + [s[i + 1], s[i]] + s[i + 2..];
  }

  /** `move_up`: neither the main tilemap nor the first parallax layer
      moves up; otherwise the selected layer swaps with the one before it
      and the selection follows. */
  function MoveUp<T>(p: Picker<T>): (r: Picker<T>)
    requires Valid(p)
    ensures Valid(r)
    ensures p.selected <= 1 ==> r == p
    ensures p.selected > 1 ==> r.selected == p.selected - 1 && r.parallax == SwapNext(p.parallax, p.selected - 2)
  {
    if p.selected <= 1 then p
    else Refresh(Picker(SwapNext(p.parallax, p.selected - 2), p.selected - 1))
  }

  /** `move_down`: neither the main tilemap nor the last layer moves down;
      otherwise the selected layer swaps with the one after it and the
      selection follows. */
  function MoveDown<T>(p: Picker<T>): (r: Picker<T>)
    requires Valid(p)
    ensures Valid(r)
    ensures p.selected == 0 || p.selected >= |p.parallax| ==> r == p
    ensures 0 < p.selected < |p.parallax| ==>
      r.selected == p.selected + 1 && r.parallax == SwapNext(p.parallax, p.selected - 1)
  {
    if p.selected == 0 || p.selected >= |p.parallax| then p
    else Refresh(Picker(SwapNext(p.parallax, p.selected - 1), p.selected + 1))
  }

  /** Moving up keeps the same layers and the same layer selected. */
  lemma MoveUpKeepsLayer<T>(p: Picker<T>)
    requires Valid(p)
    ensures multiset(MoveUp(p).parallax) == multiset(p.parallax)
    ensures SelectedLayer(MoveUp(p)) == SelectedLayer(p)
  {
    if p.selected > 1 {
      var r := MoveUp(p);
      SwapPermutes(p.parallax, p.selected - 2);
      assert r.parallax[r.selected - 1] == p.parallax[p.selected - 1];
    }
  }

  /** Moving down keeps the same layers and the same layer selected. */
  lemma MoveDownKeepsLayer<T>(p: Picker<T>)
    requires Valid(p)
    ensures multiset(MoveDown(p).parallax) == multiset(p.parallax)
    ensures SelectedLayer(MoveDown(p)) == SelectedLayer(p)
  {
    if 0 < p.selected < |p.parallax| {
      var r := MoveDown(p);
      SwapPermutes(p.parallax, p.selected - 1);
      assert r.parallax[r.selected - 1] == p.parallax[p.selected - 1];
    }
  }

  /** Moving keeps the same layers and the same layer selected. */
  lemma MovesKeepLayers<T>(p: Picker<T>)
    requires Valid(p)
    ensures multiset(MoveUp(p).parallax) == multiset(p.parallax)
    ensures multiset(MoveDown(p).parallax) == multiset(p.parallax)
    ensures SelectedLayer(MoveUp(p)) == SelectedLayer(p)
    ensures SelectedLayer(MoveDown(p)) == SelectedLayer(p)
  {
    MoveUpKeepsLayer(p);
    MoveDownKeepsLayer(p);
  }

  /** Moving a layer up and back down, or down and back up, restores the
      list and the selection. */
  lemma MoveRoundTrip<T>(p: Picker<T>)
    requires Valid(p)
    ensures p.selected > 1 ==> MoveDown(MoveUp(p)) == p
    ensures 0 < p.selected < |p.parallax| ==> MoveUp(MoveDown(p)) == p
  {
    if p.selected > 1 {
      var s := SwapNext(SwapNext(p.parallax, p.selected - 2), p.selected - 2);
      assert s == p.parallax;
    }
    if 0 < p.selected < |p.parallax| {
      var s := SwapNext(SwapNext(p.parallax, p.selected - 1), p.selected - 1);
      assert s == p.parallax;
    }
  }
}

=== FILE: options.dfy ===
/** The game's settings (`OptionsManager` in game_libs/managers/options.py):
    one dictionary of options, with defaults, clamping setters, key
    bindings per action, and a load that overlays a saved JSON object.
    Values are JSON values, since a loaded file can hold anything. The
    audio and display managers the setters notify are not modelled,
    except for the fullscreen toggle. */
module Options {
  import opened Wrappers
  import opened Text

  datatype Json = Null | Bool(b: bool) | Int(i: int) | Num(r: real) | Str(s: string) | Arr(items: seq<Json>)
                | Obj(fields: map<string, Json>)

  type Settings = map<string, Json>

  const VOLUMES: set<string> := {"master_volume", "bgm_volume", "bgs_volume", "me_volume", "se_volume"}
  const ACTIONS: set<string> := {"UP", "DOWN", "LEFT", "RIGHT", "JUMP", "PAUSE", "SPRINT"}

  /** A list of key codes as JSON. */
  function KeyList(keys: seq<int>): (r: Json)
    ensures r.Arr? && |r.items| == |keys| && forall k :: 0 <= k < |keys| ==> r.items[k] == Int(keys[k])
  {
    Arr(seq(|keys|, k requires 0 <= k < |keys| => Int(keys[k])))
  }

  /** The defaults: full volumes, windowed, vsync on, no frame cap, and the
      configured keys for each action (the configuration is a parameter). */
  function Defaults(configKeys: map<string, seq<int>>): (o: Settings)
    requires configKeys.Keys == ACTIONS
    ensures WellFormed(o)
    ensures forall v :: v in VOLUMES ==> o[v] == Num(1.0)
    ensures "fullscreen" in o && o["fullscreen"] == Bool(false) && "vsync" in o && o["vsync"] == Bool(true)
    ensures o["fps_cap"] == Int(0)
    ensures o["key_bindings"].fields.Keys == ACTIONS
    ensures forall a :: a in ACTIONS ==> o["key_bindings"].fields[a] == KeyList(configKeys[a])
  {
    map["master_volume" := Num(1.0), "bgm_volume" := Num(1.0), "bgs_volume" := Num(1.0),
        "me_volume" := Num(1.0), "se_volume" := Num(1.0),
        "fullscreen" := Bool(false), "vsync" := Bool(true), "fps_cap" := Int(0),
        "key_bindings" := Obj(map a | a in configKeys :: KeyList(configKeys[a]))]
  }

  /** Every volume is a number in [0, 1], the frame cap is not negative,
      and the bindings are an object. */
  predicate WellFormed(o: Settings)
  {
    && (forall v :: v in VOLUMES ==> v in o && o[v].Num? && 0.0 <= o[v].r <= 1.0)
    && "fps_cap" in o && o["fps_cap"].Int? && o["fps_cap"].i >= 0
    && HasBindings(o)
  }

  predicate HasBindings(o: Settings)
  {
    "key_bindings" in o && o["key_bindings"].Obj?
  }

  /** `max(0.0, min(1.0, volume))`. */
  function Clamp01(v: real): (r: real)
    ensures 0.0 <= r <= 1.0
    ensures 0.0 <= v <= 1.0 ==> r == v
    ensures v < 0.0 ==> r == 0.0
    ensures v > 1.0 ==> r == 1.0
  {
    var m := if 1.0 <= v then 1.0 else v;
    if 0.0 >= m then 0.0 else m
  }

  /** The volume setters: the value stored is the one asked for, clamped
      into [0, 1]; nothing else changes. */
  function SetVolume(o: Settings, name: string, v: real): (r: Settings)
    requires name in VOLUMES
    ensures name in r && r[name] == Num(Clamp01(v))
    ensures forall k :: k != name ==> (k in r <==> k in o) && (k in o ==> r[k] == o[k])
    ensures WellFormed(o) ==> WellFormed(r)
  {
    o[name := Num(Clamp01(v))]
  }

  /** Setting a volume twice keeps only the second. */
  lemma VolumeLastWins(o: Settings, name: string, v: real, w: real)
    requires name in VOLUMES
    ensures SetVolume(SetVolume(o, name, v), name, w) == SetVolume(o, name, w)
  {
  }

  /** `set_fps_cap`: negative caps become 0, meaning no cap. */
  function SetFpsCap(o: Settings, fps: int): (r: Settings)
    ensures "fps_cap" in r && r["fps_cap"] == Int(if fps < 0 then 0 else fps)
    ensures forall k :: k != "fps_cap" ==> (k in r <==> k in o) && (k in o ==> r[k] == o[k])
    ensures WellFormed(o) ==> WellFormed(r)
  {
    o["fps_cap" := Int(if 0 >= fps then 0 else fps)]
  }

  /** `set_vsync`: stored as given. */
  function SetVsync(o: Settings, enabled: bool): (r: Settings)
    ensures "vsync" in r && r["vsync"] == Bool(enabled)
    ensures forall k :: k != "vsync" ==> (k in r <==> k in o) && (k in o ==> r[k] == o[k])
  {
    o["vsync" := Bool(enabled)]
  }

  /** Python's `==` between a stored value and a bool: `True == 1 == 1.0`
      and `False == 0 == 0.0`, and nothing else is equal to a bool. */
  predicate EqualsBool(v: Json, b: bool)
  {
    match v
    case Bool(x) => x == b
    case Int(i) => i == (if b then 1 else 0)
    case Num(x) => x == (if b then 1.0 else 0.0)
    case _ => false
  }

  /** `set_fullscreen`: the option is stored when it differs from the value
      asked for (a stored value that Python finds equal, such as 1 for
      True, stays as it is); the display is toggled when its state differs,
      so it ends in the state asked for. */
  function SetFullscreen(o: Settings, displayFull: bool, enabled: bool): (r: (Settings, bool))
    requires "fullscreen" in o
    ensures "fullscreen" in r.0 && EqualsBool(r.0["fullscreen"], enabled) && r.1 == enabled
    ensures EqualsBool(o["fullscreen"], enabled) ==> r.0 == o
    ensures !EqualsBool(o["fullscreen"], enabled) ==> r.0["fullscreen"] == Bool(enabled)
    ensures forall k :: k != "fullscreen" ==> (k in r.0 <==> k in o) && (k in o ==> r.0[k] == o[k])
  {
    var o' := if EqualsBool(o["fullscreen"], enabled) then o else o["fullscreen" := Bool(enabled)];
    var display := if displayFull != enabled then !displayFull else displayFull;
    (o', display)
  }

  /** Setting the same state twice changes nothing the second time. */
  lemma FullscreenIdempotent(o: Settings, displayFull: bool, enabled: bool)
    requires "fullscreen" in o
    ensures var r := SetFullscreen(o, displayFull, enabled);
      SetFullscreen(r.0, r.1, enabled) == r
  {
  }

  /** `get_action_keys`: the keys bound to an action, None for an unknown
      action (`dict.get`). Bindings that are missing or not an object have
      no `get` (AttributeError). */
  function ActionKeys(o: Settings, action: string): (r: Result<Option<Json>>)
    ensures r.Err? <==> !HasBindings(o)
    ensures r.Err? ==> r.error == AttributeError
    ensures r.Ok? ==> (r.value.Some? <==> action in o["key_bindings"].fields)
    ensures r.Ok? && r.value.Some? ==> r.value.value == o["key_bindings"].fields[action]
  {
    if !HasBindings(o) then Err(AttributeError)
    else
      var b := o["key_bindings"].fields;
      Ok(if action in b then Some(b[action]) else None)
  }

  /** Python's `in` on a string: `t` occurs somewhere in `s`. */
  predicate Occurs(t: string, s: string)
  {
    exists i :: 0 <= i <= |s| && Prefix(t, s[i..])
  }

  /** `set_action_keys`: the action is looked up with `in` and, when found,
      assigned by name. An unknown action changes nothing; a known one gets
      the new keys and every other binding and option stays. Missing
      bindings are a KeyError. Bindings that are a string or a list answer
      `in` (as a substring or an element) but cannot be assigned by name,
      and any other value cannot answer `in`: TypeError. */
  function SetActionKeys(o: Settings, action: string, keys: seq<int>): (r: Result<Settings>)
    ensures "key_bindings" !in o ==> r == Err(KeyError)
    ensures HasBindings(o) ==> r.Ok?
    ensures r.Err? ==> r.error in {KeyError, TypeError}
    ensures "key_bindings" in o && o["key_bindings"].Str? ==>
      r == (if Occurs(action, o["key_bindings"].s) then Err(TypeError) else Ok(o))
    ensures "key_bindings" in o && o["key_bindings"].Arr? ==>
      r == (if Str(action) in o["key_bindings"].items then Err(TypeError) else Ok(o))
    ensures "key_bindings" in o && !(o["key_bindings"].Obj? || o["key_bindings"].Str? || o["key_bindings"].Arr?) ==>
      r == Err(TypeError)
    ensures r.Ok? && !(HasBindings(o) && action in o["key_bindings"].fields) ==> r.value == o
    ensures r.Ok? && HasBindings(o) && action in o["key_bindings"].fields ==>
      && r.value.Keys == o.Keys
      && (forall k :: k in o && k != "key_bindings" ==> r.value[k] == o[k])
      && r.value["key_bindings"].Obj?
      && r.value["key_bindings"].fields == o["key_bindings"].fields[action := KeyList(keys)]
  {
    if "key_bindings" !in o then Err(KeyError)
    else
      match o["key_bindings"]
      case Obj(b) => if action !in b then Ok(o) else Ok(o["key_bindings" := Obj(b[action := KeyList(keys)])])
      case Str(s) => if Occurs(action, s) then Err(TypeError) else Ok(o)
      case Arr(items) => if Str(action) in items then Err(TypeError) else Ok(o)
      case _ => Err(TypeError)
  }

  /** Rebinding keeps the options well formed, and the action then reads
      back the keys given. */
  lemma RebindReadsBack(o: Settings, action: string, keys: seq<int>)
    requires WellFormed(o) && ActionKeys(o, action) != Ok(None)
    ensures var r := SetActionKeys(o, action, keys);
      r.Ok? && WellFormed(r.value) && ActionKeys(r.value, action) == Ok(Some(KeyList(keys)))
  {
  }

  /** `load`: the saved object's entries replace the options of the same
      name and every other option keeps its value. Without a readable
      file holding an object, nothing changes (the error is logged). */
  function Load(o: Settings, saved: Option<Json>): (r: Settings)
    ensures saved.None? || !saved.value.Obj? ==> r == o
    ensures saved.Some? && saved.value.Obj? ==>
      && (forall k :: k in r <==> k in o || k in saved.value.fields)
      && (forall k :: k in saved.value.fields ==> r[k] == saved.value.fields[k])
      && (forall k :: k in o && k !in saved.value.fields ==> r[k] == o[k])
  {
    match saved
    case Some(Obj(m)) => o + m
    case _ => o
  }

  /** Saved entries that are themselves well formed keep the options well
      formed, so defaults fill in whatever the file lacks. */
  lemma LoadKeepsWellFormed(o: Settings, m: map<string, Json>)
    requires WellFormed(o)
    requires forall v :: v in VOLUMES && v in m ==> m[v].Num? && 0.0 <= m[v].r <= 1.0
    requires "fps_cap" in m ==> m["fps_cap"].Int? && m["fps_cap"].i >= 0
    requires "key_bindings" in m ==> m["key_bindings"].Obj?
    ensures WellFormed(Load(o, Some(Obj(m))))
  {
  }

  /** The overlay is shallow: saved bindings replace the whole table, so an
      action the file does not list loses its keys, and rebinding it
      afterwards is ignored as an unknown action. */
  lemma LoadReplacesBindings(o: Settings, m: map<string, Json>, action: string, keys: seq<int>)
    requires WellFormed(o) && "key_bindings" in m && m["key_bindings"].Obj?
    requires action !in m["key_bindings"].fields
    ensures var r := Load(o, Some(Obj(m)));
      && ActionKeys(r, action) == Ok(None)
      && SetActionKeys(r, action, keys) == Ok(r)
  {
  }

  /** A value the file stores is taken as it is: a saved volume outside
      [0, 1] comes back unclamped, though no setter could have stored it. */
  lemma LoadSkipsClamp(o: Settings)
    requires WellFormed(o)
    ensures var r := Load(o, Some(Obj(map["master_volume" := Num(2.0)])));
      !WellFormed(r) && r["master_volume"] == Num(2.0)
  {
  }
}

=== FILE: scene_manager.dfy ===
/** The scene manager's state machine (`SceneManager` in
    game_libs/managers/scene.py): which scene is current, which one is
    waiting behind an outgoing transition, and which transition is
    running. Scenes are known by name; the calls the manager makes into
    them are recorded in a log. */
module SceneManager {
  import opened Wrappers
  import Transition

  datatype State = Normal | TransitionIn | TransitionOut

  /** A call the manager makes into a scene. */
  datatype Effect = Exit(scene: string) | Enter(scene: string) | SceneUpdate(scene: string, dt: real) | Events(scene: string)

  datatype Manager = Manager(
    scenes: set<string>,
    current: Option<string>,
    next: Option<string>,
    previous: Option<string>,
    state: State,
    outgoing: Option<Transition.Clock>,
    incoming: Option<Transition.Clock>,
    log: seq<Effect>)

  /** A scene is waiting whenever an outgoing transition is running. */
  predicate Valid(m: Manager)
  {
    m.state == TransitionOut && m.outgoing.Some? ==> m.next.Some?
  }

  /** The state after a scene swap: the incoming transition starts if
      there is one. */
  function AfterSwap(incoming: Option<Transition.Clock>): (r: (State, Option<Transition.Clock>))
    ensures incoming.None? ==> r == (Normal, None)
    ensures incoming.Some? ==> r == (TransitionIn, Some(Transition.Play(incoming.value)))
  {
    if incoming.Some? then (TransitionIn, Some(Transition.Play(incoming.value))) else (Normal, None)
  }

  /** `change_scene`: an unknown name changes nothing. With an outgoing
      transition, it starts and the new scene waits; without one, the
      current scene exits, the new one enters at once, and the incoming
      transition (if any) starts. */
  function ChangeScene(m: Manager, name: string, outgoing: Option<Transition.Clock>,
                       incoming: Option<Transition.Clock>): (r: Manager)
    ensures name !in m.scenes ==> r == m
    ensures name in m.scenes && outgoing.Some? ==>
      && r.state == TransitionOut && r.current == m.current && r.next == Some(name)
      && r.previous == m.previous && r.incoming == incoming
      && r.outgoing == Some(Transition.Play(outgoing.value)) && r.log == m.log
    ensures name in m.scenes && outgoing.None? ==>
      && r.previous == m.current && r.current == Some(name) && r.next.None? && r.outgoing.None?
      && (r.state, r.incoming) == AfterSwap(incoming)
      && r.log == m.log + (if m.current.Some? then [Exit(m.current.value)] else []) + [Enter(name)]
    ensures r.scenes == m.scenes
    ensures Valid(r) || (name !in m.scenes && r == m)
  {
    if name !in m.scenes then m
    else if outgoing.Some? then
      m.(next := Some(name), outgoing := Some(Transition.Play(outgoing.value)), incoming := incoming,
         state := TransitionOut)
    else
      var exits := if m.current.Some? then [Exit(m.current.value)] else [];
      var (state, incoming') := AfterSwap(incoming);
      m.(next := None, outgoing := None, incoming := incoming', previous := m.current, current := Some(name),
         state := state, log := m.log + exits + [Enter(name)])
  }

  /** `update`: nothing without a current scene. An outgoing transition
      advances, and on completion the waiting scene replaces the current
      one; an incoming transition advances, and on completion the manager
      returns to normal. The current scene then updates. A completed
      outgoing transition with no waiting scene fails with
      AttributeError, as `None.on_enter` would. */
  function Update(m: Manager, dt: real): (r: Result<Manager>)
    ensures m.current.None? ==> r == Ok(m)
    ensures Valid(m) ==> r.Ok?
    ensures r.Ok? ==> r.value.scenes == m.scenes && (Valid(m) ==> Valid(r.value))
    ensures r.Ok? && m.current.Some? ==>
      && r.value.current.Some? && |r.value.log| > |m.log| && r.value.log[..|m.log|] == m.log
      && r.value.log[|r.value.log| - 1] == SceneUpdate(r.value.current.value, dt)
  {
    if m.current.None? then Ok(m)
    else if m.state == TransitionOut && m.outgoing.Some? then
      var out := Transition.Update(m.outgoing.value, dt);
      if out.complete then
        if m.next.None? then Err(AttributeError)
        else
          var (state, incoming') := AfterSwap(m.incoming);
          var swapped := m.(outgoing := Some(out), previous := m.current, current := m.next, next := None,
                            state := state, incoming := incoming',
                            log := m.log + [Exit(m.current.value), Enter(m.next.value)]);
          Ok(swapped.(log := swapped.log + [SceneUpdate(m.next.value, dt)]))
      else
        Ok(m.(outgoing := Some(out), log := m.log + [SceneUpdate(m.current.value, dt)]))
    else if m.state == TransitionIn && m.incoming.Some? then
      var inc := Transition.Update(m.incoming.value, dt);
      var state := if inc.complete then Normal else m.state;
      Ok(m.(incoming := Some(inc), state := state, log := m.log + [SceneUpdate(m.current.value, dt)]))
    else
      Ok(m.(log := m.log + [SceneUpdate(m.current.value, dt)]))
  }

  /** `handle_events`: only a current scene in the normal state gets the
      events. */
  function HandleEvents(m: Manager): (r: Manager)
    ensures m.state == Normal && m.current.Some? ==> r == m.(log := m.log + [Events(m.current.value)])
    ensures !(m.state == Normal && m.current.Some?) ==> r == m
  {
    if m.state != Normal || m.current.None? then m else m.(log := m.log + [Events(m.current.value)])
  }

  /** No scene ever receives events while a transition is in progress. */
  lemma NoEventsDuringTransition(m: Manager)
    requires m.state != Normal
    ensures HandleEvents(m).log == m.log
  {
  }

  /** When the outgoing transition completes, the scenes swap: the old
      current scene exits and becomes the previous one, the waiting scene
      enters and becomes current, and the incoming transition takes over. */
  lemma SwapOnComplete(m: Manager, dt: real)
    requires Valid(m) && m.current.Some? && m.state == TransitionOut && m.outgoing.Some?
    requires Transition.Update(m.outgoing.value, dt).complete
    ensures var r := Update(m, dt).value;
      && r.previous == m.current && r.current == m.next && r.next.None?
      && (r.state, r.incoming) == AfterSwap(m.incoming)
      && r.log == m.log + [Exit(m.current.value), Enter(m.next.value), SceneUpdate(m.next.value, dt)]
  {
  }

  /** Until it completes, an outgoing transition keeps the current scene
      in place and in the TRANSITION_OUT state. */
  lemma OutgoingHolds(m: Manager, dt: real)
    requires m.current.Some? && m.state == TransitionOut && m.outgoing.Some?
    requires !Transition.Update(m.outgoing.value, dt).complete
    ensures var r := Update(m, dt).value; r.current == m.current && r.state == TransitionOut
  {
  }

  /** An incoming transition returns the manager to normal exactly when it
      completes. */
  lemma IncomingEnds(m: Manager, dt: real)
    requires m.current.Some? && m.state == TransitionIn && m.incoming.Some?
    ensures (Update(m, dt).value.state == Normal) <==> Transition.Update(m.incoming.value, dt).complete
  {
  }

  /** A change of scene with an outgoing transition, asked for while no
      scene is current, never takes effect: `update` returns at once
      without a current scene, so the transition never advances. */
  lemma {:induction false} StuckWithoutCurrent(m: Manager, name: string, outgoing: Transition.Clock,
                                               incoming: Option<Transition.Clock>, dts: seq<real>)
    requires m.current.None? && name in m.scenes
    ensures var r := UpdateAll(ChangeScene(m, name, Some(outgoing), incoming), dts);
      r.Ok? && r.value.current.None? && r.value.state == TransitionOut
    decreases |dts|
  {
    var c := ChangeScene(m, name, Some(outgoing), incoming);
    UpdatesIdle(c, dts);
  }

  /** Frames in a row; the first failure stops them. */
  function UpdateAll(m: Manager, dts: seq<real>): Result<Manager>
    decreases |dts|
  {
    if |dts| == 0 then Ok(m)
    else
      match Update(m, dts[0])
      case Err(e) => Err(e)
      case Ok(m') => UpdateAll(m', dts[1..])
  }

  lemma {:induction false} UpdatesIdle(m: Manager, dts: seq<real>)
    requires m.current.None?
    ensures UpdateAll(m, dts) == Ok(m)
    decreases |dts|
  {
    if |dts| > 0 {
      UpdatesIdle(m, dts[1..]);
    }
  }

  /** The incoming transition handed to `change_scene` with an outgoing
      one is the one that starts when the outgoing one completes. */
  lemma ChangeThenSwap(m: Manager, name: string, outgoing: Transition.Clock,
                       incoming: Option<Transition.Clock>, dt: real)
    requires m.current.Some? && name in m.scenes
    requires Transition.Update(Transition.Play(outgoing), dt).complete
    ensures var r := Update(ChangeScene(m, name, Some(outgoing), incoming), dt);
      && r.Ok? && r.value.current == Some(name) && r.value.previous == m.current
      && (r.value.state, r.value.incoming) == AfterSwap(incoming)
  {
    SwapOnComplete(ChangeScene(m, name, Some(outgoing), incoming), dt);
  }

  // ------------------------------------------------- the clock it drives

  /** Every transition the state refers to is running: playing and not
      yet complete. */
  predicate Running(m: Manager)
  {
    && (m.state == TransitionOut && m.outgoing.Some? ==> m.outgoing.value.playing && !m.outgoing.value.complete)
    && (m.state == TransitionIn && m.incoming.Some? ==> m.incoming.value.playing && !m.incoming.value.complete)
  }

  /** A scene change leaves only running transitions behind, and so does
      every frame. The manager therefore only ever advances a running
      clock, where `Transition.Advance` (no guard) and `Transition.Update`
      (guarded) agree. */
  lemma StaysRunning(m: Manager, name: string, outgoing: Option<Transition.Clock>,
                     incoming: Option<Transition.Clock>, dt: real)
    requires Running(m)
    ensures Running(ChangeScene(m, name, outgoing, incoming))
    ensures Update(m, dt).Ok? ==> Running(Update(m, dt).value)
    ensures m.state == TransitionOut && m.outgoing.Some? ==>
      Transition.Advance(m.outgoing.value, dt) == Transition.Update(m.outgoing.value, dt)
    ensures m.state == TransitionIn && m.incoming.Some? ==>
      Transition.Advance(m.incoming.value, dt) == Transition.Update(m.incoming.value, dt)
  {
    if m.state == TransitionOut && m.outgoing.Some? {
      Transition.AdvanceAgrees(m.outgoing.value, dt);
    }
    if m.state == TransitionIn && m.incoming.Some? {
      Transition.AdvanceAgrees(m.incoming.value, dt);
    }
  }

  // ------------------------------------ a transition without `start`

  /** `change_scene` without an outgoing transition but with an incoming
      one that has no `start` method (the scene transitions' `CrossFade`,
      which offers `play`): the old scene exits and the new one enters,
      then `start()` raises AttributeError with the state not yet set. */
  function ChangeSceneStartless(m: Manager, name: string, incoming: Transition.Clock): (r: (Manager, Option<Failure>))
    ensures name !in m.scenes ==> r == (m, None)
    ensures name in m.scenes ==>
      && r.1 == Some(AttributeError)
      && r.0.current == Some(name) && r.0.previous == m.current && r.0.state == m.state
      && r.0.incoming == Some(incoming) && r.0.log == ChangeScene(m, name, None, None).log
  {
    if name !in m.scenes then (m, None)
    else (ChangeScene(m, name, None, None).(incoming := Some(incoming), state := m.state), Some(AttributeError))
  }

  /** From the title screen (state NORMAL, the title scene current), the
      CrossFade request exits the title and enters the new scene before it
      fails; with a transition that can start, the same request succeeds
      and fades in. */
  lemma StartlessFails(m: Manager, name: string, fade: Transition.Clock)
    requires m.current.Some? && m.state == Normal && name in m.scenes
    ensures var (r, err) := ChangeSceneStartless(m, name, fade);
      && err == Some(AttributeError)
      && r.log == m.log + [Exit(m.current.value), Enter(name)]
      && r.state == Normal && r.incoming == Some(fade)
    ensures var r := ChangeScene(m, name, None, Some(fade));
      && r.log == m.log + [Exit(m.current.value), Enter(name)]
      && r.state == TransitionIn && r.incoming == Some(Transition.Play(fade))
  {
  }
}

=== FILE: text.dfy ===
/** Python string helpers the parsers rely on: `str.strip`, `str.lstrip`
    (as an indentation width), `str.split()`, `str.startswith` and
    `str.lower`. */
module Text {
  /** Whitespace as `str.isspace`, `str.strip`, `str.split()` and the
      regular expression `\s` see it: the ASCII controls tab to carriage
      return, the information separators U+001C to U+001F, the space, NEL,
      the no-break space and the Unicode spaces and line separators. */
  predicate IsSpace(c: char)
  {
    || ('\t' <= c <= '\r') || ('\U{1C}' <= c <= ' ')
    || c == '\U{85}' || c == '\U{A0}' || c == '\U{1680}' || ('\U{2000}' <= c <= '\U{200A}')
    || c == '\U{2028}' || c == '\U{2029}' || c == '\U{202F}' || c == '\U{205F}' || c == '\U{3000}'
  }

  /** The information separators U+001C to U+001F: whitespace to `strip`
      and `split`, but not to `int()` and `float()`. */
  predicate IsSeparator(c: char)
  {
    '\U{1C}' <= c <= '\U{1F}'
  }

  predicate AllSpace(s: string)
  {
    forall k :: 0 <= k < |s| ==> IsSpace(s[k])
  }

  /** Length of the leading run of whitespace. */
  function SpaceRun(s: string): (n: nat)
    ensures n <= |s| && AllSpace(s[..n]) && (n < |s| ==> !IsSpace(s[n]))
  {
    if |s| == 0 || !IsSpace(s[0]) then 0
    else
      var n := 1 + SpaceRun(s[1..]);
      assert s[..n] == [s[0]] + s[1..][..n - 1];
      n
  }

  /** Length of the trailing run of whitespace. */
  function TrailingRun(s: string): (n: nat)
    ensures n <= |s| && AllSpace(s[|s| - n..]) && (n < |s| ==> !IsSpace(s[|s| - n - 1]))
  {
    if |s| == 0 || !IsSpace(s[|s| - 1]) then 0
    else
      var n := 1 + TrailingRun(s[..|s| - 1]);
      assert s[|s| - n..] == s[..|s| - 1][|s| - n..] + [s[|s| - 1]];
      n
  }

  /** `str.strip`: the slice between the leading and trailing whitespace. */
  function Strip(s: string): (r: string)
    ensures |r| <= |s|
  {
    var a := SpaceRun(s);
    var t := s[a..];
    t[..|t| - TrailingRun(t)]
  }

  /** The whitespace `Strip` removes from `s` holds no information
      separator, so the margins `int()` and `float()` strip are the same. */
  predicate NumberMargins(s: string)
  {
    var a := SpaceRun(s);
    var b := TrailingRun(s[a..]);
    forall k :: 0 <= k < |s| && (k < a || k >= |s| - b) ==> !IsSeparator(s[k])
  }

  /** What `Strip` keeps is a slice of the line bounded by whitespace, with
      no whitespace at either end; it is empty exactly for blank lines. */
  lemma StripShape(s: string)
    ensures var r := Strip(s);
      exists a :: 0 <= a <= |s| - |r| && r == s[a..a + |r|] && AllSpace(s[..a]) && AllSpace(s[a + |r|..])
    ensures var r := Strip(s); |r| > 0 ==> !IsSpace(r[0]) && !IsSpace(r[|r| - 1])
    ensures |Strip(s)| == 0 <==> AllSpace(s)
  {
    var a := SpaceRun(s);
    var t := s[a..];
    var b := TrailingRun(t);
    var r := Strip(s);
    assert r == s[a..a + |r|];
    assert s[a + |r|..] == t[|t| - b..];
    assert a < |s| ==> t[0] == s[a];
  }

  /** `s.startswith(p)`. */
  predicate Prefix(p: string, s: string)
  {
    |p| <= |s| && s[..|p|] == p
  }

  lemma SpaceRunAfter(a: string, b: string)
    requires AllSpace(a) && (|b| > 0 ==> !IsSpace(b[0]))
    ensures SpaceRun(a + b) == |a|
  {
    if |a| > 0 {
      assert (a + b)[1..] == a[1..] + b;
      SpaceRunAfter(a[1..], b);
    } else {
      assert a + b == b;
    }
  }


  predicate NoSpace(s: string)
  {
    forall k :: 0 <= k < |s| ==> !IsSpace(s[k])
  }

  /** Length of the leading run of non-whitespace. */
  function WordRun(s: string): (n: nat)
    ensures n <= |s| && NoSpace(s[..n]) && (n < |s| ==> IsSpace(s[n]))
  {
    if |s| == 0 || IsSpace(s[0]) then 0
    else
      var n := 1 + WordRun(s[1..]);
      assert s[..n] == [s[0]] + s[1..][..n - 1];
      n
  }

  /** `str.split()` without arguments: the maximal runs of non-whitespace. */
  function Words(s: string): (r: seq<string>)
    ensures forall k :: 0 <= k < |r| ==> |r[k]| > 0 && NoSpace(r[k])
    ensures AllSpace(s) <==> |r| == 0
    decreases |s|
  {
    var t := s[SpaceRun(s)..];
    if |t| == 0 then []
    else
      var n := WordRun(t);
      assert t[0] == s[SpaceRun(s)] && !AllSpace(s);
      [t[..n]] + Words(t[n..])
  }

  /** Words separated by single spaces. */
  function Join(ws: seq<string>): string
  {
    if |ws| == 0 then "" else if |ws| == 1 then ws[0] else ws[0] + " " + Join(ws[1..])
  }

  lemma {:induction false} WordRunAfter(a: string, b: string)
    requires NoSpace(a) && (|b| > 0 ==> IsSpace(b[0]))
    ensures WordRun(a + b) == |a|
    decreases |a|
  {
    if |a| > 0 {
      assert !IsSpace((a + b)[0]) by { assert (a + b)[0] == a[0]; }
      assert (a + b)[1..] == a[1..] + b;
      assert NoSpace(a[1..]) by {
        forall k | 0 <= k < |a| - 1 ensures !IsSpace(a[1..][k]) { assert a[1..][k] == a[k + 1]; }
      }
      WordRunAfter(a[1..], b);
    } else {
      assert a + b == b;
    }
  }

  /** A word at the front of the text is the first word `split` finds. */
  lemma WordsCons(w: string, rest: string)
    requires |w| > 0 && NoSpace(w) && (|rest| > 0 ==> IsSpace(rest[0]))
    ensures Words(w + rest) == [w] + Words(rest)
  {
    var s := w + rest;
    SpaceRunAfter("", s);
    assert "" + s == s;
    assert s[0..] == s;
    WordRunAfter(w, rest);
    assert s[..|w|] == w && s[|w|..] == rest;
  }

  /** Leading whitespace before a word is skipped. */
  lemma WordsAfterSpace(j: string)
    requires |j| > 0 && !IsSpace(j[0])
    ensures Words(" " + j) == Words(j)
  {
    SpaceRunAfter(" ", j);
    assert (" " + j)[1..] == j;
    SpaceRunAfter("", j);
    assert "" + j == j;
    assert j[0..] == j;
  }

  /** A joined list of words starts with its first word's first letter. */
  lemma JoinFront(ws: seq<string>)
    requires |ws| > 0 && |ws[0]| > 0
    ensures |Join(ws)| > 0 && Join(ws)[0] == ws[0][0]
  {
    if |ws| > 1 {
      assert Join(ws) == ws[0] + (" " + Join(ws[1..]));
    }
  }

  lemma JoinCons(ws: seq<string>)
    requires |ws| > 1
    ensures Join(ws) == ws[0] + (" " + Join(ws[1..]))
  {
  }

  /** One step of `WordsJoin`: a word put in front of a joined list. */
  lemma WordsJoinStep(ws: seq<string>)
    requires |ws| > 1 && |ws[0]| > 0 && NoSpace(ws[0]) && |ws[1]| > 0 && !IsSpace(ws[1][0])
    requires Words(Join(ws[1..])) == ws[1..]
    ensures Words(Join(ws)) == ws
  {
    var j := Join(ws[1..]);
    JoinCons(ws);
    JoinFront(ws[1..]);
    WordsCons(ws[0], " " + j);
    WordsAfterSpace(j);
    HeadTail(ws);
  }

  lemma HeadTail<T>(s: seq<T>)
    requires |s| > 0
    ensures s == [s[0]] + s[1..]
  {
  }

  /** Splitting words joined by spaces gives the words back. */
  lemma {:induction false} WordsJoin(ws: seq<string>)
    requires forall k :: 0 <= k < |ws| ==> |ws[k]| > 0 && NoSpace(ws[k])
    ensures Words(Join(ws)) == ws
    decreases |ws|
  {
    if |ws| == 1 {
      WordsCons(ws[0], "");
      assert ws[0] + "" == ws[0];
      assert Words("") == [];
    } else if |ws| > 1 {
      WordsJoin(ws[1..]);
      assert |ws[1]| > 0 && NoSpace(ws[1]);
      WordsJoinStep(ws);
    } else {
      assert Words("") == [];
    }
  }

  /** `str.lower` on one character of ASCII or Latin-1: the capitals A-Z
      and U+00C0 to U+00DE but the multiplication sign move down by 32. */
  function LowerChar(c: char): char
  {
    if 'A' <= c <= 'Z' || ('\U{C0}' <= c <= '\U{DE}' && c != '\U{D7}') then (c as int + 32) as char else c
  }

  /** `str.lower`, letter by letter. */
  function Lower(s: string): (r: string)
    ensures |r| == |s| && forall k :: 0 <= k < |s| ==> r[k] == LowerChar(s[k])
  {
    seq(|s|, k requires 0 <= k < |s| => LowerChar(s[k]))
  }

  /** `s.rstrip(c)` for one character: drops every trailing `c`. */
  function RStrip(s: string, c: char): (r: string)
    ensures |r| <= |s| && r == s[..|r|]
    ensures forall k :: |r| <= k < |s| ==> s[k] == c
    ensures |r| > 0 ==> r[|r| - 1] != c
  {
    if |s| > 0 && s[|s| - 1] == c then RStrip(s[..|s| - 1], c) else s
  }

  /** A string without whitespace at either end strips to itself. */
  lemma StripTrimmed(s: string)
    requires |s| > 0 ==> !IsSpace(s[0]) && !IsSpace(s[|s| - 1])
    ensures Strip(s) == s
    ensures NumberMargins(s)
  {
    if |s| > 0 {
      assert s[SpaceRun(s)..] == s;
    }
  }

  predicate IsDigit(c: char) { '0' <= c <= '9' }

  /** Decimal notation of a natural number. */
  function DecimalText(n: nat): (r: string)
    ensures |r| > 0 && forall k :: 0 <= k < |r| ==> IsDigit(r[k])
    decreases n
  {
    var d := ['0' + (n % 10) as char];
    if n < 10 then d else DecimalText(n / 10) + d
  }

  /** Decimal notation of an integer, as `str(i)`: no whitespace, and a
      minus sign only for negatives. */
  function IntText(i: int): (r: string)
    ensures |r| > 0 && forall k :: 0 <= k < |r| ==> !IsSpace(r[k])
    ensures r[0] == '-' <==> i < 0
  {
    if i < 0 then "-" + DecimalText(-i) else DecimalText(i)
  }
}

=== FILE: text_entry.dfy ===
/** The one-line text field of the UI toolkit (`TextEntry` in
    pygame_ui.py): a text, a cursor between characters, and a length limit
    for typing. Only key presses reach this model. */
module TextEntry {

  datatype Entry = Entry(text: string, cursor: int, maxLength: int, focused: bool, displayed: bool)

  /** A key press: the named keys the field reacts to, or any other key
      with the text it produces (`event.unicode`, possibly empty). */
  datatype Key = Return | Backspace | Delete | Left | Right | Typed(unicode: string)

  /** The cursor sits between two characters of the text, or at an end. */
  predicate Valid(e: Entry)
  {
    0 <= e.cursor <= |e.text|
  }

  /** A new field holds the default text with the cursor at its end. */
  function New(text: string, maxLength: int): (e: Entry)
    ensures Valid(e) && e.cursor == |text| && e.text == text && !e.focused
  {
    Entry(text, |text|, maxLength, false, true)
  }

  /** `str.isprintable` on one character: not a control character. Letters
      and symbols beyond Latin-1 count as printable. */
  predicate Printable(c: char)
  {
    ' ' <= c && !('\U{7F}' <= c <= '\U{A0}') && c != '\U{AD}'
  }

  predicate PrintableText(s: string)
  {
    forall k :: 0 <= k < |s| ==> Printable(s[k])
  }

  /** `handle_event` on a key press: without focus or while hidden the
      field ignores it. Return gives the focus up. Backspace removes the
      character before the cursor, Delete the one after it, and the arrows
      move the cursor, each only when there is such a character. Printable
      text is inserted at the cursor while the text is shorter than the
      limit, and the cursor advances by one. The flag says whether the
      press was used. */
  function HandleKey(e: Entry, k: Key): (r: (Entry, bool))
    requires Valid(e)
    ensures Valid(r.0)
    ensures !e.focused || !e.displayed ==> r == (e, false)
    ensures !r.1 ==> r.0 == e
    ensures r.0.maxLength == e.maxLength && r.0.displayed == e.displayed
    ensures r.0.focused != e.focused ==> k == Return && !r.0.focused
    ensures e.focused && e.displayed && k.Typed? && r.1 ==>
      r.0.text == e.text[..e.cursor] + k.unicode + e.text[e.cursor..] && r.0.cursor == e.cursor + 1
    ensures k.Typed? ==> (r.1 <==>
      e.focused && e.displayed && |k.unicode| > 0 && PrintableText(k.unicode) && |e.text| < e.maxLength)
    ensures k.Typed? && |e.text| >= e.maxLength ==> !r.1
    ensures e.focused && e.displayed && k == Backspace ==>
      r == (if e.cursor > 0 then (e.(text := e.text[..e.cursor - 1] + e.text[e.cursor..], cursor := e.cursor - 1), true) else (e, false))
    ensures e.focused && e.displayed && k == Delete ==>
      r == (if e.cursor < |e.text| then (e.(text := e.text[..e.cursor] + e.text[e.cursor + 1..]), true) else (e, false))
    ensures e.focused && e.displayed && k == Return ==> r == (e.(focused := false), true)
  {
    if !e.focused || !e.displayed then (e, false)
    else
      match k
      case Return => (e.(focused := false), true)
      case Backspace =>
        if e.cursor > 0 then (e.(text := e.text[..e.cursor - 1] + e.text[e.cursor..], cursor := e.cursor - 1), true)
        else (e, false)
      case Delete =>
        if e.cursor < |e.text| then (e.(text := e.text[..e.cursor] + e.text[e.cursor + 1..]), true)
        else (e, false)
      case Left =>
        if e.cursor > 0 then (e.(cursor := e.cursor - 1), true) else (e, false)
      case Right =>
        if e.cursor < |e.text| then (e.(cursor := e.cursor + 1), true) else (e, false)
      case Typed(u) =>
        if |u| > 0 && PrintableText(u) && |e.text| < e.maxLength then
          (e.(text := e.text[..e.cursor] + u + e.text[e.cursor..], cursor := e.cursor + 1), true)
        else (e, false)
  }

  /** Several key presses in a row. */
  function HandleKeys(e: Entry, ks: seq<Key>): (r: Entry)
    requires Valid(e)
    ensures Valid(r)
    decreases |ks|
  {
    if |ks| == 0 then e else HandleKeys(HandleKey(e, ks[0]).0, ks[1..])
  }

  /** Typing one printable character and pressing Backspace restores the
      field, text and cursor; so does typing it, stepping back over it and
      pressing Delete. */
  lemma TypeThenErase(e: Entry, c: char)
    requires Valid(e) && e.focused && e.displayed && Printable(c) && |e.text| < e.maxLength
    ensures HandleKeys(e, [Typed([c]), Backspace]) == e
    ensures HandleKeys(e, [Typed([c]), Left, Delete]) == e
  {
    var t := HandleKey(e, Typed([c])).0;
    assert t.text == e.text[..e.cursor] + [c] + e.text[e.cursor..];
    assert t.text[..t.cursor - 1] + t.text[t.cursor..] == e.text;
    var ks := [Typed([c]), Backspace];
    assert ks[1..] == [Backspace] && ks[1..][1..] == [];
    assert HandleKeys(e, ks) == HandleKeys(t, [Backspace]);
    var l := HandleKey(t, Left).0;
    assert l.text[..l.cursor] + l.text[l.cursor + 1..] == e.text;
    var ks' := [Typed([c]), Left, Delete];
    assert ks'[1..] == [Left, Delete] && ks'[1..][1..] == [Delete] && ks'[1..][1..][1..] == [];
    assert HandleKeys(e, ks') == HandleKeys(t, [Left, Delete]);
    assert HandleKeys(t, [Left, Delete]) == HandleKeys(l, [Delete]);
  }

  /** Backspace and Delete each remove exactly one character, the one
      before the cursor and the one after it; everything else keeps its
      order, and the cursor stays in front of the same text. */
  lemma EraseRemovesOne(e: Entry)
    requires Valid(e) && e.focused && e.displayed
    ensures var b := HandleKey(e, Backspace).0;
      e.cursor > 0 ==>
        && |b.text| == |e.text| - 1
        && (forall i :: 0 <= i < e.cursor - 1 ==> b.text[i] == e.text[i])
        && (forall i :: e.cursor - 1 <= i < |b.text| ==> b.text[i] == e.text[i + 1])
        && b.text[b.cursor..] == e.text[e.cursor..]
    ensures var d := HandleKey(e, Delete).0;
      e.cursor < |e.text| ==>
        && |d.text| == |e.text| - 1
        && (forall i :: 0 <= i < e.cursor ==> d.text[i] == e.text[i])
        && (forall i :: e.cursor <= i < |d.text| ==> d.text[i] == e.text[i + 1])
        && d.cursor == e.cursor
  {
  }

  /** Typing single characters never takes the text past the limit it
      started within. */
  lemma {:induction false} StaysWithinLimit(e: Entry, ks: seq<Key>)
    requires Valid(e) && |e.text| <= e.maxLength
    requires forall i :: 0 <= i < |ks| ==> ks[i].Typed? ==> |ks[i].unicode| <= 1
    ensures |HandleKeys(e, ks).text| <= e.maxLength
    decreases |ks|
  {
    if |ks| > 0 {
      StaysWithinLimit(HandleKey(e, ks[0]).0, ks[1..]);
    }
  }

  /** The arrows move the cursor one place at most and never change the
      text. */
  lemma ArrowsKeepText(e: Entry)
    requires Valid(e)
    ensures HandleKey(e, Left).0.text == e.text && HandleKey(e, Right).0.text == e.text
    ensures e.focused && e.displayed && e.cursor > 0 ==> HandleKey(e, Left).0.cursor == e.cursor - 1
    ensures e.focused && e.displayed && e.cursor < |e.text| ==> HandleKey(e, Right).0.cursor == e.cursor + 1
  {
  }
}

=== FILE: tilemap.dfy ===
/** Tile-level queries of a tilemap (game_libs/level/tilemap.py): which
    cells are solid, how a cell connects to its eight neighbours, whether a
    pixel rectangle overlaps or touches solid tiles, and the per-tile
    animation clock. Coordinates are integers; pixel-to-tile conversion is
    Python's floor division, which for a positive tile size agrees with
    Dafny's `/`. */
module Tilemap {
  import opened Wrappers

  /** `TileData`: `frames` is the number of graphics, `hitbox` is truthy
      when non-zero, `delay` and `timeLeft` are seconds. */
  datatype Tile = Tile(frames: nat, hitbox: int, delay: real, frame: int, timeLeft: real)

  /** `TilemapData` reduced to what the queries read. A cell holds -1 for
      "no tile" or an index into `tiles`. */
  datatype Map = Map(width: nat, height: nat, tileSize: int, tiles: seq<Tile>, grid: seq<seq<int>>)

  ghost predicate Valid(m: Map)
  {
    && m.tileSize > 0
    && |m.grid| == m.height
    && (forall y :: 0 <= y < m.height ==> |m.grid[y]| == m.width)
    && (forall y, x :: 0 <= y < m.height && 0 <= x < |m.grid[y]| ==>
          m.grid[y][x] == -1 || 0 <= m.grid[y][x] < |m.tiles|)
  }

  predicate InBounds(m: Map, x: int, y: int)
  {
    0 <= x < m.width && 0 <= y < m.height
  }

  /** Whether the cell holds a tile whose hitbox flag is set. */
  predicate Solid(m: Map, x: int, y: int)
    requires Valid(m) && InBounds(m, x, y)
  {
    m.grid[y][x] != -1 && m.tiles[m.grid[y][x]].hitbox != 0
  }

  /** `_hitbox_at`: false outside the map and for empty cells. */
  function HitboxAt(m: Map, x: int, y: int): (r: bool)
    requires Valid(m)
    ensures r <==> InBounds(m, x, y) && Solid(m, x, y)
    ensures r ==> m.grid[y][x] != -1
  {
    if InBounds(m, x, y) then Solid(m, x, y) else false
  }

  /** The neighbour offsets in reading order, the cell itself left out. */
  const Offsets: seq<(int, int)> := [(-1, -1), (0, -1), (1, -1),
                                     (-1,  0),          (1,  0),
                                     (-1,  1), (0,  1), (1,  1)]

  /** `get_tile_neighbors`: eight flags in `Offsets` order; a neighbour
      outside the map counts as connected, one inside is connected when it
      holds the same tile id. */
  function Neighbors(m: Map, x: int, y: int): (r: seq<bool>)
    requires Valid(m) && InBounds(m, x, y)
    ensures |r| == 8
    ensures forall i :: 0 <= i < 8 ==>
              var (tx, ty) := (x + Offsets[i].0, y + Offsets[i].1);
              r[i] == (!InBounds(m, tx, ty) || m.grid[ty][tx] == m.grid[y][x])
  {
    seq(8, i requires 0 <= i < 8 =>
      var (tx, ty) := (x + Offsets[i].0, y + Offsets[i].1);
      if InBounds(m, tx, ty) then m.grid[ty][tx] == m.grid[y][x] else true)
  }

  /** A tile surrounded by the same id (or the map border) connects on all sides. */
  lemma UniformNeighbors(m: Map, x: int, y: int)
    requires Valid(m) && InBounds(m, x, y)
    requires forall ty, tx :: InBounds(m, tx, ty) ==> m.grid[ty][tx] == m.grid[y][x]
    ensures Neighbors(m, x, y) == [true, true, true, true, true, true, true, true]
  {
  }

  // --------------------------------------------------------------- rectangles

  /** A pygame `Rect` with non-negative size. */
  datatype Rect = Rect(left: int, top: int, w: nat, h: nat)
  {
    function Right(): int { left + w }
    function Bottom(): int { top + h }
  }

  /** pygame's `Rect.colliderect`: empty rectangles collide with nothing,
      otherwise the open interiors must intersect on both axes. */
  predicate Overlap(a: Rect, b: Rect)
  {
    && a.w > 0 && a.h > 0 && b.w > 0 && b.h > 0
    && a.left < b.Right() && b.left < a.Right()
    && a.top < b.Bottom() && b.top < a.Bottom()
  }

  function TileRect(m: Map, x: int, y: int): Rect
    requires m.tileSize > 0
  {
    Rect(x * m.tileSize, y * m.tileSize, m.tileSize, m.tileSize)
  }

  function Max(a: int, b: int): int { if a >= b then a else b }
  function Min(a: int, b: int): int { if a <= b then a else b }

  /** `colliderect`: scans the cells from one tile before to one tile past
      the rectangle, clipped to the map. */
  function CollideRect(m: Map, rect: Rect): bool
    requires Valid(m)
  {
    var ts := m.tileSize;
    exists x, y | Max(0, rect.left / ts - 1) <= x < Min(rect.Right() / ts + 1, m.width)
               && Max(0, rect.top / ts - 1) <= y < Min(rect.Bottom() / ts + 1, m.height) ::
      m.grid[y][x] != -1 && m.tiles[m.grid[y][x]].hitbox != 0 && Overlap(TileRect(m, x, y), rect)
  }

  /** The scan window of `colliderect` misses no tile: the rectangle
      collides exactly when some solid cell of the map overlaps it. */
  lemma CollideRectExact(m: Map, rect: Rect)
    requires Valid(m)
    ensures CollideRect(m, rect) <==>
              exists x, y :: InBounds(m, x, y) && Solid(m, x, y) && Overlap(TileRect(m, x, y), rect)
  {
    var ts := m.tileSize;
    forall x, y | InBounds(m, x, y) && Solid(m, x, y) && Overlap(TileRect(m, x, y), rect)
      ensures rect.left / ts - 1 <= x < rect.Right() / ts + 1
      ensures rect.top / ts - 1 <= y < rect.Bottom() / ts + 1
    {
      CoveredCell(x, rect.left, rect.Right(), ts);
      CoveredCell(y, rect.top, rect.Bottom(), ts);
    }
  }

  /** A cell whose pixel span `[c*ts, c*ts+ts)` meets `(lo, hi)` lies
      between the cells of `lo` and `hi`. */
  lemma CoveredCell(c: int, lo: int, hi: int, ts: int)
    requires ts > 0
    requires c * ts < hi && lo < c * ts + ts
    ensures lo / ts <= c <= hi / ts
  {
    FloorDiv(lo, ts);
    FloorDiv(hi, ts);
    if c < lo / ts {
      MulLe(c + 1, lo / ts, ts);
    }
    if c > hi / ts {
      MulLe(hi / ts + 1, c, ts);
    }
  }

  lemma FloorDiv(p: int, ts: int)
    requires ts > 0
    ensures (p / ts) * ts <= p < (p / ts) * ts + ts
  {
  }

  lemma MulLe(a: int, b: int, ts: int)
    requires ts > 0 && a <= b
    ensures a * ts <= b * ts
  {
  }

  /** The tile index of pixel `p` is `c` exactly when `p` lies in `c`'s span. */
  lemma CellOfPixel(p: int, c: int, ts: int)
    requires ts > 0
    ensures p / ts == c <==> c * ts <= p < c * ts + ts
  {
    FloorDiv(p, ts);
    var q := p / ts;
    if c * ts <= p < c * ts + ts && q != c {
      if q < c { MulLe(q + 1, c, ts); } else { MulLe(c + 1, q, ts); }
    }
  }

  // ------------------------------------------------------------------ touch

  /** Some solid cell in column `col` among the rows holding pixels
      `lo .. hi-1`, clipped to the map (the generator of `touch` left/right). */
  function SolidInColumn(m: Map, col: int, lo: int, hi: int): bool
    requires Valid(m)
  {
    var ts := m.tileSize;
    exists y | Max(0, lo / ts) <= y < Min((hi - 1) / ts + 1, m.height) :: HitboxAt(m, col, y)
  }

  /** Same along a row (the generator of `touch` top/bottom). */
  function SolidInRow(m: Map, row: int, lo: int, hi: int): bool
    requires Valid(m)
  {
    var ts := m.tileSize;
    exists x | Max(0, lo / ts) <= x < Min((hi - 1) / ts + 1, m.width) :: HitboxAt(m, x, row)
  }

  datatype Touching = Touching(top: bool, bottom: bool, left: bool, right: bool)

  /** `touch`: each side tests the column or row of cells holding the
      pixels just outside that side of the rectangle. */
  function Touch(m: Map, rect: Rect): Touching
    requires Valid(m)
  {
    var ts := m.tileSize;
    Touching(
      SolidInRow(m, (rect.top - 1) / ts, rect.left, rect.Right()),
      SolidInRow(m, rect.Bottom() / ts, rect.left, rect.Right()),
      SolidInColumn(m, (rect.left - 1) / ts, rect.top, rect.Bottom()),
      SolidInColumn(m, rect.Right() / ts, rect.top, rect.Bottom()))
  }

  /** Some pixel `p` in `lo .. hi-1` along the side lies in a solid cell of
      line `line` (a column when `vertical`, a row otherwise). */
  ghost predicate PixelBeyond(m: Map, line: int, lo: int, hi: int, vertical: bool)
    requires Valid(m)
  {
    exists p :: lo <= p < hi &&
      (if vertical then HitboxAt(m, line, p / m.tileSize) else HitboxAt(m, p / m.tileSize, line))
  }

  /** A side of a non-empty rectangle touches exactly when one of the
      pixels directly beyond that side lies in a solid cell. */
  lemma TouchExact(m: Map, rect: Rect)
    requires Valid(m)
    ensures var ts := m.tileSize;
      rect.h > 0 ==> Touch(m, rect).left == PixelBeyond(m, (rect.left - 1) / ts, rect.top, rect.Bottom(), true)
    ensures var ts := m.tileSize;
      rect.h > 0 ==> Touch(m, rect).right == PixelBeyond(m, rect.Right() / ts, rect.top, rect.Bottom(), true)
    ensures var ts := m.tileSize;
      rect.w > 0 ==> Touch(m, rect).top == PixelBeyond(m, (rect.top - 1) / ts, rect.left, rect.Right(), false)
    ensures var ts := m.tileSize;
      rect.w > 0 ==> Touch(m, rect).bottom == PixelBeyond(m, rect.Bottom() / ts, rect.left, rect.Right(), false)
  {
    var ts := m.tileSize;
    if rect.h > 0 {
      ColumnPixels(m, (rect.left - 1) / ts, rect.top, rect.Bottom());
      ColumnPixels(m, rect.Right() / ts, rect.top, rect.Bottom());
    }
    if rect.w > 0 {
      RowPixels(m, (rect.top - 1) / ts, rect.left, rect.Right());
      RowPixels(m, rect.Bottom() / ts, rect.left, rect.Right());
    }
  }

  /** The clipped row window of `touch` is exactly the set of rows holding
      one of the pixels `lo .. hi-1`. (For an empty span the window may
      still hold a row, which is why the span must be non-empty.) */
  lemma ColumnPixels(m: Map, col: int, lo: int, hi: int)
    requires Valid(m) && lo < hi
    ensures SolidInColumn(m, col, lo, hi) <==> PixelBeyond(m, col, lo, hi, true)
  {
    var ts := m.tileSize;
    if SolidInColumn(m, col, lo, hi) {
      var y :| Max(0, lo / ts) <= y < Min((hi - 1) / ts + 1, m.height) && HitboxAt(m, col, y);
      var p := PixelInCell(y, lo, hi, ts);
      assert lo <= p < hi && HitboxAt(m, col, p / ts);
    }
    if p :| lo <= p < hi && HitboxAt(m, col, p / ts) {
      Monotone(lo, p, ts);
      Monotone(p, hi - 1, ts);
    }
  }

  lemma RowPixels(m: Map, row: int, lo: int, hi: int)
    requires Valid(m) && lo < hi
    ensures SolidInRow(m, row, lo, hi) <==> PixelBeyond(m, row, lo, hi, false)
  {
    var ts := m.tileSize;
    if SolidInRow(m, row, lo, hi) {
      var x :| Max(0, lo / ts) <= x < Min((hi - 1) / ts + 1, m.width) && HitboxAt(m, x, row);
      var p := PixelInCell(x, lo, hi, ts);
      assert lo <= p < hi && HitboxAt(m, p / ts, row);
    }
    if p :| lo <= p < hi && HitboxAt(m, p / ts, row) {
      Monotone(lo, p, ts);
      Monotone(p, hi - 1, ts);
    }
  }

  /** A cell between the cells of `lo` and `hi-1` holds one of the pixels `lo .. hi-1`. */
  lemma PixelInCell(c: int, lo: int, hi: int, ts: int) returns (p: int)
    requires ts > 0
    requires lo < hi && lo / ts <= c <= (hi - 1) / ts
    ensures lo <= p < hi && p / ts == c
  {
    p := Max(lo, c * ts);
    FloorDiv(lo, ts);
    FloorDiv(hi - 1, ts);
    MulLe(c, (hi - 1) / ts, ts);
    if lo > c * ts {
      MulLe(lo / ts, c, ts);
    }
    CellOfPixel(p, c, ts);
  }

  lemma Monotone(a: int, b: int, ts: int)
    requires ts > 0 && a <= b
    ensures a / ts <= b / ts
  {
    FloorDiv(a, ts);
    FloorDiv(b, ts);
    if a / ts > b / ts {
      MulLe(b / ts + 1, a / ts, ts);
    }
  }

  // -------------------------------------------------------------- animation

  ghost predicate FrameValid(t: Tile)
  {
    0 <= t.frame < t.frames
  }

  /** One tile of `TilesetData.update_animation`: the clock loses `dt`; when
      it goes negative it gains one delay and the frame advances cyclically
      (a tile without graphics raises ZeroDivisionError there). */
  function StepTile(t: Tile, dt: real): (r: Result<Tile>)
    ensures t.timeLeft - dt >= 0.0 ==> r == Ok(t.(timeLeft := t.timeLeft - dt))
    ensures r.Err? <==> t.timeLeft - dt < 0.0 && t.frames == 0
    ensures r.Ok? && t.timeLeft - dt < 0.0 ==>
              && r.value.timeLeft == t.timeLeft - dt + t.delay
              && FrameValid(r.value)
              && (FrameValid(t) ==> r.value.frame == if t.frame + 1 == t.frames then 0 else t.frame + 1)
  {
    var left := t.timeLeft - dt;
    if left < 0.0 then
      if t.frames == 0 then Err(ZeroDivisionError)
      else Ok(t.(timeLeft := left + t.delay, frame := (t.frame + 1) % t.frames))
    else Ok(t.(timeLeft := left))
  }

  /** `update_animation` over the whole tileset. */
  function UpdateAnimation(tiles: seq<Tile>, dt: real): (r: Result<seq<Tile>>)
    ensures r.Ok? ==> |r.value| == |tiles|
    ensures r.Ok? ==> forall i :: 0 <= i < |tiles| ==> StepTile(tiles[i], dt) == Ok(r.value[i])
    ensures r.Err? <==> exists i :: 0 <= i < |tiles| && StepTile(tiles[i], dt).Err?
  {
    if |tiles| == 0 then Ok([])
    else match StepTile(tiles[0], dt)
      case Err(e) => Err(e)
      case Ok(t) =>
        match UpdateAnimation(tiles[1..], dt)
        case Err(e) => Err(e)
        case Ok(rest) =>
          assert forall i :: 1 <= i < |tiles| ==> tiles[i] == tiles[1..][i - 1];
          Ok([t] + rest)
  }

  /** Animation keeps every valid frame index valid. */
  lemma AnimationKeepsFrames(tiles: seq<Tile>, dt: real)
    requires forall i :: 0 <= i < |tiles| ==> FrameValid(tiles[i])
    ensures UpdateAnimation(tiles, dt).Ok?
    ensures forall i :: 0 <= i < |tiles| ==> FrameValid(UpdateAnimation(tiles, dt).value[i])
  {
    var r := UpdateAnimation(tiles, dt);
    forall i | 0 <= i < |tiles| ensures StepTile(tiles[i], dt).Ok? {
    }
  }
}

=== FILE: timers.dfy ===
/** The named timer table of the event manager (game_libs/managers/event.py):
    timers count down by the frame time unless paused, trigger at or below
    zero, and then either restart (repeating) or disappear (one-shot). */
module Timers {
  import opened Wrappers

  /** `(time_left, duration, repeat, paused)`, times in seconds. */
  datatype Timer = Timer(timeLeft: real, duration: real, repeat: bool, paused: bool)

  /** The class-level timer state: the table, the names triggered by the
      latest update, and the global pause switch. */
  datatype Table = Table(timers: map<string, Timer>, triggered: set<string>, allPaused: bool)

  const Empty := Table(map[], {}, false)

  /** `add_timer`: a fresh, running timer replaces any timer of that name. */
  function AddTimer(t: Table, name: string, duration: real, repeat: bool): (r: Table)
    ensures name in r.timers && r.timers[name] == Timer(duration, duration, repeat, false)
    ensures forall n :: n != name ==> (n in r.timers <==> n in t.timers)
    ensures forall n :: n != name && n in t.timers ==> r.timers[n] == t.timers[n]
    ensures r.triggered == t.triggered && r.allPaused == t.allPaused
  {
    t.(timers := t.timers[name := Timer(duration, duration, repeat, false)])
  }

  /** `kill_timer`: removes the timer; an unknown name changes nothing. */
  function KillTimer(t: Table, name: string): (r: Table)
    ensures r.timers.Keys == t.timers.Keys - {name}
    ensures forall n :: n in r.timers ==> r.timers[n] == t.timers[n]
    ensures name !in t.timers ==> r == t
  {
    t.(timers := t.timers - {name})
  }

  predicate HasTimer(t: Table, name: string)
  {
    name in t.timers
  }

  function SetPaused(t: Table, name: string, paused: bool): (r: Table)
    ensures r.timers.Keys == t.timers.Keys
    ensures name in t.timers ==> r.timers[name] == t.timers[name].(paused := paused)
    ensures forall n :: n in t.timers && n != name ==> r.timers[n] == t.timers[n]
    ensures name !in t.timers ==> r == t
  {
    if name in t.timers then t.(timers := t.timers[name := t.timers[name].(paused := paused)]) else t
  }

  /** `pause_timer` / `resume_timer`: only the paused flag of that timer. */
  function PauseTimer(t: Table, name: string): (r: Table)
    ensures name in t.timers ==> name in r.timers && r.timers[name].paused
  {
    SetPaused(t, name, true)
  }

  function ResumeTimer(t: Table, name: string): (r: Table)
    ensures name in t.timers ==> name in r.timers && !r.timers[name].paused
  {
    SetPaused(t, name, false)
  }

  /** Pausing a running timer and resuming it restores the table. */
  lemma PauseResume(t: Table, name: string)
    requires name in t.timers ==> !t.timers[name].paused
    ensures ResumeTimer(PauseTimer(t, name), name) == t
  {
    if name in t.timers {
      assert ResumeTimer(PauseTimer(t, name), name).timers == t.timers;
    }
  }

  /** A paused timer with time left keeps it through an update, while the
      rest of the table runs. */
  lemma PausedTimerHolds(t: Table, name: string, dt: real)
    requires name in t.timers && t.timers[name].timeLeft > 0.0
    ensures var u := Update(PauseTimer(t, name), dt);
      Remaining(u, name) == Remaining(t, name) && !GetTimer(u, name)
  {
  }

  /** `pause_timers` / `resume_timers`: the global switch; the table itself
      is untouched. */
  function PauseAll(t: Table): (r: Table)
    ensures r.allPaused && r.timers == t.timers && r.triggered == t.triggered
  {
    t.(allPaused := true)
  }

  function ResumeAll(t: Table): (r: Table)
    ensures !r.allPaused && r.timers == t.timers && r.triggered == t.triggered
  {
    t.(allPaused := false)
  }

  /** Time left after one frame: unchanged while paused globally or individually. */
  function Ticked(t: Table, x: Timer, dt: real): real
  {
    if !t.allPaused && !x.paused then x.timeLeft - dt else x.timeLeft
  }

  /** `update`, timer part (event.py:465-481). */
  function Update(t: Table, dt: real): (r: Table)
    ensures r.allPaused == t.allPaused
    // exactly the timers at or below zero after the tick trigger
    ensures forall n :: n in r.triggered <==> n in t.timers && Ticked(t, t.timers[n], dt) <= 0.0
    // triggered one-shots are removed; everything else survives
    ensures forall n :: n in r.timers <==> n in t.timers && (t.timers[n].repeat || n !in r.triggered)
    // a triggered repeating timer restarts from its duration
    ensures forall n :: n in r.timers && n in r.triggered ==>
              r.timers[n] == t.timers[n].(timeLeft := t.timers[n].duration)
    // a timer that did not trigger keeps its flags and loses dt unless paused
    ensures forall n :: n in r.timers && n !in r.triggered ==>
              && r.timers[n].duration == t.timers[n].duration
              && r.timers[n].repeat == t.timers[n].repeat
              && r.timers[n].paused == t.timers[n].paused
              && r.timers[n].timeLeft > 0.0
              && (t.allPaused || t.timers[n].paused ==> r.timers[n].timeLeft == t.timers[n].timeLeft)
              && (!t.allPaused && !t.timers[n].paused ==> r.timers[n].timeLeft == t.timers[n].timeLeft - dt)
  {
    var fired := set n | n in t.timers && Ticked(t, t.timers[n], dt) <= 0.0;
    var kept := map n | n in t.timers && (t.timers[n].repeat || n !in fired) ::
      var x := t.timers[n];
      if n in fired then x.(timeLeft := x.duration) else x.(timeLeft := Ticked(t, x, dt));
    Table(kept, fired, t.allPaused)
  }

  /** `get_timer`: true only for timers triggered by the latest update. */
  predicate GetTimer(t: Table, name: string)
  {
    name in t.triggered
  }

  /** `get_timer_remaining`: the time left, None for an unknown name. */
  function Remaining(t: Table, name: string): (r: Option<real>)
    ensures r.Some? <==> HasTimer(t, name)
    ensures r.Some? ==> r.value == t.timers[name].timeLeft
  {
    if name in t.timers then Some(t.timers[name].timeLeft) else None
  }

  /** `reset`: no timers, nothing triggered, nothing paused. */
  function Reset(t: Table): (r: Table)
    ensures r.timers == map[] && r.triggered == {} && !r.allPaused
    ensures forall n :: !HasTimer(r, n) && !GetTimer(r, n)
  {
    Empty
  }

  function UpdateN(t: Table, dt: real, k: nat): Table
  {
    if k == 0 then t else Update(UpdateN(t, dt, k - 1), dt)
  }

  /** Total time of `k` frames of `dt` seconds each. */
  function Elapsed(dt: real, k: nat): real
  {
    if k == 0 then 0.0 else Elapsed(dt, k - 1) + dt
  }

  /** A timer freshly added with duration `d` and left running is still
      pending after `k` frames of `dt` while `d` exceeds the elapsed time,
      and has exactly the difference left. */
  lemma {:induction false} Countdown(t: Table, name: string, d: real, repeat: bool, dt: real, k: nat)
    requires !t.allPaused
    requires d - Elapsed(dt, k) > 0.0
    requires dt >= 0.0
    ensures var u := UpdateN(AddTimer(t, name, d, repeat), dt, k);
            name in u.timers && (k > 0 ==> !GetTimer(u, name)) &&
            u.timers[name] == Timer(d - Elapsed(dt, k), d, repeat, false)
  {
    if k > 0 {
      Countdown(t, name, d, repeat, dt, k - 1);
      var u := UpdateN(AddTimer(t, name, d, repeat), dt, k - 1);
      AllPausedKept(AddTimer(t, name, d, repeat), dt, k - 1);
      StepDown(u, name, d - Elapsed(dt, k - 1), d, repeat, dt);
    }
  }

  lemma StepDown(t: Table, name: string, left: real, d: real, repeat: bool, dt: real)
    requires !t.allPaused
    requires name in t.timers && t.timers[name] == Timer(left, d, repeat, false)
    requires left - dt > 0.0
    ensures name in Update(t, dt).timers && !GetTimer(Update(t, dt), name)
    ensures Update(t, dt).timers[name] == Timer(left - dt, d, repeat, false)
  {
  }

  lemma {:induction false} AllPausedKept(t: Table, dt: real, k: nat)
    ensures UpdateN(t, dt, k).allPaused == t.allPaused
  {
    if k > 0 {
      AllPausedKept(t, dt, k - 1);
    }
  }

  /** While the table is paused, updates change no timer that has time left. */
  lemma PausedTableFrozen(t: Table, dt: real)
    requires t.allPaused
    requires forall n :: n in t.timers ==> t.timers[n].timeLeft > 0.0
    ensures Update(t, dt).timers == t.timers
    ensures Update(t, dt).triggered == {}
  {
  }
}

=== FILE: transition.dfy ===
/** The clock shared by scene transitions (`BaseTransition` in
    game_libs/scenes/transitions/base.py, and the older copy in
    game_libs/transitions/base.py that the scene manager starts): a
    duration in seconds, the time elapsed, and whether the effect is
    playing or complete. Times are real numbers. */
module Transition {

  datatype Clock = Clock(duration: real, elapsed: real, playing: bool, complete: bool)

  /** A new transition of `ms` milliseconds, idle. */
  function New(ms: real): (c: Clock)
    ensures !c.playing && !c.complete && c.elapsed == 0.0
    ensures DurationMs(c) == ms
  {
    Clock(ms / 1000.0, 0.0, false, false)
  }

  /** The `duration` property: the stored seconds reported in milliseconds. */
  function DurationMs(c: Clock): real
  {
    c.duration * 1000.0
  }

  /** `progress`: 1 for a transition without duration, else the elapsed
      fraction, capped at 1. */
  function Progress(c: Clock): (p: real)
    ensures c.duration <= 0.0 ==> p == 1.0
    ensures c.duration > 0.0 ==> (p == 1.0 <==> c.elapsed >= c.duration)
    ensures c.duration > 0.0 && p < 1.0 ==> p * c.duration == c.elapsed
    ensures p <= 1.0 && (c.elapsed >= 0.0 ==> p >= 0.0)
  {
    if c.duration <= 0.0 then 1.0
    else
      var f := c.elapsed / c.duration;
      assert f * c.duration == c.elapsed;
      assert (1.0 - f) * c.duration == c.duration - c.elapsed;
      assert c.elapsed >= 0.0 ==> f >= 0.0;
      if f < 1.0 then f else 1.0
  }

  /** `play`, and `start` in game_libs/transitions/base.py, which has the
      same body: playing from zero. */
  function Play(c: Clock): (r: Clock)
    ensures r.playing && !r.complete && r.elapsed == 0.0 && r.duration == c.duration
  {
    Clock(c.duration, 0.0, true, false)
  }

  /** `reset`: idle at zero. */
  function Reset(c: Clock): (r: Clock)
    ensures !r.playing && !r.complete && r.elapsed == 0.0 && r.duration == c.duration
  {
    Clock(c.duration, 0.0, false, false)
  }

  /** `update`: nothing happens unless playing and not yet complete; the
      clock then advances by `dt`, stopping at the duration, where the
      transition completes and stops playing. */
  function Update(c: Clock, dt: real): (r: Clock)
    ensures !c.playing || c.complete ==> r == c
    ensures c.playing && !c.complete ==>
      && r.duration == c.duration
      && (r.complete <==> c.elapsed + dt >= c.duration)
      && r.playing == !r.complete
      && r.elapsed <= r.duration
      && (r.complete ==> r.elapsed == r.duration)
      && (!r.complete ==> r.elapsed == c.elapsed + dt)
  {
    if !c.playing || c.complete then c
    else
      var e := c.elapsed + dt;
      if e >= c.duration then Clock(c.duration, c.duration, false, true)
      else Clock(c.duration, e, true, false)
  }

  /** `update` of the transitions in game_libs/transitions/base.py, which
      has no guard: the clock advances whatever its state. */
  function Advance(c: Clock, dt: real): (r: Clock)
    ensures r.duration == c.duration
    ensures c.elapsed + dt >= c.duration ==> r.elapsed == c.duration && r.complete && !r.playing
    ensures c.elapsed + dt < c.duration ==> r.elapsed == c.elapsed + dt && r.complete == c.complete && r.playing == c.playing
  {
    var e := c.elapsed + dt;
    if e >= c.duration then Clock(c.duration, c.duration, false, true)
    else Clock(c.duration, e, c.playing, c.complete)
  }

  /** On a running clock the guarded and the unguarded `update` agree; on
      a stopped one they may not. */
  lemma AdvanceAgrees(c: Clock, dt: real)
    ensures c.playing && !c.complete ==> Advance(c, dt) == Update(c, dt)
    ensures !c.playing && c.elapsed + dt < c.duration && dt != 0.0 ==> Advance(c, dt) != Update(c, dt)
  {
  }

  /** `n` frames of `dt` seconds each. */
  function UpdateN(c: Clock, dt: real, n: nat): Clock
    decreases n
  {
    if n == 0 then c else UpdateN(Update(c, dt), dt, n - 1)
  }

  /** Progress never goes back while time moves forward. */
  lemma ProgressMonotone(c: Clock, dt: real)
    requires dt >= 0.0
    ensures Progress(Update(c, dt)) >= Progress(c)
  {
    if c.playing && !c.complete && c.duration > 0.0 && c.elapsed + dt < c.duration {
      assert c.elapsed / c.duration <= (c.elapsed + dt) / c.duration;
    }
  }

  /** A playing transition with steady frames completes, with progress 1,
      once the frames add up to the time left. */
  lemma {:induction false} Completes(c: Clock, dt: real, n: nat)
    requires c.playing && !c.complete && dt > 0.0
    requires n > 0 && n as real * dt >= c.duration - c.elapsed
    ensures UpdateN(c, dt, n).complete && !UpdateN(c, dt, n).playing
    ensures Progress(UpdateN(c, dt, n)) == 1.0
    decreases n
  {
    var c1 := Update(c, dt);
    if c1.complete {
      StaysComplete(c1, dt, n - 1);
    } else {
      assert (n - 1) as real * dt >= c1.duration - c1.elapsed > 0.0;
      Completes(c1, dt, n - 1);
    }
  }

  /** Once complete, further frames change nothing. */
  lemma {:induction false} StaysComplete(c: Clock, dt: real, n: nat)
    requires c.complete
    ensures UpdateN(c, dt, n) == c
    decreases n
  {
    if n > 0 {
      StaysComplete(Update(c, dt), dt, n - 1);
    }
  }
}

=== FILE: widgets.dfy ===
/** Widget state of the UI toolkit (pygame_ui.py) that the editor relies
    on: the list view's selection, the two-column toggle list, which page
    of a tabbed frame is shown, and the mouse-wheel scrolling of frames.
    Drawing is not modelled. */
module Widgets {
  import opened Wrappers

  // -------------------------------------------------------------- ListView

  /** `ListView`: its items and the selected index, -1 for none. */
  datatype ListView = ListView(items: seq<string>, selected: int)

  /** A new list view selects its first item, if it has one. */
  function NewListView(items: seq<string>): (l: ListView)
    ensures l.items == items
    ensures SelectedText(l).Some? <==> |items| > 0
    ensures |items| > 0 ==> SelectedText(l) == Some(items[0])
  {
    ListView(items, if |items| > 0 then 0 else -1)
  }

  /** `selected_text`: the selected item, or None when the index is out of
      range. */
  function SelectedText(l: ListView): (r: Option<string>)
    ensures r.Some? <==> 0 <= l.selected < |l.items|
    ensures r.Some? ==> r.value == l.items[l.selected]
  {
    if 0 <= l.selected < |l.items| then Some(l.items[l.selected]) else None
  }

  /** A left click on row `idx` selects it when there is such a row. */
  function Click(l: ListView, idx: int): (r: ListView)
    ensures r.items == l.items
    ensures 0 <= idx < |l.items| ==> SelectedText(r) == Some(l.items[idx])
    ensures !(0 <= idx < |l.items|) ==> r == l
  {
    if 0 <= idx < |l.items| then l.(selected := idx) else l
  }

  // --------------------------------------------------------- DualListToggle

  /** `DualListToggle.toggle`: enables a disabled index, disables an
      enabled one. */
  function Toggle(enabled: set<int>, idx: int): (r: set<int>)
    ensures idx in r <==> idx !in enabled
    ensures forall i :: i != idx ==> (i in r <==> i in enabled)
  {
    if idx in enabled then enabled - {idx} else enabled + {idx}
  }

  /** Toggling twice restores the set. */
  lemma ToggleInvolution(enabled: set<int>, idx: int)
    ensures Toggle(Toggle(enabled, idx), idx) == enabled
  {
    assert forall i :: i in Toggle(Toggle(enabled, idx), idx) <==> i in enabled;
  }

  /** A left click on row `idx` toggles it when there is such a row, so the
      enabled indices always name rows. */
  function ToggleClick(items: seq<string>, enabled: set<int>, idx: int): (r: set<int>)
    ensures (forall i :: i in enabled ==> 0 <= i < |items|) ==> forall i :: i in r ==> 0 <= i < |items|
    ensures 0 <= idx < |items| ==> r == Toggle(enabled, idx)
    ensures !(0 <= idx < |items|) ==> r == enabled
  {
    if 0 <= idx < |items| then Toggle(enabled, idx) else enabled
  }

  /** An order in which a set of indices can be walked: each once. */
  ghost predicate Enumerates(order: seq<int>, enabled: set<int>)
  {
    && (forall i :: i in order <==> i in enabled)
    && (forall j, k :: 0 <= j < k < |order| ==> order[j] != order[k])
  }

  /** `DualListToggle.get`: the items at the enabled indices, in the order
      the set is walked (`order`, which Python's set decides). Each index
      is read as Python reads `items[idx]`: a negative one counts from the
      end, and one outside `-len(items) <= idx < len(items)` is an
      IndexError. */
  function Get(items: seq<string>, enabled: set<int>, order: seq<int>): (r: Result<seq<string>>)
    requires Enumerates(order, enabled)
    ensures r.Err? <==> exists i :: i in enabled && PyIndex(items, i).None?
    ensures r.Err? ==> r.error == IndexError
    ensures r.Ok? ==> |r.value| == |enabled| == |order|
    ensures r.Ok? ==> forall k :: 0 <= k < |order| ==> PyIndex(items, order[k]) == Some(r.value[k])
    ensures r.Ok? ==> forall s :: s in r.value <==> exists i :: i in enabled && PyIndex(items, i) == Some(s)
  {
    if exists i :: i in order && PyIndex(items, i).None? then Err(IndexError)
    else
      DistinctSize(order, enabled);
      assert forall k :: 0 <= k < |order| ==> order[k] in order;
      var r := seq(|order|, k requires 0 <= k < |order| => PyIndex(items, order[k]).value);
      assert forall s :: s in r <==> exists i :: i in enabled && PyIndex(items, i) == Some(s) by {
        forall s
          ensures s in r <==> exists i :: i in enabled && PyIndex(items, i) == Some(s)
        {
          if s in r {
            var k :| 0 <= k < |r| && r[k] == s;
            assert order[k] in order;
          }
          if exists i :: i in enabled && PyIndex(items, i) == Some(s) {
            var i :| i in enabled && PyIndex(items, i) == Some(s);
            var k :| 0 <= k < |order| && order[k] == i;
            assert r[k] == s;
          }
        }
      }
      Ok(r)
  }

  /** `get` with index -1 enabled reads the last item, as Python does. */
  lemma GetFromEnd(items: seq<string>)
    requires |items| > 0
    ensures Get(items, {-1}, [-1]) == Ok([items[|items| - 1]])
    ensures Get(items, {|items|}, [|items|]) == Err(IndexError)
  {
    assert Enumerates([-1], {-1});
    assert Enumerates([|items|], {|items|});
    var r := Get(items, {-1}, [-1]);
    assert PyIndex(items, -1) == Some(items[|items| - 1]);
    assert r.Ok? && |r.value| == 1 && r.value[0] == items[|items| - 1];
    assert r.value == [items[|items| - 1]];
    assert PyIndex(items, |items|).None?;
  }

  /** A walk of a set that meets each element once is as long as the set. */
  lemma {:induction false} DistinctSize(order: seq<int>, enabled: set<int>)
    requires Enumerates(order, enabled)
    ensures |order| == |enabled|
    decreases |order|
  {
    if |order| > 0 {
      var last := order[|order| - 1];
      var rest := order[..|order| - 1];
      assert last in order && last in enabled;
      assert forall i :: i in rest ==> i != last;
      assert forall i :: i in rest <==> i in enabled - {last} by {
        forall i
          ensures i in rest <==> i in enabled - {last}
        {
          if i in enabled - {last} {
            assert i in order;
            var k :| 0 <= k < |order| && order[k] == i;
            assert k < |order| - 1 && rest[k] == i;
          }
        }
      }
      DistinctSize(rest, enabled - {last});
      assert enabled == (enabled - {last}) + {last};
    } else {
      assert forall i :: i !in enabled;
      assert enabled == {};
    }
  }

  /** The indices of `enabled` below `n`, in increasing order: the order in
      which the list shows them. */
  function Ascending(enabled: set<int>, n: nat): (r: seq<int>)
    ensures forall i :: i in r <==> i in enabled && 0 <= i < n
    ensures forall j, k :: 0 <= j < k < |r| ==> r[j] < r[k]
  {
    if n == 0 then []
    else
      var rest := Ascending(enabled, n - 1);
      assert forall k :: 0 <= k < |rest| ==> rest[k] in rest;
      if n - 1 in enabled then rest + [n - 1] else rest
  }

  /** With the enabled rows walked top to bottom, `get` lists the enabled
      items in the order the list shows them. */
  lemma GetInListOrder(items: seq<string>, enabled: set<int>)
    requires forall i :: i in enabled ==> 0 <= i < |items|
    ensures var order := Ascending(enabled, |items|);
      && Enumerates(order, enabled)
      && var r := Get(items, enabled, order);
      && r.Ok? && |r.value| == |order|
      && forall k :: 0 <= k < |order| ==> 0 <= order[k] < |items| && r.value[k] == items[order[k]]
  {
    var order := Ascending(enabled, |items|);
    assert forall k :: 0 <= k < |order| ==> order[k] in order;
  }

  // ----------------------------------------------------------- TabbedFrame

  /** `TabbedFrame.update_frame`: each attached frame is shown exactly when
      its name is the selector's current choice; with no choice, none is. */
  function UpdateFrame(names: set<string>, choice: Option<string>): (shown: map<string, bool>)
    ensures shown.Keys == names
    ensures forall a, b :: a in shown && b in shown && shown[a] && shown[b] ==> a == b
    ensures (exists a :: a in shown && shown[a]) <==> choice.Some? && choice.value in names
    ensures forall n :: n in names ==> (shown[n] <==> choice == Some(n))
  {
    var shown := map n | n in names :: choice.Some? && n == choice.value;
    assert choice.Some? && choice.value in names ==> shown[choice.value];
    shown
  }

  /** With a list view as selector, the page shown is the one named by the
      selected row. */
  lemma ShowsSelectedRow(names: set<string>, l: ListView)
    requires 0 <= l.selected < |l.items| && l.items[l.selected] in names
    ensures UpdateFrame(names, SelectedText(l))[l.items[l.selected]]
  {
  }

  // ---------------------------------------------------------------- Frame

  /** How far one notch of the wheel scrolls, in pixels. */
  const WHEEL_STEP: int := 48

  /** The scroll offset along one axis after `notches` of the wheel, as
      written: `min(size - view, max(0, scroll))`. */
  function WheelAsWritten(scroll: int, notches: int, size: int, view: int): (r: int)
    ensures r <= size - view
    ensures size >= view ==> 0 <= r
  {
    var s := scroll - WHEEL_STEP * notches;
    var low := if s > 0 then s else 0;
    if size - view < low then size - view else low
  }

  /** As written, a frame whose content is smaller than the frame itself
      scrolls to a negative offset: the clamps are applied in the wrong
      order. */
  lemma WheelAsWrittenGoesNegative(scroll: int, notches: int, size: int, view: int)
    requires size < view
    ensures WheelAsWritten(scroll, notches, size, view) == size - view < 0
  {
  }

  /** The scroll offset after `notches` of the wheel, kept between 0 and
      how far the content overhangs the frame. */
  function Wheel(scroll: int, notches: int, size: int, view: int): (r: int)
    ensures 0 <= r
    ensures r <= size - view || r == 0
  {
    var s := scroll - WHEEL_STEP * notches;
    var high := if size - view < s then size - view else s;
    if high > 0 then high else 0
  }

  /** The corrected clamp: the offset never leaves [0, max(0, size - view)],
      is the unclamped offset whenever that is in range, and agrees with
      the code whenever the content is at least as large as the frame. */
  lemma WheelClamps(scroll: int, notches: int, size: int, view: int)
    ensures var r := Wheel(scroll, notches, size, view);
      var s := scroll - WHEEL_STEP * notches;
      && 0 <= r <= (if size > view then size - view else 0)
      && (0 <= s <= size - view ==> r == s)
      && (size >= view ==> r == WheelAsWritten(scroll, notches, size, view))
  {
  }

  /** A scrollable frame: its scroll offset, the size of its content, and
      the size of its window. */
  datatype Frame = Frame(scrollX: int, scrollY: int, width: int, height: int, viewW: int, viewH: int)

  /** The offset after a wheel event, as the code clamps it or as
      corrected. */
  function WheelBy(how: Reading, scroll: int, notches: int, size: int, view: int): int
  {
    if how == AsWritten then WheelAsWritten(scroll, notches, size, view) else Wheel(scroll, notches, size, view)
  }

  /** `Frame.handle_event` on a wheel event over the frame and not over one
      of its children: with shift held the frame scrolls sideways,
      otherwise up or down; the other offset and the sizes stay. */
  function Scroll(f: Frame, notches: int, shift: bool, how: Reading): (r: Frame)
    ensures r.width == f.width && r.height == f.height && r.viewW == f.viewW && r.viewH == f.viewH
    ensures shift ==> r.scrollY == f.scrollY && r.scrollX == WheelBy(how, f.scrollX, notches, f.width, f.viewW)
    ensures !shift ==> r.scrollX == f.scrollX && r.scrollY == WheelBy(how, f.scrollY, notches, f.height, f.viewH)
    ensures how == AsWritten && shift ==> r.scrollX <= f.width - f.viewW
    ensures how == AsWritten && !shift ==> r.scrollY <= f.height - f.viewH
    ensures how == Corrected && shift ==> 0 <= r.scrollX && (r.scrollX <= f.width - f.viewW || r.scrollX == 0)
    ensures how == Corrected && !shift ==> 0 <= r.scrollY && (r.scrollY <= f.height - f.viewH || r.scrollY == 0)
    ensures how == AsWritten && shift && f.width < f.viewW ==> r.scrollX < 0
    ensures how == AsWritten && !shift && f.height < f.viewH ==> r.scrollY < 0
  {
    if shift then f.(scrollX := WheelBy(how, f.scrollX, notches, f.width, f.viewW))
    else f.(scrollY := WheelBy(how, f.scrollY, notches, f.height, f.viewH))
  }

  /** The window shows only content: both offsets stay in range whatever
      the wheel does. */
  predicate InView(f: Frame)
  {
    && 0 <= f.scrollX && (f.scrollX <= f.width - f.viewW || f.scrollX == 0)
    && 0 <= f.scrollY && (f.scrollY <= f.height - f.viewH || f.scrollY == 0)
  }

  /** Content at least as large as its frame, in both directions. */
  predicate Fills(f: Frame)
  {
    f.width >= f.viewW && f.height >= f.viewH
  }

  /** With the corrected clamp no series of wheel events leaves the
      content; as written that holds only for content that fills the
      frame, which `WheelAsWrittenGoesNegative` shows is needed. */
  lemma {:induction false} ScrollKeepsInView(f: Frame, wheel: seq<(int, bool)>, how: Reading)
    requires InView(f)
    requires how == AsWritten ==> Fills(f)
    ensures InView(ScrollAll(f, wheel, how))
    decreases |wheel|
  {
    if |wheel| > 0 {
      ScrollKeepsInView(Scroll(f, wheel[0].0, wheel[0].1, how), wheel[1..], how);
    }
  }

  /** Wheel events in a row. */
  function ScrollAll(f: Frame, wheel: seq<(int, bool)>, how: Reading): Frame
    decreases |wheel|
  {
    if |wheel| == 0 then f else ScrollAll(Scroll(f, wheel[0].0, wheel[0].1, how), wheel[1..], how)
  }
}

=== FILE: wrappers.dfy ===
/** Failure-carrying values shared by every module of the model, the
    choice between the code as written and its correction, and Python's
    sequence indexing, which both the keyboard reader and the tile
    renderer rely on.

    The game raises Python exceptions on bad input; the model returns an
    `Err` carrying the exception class instead. */
module Wrappers {

  /** A present-or-absent value, standing for Python's `Optional[T]`. */
  datatype Option<+T> = None | Some(value: T)

  /** The Python exception classes the modelled code raises. */
  datatype Failure =
    | KeyError
    | ValueError
    | TypeError
    | IndexError
    | ZeroDivisionError
    | AttributeError
    /** `AIScriptParseError`, the AI script parser's own exception. */
    | ScriptParseError

  /** Either the value a call returns or the exception it raises. */
  datatype Result<+T> = Ok(value: T) | Err(error: Failure)

  /** Which reading of an operation with a known defect a member follows:
      the code as it stands, or the evident intent. */
  datatype Reading = AsWritten | Corrected

  /** Python's `s[i]`: negative indices count from the end, anything else
      out of range raises IndexError (`None` here). */
  function PyIndex<T>(s: seq<T>, i: int): (r: Option<T>)
    ensures r.Some? <==> -|s| <= i < |s|
    ensures 0 <= i < |s| ==> r == Some(s[i])
    ensures -|s| <= i < 0 ==> r == Some(s[|s| + i])
  {
    if 0 <= i < |s| then Some(s[i])
    else if -|s| <= i < 0 then Some(s[|s| + i])
    else None
  }

  /** Index `i - len(s)` reads the same element as index `i`. */
  lemma NegativeIndex<T>(s: seq<T>, i: int)
    requires 0 <= i < |s|
    ensures PyIndex(s, i - |s|) == PyIndex(s, i) == Some(s[i])
  {
  }
}
